=== FILE: README.md ===
# Speech-classification pipeline: a Dafny model

This project models the deterministic core of a C/Python pipeline that classifies speech recordings.
The pipeline has these stages:

- `preprocess` resamples, peak-normalises and frames each WAV file into a binary `.frames` container.
- `extract_features` turns each recording into one CSV row of summarised MFCC, spectral and pitch descriptors.
- `split_normalize` and `cross_validate` split the recordings by speaker, either into train/test or into k folds.
  - `split_normalize` writes the FANN text training format.
- `train`, `evaluate` and `svm_baseline` train and score the classifiers.
  - They emit a `results.csv` whose `confusion,...` section holds the confusion matrix.
- `plot_confusion` draws that matrix, in C and in Python.
- `plot_network_svg.py` and `dump_fann_weights.py` read a FANN `.net` file.

Everything is stated over immutable values:

- Samples and spectra are `seq<real>`.
- Text is `seq<char>`.
- Files are byte sequences.
- Every error return of the source is a `Result` or `Option`, from module `Wrappers`.

The C math library is a `Numerics.Math` record of arbitrary total functions: sqrt, log, exp, cos, sin, log10 and pow10.
`Numerics.Valid` lists the only facts the proofs use about them:

- sqrt(0) = 0.
- sqrt is non-negative, monotone and inverts squaring on [0, ∞).
- cos(0) = cos(2π) = 1, and cos stays in [-1, 1].
- exp is positive.
- log and log10 are monotone on the positives.
- log10(1) = 0.
- pow10 is monotone.

So the model proves structure, guards, bounds, index arithmetic and formats, not numerical accuracy.

The modules follow the source files:

| module | source |
|---|---|
| `Dsp` | src/dsp.c |
| `Mfcc` | src/mfcc.c |
| `Features` | the per-frame and summary functions of src/extract_features.c |
| `Extract` | the column layout and per-recording pipeline of src/extract_features.c |
| `FrameIo` | src/frame_io.c |
| `Preprocess` | src/preprocess.c |
| `Csv` | src/csv.c |
| `Dataset` | the class list, speaker and shuffle helpers shared by split_normalize.c and cross_validate.c |
| `Split` | the train/test assignment of src/split_normalize.c |
| `Fann` | the FANN text format, written by split_normalize.c and read by svm_baseline.c |
| `CrossValidate` | src/cross_validate.c |
| `Metrics` | argmax, confusion matrices, precision and recall |
| `ClassFile` | class-file loading in src/evaluate.c |
| `Evaluate` | src/evaluate.c |
| `Svm` | src/svm_baseline.c |
| `PlotConfusion` | src/plot_confusion.c |
| `PlotConfusionPy` | scripts/plot_confusion.py |
| `Train` | src/train.c |
| `DumpWeights` | scripts/dump_fann_weights.py |
| `NetworkSvg` | src/plot_network_svg.py |

`Numerics`, `Text` and `Wrappers` hold shared helpers.

## Model

| member | source | states |
|---|---|---|
| Dsp.NextPow2 | src/dsp.c:12-19 | the result is a power of two, at least `n`, and either 1 or with half below `n` |
| Dsp.NextPow2Least | src/dsp.c:12-19 | no power of two that is at least `n` is smaller than `next_pow2(n)` |
| Dsp.NextPow2OfZero | src/dsp.c:12-19 | `next_pow2(0)` is 1 |
| Dsp.HammingWindow | src/dsp.c:21-29 | `n` coefficients; given cos(0) = cos(2π) = 1, both endpoints are 0.08 when n > 1; every coefficient lies in [0.08, 1] |
| Dsp.Rev | src/dsp.c:31-50 | the reversal of the low `bits` bits of an index is again an index below 2^bits |
| Dsp.RevInvolutive | src/dsp.c:31-50 | reversing the bits of an index twice gives the index back |
| Dsp.RevIncStep | src/dsp.c:43-48 | the carry loop plus the final bit-or into `j` turns the reversal of `i` into the reversal of `i + 1` |
| Dsp.NextReversed | src/dsp.c:43-48 | the imperative carry loop computes the reversed-carry increment of `j` |
| Dsp.BitReversed | src/dsp.c:31-50 | the reference permutation keeps the length |
| Dsp.BitReversedTwice | src/dsp.c:31-50 | applying the bit-reversal permutation twice is the identity |
| Dsp.SourceStep | src/dsp.c:33-41 | finishing index `i` settles exactly positions `i` and `Rev(i)` |
| Dsp.SwapStep | src/dsp.c:34-41 | one `i < j` swap keeps the array a permutation and moves the invariant from `i` to `i + 1` |
| Dsp.BitReverse | src/dsp.c:31-50 | the in-place loop leaves both arrays equal to the bit-reversal permutation of their inputs, each a permutation (same multiset) of its input |
| Dsp.Butterfly | src/dsp.c:62-71 | one butterfly keeps both arrays' lengths |
| Dsp.ButterflySilent | src/dsp.c:62-71 | a butterfly on all-zero arrays leaves them all zero |
| Dsp.Butterflies | src/dsp.c:58-76 | the butterflies of one block, with the twiddle recurrence, keep both lengths |
| Dsp.ButterfliesSilent | src/dsp.c:58-76 | one block of butterflies keeps all-zero arrays all zero |
| Dsp.Blocks | src/dsp.c:58-77 | one stage keeps both lengths |
| Dsp.BlocksSilent | src/dsp.c:58-77 | one stage keeps all-zero arrays all zero |
| Dsp.Stages | src/dsp.c:52-79 | the stages of width 2, 4, ..., n keep both lengths |
| Dsp.StagesSilent | src/dsp.c:52-79 | all stages keep all-zero arrays all zero |
| Dsp.FftReal | src/dsp.c:81-91 | nothing is produced iff n = 0; otherwise both arrays have length n |
| Dsp.FftRealOfSilence | src/dsp.c:81-91 | an all-zero frame gives all-zero real and imaginary outputs |
| Dsp.Magnitude | src/dsp.c:93-100 | exactly n/2 + 1 magnitudes, each non-negative, and zero where both parts are zero |
| Dsp.MaxLag | src/dsp.c:116-119 | the longest lag is below the frame length, at most ⌊sr/75⌋, and equal to ⌊sr/75⌋ or to frame_len − 1 |
| Dsp.BestLag | src/dsp.c:134-145 | the scan returns the first lag reaching the maximum normalised autocorrelation under strict `>`, and keeps the initial best when no lag beats it |
| Dsp.ComputeF0 | src/dsp.c:105-132 | an empty frame, or one with zero-lag energy below 1e-6, gives F0 = 0 and harmonicity 0; F0 is never negative |
| Dsp.ComputeF0Peak | src/dsp.c:134-149 | the harmonicity is at least every normalised autocorrelation in the searched range, and −1 with F0 = 0 when the range is empty |
| Dsp.ComputeF0Voiced | src/dsp.c:147-157 | a non-zero F0 comes from a searched, non-zero lag whose autocorrelation equals the harmonicity, which exceeds 0.85; F0 is sr divided by that lag |
| Dsp.ComputeF0VoicedWhenPeak | src/dsp.c:150-157 | conversely, a harmonicity above 0.85 gives a non-zero F0 whenever the lag range excludes 0 |
| Dsp.Log2 | src/dsp.c:31-49 | the bit width the reversal uses for a power-of-two size n is the exponent k with 2^k = n |
| Mfcc.MelStep | src/mfcc.c:35-37 | the step between the n_mels + 2 mel points is non-negative, given monotone log10 |
| Mfcc.BinOf | src/mfcc.c:52-54 | each quantised bin index is clamped into [0, n_bins − 1] with n_bins = fft/2 + 1 |
| Mfcc.BinOfMonotone | src/mfcc.c:52-54 | the quantisation is monotone in the frequency |
| Mfcc.MelPointMonotone | src/mfcc.c:49-50 | mel points mel(0) + i·step never decrease in i |
| Mfcc.MelBin | src/mfcc.c:49-57 | the bin of every mel point lies in [0, n_bins − 1] |
| Mfcc.MelBinMonotone | src/mfcc.c:49-57 | assuming monotone mel conversions, the bin indices are non-decreasing in i |
| Mfcc.Weight | src/mfcc.c:60-72 | every weight lies in [0, 1]; it is 0 outside (left, center) ∪ [center, right); it is 1 at the center when right > center |
| Mfcc.FilterRow | src/mfcc.c:60-72 | one filter row has n_bins = fft/2 + 1 weights |
| Mfcc.MfccInit | src/mfcc.c:19-77 | the result is −1 (Err) iff some parameter is non-positive; otherwise the bank keeps its parameters, has n_bins = fft/2 + 1, and all weights lie in [0, 1] |
| Mfcc.FilterSupport | src/mfcc.c:60-72 | filter m is 0 outside [bins[m−1], bins[m+1]) and 1 at bins[m] when bins[m] < bins[m+1] |
| Mfcc.FilterEnergyNonNeg | src/mfcc.c:101-106 | with a non-negative power spectrum and non-negative weights, every filter energy is non-negative |
| Mfcc.LogEnergy | src/mfcc.c:107-110 | the energy is floored at 1e-10 before the log, so the log-energy is at least log(1e-10), and exactly that at or below the floor |
| Mfcc.LogEnergies | src/mfcc.c:101-111 | n_mels log-energies, each at least log(1e-10) |
| Mfcc.MfccCompute | src/mfcc.c:87-120 | exactly n_mfcc coefficients |
| Mfcc.FirstCoefficientIsSum | src/mfcc.c:113-120 | given cos(0) = 1, coefficient 0 is the plain sum of the log-energies |
| Mfcc.DctZero | src/mfcc.c:114-119 | the zeroth DCT-II coefficient has an all-ones basis |
| Mfcc.SilentLogEnergies | src/mfcc.c:101-111 | a silent power spectrum gives every band the floored log-energy log(1e-10) |
| Mfcc.SilentFirstCoefficient | src/mfcc.c:101-120 | a silent power spectrum gives coefficient 0 = n_mels · log(1e-10) |
| Mfcc.Clamp | src/mfcc.c:52-54 | the clamped bin lies in [lo, hi], and a value already inside is unchanged |
| Mfcc.ClampMono | src/mfcc.c:52-54 | clamping keeps the order of bin indices |
| Mfcc.MelToHzMonotone | src/mfcc.c:15-50 | a higher mel value gives a higher frequency |
| Mfcc.FilterTerms | src/mfcc.c:101-106 | filter energy m adds power[k]·weight[k] over the bins |
| Mfcc.SilentLogEnergy | src/mfcc.c:101-110 | a silent power spectrum gives every filter the floored log energy log(1e-10) |
| Mfcc.DctTerms | src/mfcc.c:114-119 | coefficient k adds logE[i]·basis(k, i) over the filters |
| Features.Rms | src/extract_features.c:29-38 | RMS is 0 for an empty frame and otherwise ≥ 0 |
| Features.RmsOfSilence | src/extract_features.c:29-38 | an all-zero frame has RMS 0 |
| Features.Crossings | src/extract_features.c:40-51 | the number of sign changes is at most len − 1, and 0 when len ≤ 1 |
| Features.Zcr | src/extract_features.c:40-51 | ZCR is 0 when len < 2, and otherwise count/(len − 1), which lies in [0, 1] |
| Features.ZcrExtremes | src/extract_features.c:40-51 | a non-negative frame has ZCR 0; a frame whose neighbours always change sign has ZCR 1 |
| Features.Peak | src/extract_features.c:57-63 | the peak bounds every abs(x[i]) and is attained by one of them, or is 0 |
| Features.Crest | src/extract_features.c:53-65 | the crest factor is 0 when rms < 1e-9, and never negative |
| Features.CrestAtLeastOne | src/extract_features.c:53-65 | with the frame's own RMS above the guard, the crest factor is at least 1 |
| Features.RmsAtMostPeak | src/extract_features.c:29-38 | the RMS of a non-empty frame never exceeds its peak magnitude |
| Features.Flux | src/extract_features.c:67-77 | flux is ≥ 0, and 0 when there are no bins |
| Features.FluxOfIdentical | src/extract_features.c:67-77 | identical spectra give flux 0 |
| Features.RolloffBin | src/extract_features.c:119-129 | the first bin whose cumulative magnitude reaches the target, or none, with no earlier bin reaching it |
| Features.RolloffFreq | src/extract_features.c:119-130 | the roll-off is the frequency of that bin, or 0 if none, and lies in [0, (n_bins − 1)·sr/fft] |
| Features.RolloffFreqIsRolloff | src/extract_features.c:119-130 | the roll-off meets the independent first-reach characterisation `IsRolloff` |
| Features.SpectralFeatures | src/extract_features.c:79-131 | all zeros when n_bins = 0; centroid, flatness and bandwidth are 0 when the magnitude sum is ≤ 1e-9, and flatness is positive otherwise; roll-off lies in [0, (n_bins − 1)·sr/fft] |
| Features.SpectralRolloff | src/extract_features.c:119-130 | the roll-off of the spectral features meets `IsRolloff` for target sum·pct |
| Features.RolloffFound | src/extract_features.c:119-129 | on a non-negative spectrum with pct ≤ 1, some bin always reaches the target |
| Features.CentroidInRange | src/extract_features.c:98-111 | on a non-negative spectrum with energy, the centroid lies in [0, (n_bins − 1)·sr/fft] and the bandwidth is ≥ 0 |
| Features.ComputeStats | src/extract_features.c:142-183 | count 0 gives all zeros; count 1 gives mean = the value and zeros; std ≥ 0; skew and kurtosis are 0 whenever std ≤ 1e-9 |
| Features.MeanBounds | src/extract_features.c:149-153 | the mean of values in [lo, hi] lies in [lo, hi] |
| Features.StatsOfConstant | src/extract_features.c:149-182 | a constant trajectory of two or more values gives mean = the constant and std = skew = kurt = 0 |
| Features.DeltaSeq | src/extract_features.c:186-197 | one delta per frame, all zeros with fewer than 2 frames |
| Features.DeltaInside | src/extract_features.c:193-195 | an interior delta is f[t+1] − f[t−1] |
| Features.DeltaOfLinear | src/extract_features.c:191-197 | the trajectory a + b·t has endpoint deltas b and interior deltas 2b, so f(t) = t gives 1 and 2 |
| Features.ComputeDeltas | src/extract_features.c:186-198 | the delta buffer has num_frames · num_features entries |
| Features.DeltasOfShortTrajectory | src/extract_features.c:187-190 | with fewer than 2 frames, every delta is 0 |
| Features.DeltasAt | src/extract_features.c:191-197 | entry f·n + k of the buffer is the delta of column k at frame f |
| Features.FlattenAt | src/extract_features.c:354-364 | a row-major buffer holds row f, feature k at f·width + k |
| Features.StatsOfConstantColumn | src/extract_features.c:373-376 | a column that is constant over two or more rows summarises to (c, 0, 0, 0) |
| Features.DeltaStrideMismatch | src/extract_features.c:304-367 | read with stride n_mfcc, a buffer whose rows are n_mfcc + 8 wide puts row 0's feature n_mfcc (its RMS) at position 1 of column 0 |
| Features.RmsBound | src/extract_features.c:29-38 | a bound on every magnitude bounds the RMS |
| Features.Diff | src/extract_features.c:71-74 | the flux differences are taken bin by bin |
| Features.Freq | src/extract_features.c:92-108 | the centre frequency k·sr/fft of a bin is never negative |
| Features.FreqMonotone | src/extract_features.c:92-108 | bin frequencies increase with the bin index |
| Features.Shape | src/extract_features.c:98-118 | once the magnitude sum passes the guard, the flatness is positive |
| Features.Column | src/extract_features.c:186-197 | the column read from a flat buffer has one value per frame |
| Features.Flatten | src/extract_features.c:304-355 | equal-width rows packed row by row fill rows · width entries |
| Features.ColumnOfFlatten | src/extract_features.c:186-197 | read with the row width as stride, a column of the packed rows is that column |
| Extract.BlockCol | src/extract_features.c:258-265 | column r of statistic block s is a statistic column for s |
| Extract.HeaderBlock | src/extract_features.c:260-265 | each statistic block of the header has 3·n_mfcc + 8 names |
| Extract.HeaderBlockAt | src/extract_features.c:260-265 | name r of block s is the name of that block's r-th column (mfcc, delta, delta2, then the 8 others) |
| Extract.HeaderNameAt | src/extract_features.c:258-266 | the header after id and classe has 4·(3·n_mfcc + 8) + 5 names, and name j is the name of column j |
| Extract.HeaderLayout | src/extract_features.c:258-267 | the header is id, classe, then the name of every value column in order |
| Extract.ValueBlock | src/extract_features.c:410-432 | each statistic block of a row has 3·n_mfcc + 8 values |
| Extract.ValueBlockAt | src/extract_features.c:410-432 | value r of block s is that statistic of that block's r-th feature |
| Extract.RowLayout | src/extract_features.c:409-434 | a row has 4·(3·n_mfcc + 8) + 5 values, and value j is the summary value of column j |
| Extract.HeaderMatchesRow | src/extract_features.c:249-267 | the header has exactly two more fields than a row has values, which is 2 + 4·(3·n_mfcc + 8) + 5 |
| Extract.MakeSetup | src/extract_features.c:301-325 | the FFT size is next_pow2(frame_len), the window has frame_len coefficients, and the MFCC vector is mfcc_compute of the initialised bank on the one uninitialised power buffer |
| Extract.Windowed | src/extract_features.c:340-341 | the FFT input is the windowed frame zero-padded to the FFT size |
| Extract.FrameSpectrum | src/extract_features.c:340-343 | fft/2 + 1 non-negative magnitudes per frame |
| Extract.StaticRow | src/extract_features.c:327-364 | each static row has n_mfcc + 8 values and starts with the MFCC vector |
| Extract.StaticRows | src/extract_features.c:327-365 | one static row of n_mfcc + 8 values per frame |
| Extract.FluxColumn | src/extract_features.c:345-349 | the flux of frame 0 is 0, and every flux is ≥ 0 |
| Extract.MfccIndependentOfFrame | src/extract_features.c:352-355 | because the power buffer is never written, every frame gets the same MFCC vector |
| Extract.VoicedCount | src/extract_features.c:393-395 | the number of voiced frames is at most the frame count |
| Extract.VoicedCountZero | src/extract_features.c:334-395 | no frame is voiced iff every F0 is ≤ 0, and all are voiced iff every F0 is > 0 |
| Extract.VoicedF0sSpec | src/extract_features.c:399-402 | the voiced F0s are exactly n_voiced positive values, each the F0 of some frame |
| Extract.VoicedF0sAll | src/extract_features.c:399-402 | when every frame is voiced, the voiced F0s are all the F0s in order |
| Extract.VoicingRate | src/extract_features.c:393-396 | voicing_rate lies in [0, 1], is 0 iff no frame is voiced, and 1 iff every frame is |
| Extract.F0Stats | src/extract_features.c:398-405 | F0 statistics are all zero when no frame is voiced, and otherwise the summary of the voiced F0s only |
| Extract.VoicedF0sWithin | src/extract_features.c:399-402 | bounds on the voiced frames' F0 carry over to the voiced F0s |
| Extract.F0MeanBounds | src/extract_features.c:399-405 | the F0 mean lies within any bounds of the voiced frames' F0 |
| Extract.Pitches | src/extract_features.c:327-333 | one compute_f0 result per frame |
| Extract.Harmonicities | src/extract_features.c:333 | the harmonicity of every frame, voiced or not |
| Extract.StaticBuffer | src/extract_features.c:304-364 | the static buffer has num_frames · (n_mfcc + 8) entries |
| Extract.DeltaBuffer | src/extract_features.c:305-367 | the first delta buffer has num_frames · n_mfcc entries |
| Extract.Delta2Buffer | src/extract_features.c:306-368 | the second delta buffer has num_frames · n_mfcc entries |
| Extract.ColumnStats | src/extract_features.c:372-391 | statistic i is compute_stats of column offset + i read with the given stride |
| Extract.Summarize | src/extract_features.c:370-407 | the summary has n_mfcc statistics per MFCC group and 8 for the others |
| Extract.RecordingSummary | src/extract_features.c:327-407 | the summary of a recording is well shaped for its n_mfcc |
| Extract.ExtractRow | src/extract_features.c:296-434 | a recording with fewer than 3 frames emits no row; otherwise the row has 4·(3·n_mfcc + 8) + 5 values |
| Extract.ExtractRowLayout | src/extract_features.c:296-434 | for 3 or more frames the row exists, has as many values as the header has names after id and classe, and value j is the summary value of column j |
| Extract.StaticMfccStatsConstant | src/extract_features.c:352-376 | with the power buffer unwritten, every static MFCC statistic is (c, 0, 0, 0) for that coefficient's constant value c |
| Extract.StaticMfccColumnStats | src/extract_features.c:372-376 | the same, read off the static buffer with its own stride n_mfcc + 8 |
| Extract.StrideColumnStart | src/extract_features.c:304-367 | column 0 read with stride n_mfcc holds MFCC 0 of frame 0 and then the RMS of frame 0 |
| Extract.FirstDelta | src/extract_features.c:191-192 | the first delta of column 0 is col[1] − col[0] |
| Extract.FirstDeltaMixesRows | src/extract_features.c:367-368 | as called (compute_deltas at line 192), the first delta is RMS(frame 0) − MFCC 0 rather than a difference of two MFCC values |
| Extract.VoicingSummary | src/extract_features.c:393-405 | in the summary, voicing_rate lies in [0, 1], is 0 or 1 exactly in the no-voice and all-voice cases, and F0 statistics are zero when it is 0 |
| FrameIo.FillHeader | src/frame_io.c:87-97 | the header carries the magic "FRAMES1\0" and stores sample_rate, frame_len, hop_len and num_frames unchanged |
| FrameIo.EncodeWord | src/frame_io.h:8-14 | a 32-bit field is 4 little-endian bytes |
| FrameIo.DecodeEncodeWord | src/frame_io.c:13-57 | decoding an encoded 32-bit field gives it back |
| FrameIo.EncodeDecodeWord | src/frame_io.c:13-57 | encoding a decoded 4-byte group gives it back |
| FrameIo.EncodeWords | src/frame_io.c:32-40 | k samples occupy 4k bytes |
| FrameIo.DecodeWords | src/frame_io.c:75 | reading k samples yields k words |
| FrameIo.DecodeWordsAt | src/frame_io.c:75 | sample i is read from bytes 4i to 4i + 4 |
| FrameIo.DecodeEncodeWords | src/frame_io.c:36-75 | samples written and read back are unchanged, whatever follows them |
| FrameIo.EncodeWordsAppend | src/frame_io.c:36 | writing two runs of samples writes their concatenation |
| FrameIo.EncodeHeader | src/frame_io.h:8-14 | the header occupies exactly 24 bytes |
| FrameIo.HeaderRoundTrip | src/frame_io.c:13-57 | a header written and read back is unchanged, whatever follows it |
| FrameIo.WriteAt | src/frame_io.c:13-36 | an fwrite at the file position overwrites exactly the written span, leaves the rest of the file unchanged, and advances the position |
| FrameIo.WriteHeader | src/frame_io.c:9-17 | it fails iff the stream or the header is missing; otherwise it writes the 24 header bytes at the position |
| FrameIo.UpdateHeader | src/frame_io.c:19-30 | it fails iff the stream or the header is missing; otherwise it seeks to 0 and overwrites the header bytes |
| FrameIo.WriteFrame | src/frame_io.c:32-40 | it fails iff the stream or the buffer is missing or frame_len = 0; otherwise it appends frame_len samples |
| FrameIo.WriteAtStart | src/frame_io.c:23-26 | rewriting at offset 0 replaces the first bytes and keeps the rest |
| FrameIo.ReadAll | src/frame_io.c:42-85 | on success the header is 24 bytes from a file at least that long, carries the magic, and exactly frame_len · num_frames samples are returned |
| FrameIo.ReadAllSpec | src/frame_io.c:57-84 | reading succeeds iff the header is complete, the magic matches and frame_len · num_frames samples follow; on success the outputs are the stored header and the payload decoded word by word |
| FrameIo.ReadAllRejects | src/frame_io.c:57-79 | a short header, a wrong magic and a short payload each give their own error, checked in that order |
| FrameIo.ReadAllIgnoresTrailing | src/frame_io.c:68-79 | bytes beyond the payload are ignored |
| FrameIo.ConcatLength | src/frame_io.c:68 | N frames of frame_len samples concatenate to N · frame_len samples |
| FrameIo.FrameAtConcat | src/frame_io.c:68-84 | frame f of the concatenated payload is the f-th frame written |
| FrameIo.WriteFramesAppends | src/frame_io.c:32-40 | writing frames one after another at the end appends their concatenated samples |
| FrameIo.StoredCount | src/preprocess.c:301 | the stored count is the kept count cast to 32 bits, unchanged below 2^32 |
| FrameIo.WriteFileBytes | src/preprocess.c:274-307 | the writer sequence (header with 0 frames, N frames, header rewritten with N) leaves exactly the final header followed by the concatenated frames |
| FrameIo.RoundTrip | src/frame_io.c:9-85 | reading that file back yields the same sample_rate, frame_len and hop_len, num_frames = N, and the concatenated frames |
| FrameIo.ReadBack | src/frame_io.c:42-85 | a header with the magic followed by its exact payload reads back as itself |
| FrameIo.DecodeHeader | src/frame_io.c:57-67 | the three counts of a decoded header fit in 32 bits |
| FrameIo.WriteAtEnd | src/frame_io.c:36 | writing at the end of the file appends |
| FrameIo.WriteFrames | src/preprocess.c:283-299 | a frame loop that succeeds leaves the stream at a valid position |
| FrameIo.WriteFramesStep | src/preprocess.c:283-299 | one pass of the loop appends that frame's samples (also src/frame_io.c:32-40) |
| Preprocess.HasWavExtension | src/preprocess.c:26-32 | a name without a dot is not a WAV name |
| Preprocess.HasWavExtensionIff | src/preprocess.c:26-32 | the test holds iff the suffix from the last dot is ".wav" ignoring case (the independent `EndsWithWav`) |
| Preprocess.Relative | src/preprocess.c:76-86 | the path relative to the root is no longer than the path |
| Preprocess.RelativeIsSuffix | src/preprocess.c:76-86 | the relative path is a suffix of the path |
| Preprocess.BaseName | src/preprocess.c:99-104 | the base name has no slash and is no longer than the path |
| Preprocess.BaseNameIsSuffix | src/preprocess.c:99-104 | the base name is a suffix of the path |
| Preprocess.ExtractClassId | src/preprocess.c:75-117 | a successful split fits both buffers |
| Preprocess.ExtractClassIdSpec | src/preprocess.c:75-117 | it succeeds iff the relative path has a slash, the class fits its buffer, the base name is a WAV name and the id fits; the class is the slash-free text before the first slash and the id is the base name minus its 4-character extension |
| Preprocess.SplitNames | src/preprocess.c:88-116 | a successful split fits both buffers |
| Preprocess.SplitNamesSpec | src/preprocess.c:88-116 | the same iff and shape, given the relative path and the base name |
| Preprocess.ExtractClassIdOfLayout | src/preprocess.c:75-117 | the path root/class/id.wav splits back into class and id whenever both fit |
| Preprocess.CompareFloats | src/preprocess.c:34-38 | the result is −1, 0 or 1 according to the sign of a − b |
| Preprocess.FrameRms | src/preprocess.c:63-73 | it fails (−1) iff the frame is empty, and the RMS is otherwise ≥ 0 |
| Preprocess.FrameRmsAgrees | src/preprocess.c:63-73 | on a non-empty frame it equals the RMS of extract_features.c |
| Preprocess.Insert | src/preprocess.c:236 | inserting into a sorted sequence keeps it sorted and adds exactly the new element |
| Preprocess.Sort | src/preprocess.c:236 | the qsort with compare_floats yields a sorted permutation of the RMS values |
| Preprocess.SortedMember | src/preprocess.c:236-237 | every entry of the sorted sequence is some input entry |
| Preprocess.RateRatio | src/preprocess.c:41 | the resampling ratio is positive |
| Preprocess.SourceTap | src/preprocess.c:49-51 | the interpolation fraction lies in [0, 1) |
| Preprocess.TapInRange | src/preprocess.c:42-50 | for every output index below ⌊len · ratio⌋, the source index i₁ is below len |
| Preprocess.Resample | src/preprocess.c:40-60 | the output has ⌊len · ratio⌋ samples |
| Preprocess.ResampleBounded | src/preprocess.c:48-58 | each output is a convex mix of one or two inputs, so outputs stay within any bounds of the input |
| Preprocess.ResampleIdentity | src/preprocess.c:40-60 | resampling at ratio 1 returns the input |
| Preprocess.MaxAbs | src/preprocess.c:198-203 | the peak bounds every magnitude and is attained by one, or is 0 |
| Preprocess.PeakNormalize | src/preprocess.c:204-208 | peak normalisation keeps the length |
| Preprocess.NormalizeSpec | src/preprocess.c:197-208 | after normalisation every magnitude is ≤ 1, some magnitude is 1 when the peak is positive, and an all-zero signal is unchanged |
| Preprocess.TruncDiv | src/preprocess.c:211-212 | C integer division truncates toward zero |
| Preprocess.MsToSamplesAt16k | src/preprocess.c:211-212 | at 16 kHz, ms milliseconds are 16 · ms samples |
| Preprocess.MakeFraming | src/preprocess.c:211-219 | the file is rejected iff frame_len ≤ 0, hop ≤ 0 or total < frame_len; otherwise it keeps both lengths |
| Preprocess.FramingFits | src/preprocess.c:219 | with num_frames = 1 + (total − frame_len)/hop, the last frame fits within the signal and one more would not |
| Preprocess.FrameStart | src/preprocess.c:231-284 | every frame i < num_frames lies within the signal |
| Preprocess.Frames | src/preprocess.c:283-299 | num_frames frames, each of frame_len samples |
| Preprocess.PercentileIndexInRange | src/preprocess.c:237 | the 90th-percentile index ⌊0.9 · n⌋ lies in [0, n) for n ≥ 1 |
| Preprocess.RmsOf | src/preprocess.c:230-233 | one non-negative RMS per frame |
| Preprocess.PercentileIsEntry | src/preprocess.c:236-237 | the percentile is an entry of the sorted RMS values |
| Preprocess.PercentileOfFrames | src/preprocess.c:230-238 | the reference RMS is the RMS of some frame |
| Preprocess.Loud | src/preprocess.c:283-291 | the kept frames are frames of the signal whose RMS reaches the threshold, at most num_frames of them |
| Preprocess.LoudKeepsAll | src/preprocess.c:283-298 | every frame whose RMS reaches the threshold is kept |
| Preprocess.Kept | src/preprocess.c:222-299 | without silence removal all frames are kept; with it, exactly the loud frames under percentile · threshold; never more than num_frames |
| Preprocess.AtTargetRate | src/preprocess.c:181-195 | a 16 kHz signal is not resampled |
| Preprocess.EncodeFrames | src/preprocess.c:292 | each kept frame is written sample for sample |
| Preprocess.ProcessFile | src/preprocess.c:119-318 | on success the signal was non-empty, frame_len and hop are 16 · ms at the 16 kHz target, at most num_frames frames are kept, and each has frame_len samples |
| Preprocess.ProcessFileReadsBack | src/preprocess.c:274-307 | the written file reads back with rate 16000, the framing's lengths, num_frames = the kept count and the kept frames' samples |
| Preprocess.FrameSlice | src/preprocess.c:284 | frame i holds frame_len samples from i·hop on |
| Preprocess.SplitNamesOfLayout | src/preprocess.c:88-116 | a "class/id.wav" path whose parts fit their buffers splits into that class and id |
| Preprocess.SortedCons | src/preprocess.c:34-38 | a value no greater than the head keeps a sorted list sorted |
| Csv.Scan | src/csv.c:63-90 | each field scan consumes input: what remains is shorter whenever there was input |
| Csv.ScanUnquotedSpec | src/csv.c:78-89 | an unquoted field is the longest separator-free prefix; the scan stops after the first `,`, CR or LF, or at the end of the line |
| Csv.FirstField | src/csv.c:52-90 | reading one field, with its optional opening quote, consumes input |
| Csv.SplitLine | src/csv.c:35-121 | an empty line yields zero fields, a non-empty line at least one, and there are never more fields than characters |
| Csv.SplitToRow | src/csv.c:35-120 | the row's count is its field count; a null or empty line gives count 0 |
| Csv.FreeRow | src/csv.c:123-136 | freeing leaves count = 0 and fields = null, and a row without fields is left alone |
| Csv.FreeSplitRow | src/csv.c:123-136 | freeing a split row leaves (null, 0), and freeing it again changes nothing |
| Csv.ScanUnquoted | src/csv.c:79-89 | outside quotes, `,` ends a field |
| Csv.JoinSplitPlain | src/csv.c:51-116 | for a line without `"`, CR or LF that does not end in `,`, joining the fields with `,` reproduces the line, and no field holds a separator |
| Csv.SplitJoinPlain | src/csv.c:51-116 | conversely, separator- and quote-free fields with a non-empty last field are recovered from their `,`-joined line |
| Csv.ScanToSeparator | src/csv.c:79-86 | an unquoted field ends at the first `,`, CR or LF |
| Csv.SplitWrittenLine | src/csv.c:83-115 | a joined line ended by "\n" gives back exactly its fields: the LF ends the last field and nothing follows |
| Csv.TrailingComma | src/csv.c:79-115 | a trailing comma adds no trailing empty field |
| Csv.CrLfEnding | src/csv.c:83-115 | "a\r\n" yields ["a", ""] |
| Csv.EmptyFields | src/csv.c:79-100 | consecutive commas yield empty fields: ",,x" gives ["", "", "x"] |
| Csv.Escape | src/csv.c:65-71 | escaping a field by doubling its quotes never shortens it |
| Csv.QuoteAll | src/csv.c:58-77 | every field is quoted |
| Csv.ScanEscaped | src/csv.c:58-77 | inside quotes, `""` becomes one `"` and every other character, commas, CR and LF included, is kept literally; the closing quote leaves quoted mode and later characters are appended to the same field |
| Csv.SplitJoinQuoted | src/csv.c:51-116 | any fields at all, quoted with doubled quotes and joined with `,`, are split back into exactly those fields |
| Csv.QuotedLast | src/csv.c:58-115 | a quoted field at the end of the line is read back as itself |
| Csv.QuotedThenMore | src/csv.c:58-82 | a quoted field followed by `,` is read back as itself, and the scan resumes after the comma |
| Csv.SplitFirst | src/csv.c:35-121 | the fields of a line are its first field, then the fields after the separator |
| Csv.ScanEscapedStep | src/csv.c:55-70 | inside quotes a doubled quote reads as one quote and any other character as itself |
| Dataset.HeaderIndex | src/cross_validate.c:43-50 | the result is the first field equal to the name ignoring case, or −1 iff there is none |
| Dataset.IndexOf | src/split_normalize.c:109-116 | `class_index`: the first position holding the label, or none iff the label is absent |
| Dataset.IndexOfPrefix | src/split_normalize.c:109-116 | appending labels does not move the index of a label already present |
| Dataset.IndexOfUnique | src/split_normalize.c:109-116 | a label's first occurrence is its index |
| Dataset.ClassListAdd | src/split_normalize.c:90-107 | an existing label is returned with the list unchanged; a new label is appended at index count (also src/cross_validate.c:92-110) |
| Dataset.ClassListOf | src/split_normalize.c:361 | the class list is never longer than the labels added |
| Dataset.ClassListOfSpec | src/split_normalize.c:90-107 | adding every label read (line 361), the labels stay pairwise distinct, are exactly the labels seen, and keep first-seen order |
| Dataset.ClassListMembers | src/split_normalize.c:90-107 | the distinctness and membership halves, by induction over the adds |
| Dataset.ClassListOrder | src/split_normalize.c:90-107 | the first-seen-order half, by induction over the adds |
| Dataset.OrderStep | src/split_normalize.c:90-107 | one add keeps first-seen order |
| Dataset.SpeakerFromId | src/split_normalize.c:118-128 | the speaker is the prefix of the id before the first `_`, or the whole id if it has none (also src/cross_validate.c:112-122) |
| Dataset.SpeakerOfPrefixed | src/split_normalize.c:118-128 | an id "speaker_rest" with an underscore-free speaker yields that speaker |
| Dataset.MetaEntryOf | src/split_normalize.c:263-285 | a metadata row yields an entry iff it has the id column; its speaker is present only when that column exists and is non-empty |
| Dataset.MetadataSpeaker | src/split_normalize.c:130-137 | a speaker found comes from an entry with that id (also src/cross_validate.c:124-131) |
| Dataset.SampleSpeaker | src/split_normalize.c:349-354 | the metadata speaker is used when it is present and non-empty, and otherwise the speaker derived from the id |
| Dataset.Shuffle | src/split_normalize.c:139-150 | the Fisher–Yates shuffle, with each draw rand() mod (i + 1), returns a permutation of its input, and leaves inputs of length below 2 unchanged (also src/cross_validate.c:133-144) |
| Dataset.Swap | src/split_normalize.c:146-148 | one swap exchanges two positions and keeps the multiset |
| Dataset.Range | src/split_normalize.c:415-417 | the initial order 0..n−1 |
| Dataset.ShuffledRangeIsOrder | src/split_normalize.c:415-418 | a shuffled 0..n−1 holds every index below n exactly once |
| Dataset.AddSample | src/split_normalize.c:382-398 | a sample of unknown class (index < 0) is skipped; otherwise its speaker is registered and the count vectors stay n_classes wide |
| Dataset.BuildPool | src/split_normalize.c:382-398 | every speaker gets an n_classes-wide count vector |
| Dataset.ColumnSumUpdate | src/split_normalize.c:397 | updating one speaker's counts changes the column sum by the difference |
| Dataset.ColumnSumAppend | src/split_normalize.c:391 | adding a speaker adds its counts to the column sums |
| Dataset.PoolSpec | src/split_normalize.c:382-398 | speakers are distinct and are exactly the speakers of known-class samples, and for each class the speakers' counts sum to that class's total |
| Dataset.PoolStepSum | src/split_normalize.c:387-397 | one sample adds 1 to its own class's column sum and nothing to the others |
| Dataset.Column | src/split_normalize.c:470-485 | feature column f of the training rows |
| Dataset.ZScoreStats | src/split_normalize.c:463-491 | one mean and one std per feature; the mean is the column average, and every std is positive, so the normalisation divisor in write_fann_data is always positive (also src/cross_validate.c:206-235) |
| Dataset.StdOf | src/split_normalize.c:486-491 | the population std of a column, replaced by 1 when it is 0, is always positive (also src/cross_validate.c:229-234) |
| Dataset.ConstantFeatureStd | src/split_normalize.c:486-491 | a constant feature gets std 1 (also src/cross_validate.c:229-234) |
| Split.ZeroCounts | src/split_normalize.c:404 | train_counts starts at zero for every class |
| Split.AddCounts | src/split_normalize.c:435-437 | adding a speaker's class counts |
| Split.ChosenSum | src/split_normalize.c:422-441 | the per-class sum over the speakers chosen for train so far |
| Split.SqError | src/split_normalize.c:426-431 | a squared error is never negative |
| Split.CountTrue | src/split_normalize.c:434 | the number of train speakers is at most the number of speakers |
| Split.Errors | src/split_normalize.c:424-431 | the loop computes the squared error of train with and without the speaker |
| Split.GreedySplit | src/split_normalize.c:420-441 | speaker i goes to train iff err_train ≤ err_test given the earlier choices, ties going to train; afterwards train_counts is the per-class sum over the train speakers and train_speakers counts them |
| Split.CountTrueUpdate | src/split_normalize.c:443-446 | flipping one side changes the train count by at most one |
| Split.CountTrueExtremes | src/split_normalize.c:443 | with no train speaker every speaker is in test, and with all in train every one is |
| Split.Fallback | src/split_normalize.c:443-446 | only the first visited speaker can change, and nothing changes unless there are ≥ 2 speakers all on one side |
| Split.FallbackBothSides | src/split_normalize.c:443-446 | with ≥ 2 speakers, after the fallback at least one speaker is in train and at least one in test |
| Split.Sides | src/split_normalize.c:423-445 | one side per speaker, in speaker-index order |
| Split.SidesFollowOrder | src/split_normalize.c:423 | the k-th visited speaker gets the k-th decision |
| Split.Partition | src/split_normalize.c:448-460 | train and test hold increasing sample indices, together one per sample; a sample is in train iff its speaker is known and on the train side |
| Split.Extend | src/split_normalize.c:456-458 | appending a larger index keeps the list increasing |
| Split.PartitionSpec | src/split_normalize.c:448-460 | every sample lands in exactly one of train or test, samples sharing a speaker land on the same side, and samples with an unknown speaker go to test |
| Fann.Numbers | src/svm_baseline.c:86-104 | the numbers read back from a run of tokens, one per token |
| Fann.Normalize | src/split_normalize.c:166-167 | with a positive std the written value is (value − mean)/std, and 0 otherwise |
| Fann.Inputs | src/split_normalize.c:165-170 | one normalised value per feature |
| Fann.ValueTokens | src/split_normalize.c:168-175 | each value printed becomes one number token |
| Fann.SampleTokens | src/split_normalize.c:163-177 | each sample writes feat_dim input values, then n_classes target values |
| Fann.TargetLine | src/split_normalize.c:172-177 | target value c is 1 at the sample's class index and 0 elsewhere, so the line holds exactly one 1 |
| Fann.WriteFannData | src/split_normalize.c:160-178 | the file starts with the header "count feat_dim n_classes" |
| Fann.ReadSamples | src/svm_baseline.c:86-106 | on success, n samples of n_inputs values each, and each label is the argmax of its outputs, hence below n_outputs |
| Fann.ReadFannData | src/svm_baseline.c:59-117 | on success the header's three counts are the sample count and the two dimensions, with one label per sample, each below num_outputs when there are outputs |
| Fann.ReadSamplesOk | src/svm_baseline.c:86-104 | reading fails (−1) exactly when fewer than n · (n_inputs + n_outputs) numbers follow |
| Fann.ReadFannDataOk | src/svm_baseline.c:66-117 | reading succeeds iff the header has three counts and enough numbers follow for every sample |
| Fann.NumbersValues | src/split_normalize.c:168 | printed values read back as themselves (also src/svm_baseline.c:88) |
| Fann.ReadBody | src/svm_baseline.c:86-106 | the written samples read back as their normalised inputs and their class indices |
| Fann.ReadOneSample | src/svm_baseline.c:86-105 | one written sample reads back as its inputs and its class index |
| Fann.WriteThenRead | src/split_normalize.c:160-178 | a file written by write_fann_data reads back through read_fann_data as the normalised inputs, each sample's class index, and the two dimensions |
| Fann.Span | src/svm_baseline.c:86-104 | n samples of width w take at least w numbers when n > 0 |
| Fann.SpanIsProduct | src/svm_baseline.c:86-104 | the numbers needed are n · (n_inputs + n_outputs) |
| Fann.Classes | src/split_normalize.c:172-177 | the class index of every written sample, in order |
| Fann.AllInputs | src/split_normalize.c:165-170 | the normalised inputs of every written sample, in order |
| Metrics.Argmax | src/evaluate.c:46-56 | the first maximum: in range for a non-empty input, at least every entry, and strictly above every earlier one |
| Metrics.OneHot | src/split_normalize.c:173-176 | the one-hot target of class c |
| Metrics.ArgmaxOneHot | src/svm_baseline.c:105 | the argmax of a one-hot line is its class (also src/split_normalize.c:172-177) |
| Metrics.ZeroMatrix | src/evaluate.c:133-136 | an n × n matrix of zeros |
| Metrics.Confusion | src/svm_baseline.c:253-276 | an n × n matrix incremented at (truth, prediction) when both are in range |
| Metrics.ConfusionCounts | src/evaluate.c:138-147 | the cells sum to the number of in-range pairs, and the diagonal to the correct in-range pairs |
| Metrics.CountStep | src/evaluate.c:146 | one increment adds 1 to the total and 1 to the trace iff truth = prediction |
| Metrics.AllInRange | src/evaluate.c:138-147 | with every truth and prediction in range, every sample is counted and every correct one is on the diagonal |
| Metrics.TruthsInRange | src/svm_baseline.c:270-276 | when every truth is a class, the correct pairs in range are all the correct pairs |
| Metrics.CountedBounds | src/svm_baseline.c:260-276 | the counted cells are at most the test samples, and the diagonal at most the correct predictions |
| Metrics.OffDiagonalSplit | src/evaluate.c:158-166 | a row is its diagonal entry plus its off-diagonal entries |
| Metrics.Ratio | src/evaluate.c:167-168 | a guarded ratio is 0 on a zero denominator and in [0, 1] when the numerator does not exceed the denominator |
| Metrics.Precision | src/evaluate.c:157-167 | tp/(tp + fp), 0 on a zero denominator, in [0, 1] |
| Metrics.Recall | src/evaluate.c:157-168 | tp/(tp + fn), 0 on a zero denominator, in [0, 1] |
| Metrics.Denominators | src/evaluate.c:158-166 | tp + fp is the column total and tp + fn the row total |
| Metrics.Accuracy | src/evaluate.c:149 | correct/total, 0 when total = 0, in [0, 1] |
| Metrics.CorrectAll | src/cross_validate.c:270-272 | the correct count equals the number of samples exactly when every prediction equals its truth |
| Metrics.AccuracyScale | src/cross_validate.c:276 | with samples, accuracy times the count is the correct count, and accuracy is 1 exactly when every sample is correct |
| Metrics.Precisions | src/evaluate.c:157-171 | one precision per class |
| Metrics.Recalls | src/evaluate.c:157-171 | one recall per class |
| Metrics.Macro | src/evaluate.c:169-176 | the mean over classes, 0 with no classes, and in [0, 1] when every entry is |
| Metrics.MacroBounds | src/evaluate.c:173-176 | a mean of values in [0, 1] lies in [0, 1] |
| Metrics.ReportOf | src/evaluate.c:149-176 | per-class lists of n entries; accuracy and both macros in [0, 1] |
| Metrics.ReportRows | src/evaluate.c:189-209 | the output is 3 + 2·C metric lines, one header line and C confusion rows |
| Metrics.ClassMetricRows | src/evaluate.c:192-195 | two metric lines per class |
| Metrics.ConfusionRows | src/evaluate.c:203-209 | confusion row i is "confusion", label i, then row i's counts |
| Metrics.Decimals | src/evaluate.c:206 | each count is printed in decimal |
| Metrics.ReportShape | src/evaluate.c:197-209 | the header row is "confusion,actual/pred" followed by the labels, and each confusion row has C + 2 fields starting with its label |
| Metrics.TotalUpdate | src/evaluate.c:146 | incrementing a cell adds 1 to its row total |
| Metrics.MatrixTotalUpdate | src/evaluate.c:146 | incrementing a cell adds 1 to the matrix total |
| Metrics.TraceUpdate | src/evaluate.c:146 | incrementing a diagonal cell adds 1 to the trace, and any other cell adds nothing |
| Metrics.ZeroMatrixCounts | src/evaluate.c:133-136 | a zero matrix has total 0 and trace 0 |
| Metrics.OffDiagonalAll | src/evaluate.c:158-166 | each row and column is its diagonal entry plus its off-diagonal entries |
| ClassFile.Lines | src/evaluate.c:96 | the fgets lines of a file: none iff the file is empty |
| ClassFile.StripEol | src/evaluate.c:97-100 | stripping removes only trailing CR and LF, and leaves none at the end |
| ClassFile.LoadLines | src/evaluate.c:96-106 | the labels are non-empty, have no trailing CR or LF, and are at most one per line |
| ClassFile.LoadClasses | src/evaluate.c:93-106 | every loaded label is non-empty |
| ClassFile.WriteClasses | src/split_normalize.c:502-508 | one label per line; the file is empty iff there are no labels |
| ClassFile.StripNewline | src/evaluate.c:97-100 | a stored label followed by LF strips back to itself |
| ClassFile.WriteThenLoad | src/split_normalize.c:502-508 | labels without CR or LF and not empty are loaded back in file order, exactly as written (also src/evaluate.c:96-106) |
| ClassFile.LoadLinesAppend | src/evaluate.c:96-106 | loading is line by line: two runs of lines load as the concatenation of their labels |
| ClassFile.BlankLineSkipped | src/evaluate.c:101-103 | a line that is empty after stripping contributes no label |
| ClassFile.LinesCons | src/evaluate.c:96 | fgets returns a line up to and including its newline |
| ClassFile.LoadLinesCons | src/evaluate.c:96-106 | each line contributes its stripped text when it is not empty, before the later lines |
| Evaluate.Truths | src/evaluate.c:142 | the truth of each test sample is the argmax of its target line |
| Evaluate.Predictions | src/evaluate.c:140-141 | each prediction is the argmax of the network's output |
| Evaluate.Evaluate | src/evaluate.c:122-176 | a class count different from the model's output count is an error and writes no results; otherwise the report has the class labels, a C × C matrix and accuracy in [0, 1] |
| Evaluate.EvaluateCounts | src/evaluate.c:138-149 | the confusion cells sum to num_data, the diagonal sums to correct, and accuracy is correct/total |
| Svm.SparseNodes | src/svm_baseline.c:210-267 | each sparse vector has indices 1..num_inputs in order with the input values, then a −1 terminator |
| Svm.DenseOf | src/svm_baseline.c:210-219 | reading a sparse vector up to its terminator |
| Svm.SparseRoundTrip | src/svm_baseline.c:210-219 | the sparse vector holds exactly the dense input, in order |
| Svm.Gamma | src/svm_baseline.c:227 | gamma is the given value if it is > 0, otherwise 1/num_inputs; it is always positive |
| Svm.ClassListAppend | src/svm_baseline.c:33-45 | every label is appended, at the end |
| Svm.AppendKeepsDuplicates | src/svm_baseline.c:33-45 | unlike the cross_validate list, a repeated label is stored again |
| Svm.SvmPredictions | src/svm_baseline.c:260-269 | each prediction is the SVM's answer on the sample's sparse vector |
| Svm.Labels | src/svm_baseline.c:270 | the truths are the labels read from the test file |
| Svm.SvmRun | src/svm_baseline.c:194-306 | a train/test dimension mismatch, a class count different from num_outputs, or a cost C ≤ 0 (the C_SVC parameter check) is an error, the last reported as a parameter error; otherwise the report has the class labels, a C × C matrix and accuracy in [0, 1] |
| Svm.SvmCounts | src/svm_baseline.c:258-280 | the confusion cells sum to at most test_samples, the diagonal to at most correct, and accuracy is correct/test_samples; when every stored label is below num_outputs, the diagonal is exactly correct |
| Svm.SvmMainDiagonal | src/svm_baseline.c:105 | for a test file with at least one output, the read labels are argmaxes below num_outputs = num_classes, so every correct prediction lands on the diagonal and only wrong ones can fall outside the matrix |
| Svm.OutOfRangeNotCounted | src/svm_baseline.c:271-276 | a wrong out-of-range prediction counts toward the accuracy total but is left out of the matrix, while the correct pair counts in both |
| Svm.SvmMain | src/svm_baseline.c:154-201 | the run succeeds only when both files read; its labels are the loaded class file; an unreadable train file is reported first |
| Svm.SparseShift | src/svm_baseline.c:210-219 | the sparse vector after its first node is that of the remaining inputs |
| CrossValidate.Tokens | src/cross_validate.c:146-174 | the tokens strtok yields: non-empty and free of commas |
| CrossValidate.ParseIntList | src/cross_validate.c:146-174 | one value per non-empty comma-separated token, in order, each the atoi of its token |
| CrossValidate.AtoiOfDecimal | src/cross_validate.c:167 | atoi reads a decimal numeral, with or without a leading minus, as its value |
| CrossValidate.TokensCons | src/cross_validate.c:148-168 | a non-empty comma-free head followed by a comma is the first token |
| CrossValidate.TokensOfJoin | src/cross_validate.c:146-174 | joining non-empty comma-free parts with commas and tokenizing gives the parts back |
| CrossValidate.EmptyTokenSkipped | src/cross_validate.c:148-168 | a leading comma yields no token, so empty fields are skipped |
| CrossValidate.ParseDecimalList | src/cross_validate.c:146-174 | a comma-separated list of decimal numbers parses back as those numbers |
| CrossValidate.FoldSum | src/cross_validate.c:543-545 | the class counts of fold f after the speakers assigned so far, one per class |
| CrossValidate.BestFold | src/cross_validate.c:528-541 | the chosen fold has the least error, and no earlier fold has an error that small, so ties go to the lowest fold |
| CrossValidate.FoldErrors | src/cross_validate.c:530-536 | one error per fold, each the squared distance of that fold's counts plus the speaker's from the per-fold target; never negative |
| CrossValidate.GreedyFolds | src/cross_validate.c:525-546 | every speaker gets a fold below k; each choice is the first least-error fold given the earlier choices; the fold counts are the sums of their speakers' counts |
| CrossValidate.FoldErrorsOf | src/cross_validate.c:530-536 | computing the errors from the running fold counts gives the reference errors |
| CrossValidate.FoldPrefix | src/cross_validate.c:542 | assigning a speaker leaves the earlier assignments as they were |
| CrossValidate.OverFoldsZero | src/cross_validate.c:510 | before any assignment the fold counts sum to 0 |
| CrossValidate.OverFoldsStep | src/cross_validate.c:543-545 | an assignment adds the speaker's count to exactly one fold |
| CrossValidate.FoldTotals | src/cross_validate.c:492-545 | after assignment, summed over all folds, each class's fold counts equal that class's total over the speakers |
| CrossValidate.SampleFolds | src/cross_validate.c:548-552 | each sample gets its speaker's fold, or 0 when it has no speaker |
| CrossValidate.FoldSplit | src/cross_validate.c:574-584 | the test indices are exactly the samples of fold f and the train indices exactly the rest; both are increasing and together cover every sample once |
| CrossValidate.OwnTestFoldOnly | src/cross_validate.c:574-584 | each sample is in the test set of its own fold only, and in the training set of every other fold |
| CrossValidate.FirstMaxPredictions | src/cross_validate.c:262-269 | each prediction is the first position of the largest of the first num_classes outputs, and 0 when there are no classes |
| CrossValidate.AllCorrect | src/cross_validate.c:270-276 | the correct count equals the sample count exactly when every sample's first-max prediction is its class |
| CrossValidate.EvalAccuracy | src/cross_validate.c:253-277 | the accuracy lies in [0, 1] and is 0 for no samples; with samples, it is the number of samples whose first-max prediction equals their class, divided by the count; it is 1 exactly when there are samples and every prediction is right |
| CrossValidate.AccuracySummary | src/cross_validate.c:614-620 | the mean is the average fold accuracy and lies in [0, 1]; the std is never negative, since the variance is clamped at 0 |
| CrossValidate.BoundedMean | src/cross_validate.c:614 | the mean of k accuracies in [0, 1] lies in [0, 1] |
| CrossValidate.ConstantAccuracy | src/cross_validate.c:614-620 | equal fold accuracies give that mean and a std of 0 |
| CrossValidate.SummaryOfConstant | src/cross_validate.c:615-620 | whenever the sum and the sum of squares match a constant, the summary is that constant with std 0 |
| PlotConfusion.Strtoul | src/plot_confusion.c:126 | strtoul's leading decimal digits, saturating at ULONG_MAX |
| PlotConfusion.StrtoulOfDecimal | src/plot_confusion.c:126 | a decimal numeral up to ULONG_MAX reads back as its value |
| PlotConfusion.Cells | src/plot_confusion.c:124-129 | one cell per label, taken from field i + 2 and truncated to unsigned int (mod 2^32) |
| PlotConfusion.Step | src/plot_confusion.c:56-132 | one line of the reader keeps the reader's invariant: the label count fixes a square matrix, and no more rows than labels are filled |
| PlotConfusion.Run | src/plot_confusion.c:56-132 | the reader's invariant holds after any run of lines |
| PlotConfusion.ReadRows | src/plot_confusion.c:44-151 | a successful read has at least one label and a square matrix of that size |
| PlotConfusion.Finish | src/plot_confusion.c:136-150 | success needs a header and every row filled, and then the matrix is square |
| PlotConfusion.RunAppend | src/plot_confusion.c:56-132 | lines are read one at a time: reading a + b is reading b after a |
| PlotConfusion.RunCons | src/plot_confusion.c:56-132 | reading a line and then the rest is reading all of them |
| PlotConfusion.NoHeaderIgnored | src/plot_confusion.c:111-141 | before a header every row is ignored, and a file with no header is an error |
| PlotConfusion.DataRows | src/plot_confusion.c:62-118 | the rows that would fill a matrix of n labels are at most all the rows |
| PlotConfusion.FillCount | src/plot_confusion.c:111-130 | after a header the filled rows are the data rows read, capped at the label count, with the labels unchanged |
| PlotConfusion.HeaderResets | src/plot_confusion.c:71-108 | a header discards everything read before it |
| PlotConfusion.LastHeaderWins | src/plot_confusion.c:71-108 | the result depends only on the last header and what follows it |
| PlotConfusion.EnoughDataRows | src/plot_confusion.c:136-147 | after the last header the read succeeds iff at least as many data rows follow as there are labels |
| PlotConfusion.FinishOk | src/plot_confusion.c:136-147 | after a header, finishing succeeds iff every row of the matrix was filled |
| PlotConfusion.HeaderCount | src/plot_confusion.c:81-130 | a header with k + 2 fields sets k labels, and the filled row count is the capped number of data rows |
| PlotConfusion.WrittenLines | src/evaluate.c:189-209 | each result row is written as its fields joined by commas, then a newline |
| PlotConfusion.SplitRows | src/plot_confusion.c:56-58 | each line is split by csv_split_line |
| PlotConfusion.SplitWritten | src/csv.c:35-121 | rows without separators or quotes split back into themselves after writing (also src/evaluate.c:189-209) |
| PlotConfusion.SplitRowsAppend | src/plot_confusion.c:56-58 | splitting is line by line |
| PlotConfusion.DecimalPlain | src/evaluate.c:206 | a printed count has no separator or quote |
| PlotConfusion.ConfusionRowPlain | src/evaluate.c:203-209 | a confusion row with a plain label splits back into its fields |
| PlotConfusion.CellOfDecimal | src/plot_confusion.c:126-128 | a count below 2^32 reads back unchanged |
| PlotConfusion.CellsOfWritten | src/plot_confusion.c:124-129 | the cells of a written confusion row are its counts (also src/evaluate.c:205-207) |
| PlotConfusion.CellOfWritten | src/plot_confusion.c:126-128 | each cell of a written confusion row is its count |
| PlotConfusion.FillOne | src/plot_confusion.c:119-130 | a written confusion row fills the next matrix row with its counts |
| PlotConfusion.StepData | src/plot_confusion.c:111-130 | a data row that fits fills the next matrix row with its cells |
| PlotConfusion.FillRows | src/plot_confusion.c:111-130 | the written confusion rows fill the matrix with exactly the written counts |
| PlotConfusion.FillNext | src/plot_confusion.c:128-130 | filling one more row keeps the invariant and the rows filled so far |
| PlotConfusion.ConfusionSectionPlain | src/evaluate.c:197-209 | the confusion header and rows of a report split back into their fields, and no confusion row looks like a header |
| PlotConfusion.ReportSplit | src/evaluate.c:179-209 | a written report splits into its metric rows, then the confusion header, then the confusion rows |
| PlotConfusion.ReadConfusionSection | src/plot_confusion.c:56-150 | reading the header and the confusion rows of a report gives its labels and its matrix |
| PlotConfusion.ReadWrittenReport | src/evaluate.c:179-209 | the results file written by evaluate reads back through read_confusion as exactly its labels and its confusion matrix, when the labels are plain and the counts fit in 32 bits (also src/plot_confusion.c:44-151) |
| PlotConfusion.EscapeChar | src/plot_confusion.c:158-176 | each character escapes to a non-empty text |
| PlotConfusion.SvgEscape | src/plot_confusion.c:153-178 | the escaped text contains no <, >, double quote or apostrophe, and is at least as long |
| PlotConfusion.EscapeOrdinary | src/plot_confusion.c:174-175 | a text with none of the five special characters is written unchanged |
| PlotConfusion.UnescapeChar | src/plot_confusion.c:158-176 | decoding one escaped character gives it back |
| PlotConfusion.UnescapeEscape | src/plot_confusion.c:153-178 | escaping loses nothing: decoding the entities gives the original text |
| PlotConfusion.Clamp01 | src/plot_confusion.c:188-192 | t is clamped to [0, 1] and values inside are unchanged |
| PlotConfusion.Channel | src/plot_confusion.c:194-196 | a truncated channel lies between the two end colours and equals them at 0 and 1 |
| PlotConfusion.ColorFromValue | src/plot_confusion.c:180-197 | t ≤ 0 gives (247, 251, 255), t ≥ 1 gives (8, 48, 107), and every colour lies between the two |
| PlotConfusion.ChannelMono | src/plot_confusion.c:194-196 | a larger t never gives a lighter channel |
| PlotConfusion.ColorMonotone | src/plot_confusion.c:180-197 | a larger value never gives a lighter colour on any channel |
| PlotConfusion.CellSize | src/plot_confusion.c:222-231 | 40 up to 12 classes, 32 up to 20, 26 up to 28, and 22 beyond |
| PlotConfusion.CellSizeShrinks | src/plot_confusion.c:222-231 | more classes never give a larger cell, which stays in [22, 40] |
| PlotConfusion.MaxLen | src/plot_confusion.c:215-220 | the longest label length: at least every length and reached by one, 0 for no labels |
| PlotConfusion.RowMax | src/plot_confusion.c:210-214 | at least every entry and either 0 or one of them |
| PlotConfusion.MatrixMax | src/plot_confusion.c:208-214 | at least every cell and either 0 or one of them |
| PlotConfusion.SvgLayout | src/plot_confusion.c:222-246 | the margins are at least 120 and 100; width and height add the grid to the margins |
| PlotConfusion.LabelsFit | src/plot_confusion.c:233-240 | the margins grow with the longest label: 7 and 6 units per character beyond the base |
| PlotConfusion.CellShades | src/plot_confusion.c:277-290 | every shade is in [0, 1]; a zero cell is the lightest colour with dark text, and the largest non-zero cell the darkest colour with white text |
| PlotConfusionPy.ParseInt | scripts/plot_confusion.py:23 | int() succeeds iff the text, stripped of Python white space and of an optional sign, is digits with single underscores between them; a negative value carries a minus sign |
| PlotConfusionPy.Unsigned | scripts/plot_confusion.py:23 | the text after one optional leading sign: a suffix, shorter exactly when a sign leads |
| PlotConfusionPy.Ungroup | scripts/plot_confusion.py:23 | the underscores of a grouped numeral are dropped and only digits remain; an underscore-free numeral is unchanged |
| PlotConfusionPy.UnderscoreGroup | scripts/plot_confusion.py:23 | two digits joined by an underscore, such as "1_0", read as one two-digit number (10) |
| PlotConfusionPy.SeparatorSpace | scripts/plot_confusion.py:23 | int() strips a leading ASCII separator 0x1C to 0x1F as white space: "\x1c7" gives 7 |
| PlotConfusionPy.MisplacedUnderscore | scripts/plot_confusion.py:23 | a doubled or a leading underscore raises ValueError |
| PlotConfusionPy.TrimStart | scripts/plot_confusion.py:23 | leading whitespace is removed, and a text that does not start with whitespace is unchanged |
| PlotConfusionPy.TrimEnd | scripts/plot_confusion.py:23 | trailing whitespace is removed: the result is a prefix, and a text that does not end in whitespace is unchanged |
| PlotConfusionPy.Trim | scripts/plot_confusion.py:23 | the stripped text neither starts nor ends with Python white space (str.isspace, the separators 0x1C to 0x1F and the Unicode spaces included) |
| PlotConfusionPy.TrimDecimal | scripts/plot_confusion.py:23 | a decimal numeral has nothing to trim |
| PlotConfusionPy.ParseIntOfDecimal | scripts/plot_confusion.py:23 | int() of a decimal numeral is its value |
| PlotConfusionPy.ParseInts | scripts/plot_confusion.py:23 | the row parses iff every field does, and then each value is its field's int |
| PlotConfusionPy.Step | scripts/plot_confusion.py:15-23 | a header row replaces the labels with its fields from the third on and keeps the rows read so far |
| PlotConfusionPy.ReadConfusion | scripts/plot_confusion.py:10-26 | a successful read has labels and at least one row, and its rows all have one length and hold 64-bit counts |
| PlotConfusionPy.ToArray | scripts/plot_confusion.py:26 | np.array(rows, dtype=int) succeeds iff the rows all have one length and every count fits 64 bits, and then holds the rows; ragged rows raise ValueError |
| PlotConfusionPy.ReadQuiet | scripts/plot_confusion.py:10-26 | over rows that raise nothing, the read succeeds iff the last header has labels and the data rows are non-empty, of one length and 64-bit; it then gives those labels and every data row; ragged data rows raise ValueError |
| PlotConfusionPy.CountsArray | scripts/plot_confusion.py:26 | the unsigned counts evaluate writes form a square 64-bit array (also src/evaluate.c:133-135) |
| PlotConfusionPy.DataOf | scripts/plot_confusion.py:23 | the data rows collected are at most the rows read |
| PlotConfusionPy.RunKeepsAll | scripts/plot_confusion.py:15-23 | rows that raise nothing leave the last header's labels and every data row, in order |
| PlotConfusionPy.StepQuiet | scripts/plot_confusion.py:16-23 | an empty, foreign, header or parsable data row raises nothing |
| PlotConfusionPy.AbsorbFirst | scripts/plot_confusion.py:15 | the rows are taken one at a time from the first |
| PlotConfusionPy.AbsorbData | scripts/plot_confusion.py:23 | a data row is appended ahead of the later ones |
| PlotConfusionPy.QuietTail | scripts/plot_confusion.py:15 | the rest of a file that raises nothing raises nothing |
| PlotConfusionPy.QuietAppend | scripts/plot_confusion.py:15 | two runs of rows that raise nothing raise nothing together |
| PlotConfusionPy.RunAppendOk | scripts/plot_confusion.py:15-23 | reading a + b, where a raises nothing, is reading b after a |
| PlotConfusionPy.LoneConfusionRaises | scripts/plot_confusion.py:18-20 | a row that is only "confusion" raises IndexError, whatever follows |
| PlotConfusionPy.NothingFound | scripts/plot_confusion.py:24-25 | with no header, or no data row, the read raises "No confusion matrix found" |
| PlotConfusionPy.NoDataEmpty | scripts/plot_confusion.py:23-24 | without data rows no row is collected |
| PlotConfusionPy.ParseWrittenCounts | src/evaluate.c:205-207 | printed counts parse back as themselves (also scripts/plot_confusion.py:23) |
| PlotConfusionPy.ReadSections | scripts/plot_confusion.py:10-26 | other rows, then a header, then data rows of one width and 64-bit counts read as the header's labels and the data rows' counts |
| PlotConfusionPy.ReportParts | src/evaluate.c:179-209 | the written results are metric rows the reader skips, the confusion header with the labels, and one data row per matrix row whose counts parse as that row |
| PlotConfusionPy.ReadWrittenReport | src/evaluate.c:179-209 | the results written by evaluate read back through the Python reader as exactly their labels and confusion matrix (also scripts/plot_confusion.py:10-26) |
| PlotConfusionPy.MetricRowsOther | src/evaluate.c:189-195 | the metric rows are skipped by the reader (also scripts/plot_confusion.py:18-19) |
| PlotConfusionPy.ClassRowsMetric | src/evaluate.c:192-195 | every per-class metric row is skipped (also scripts/plot_confusion.py:18-19) |
| PlotConfusionPy.ConfusionRowsData | src/evaluate.c:203-209 | every written confusion row is a data row whose counts parse as that matrix row (also scripts/plot_confusion.py:23) |
| PlotConfusionPy.NoHeaderKeeps | scripts/plot_confusion.py:20-21 | without a header the labels stay as they were |
| PlotConfusionPy.DataOfOthers | scripts/plot_confusion.py:18-19 | rows that are not confusion rows collect nothing |
| PlotConfusionPy.DataOfAll | scripts/plot_confusion.py:23 | data rows collect exactly their parsed counts, in order |
| Train.BaseOffset | src/train.c:28-32 | the base name starts just after the last /, or at 0, and contains no / |
| Train.MakeSvgPath | src/train.c:24-49 | no model path gives no diagram path, and a model path always gives one |
| Train.LastIndexOfAt | src/train.c:28-30 | strrchr finds the occurrence with none after it |
| Train.SvgPathShape | src/train.c:24-49 | the diagram path keeps the directory, ends in ".svg", and is the model path up to the base name's last dot plus ".svg", or the whole path plus ".svg" when the base name has no dot |
| Train.SvgPathIdempotent | src/train.c:24-49 | applying the rule to a diagram path gives it back |
| Train.SvgOfStem | src/train.c:30-42 | a path ending in ".svg" maps to itself |
| Train.StemBase | src/train.c:28-29 | replacing the extension does not move the base name |
| Train.Topology | src/train.c:192-201 | four layers iff hidden2 > 0, with the input, hidden, (hidden2) and output sizes in order |
| Train.StopEpoch | src/train.c:216-228 | the stopping epoch lies between the first and max_epochs |
| Train.StopEpochFirst | src/train.c:216-228 | every epoch before the stop misses the target, and the stop is max_epochs or an epoch that reaches it |
| Train.ReportedUpTo | src/train.c:221-223 | the progress lines are for epochs that were run |
| Train.TrainEpochs | src/train.c:214-228 | the loop stops at the first epoch whose error reaches the target, or at max_epochs; every epoch run is logged once, in order; early stop iff the last error reached the target |
| Train.ReportedSpec | src/train.c:221-223 | a progress line is printed exactly for epoch 1, every 50th epoch and the last epoch run |
| Train.ReportedMember | src/train.c:221 | an epoch is reported iff the rule selects it |
| DumpWeights.SizeRun | scripts/dump_fann_weights.py:19 | the longest prefix of digits and spaces |
| DumpWeights.SizesField | scripts/dump_fann_weights.py:19 | a matching line yields a non-empty run of digits and spaces after "layer_sizes=" |
| DumpWeights.Words | scripts/dump_fann_weights.py:22 | split() yields non-empty runs of digits |
| DumpWeights.Values | scripts/dump_fann_weights.py:22 | one int per word, its decimal value |
| DumpWeights.ParseLayerSizes | scripts/dump_fann_weights.py:18-22 | the sizes are missing (ValueError) iff no line starts with "layer_sizes=" followed by a digit or space |
| DumpWeights.Spaced | scripts/dump_fann_weights.py:19 | sizes written with spaces are digits and spaces only |
| DumpWeights.SizeRunAll | scripts/dump_fann_weights.py:19 | a text of digits and spaces is matched to its end |
| DumpWeights.DigitRunStops | scripts/dump_fann_weights.py:22 | a word ends at the first character that is not a digit |
| DumpWeights.WordsOfSpaced | scripts/dump_fann_weights.py:22 | the sizes written with spaces split back into those sizes |
| DumpWeights.WordsCons | scripts/dump_fann_weights.py:22 | a word followed by a space is the first word |
| DumpWeights.ParseWrittenSizes | scripts/dump_fann_weights.py:18-22 | the first "layer_sizes=" line holding the sizes gives exactly those sizes |
| DumpWeights.SkipUnmatched | scripts/dump_fann_weights.py:19 | lines that do not match are skipped: the first matching line decides |
| DumpWeights.TotalStep | scripts/dump_fann_weights.py:50-53 | each offset adds one layer's size |
| DumpWeights.TotalMono | scripts/dump_fann_weights.py:50-53 | the offsets never decrease |
| DumpWeights.BuildMapping | scripts/dump_fann_weights.py:48-58 | offset l is the sum of the earlier sizes; the mapping's keys are exactly 0 .. sum − 1, and key offset[l] + i maps to (l, i) |
| DumpWeights.MappingHits | scripts/dump_fann_weights.py:55-57 | every neuron (l, i) has the global index offset[l] + i |
| DumpWeights.MappingInjective | scripts/dump_fann_weights.py:55-57 | no two global indices map to the same neuron |
| DumpWeights.Place | scripts/dump_fann_weights.py:89-96 | one weight cell per source neuron of the previous layer |
| DumpWeights.PlaceSpec | scripts/dump_fann_weights.py:89-96 | a cell is empty iff no connection comes from that source; otherwise it holds the weight of the last such connection; the extras are exactly the connections from elsewhere |
| DumpWeights.AddRow | scripts/dump_fann_weights.py:97 | setdefault adds the layer to the keys and nothing else |
| DumpWeights.AddRowShape | scripts/dump_fann_weights.py:97-104 | appending a row of the layer's width keeps every layer's rows well formed |
| DumpWeights.RowOf | scripts/dump_fann_weights.py:83-104 | a row records the target's global and local index and has one cell per source neuron |
| DumpWeights.CollectWeights | scripts/dump_fann_weights.py:61-75 | a neuron count different from the sum of the layer sizes is an error |
| DumpWeights.CollectFromSpec | scripts/dump_fann_weights.py:76-107 | the walk fails iff some neuron's connections run past the block, and otherwise gives every row and consumes every neuron's connections |
| DumpWeights.OverrunFails | scripts/dump_fann_weights.py:85-86 | a window that runs past the end raises "connection block ended unexpectedly" |
| DumpWeights.CollectStep | scripts/dump_fann_weights.py:76-104 | the walk over neurons proceeds one neuron at a time |
| DumpWeights.SkipStep | scripts/dump_fann_weights.py:77-82 | a neuron with no inputs, or an input-layer neuron, adds no row; only the latter advances the cursor |
| DumpWeights.RowStep | scripts/dump_fann_weights.py:83-104 | any other neuron adds the row for its window and advances the cursor by its input count |
| DumpWeights.CollectWeightsSpec | scripts/dump_fann_weights.py:61-107 | collecting succeeds iff the counts agree and no window overruns; then it gives every row, and it warns iff the consumed count differs from the number of connections |
| DumpWeights.RowsShape | scripts/dump_fann_weights.py:76-104 | every row collected belongs to a non-input layer and has that layer's predecessor's width |
| DumpWeights.SourceHeader | scripts/dump_fann_weights.py:119-128 | one "src_global_<index>" column per source neuron, from the previous layer's offset on |
| DumpWeights.Packed | scripts/dump_fann_weights.py:130-138 | a row is the target's global index, layer and local index, then one cell per weight |
| DumpWeights.LayerCsv | scripts/dump_fann_weights.py:110-139 | one header and then one CSV row per target, in order |
| DumpWeights.LayerCsvShape | scripts/dump_fann_weights.py:119-138 | every row has 3 + size(prev) fields, the header names the previous layer's global indices, and a missing weight is an empty cell |
| DumpWeights.ExportedBounds | scripts/dump_fann_weights.py:166-169 | only layers present and at least 1 are exported |
| DumpWeights.ExportedComplete | scripts/dump_fann_weights.py:166-169 | every such layer is exported |
| DumpWeights.ExportedSorted | scripts/dump_fann_weights.py:166 | layers are exported in increasing order |
| DumpWeights.ExportsAll | scripts/dump_fann_weights.py:162-179 | every layer that got rows is exported |
| DumpWeights.ExitCode | scripts/dump_fann_weights.py:183-187 | the exit code is 1 iff no layer beyond the input got weights |
| NetworkSvg.SplitWs | src/plot_network_svg.py:15 | split() yields non-empty runs without whitespace, and none iff the text is all whitespace |
| NetworkSvg.WordLen | src/plot_network_svg.py:15 | a word runs up to the first whitespace |
| NetworkSvg.ParseLine | src/plot_network_svg.py:10-17 | an empty value after "=" raises "layer_sizes not found"; otherwise the sizes parse iff every word is an int, with one size per word |
| NetworkSvg.ParseLayerSizes | src/plot_network_svg.py:7-18 | a result always has a layer, and a file with no "layer_sizes=" line raises "layer_sizes not found" |
| NetworkSvg.GroupedSizeLine | src/plot_network_svg.py:10-17 | "layer_sizes=1_0" gives [10], as int() reads underscore groups |
| NetworkSvg.GroupedRaw | src/plot_network_svg.py:10-12 | "layer_sizes=1_0" matches, and its stripped value is "1_0" |
| NetworkSvg.GroupedWords | src/plot_network_svg.py:15 | split() leaves "1_0" as one word |
| NetworkSvg.FirstMatchDecides | src/plot_network_svg.py:9-17 | the first line that starts with "layer_sizes=" decides the result, whatever follows |
| NetworkSvg.SplitWsSpaceEnd | src/plot_network_svg.py:15 | trailing whitespace adds no word |
| NetworkSvg.WordLenSpaceEnd | src/plot_network_svg.py:15 | trailing whitespace does not change the first word |
| NetworkSvg.SplitWsTrimEnd | src/plot_network_svg.py:10-15 | stripping before splitting does not change the words |
| NetworkSvg.TrimEndAppend | src/plot_network_svg.py:10 | strip only touches the end of the text |
| NetworkSvg.Decimals | src/plot_network_svg.py:117 | one decimal numeral per size |
| NetworkSvg.SplitWsSpaced | src/plot_network_svg.py:15 | sizes written with spaces split into their numerals |
| NetworkSvg.DecimalsCons | src/plot_network_svg.py:117 | the numerals are listed in order |
| NetworkSvg.SplitWsDecimalCons | src/plot_network_svg.py:15 | a numeral followed by a space is the first word |
| NetworkSvg.WordLenDecimal | src/plot_network_svg.py:15 | a numeral ends at the space after it |
| NetworkSvg.ParseDecimals | src/plot_network_svg.py:15 | int() of each numeral gives the sizes |
| NetworkSvg.ParseWrittenSizes | src/plot_network_svg.py:7-18 | the first "layer_sizes=" line holding the sizes gives exactly those sizes |
| NetworkSvg.SpacesOnlyLine | src/plot_network_svg.py:10-18 | a "layer_sizes=" line of spaces only gives no sizes in the weight dumper but raises "layer_sizes not found" here (also scripts/dump_fann_weights.py:19-22) |
| NetworkSvg.LayerLabel | src/plot_network_svg.py:21-28 | "Input" iff the first layer, "Output" iff the last, "Hidden" for the middle layer of three, and "Hidden i" otherwise |
| NetworkSvg.LabelsDistinct | src/plot_network_svg.py:21-28 | no two layers of a network get the same label |
| NetworkSvg.NodeClass | src/plot_network_svg.py:143-147 | the node class is one of input, output and hidden |
| NetworkSvg.ClassFollowsLabel | src/plot_network_svg.py:141-147 | the node class agrees with the label: input, output, or hidden iff the label starts with "Hidden" |
| NetworkSvg.BiasNote | src/plot_network_svg.py:142 | " (incl bias)" iff a layer before the last has more than one neuron, and "" otherwise |
| NetworkSvg.ClampInt | src/plot_network_svg.py:31-32 | the value itself when in range, the nearer end outside it, and low when the range is empty |
| NetworkSvg.Centre | src/plot_network_svg.py:54 | the row is centred on the 1200-wide canvas, up to truncation |
| NetworkSvg.TruncHalf | src/plot_network_svg.py:54 | int(x / 2) is within one half-unit of x/2 |
| NetworkSvg.ShrunkFits | src/plot_network_svg.py:50-52 | a shrunk box is at least 160 and below 220, and it fits the canvas unless it hit 160 |
| NetworkSvg.QuotBelow | src/plot_network_svg.py:51 | the width quotient stays below the full box width when the row overflows |
| NetworkSvg.QuotTimes | src/plot_network_svg.py:51 | boxes no wider than the quotient fit in the space left |
| NetworkSvg.FitLayout | src/plot_network_svg.py:42-54 | the gap is 120 iff the row fits with it, and 60 otherwise; the box is 220 iff the row then fits, otherwise shrunk but not below 160; a box above 160 always fits; the row is centred |
| NetworkSvg.LayoutFits | src/plot_network_svg.py:42-54 | the row fits within 1160 iff there are at most 5 layers; from 6 on the boxes are 160 and the row starts left of the canvas |
| NetworkSvg.WideLayout | src/plot_network_svg.py:47-54 | from 6 layers the boxes bottom out at 160 and the row overflows |
| NetworkSvg.SmallLayout | src/plot_network_svg.py:42-52 | up to 5 layers the row fits |
| NetworkSvg.BoxesInside | src/plot_network_svg.py:125-140 | when the row fits, every box lies within the 20-unit margins of the canvas |
| NetworkSvg.BoxInside | src/plot_network_svg.py:139 | any box of a centred row that fits lies within the margins |
| NetworkSvg.DrawCount | src/plot_network_svg.py:59-61 | every neuron is drawn iff the layer has at most 10; larger layers draw 8 |
| NetworkSvg.StepSpan | src/plot_network_svg.py:67 | the step is positive and the steps span the inner box |
| NetworkSvg.NodeYBounds | src/plot_network_svg.py:68 | the first node is at the inner top, the last at the inner bottom, and all between |
| NetworkSvg.Positions | src/plot_network_svg.py:62-68 | one position per drawn node; a single node is centred; otherwise the nodes run from the inner top to the inner bottom |
| NetworkSvg.PositionsSpaced | src/plot_network_svg.py:67-68 | drawn nodes are at least 32 apart, so circles of radius 10 never overlap |
| NetworkSvg.NodeYSpaced | src/plot_network_svg.py:67-68 | two neighbouring nodes are at least 32 apart |
| NetworkSvg.PositionsSymmetric | src/plot_network_svg.py:67-68 | positions are symmetric about the middle of the box, up to truncation |
| NetworkSvg.EllipsisIff | src/plot_network_svg.py:60-168 | "..." is drawn iff the layer has more than 10 neurons, and the drawn count is the size, 8, or 0 |
| NetworkSvg.NodesOf | src/plot_network_svg.py:58-69 | one list of positions per layer |
| NetworkSvg.Sample | src/plot_network_svg.py:127-128 | the first four positions, or all of them when fewer |
| NetworkSvg.LinesTo | src/plot_network_svg.py:130-134 | one line per right-hand node |
| NetworkSvg.Fan | src/plot_network_svg.py:129-134 | one line per pair of sampled nodes |
| NetworkSvg.RowMembers | src/plot_network_svg.py:130-134 | the lines from one node go to exactly the right-hand nodes |
| NetworkSvg.FanMembers | src/plot_network_svg.py:129-134 | the lines between two layers join exactly the pairs of sampled nodes |
| NetworkSvg.ConnectionsFrom | src/plot_network_svg.py:121-135 | at most 16 lines per pair of neighbouring layers |
| NetworkSvg.ConnectionsMembers | src/plot_network_svg.py:121-135 | a line is drawn iff it joins sampled nodes of two neighbouring layers at their box centres |
| NetworkSvg.ConnectionsHas | src/plot_network_svg.py:122-134 | every such line is drawn |
| NetworkSvg.ConnectionsOnly | src/plot_network_svg.py:122-134 | only such lines are drawn |
| NetworkSvg.Shown | src/plot_network_svg.py:60-61 | at most 10 nodes are drawn per layer |
| NetworkSvg.ConnectionCount | src/plot_network_svg.py:121-135 | the number of lines is the sum, over neighbouring layers, of the products of their sampled node counts |
| NetworkSvg.SampleShown | src/plot_network_svg.py:127-128 | a layer contributes min(drawn, 4) sampled nodes |
| Text.FirstIndexOf | src/cross_validate.c:113 | strchr: none iff the character is absent, otherwise its first position |
| Text.LastIndexOf | src/train.c:28-30 | strrchr: none iff the character is absent, otherwise its last position |
| Text.NatToString | src/evaluate.c:206 | a %u rendering is a non-empty run of digits |
| Text.DigitRun | src/plot_confusion.c:126 | a number parser stops at the first non-digit |
| Text.DigitRunOfDecimal | src/plot_confusion.c:126 | a rendered number is read back whole, as its value |
| Text.Pad2 | src/extract_features.c:253 | "%02d" gives only decimal digits, at least two and exactly two below 100, and they denote n |

## Left out

- Floating point: every float and double is a real. Rounding, single versus double precision, and NaN or infinity on degenerate inputs are not modelled.
- FFT accuracy and the twiddle recurrence of `fft_inplace` (src/dsp.c:52-79): the model keeps only the structure. It covers lengths, the bit-reversal permutation and silence preservation.
- Exact Hamming, mel and DCT values: these depend only on the `Math` functions, which are uninterpreted.
- Dsp.Butterfly, Dsp.Butterflies, Dsp.Blocks and Dsp.Stages: their own contracts state only the lengths they keep. The partner lemmas (the `...Silent` members) state that silence stays silent. Nothing stronger is claimed about the FFT values.
- File and stream I/O: `fopen`, `fgets` with their 8192-, 512- and 256-byte line buffers, `fread`/`fwrite` results beyond the modelled success flags, and directory walking (`process_dir`). Files are modelled as byte or line sequences handed to the model.
- Allocation failure: every `malloc`/`realloc` failure path is left out, including the silent character drop of `csv_append_char` (src/csv.c:22-33) and the `continue` at src/extract_features.c:319-321.
- NULL arguments: they do not exist in the model, so the NULL-argument early returns of `mfcc_compute`, `fft_real` and the feature functions are not modelled. The exceptions are the stream and buffer checks of src/frame_io.c, which are modelled with `Option`.
- Command-line parsing, usage messages and every `main`'s default paths.
- Decimal rendering of reals (`%.6f`, `%.1f`, `repr`): a report row carries a `render` function parameter instead of digits. Integer rendering (`%u`, `%d`, `%02d`, `str(int)`) is modelled.
- External libraries: FANN (create, train, run, save), libsvm (`svm_train`, `svm_predict`), libsndfile decoding and channel mixing (src/preprocess.c:146-178), and matplotlib. The trained network and the SVM are function parameters, and the decoded mono signal is an input.
- `rand`/`srand`: each draw of the Fisher–Yates shuffle is a parameter, required to lie in [0, i].
- Processes and file probing in src/train.c (`find_script_path`, `maybe_generate_svg`, `fork`/`execvp`). src/util.c is not part of this model.
- The regex parsing of the `.net` neurons and connections blocks in scripts/dump_fann_weights.py:25-45: the neuron entries and connections are inputs to `DumpWeights.CollectWeights`. Their input counts are naturals. The pattern `[^,]+` would also let `int()` read a negative count, which would move the cursor backwards, but FANN never writes one.
- The Python `csv` module: scripts/plot_confusion.py is modelled on the rows it yields.
- The SVG and PNG text itself: the model states the layout numbers, colours, labels, escapes and line sets that the writers print.
- PlotConfusionPy.ParseInt: Unicode decimal digits, which `int()` also accepts, are not modelled; only ASCII digits are. Python's white space is modelled in full.
- PlotConfusionPy.ToArray: numpy's integer is taken as 64 bits, as on Linux and macOS. When the rows are both ragged and too large, the ragged-row ValueError is taken to come first.
- NetworkSvg.ClampInt: the script defines `clamp` (src/plot_network_svg.py:31-32) but never calls it. `build_svg` writes `max(160, int(...))` directly (line 51), and `NetworkSvg.ShrunkWidth` models that. `ClampInt` models the unused helper on integers.
- Preprocess.ProcessFile: requires frame and hop lengths of at most 134217 ms in absolute value. Beyond that, `sr * ms` overflows a 32-bit int at 16 kHz, and that overflow is not modelled. It also requires a positive sample rate.
- Preprocess.Resample: requires positive rates; the C divides by the original rate.
- Dsp.HammingWindow: requires n ≠ 1, because the C divides by n − 1 = 0 and yields NaN.
- Extract.ExtractRow and Extract.MakeSetup: require a positive sample rate, frame_len ≠ 1 and positive n_mfcc and n_mels. For sr ≤ 0, n_mels ≤ 0 or n_mfcc ≤ 0, `mfcc_init` returns −1 without filling the bank (src/mfcc.c:20-22). src/extract_features.c:325 ignores that result, so the bank is then read uninitialised, which is undefined behaviour. With n_mfcc ≤ 0 the name array at src/extract_features.c:252 also has a non-positive length, which is undefined too. Only frame_len = 1 is a float division by zero, in `hamming_window` (src/dsp.c:27).
- Mfcc.FilterRow and Mfcc.MelBin: require a positive sample rate, for the same reason.
- Features.SpectralFeatures: requires a positive FFT size; the C divides by it.
- Dataset.ZScoreStats: requires at least one training sample. The C divides by train_count (src/split_normalize.c:477; src/cross_validate.c:220) and yields NaN with none.
- CrossValidate.GreedyFolds and CrossValidate.AccuracySummary: require k > 0. The C divides by k (src/cross_validate.c:518, 614).
- Fann.ReadSamples: with n_outputs = 0, the C `argmax` reads `arr[0]` of a zero-size `malloc` buffer (src/svm_baseline.c:47-49, 76, 105), which is undefined behaviour. The model instead gives every sample label 0, as `Metrics.Argmax` does for an empty sequence.
- Evaluate.Evaluate: requires that a model with zero outputs comes with zero test samples. With zero outputs `argmax` reads `out[0]` past the end of the output (src/evaluate.c:46-56). The model's `Metrics.Argmax` returns 0 for an empty sequence.
- Svm.SvmRun: of libsvm's `svm_check_parameter`, only the C ≤ 0 rejection is modelled, since the other parameters are fixed. The cost is a real, so a NaN from `atof` (which passes the C check) is not modelled. The NULL return of `svm_train` (src/svm_baseline.c:244-248) is not modelled either, because libsvm is not part of this model; the run is assumed to train a model once the parameters pass.
- Svm.Gamma: requires a positive given gamma or at least one input. Otherwise the C computes 1/0.
- Train.TrainEpochs: the epoch counter is unbounded. In src/train.c:216 it is an `unsigned int`, so with max_epochs = UINT_MAX the test `epoch <= max_epochs` always holds and the counter wraps. The C loop then ends only by an early stop, which the model does not reproduce.
- `csv_free_row` and the other `free` calls have nothing to model beyond `Csv.FreeRow`'s emptied row.

## Observed behaviour worth knowing

The model follows the code as written, including the following behaviours, each stated by a lemma:

- The power spectrum buffer in src/extract_features.c is allocated (line 315) but never written before `mfcc_compute` reads it (line 352). Every frame therefore gets the same MFCC vector, whatever the frame holds. `Extract.MfccIndependentOfFrame` states this, and `Extract.StaticMfccStatsConstant` shows that the MFCC summary columns then have std, skew and kurtosis 0.
- `compute_deltas` is first called with stride n_mfcc (src/extract_features.c:367) on a buffer whose rows are n_mfcc + 8 wide (line 304). The deltas therefore mix neighbouring columns and rows. `Features.DeltaStrideMismatch` shows the column read with that stride picking a non-MFCC feature of frame 0. `Extract.FirstDeltaMixesRows` shows the first delta equals frame 0's RMS minus the first MFCC.
- `svm_baseline.c` guards the confusion matrix against predictions outside the class range, but not the accuracy count. Only a wrong prediction can fall outside the matrix: the stored labels are argmaxes below num_outputs = num_classes, so a correct prediction is always on the diagonal (`Svm.SvmMainDiagonal`, `Svm.OutOfRangeNotCounted`). Its `class_list_add` keeps duplicate labels (`Svm.AppendKeepsDuplicates`).
- scripts/plot_confusion.py raises `IndexError` on a row that holds only "confusion" (`PlotConfusionPy.LoneConfusionRaises`).
- The two `.net` readers disagree on a `layer_sizes=` line of spaces only (`NetworkSvg.SpacesOnlyLine`).
- From six layers on, the network diagram no longer fits the 1200-wide canvas: the boxes bottom out at 160 and the row starts left of the canvas (`NetworkSvg.LayoutFits`).
- `train.c` does not end its epoch loop when max_epochs = UINT_MAX and no epoch reaches the target (see `Train.TrainEpochs` under Left out).

No "## Findings" table is given: the model keeps these behaviours rather than correcting them.

=== FILE: class_file.dfy ===
/**
 * classes.txt: split_normalize.c writes one class name per line, and
 * evaluate.c and svm_baseline.c read it back, stripping trailing CR/LF and
 * skipping empty lines. The readers append every name as it comes, without
 * deduplication.
 */
module ClassFile {
  import opened Wrappers
  import opened Text

  predicate IsEol(c: char) {
    c == '\n' || c == '\r'
  }

  /** The lines `fgets` returns, each with its `\n` except possibly the last. */
  function Lines(content: string): (lines: seq<string>)
    ensures |content| == 0 <==> |lines| == 0
    decreases |content|
  {
    if |content| == 0 then []
    else match FirstIndexOf(content, '\n')
      case None => [content]
      case Some(k) => [content[..k + 1]] + Lines(content[k + 1..])
  }

  /** A line with every trailing CR and LF removed. */
  function StripEol(line: string): (s: string)
    ensures s <= line
    ensures |s| > 0 ==> !IsEol(s[|s| - 1])
    ensures forall j :: |s| <= j < |line| ==> IsEol(line[j])
  {
    if |line| > 0 && IsEol(line[|line| - 1]) then StripEol(line[..|line| - 1]) else line
  }

  /** The labels of the lines that are not empty once stripped, in file order. */
  function LoadLines(lines: seq<string>): (labels: seq<string>)
    ensures |labels| <= |lines|
    ensures forall i :: 0 <= i < |labels| ==> |labels[i]| > 0 && !IsEol(labels[i][|labels[i]| - 1])
  {
    if |lines| == 0 then []
    else
      var s := StripEol(lines[0]);
      (if |s| > 0 then [s] else []) + LoadLines(lines[1..])
  }

  /** The class-file loading loop of evaluate.c and svm_baseline.c. */
  function LoadClasses(content: string): (labels: seq<string>)
    ensures forall i :: 0 <= i < |labels| ==> |labels[i]| > 0
  {
    LoadLines(Lines(content))
  }

  /** The classes.txt writer: every name followed by a newline. */
  function WriteClasses(labels: seq<string>): (content: string)
    ensures |labels| == 0 <==> |content| == 0
  {
    if |labels| == 0 then [] else labels[0] + "\n" + WriteClasses(labels[1..])
  }

  /** A name that survives the file: not empty, no newline inside, no CR at its end. */
  predicate Storable(name: string) {
    |name| > 0 && '\n' !in name && name[|name| - 1] != '\r'
  }

  lemma LinesCons(name: string, rest: string)
    requires '\n' !in name
    ensures Lines(name + "\n" + rest) == [name + "\n"] + Lines(rest)
  {
    var content := name + "\n" + rest;
    var k := |name|;
    assert content[k] == '\n';
    assert content[..k] == name;
    assert content[..k + 1] == name + "\n";
    assert content[k + 1..] == rest;
  }

  lemma StripNewline(name: string)
    requires Storable(name)
    ensures StripEol(name + "\n") == name
  {
    assert (name + "\n")[..|name|] == name;
  }

  /** Reading classes.txt gives back exactly the labels written, in order. */
  lemma {:induction false} WriteThenLoad(labels: seq<string>)
    requires forall i :: 0 <= i < |labels| ==> Storable(labels[i])
    ensures LoadClasses(WriteClasses(labels)) == labels
    decreases |labels|
  {
    if |labels| > 0 {
      var rest := WriteClasses(labels[1..]);
      var lines := Lines(rest);
      assert Lines(WriteClasses(labels)) == [labels[0] + "\n"] + lines by {
        LinesCons(labels[0], rest);
      }
      assert LoadLines([labels[0] + "\n"] + lines) == [labels[0]] + LoadLines(lines) by {
        StripNewline(labels[0]);
        LoadLinesCons(labels[0] + "\n", lines);
      }
      WriteThenLoad(labels[1..]);
      assert labels == [labels[0]] + labels[1..];
    }
  }

  lemma LoadLinesCons(line: string, lines: seq<string>)
    ensures LoadLines([line] + lines)
         == (if |StripEol(line)| > 0 then [StripEol(line)] else []) + LoadLines(lines)
  {
    assert ([line] + lines)[1..] == lines;
  }

  lemma {:induction false} LoadLinesAppend(a: seq<string>, b: seq<string>)
    ensures LoadLines(a + b) == LoadLines(a) + LoadLines(b)
    decreases |a|
  {
    if |a| > 0 {
      assert (a + b)[1..] == a[1..] + b;
      LoadLinesAppend(a[1..], b);
      LoadLinesCons(a[0], a[1..] + b);
      LoadLinesCons(a[0], a[1..]);
      assert a + b == [a[0]] + (a[1..] + b);
      assert a == [a[0]] + a[1..];
    } else {
      assert a + b == b;
    }
  }

  /** A line that is empty once stripped, such as a bare CR/LF, adds no label wherever it occurs. */
  lemma BlankLineSkipped(before: seq<string>, blank: string, after: seq<string>)
    requires |StripEol(blank)| == 0
    ensures LoadLines(before + [blank] + after) == LoadLines(before + after)
  {
    var x := before + [blank];
    var lb, la := LoadLines(before), LoadLines(after);
    assert LoadLines([blank]) == [] by { LoadLinesCons(blank, []); }
    LoadLinesAppend(before, [blank]);
    assert LoadLines(x) == lb + [] == lb;
    LoadLinesAppend(x, after);
    LoadLinesAppend(before, after);
    assert LoadLines(x + after) == lb + la == LoadLines(before + after);
  }
}

=== FILE: crossval.dfy ===
/**
 * cross_validate.c: speakers are assigned greedily to k folds so that each
 * fold's class counts approach total/k, samples inherit their speaker's fold,
 * and each fold in turn is the test set of one network whose accuracy is
 * averaged over the folds.
 *
 * As in the train/test split, speakers are taken in visiting order:
 * `visits[i]` is the class-count vector of the i-th speaker visited and
 * `folds[i]` its fold.
 */
module CrossValidate {
  import opened Wrappers
  import opened Numerics
  import opened Text
  import Metrics
  import Split
  import Dataset

  // ---------------------------------------------------------------------------
  // Hyperparameter lists

  /** `strtok(s, ",")`: the maximal comma-free runs, empty ones skipped. */
  function Tokens(s: string): (ts: seq<string>)
    ensures forall i :: 0 <= i < |ts| ==> |ts[i]| > 0 && ',' !in ts[i]
    decreases |s|
  {
    if |s| == 0 then []
    else match FirstIndexOf(s, ',')
      case None => [s]
      case Some(k) => (if k > 0 then [s[..k]] else []) + Tokens(s[k + 1..])
  }

  /**
   * `atoi`: leading white space, an optional sign, then the longest run of
   * digits; 0 when there are none.
   */
  function Atoi(s: string): int
    decreases |s|
  {
    if |s| > 0 && IsSpace(s[0]) then Atoi(s[1..])
    else if |s| > 0 && (s[0] == '-' || s[0] == '+') then
      var v: int := DigitsValue(s[1..][..DigitRun(s[1..])]);
      if s[0] == '-' then -v else v
    else DigitsValue(s[..DigitRun(s)])
  }

  /** `parse_int_list`: one value per non-empty token. */
  function ParseIntList(s: string): (vals: seq<int>)
    ensures |vals| == |Tokens(s)| && forall i :: 0 <= i < |vals| ==> vals[i] == Atoi(Tokens(s)[i])
  {
    var ts := Tokens(s);
    seq(|ts|, i requires 0 <= i < |ts| => Atoi(ts[i]))
  }

  /** `atoi` reads back what `%d` prints. */
  lemma AtoiOfDecimal(n: nat)
    ensures Atoi(NatToString(n)) == n
    ensures Atoi("-" + NatToString(n)) == -(n as int)
  {
    var d := NatToString(n);
    DigitRunOfDecimal(n);
    assert ("-" + d)[1..] == d;
  }

  lemma TokensCons(head: string, rest: string)
    requires |head| > 0 && ',' !in head
    ensures Tokens(head + "," + rest) == [head] + Tokens(rest)
  {
    var s := head + "," + rest;
    assert s[|head|] == ',';
    assert s[..|head|] == head;
    assert s[|head| + 1..] == rest;
  }

  /** Splitting a comma-joined list of non-empty, comma-free items gives the items back. */
  lemma {:induction false} TokensOfJoin(parts: seq<string>)
    requires forall i :: 0 <= i < |parts| ==> |parts[i]| > 0 && ',' !in parts[i]
    ensures Tokens(Join(parts, ',')) == parts
    decreases |parts|
  {
    if |parts| == 1 {
      assert FirstIndexOf(parts[0], ',') == None;
    } else if |parts| > 1 {
      TokensCons(parts[0], Join(parts[1..], ','));
      TokensOfJoin(parts[1..]);
      assert parts == [parts[0]] + parts[1..];
    }
  }

  /** An empty token, from a doubled or leading comma, is skipped. */
  lemma EmptyTokenSkipped(rest: string)
    ensures Tokens("," + rest) == Tokens(rest)
  {
    assert ("," + rest)[1..] == rest;
  }

  /** A list written as comma-separated decimals parses back to the same values. */
  lemma ParseDecimalList(vs: seq<nat>)
    requires |vs| > 0
    ensures ParseIntList(Join(Metrics.Decimals(vs), ',')) == vs
  {
    var ds := Metrics.Decimals(vs);
    forall i | 0 <= i < |ds|
      ensures |ds[i]| > 0 && ',' !in ds[i]
    {
      assert forall j :: 0 <= j < |ds[i]| ==> IsDigit(ds[i][j]);
    }
    TokensOfJoin(ds);
    forall i | 0 <= i < |vs|
      ensures ParseIntList(Join(ds, ','))[i] == vs[i]
    {
      AtoiOfDecimal(vs[i]);
    }
  }

  // ---------------------------------------------------------------------------
  // Greedy fold assignment

  /** The per-class totals of the visited speakers placed in fold `f`. */
  function FoldSum(visits: seq<seq<nat>>, folds: seq<nat>, f: nat, n: nat): (s: seq<real>)
    requires |folds| <= |visits| && Split.VisitsShaped(visits, n)
    ensures |s| == n
    decreases |folds|
  {
    if |folds| == 0 then Split.ZeroCounts(n)
    else
      var k := |folds| - 1;
      var prev := FoldSum(visits, folds[..k], f, n);
      if folds[k] == f then Split.AddCounts(prev, visits[k]) else prev
  }

  /** The error of adding a speaker to a fold whose totals are `cur`. */
  function FoldError(cur: seq<real>, add: seq<nat>, target: seq<real>): real
    requires |cur| == |add| == |target|
  {
    Split.SqError(Split.AddCounts(cur, add), target, |target|)
  }

  /** `best` is the first fold of least error among folds 0..k-1. */
  predicate FirstArgmin(errs: seq<real>, best: nat) {
    && best < |errs|
    && (forall f :: 0 <= f < |errs| ==> errs[best] <= errs[f])
    && (forall f :: 0 <= f < best ==> errs[best] < errs[f])
  }

  /**
   * The inner fold loop: `best_error` starts at -1, so fold 0 is taken first
   * and a later fold replaces the best only with a strictly smaller error.
   */
  method BestFold(errs: seq<real>) returns (best: nat)
    requires |errs| > 0 && forall f :: 0 <= f < |errs| ==> errs[f] >= 0.0
    ensures FirstArgmin(errs, best)
  {
    best := 0;
    var bestError := -1.0;
    for f := 0 to |errs|
      invariant best < |errs|
      invariant f == 0 ==> bestError == -1.0
      invariant f > 0 ==> best < f && bestError == errs[best]
      invariant forall g :: 0 <= g < f ==> errs[best] <= errs[g]
      invariant forall g :: 0 <= g < best ==> errs[best] < errs[g]
    {
      if bestError < 0.0 || errs[f] < bestError {
        bestError := errs[f];
        best := f;
      }
    }
  }

  /** The errors of placing a speaker in each fold, given the decisions so far. */
  function FoldErrors(visits: seq<seq<nat>>, folds: seq<nat>, add: seq<nat>, target: seq<real>, k: nat): (errs: seq<real>)
    requires |folds| <= |visits| && Split.VisitsShaped(visits, |target|) && |add| == |target|
    ensures |errs| == k && forall f :: 0 <= f < k ==> errs[f] == FoldError(FoldSum(visits, folds, f, |target|), add, target)
    ensures forall f :: 0 <= f < k ==> errs[f] >= 0.0
  {
    seq(k, f requires 0 <= f < k => FoldError(FoldSum(visits, folds, f, |target|), add, target))
  }

  /**
   * The greedy loop. Every speaker goes to the first fold of least error
   * against the folds' totals so far, and the returned per-fold totals are
   * those of the speakers placed in each fold.
   */
  method GreedyFolds(visits: seq<seq<nat>>, target: seq<real>, k: nat) returns (folds: seq<nat>, foldCounts: seq<seq<real>>)
    requires k > 0 && Split.VisitsShaped(visits, |target|)
    ensures |folds| == |visits| && forall i :: 0 <= i < |folds| ==> folds[i] < k
    ensures forall i :: 0 <= i < |visits| ==>
      FirstArgmin(FoldErrors(visits, folds[..i], visits[i], target, k), folds[i])
    ensures |foldCounts| == k && forall f :: 0 <= f < k ==> foldCounts[f] == FoldSum(visits, folds, f, |target|)
  {
    var n := |target|;
    folds := [];
    foldCounts := seq(k, f requires 0 <= f < k => Split.ZeroCounts(n));
    for i := 0 to |visits|
      invariant |folds| == i && forall j :: 0 <= j < i ==> folds[j] < k
      invariant |foldCounts| == k && forall f :: 0 <= f < k ==> foldCounts[f] == FoldSum(visits, folds, f, n)
      invariant forall j :: 0 <= j < i ==> FirstArgmin(FoldErrors(visits, folds[..j], visits[j], target, k), folds[j])
    {
      var errs := FoldErrorsOf(foldCounts, visits[i], target);
      assert errs == FoldErrors(visits, folds, visits[i], target, k);
      var best := BestFold(errs);
      foldCounts := foldCounts[best := Split.AddCounts(foldCounts[best], visits[i])];
      FoldPrefix(folds, best);
      folds := folds + [best];
    }
    assert folds[..|folds|] == folds;
  }

  /** The errors of every fold from the running per-fold totals. */
  method FoldErrorsOf(foldCounts: seq<seq<real>>, add: seq<nat>, target: seq<real>) returns (errs: seq<real>)
    requires forall f :: 0 <= f < |foldCounts| ==> |foldCounts[f]| == |target|
    requires |add| == |target|
    ensures |errs| == |foldCounts| && forall f :: 0 <= f < |foldCounts| ==> errs[f] == FoldError(foldCounts[f], add, target)
  {
    errs := [];
    for f := 0 to |foldCounts|
      invariant |errs| == f && forall g :: 0 <= g < f ==> errs[g] == FoldError(foldCounts[g], add, target)
    {
      var e, _ := Split.Errors(foldCounts[f], add, target);
      errs := errs + [e];
    }
  }

  lemma FoldPrefix(folds: seq<nat>, best: nat)
    ensures forall j :: 0 <= j <= |folds| ==> (folds + [best])[..j] == folds[..j]
  {
    assert (folds + [best])[..|folds|] == folds;
  }

  /** The per-class sum over the first `k` folds of their totals. */
  function OverFolds(visits: seq<seq<nat>>, folds: seq<nat>, n: nat, c: nat, k: nat): real
    requires |folds| <= |visits| && Split.VisitsShaped(visits, n) && c < n
  {
    if k == 0 then 0.0 else OverFolds(visits, folds, n, c, k - 1) + FoldSum(visits, folds, k - 1, n)[c]
  }

  /** The per-class total of the first `m` visited speakers. */
  function VisitTotal(visits: seq<seq<nat>>, n: nat, c: nat, m: nat): real
    requires m <= |visits| && Split.VisitsShaped(visits, n) && c < n
  {
    if m == 0 then 0.0 else VisitTotal(visits, n, c, m - 1) + visits[m - 1][c] as real
  }

  lemma {:induction false} OverFoldsZero(visits: seq<seq<nat>>, n: nat, c: nat, k: nat)
    requires Split.VisitsShaped(visits, n) && c < n
    ensures OverFolds(visits, [], n, c, k) == 0.0
  {
    if k > 0 {
      OverFoldsZero(visits, n, c, k - 1);
    }
  }

  /** Adding one speaker to fold `b` raises the over-folds sum by its count, when `b` is one of the k folds. */
  lemma {:induction false} OverFoldsStep(visits: seq<seq<nat>>, folds: seq<nat>, n: nat, c: nat, k: nat)
    requires 0 < |folds| <= |visits| && Split.VisitsShaped(visits, n) && c < n
    ensures OverFolds(visits, folds, n, c, k)
         == OverFolds(visits, folds[..|folds| - 1], n, c, k) + (if folds[|folds| - 1] < k then visits[|folds| - 1][c] as real else 0.0)
  {
    if k > 0 {
      OverFoldsStep(visits, folds, n, c, k - 1);
    }
  }

  /** Every speaker lands in one of the k folds, so the folds' totals of a class add up to its total. */
  lemma {:induction false} FoldTotals(visits: seq<seq<nat>>, folds: seq<nat>, n: nat, c: nat, k: nat)
    requires |folds| <= |visits| && Split.VisitsShaped(visits, n) && c < n
    requires forall i :: 0 <= i < |folds| ==> folds[i] < k
    ensures OverFolds(visits, folds, n, c, k) == VisitTotal(visits, n, c, |folds|)
    decreases |folds|
  {
    if |folds| == 0 {
      OverFoldsZero(visits, n, c, k);
    } else {
      var m := |folds| - 1;
      FoldTotals(visits, folds[..m], n, c, k);
      OverFoldsStep(visits, folds, n, c, k);
    }
  }

  // ---------------------------------------------------------------------------
  // Samples, folds and accuracy

  /** A sample's fold: its speaker's, or 0 when its speaker is unknown. */
  function SampleFolds(speakerOf: seq<Option<nat>>, speakerFold: seq<nat>): (fold: seq<nat>)
    ensures |fold| == |speakerOf|
    ensures forall i :: 0 <= i < |speakerOf| ==>
      fold[i] == (if speakerOf[i].Some? && speakerOf[i].value < |speakerFold| then speakerFold[speakerOf[i].value] else 0)
  {
    seq(|speakerOf|, i requires 0 <= i < |speakerOf| =>
      if speakerOf[i].Some? && speakerOf[i].value < |speakerFold| then speakerFold[speakerOf[i].value] else 0)
  }

  /** The fold loop's split of the first `m` samples: test is the fold, train is the rest. */
  function FoldSplit(fold: seq<nat>, f: nat, m: nat): (h: Split.Halves)
    requires m <= |fold|
    ensures |h.train| + |h.test| == m
    ensures forall a :: 0 <= a < |h.train| ==> h.train[a] < m
    ensures forall a :: 0 <= a < |h.test| ==> h.test[a] < m
    ensures forall x: nat :: x in h.test <==> x < m && fold[x] == f
    ensures forall x: nat :: x in h.train <==> x < m && fold[x] != f
    ensures Split.Increasing(h.train) && Split.Increasing(h.test)
  {
    if m == 0 then Split.Halves([], [])
    else
      var h := FoldSplit(fold, f, m - 1);
      if fold[m - 1] == f then Split.Halves(h.train, h.test + [m - 1])
      else Split.Halves(h.train + [m - 1], h.test)
  }

  /** Each sample is in the test set of exactly its own fold, and in the training set of every other. */
  lemma OwnTestFoldOnly(fold: seq<nat>, i: nat, f: nat, g: nat)
    requires i < |fold|
    ensures i in FoldSplit(fold, f, |fold|).test && i in FoldSplit(fold, g, |fold|).test ==> f == g
    ensures i in FoldSplit(fold, fold[i], |fold|).test
    ensures f != fold[i] ==> i in FoldSplit(fold, f, |fold|).train
  {
  }

  /**
   * The class `eval_accuracy` gives each sample: the first position of the
   * largest of its first `nClasses` outputs (0 when there are none).
   */
  function FirstMaxPredictions(outputs: seq<seq<real>>, nClasses: nat): (pred: seq<int>)
    requires forall i :: 0 <= i < |outputs| ==> |outputs[i]| >= nClasses
    ensures |pred| == |outputs|
    ensures forall i :: 0 <= i < |pred| ==> 0 <= pred[i] && (nClasses == 0 ==> pred[i] == 0) && (nClasses > 0 ==> pred[i] < nClasses)
    ensures forall i, c {:trigger outputs[i][c]} :: 0 <= i < |pred| && 0 <= c < nClasses ==> outputs[i][c] <= outputs[i][pred[i]]
    ensures forall i, c {:trigger outputs[i][c]} :: 0 <= i < |pred| && 0 <= c < pred[i] ==> outputs[i][c] < outputs[i][pred[i]]
  {
    seq(|outputs|, i requires 0 <= i < |outputs| => Metrics.Argmax(outputs[i][..nClasses]) as int)
  }

  /**
   * `eval_accuracy`: the share of samples whose first-maximum prediction is
   * their class, or 0 without samples.
   */
  function EvalAccuracy(outputs: seq<seq<real>>, classes: seq<int>, nClasses: nat): (a: real)
    requires |outputs| == |classes| && forall i :: 0 <= i < |outputs| ==> |outputs[i]| >= nClasses
    ensures 0.0 <= a <= 1.0
    ensures |outputs| == 0 ==> a == 0.0
    ensures |outputs| > 0 ==> a == Metrics.Correct(classes, FirstMaxPredictions(outputs, nClasses)) as real / |outputs| as real
    ensures a == 1.0 <==> |outputs| > 0 && forall i :: 0 <= i < |outputs| ==> Metrics.Argmax(outputs[i][..nClasses]) == classes[i]
  {
    var pred := FirstMaxPredictions(outputs, nClasses);
    var correct := Metrics.Correct(classes, pred);
    AllCorrect(outputs, classes, nClasses);
    Metrics.CountedBounds(classes, pred, nClasses);
    var a := Metrics.Accuracy(correct, |outputs|);
    if |outputs| > 0 then Metrics.AccuracyScale(a, correct, |outputs|); a else a
  }

  /** Every sample is predicted right exactly when the correct count is the number of samples. */
  lemma AllCorrect(outputs: seq<seq<real>>, classes: seq<int>, nClasses: nat)
    requires |outputs| == |classes| && forall i :: 0 <= i < |outputs| ==> |outputs[i]| >= nClasses
    ensures Metrics.Correct(classes, FirstMaxPredictions(outputs, nClasses)) == |outputs| <==>
      forall i :: 0 <= i < |outputs| ==> Metrics.Argmax(outputs[i][..nClasses]) == classes[i]
  {
    var pred := FirstMaxPredictions(outputs, nClasses);
    assert forall i :: 0 <= i < |outputs| ==> pred[i] == Metrics.Argmax(outputs[i][..nClasses]);
    Metrics.CorrectAll(classes, pred);
  }

  /** Mean and spread of the fold accuracies, the variance clamped at 0 before the root. */
  datatype MeanStd = MeanStd(mean: real, std: real)

  function AccuracySummary(m: Math, accs: seq<real>, k: nat): (s: MeanStd)
    requires SqrtFacts(m) && k > 0 && |accs| == k
    ensures s.std >= 0.0
    ensures s.mean == Sum(accs) / k as real
    ensures (forall f :: 0 <= f < k ==> 0.0 <= accs[f] <= 1.0) ==> 0.0 <= s.mean <= 1.0
  {
    var mean := Sum(accs) / k as real;
    var v := SumSq(accs) / k as real - mean * mean;
    var clamped := if v < 0.0 then 0.0 else v;
    BoundedMean(accs, k);
    MeanStd(mean, m.sqrt(clamped))
  }

  lemma BoundedMean(accs: seq<real>, k: nat)
    requires k > 0 && |accs| == k
    ensures (forall f :: 0 <= f < k ==> 0.0 <= accs[f] <= 1.0) ==> 0.0 <= Sum(accs) / k as real <= 1.0
  {
    if forall f :: 0 <= f < k ==> 0.0 <= accs[f] <= 1.0 {
      SumBounds(accs, 0.0, 1.0);
      DivBounds(Sum(accs), k as real, 0.0, 1.0);
    }
  }

  /** Equal accuracies in every fold have no spread. */
  lemma ConstantAccuracy(m: Math, a: real, k: nat)
    requires SqrtFacts(m) && k > 0
    ensures AccuracySummary(m, seq(k, f requires 0 <= f < k => a), k) == MeanStd(a, 0.0)
  {
    var accs := seq(k, f requires 0 <= f < k => a);
    SumConst(accs, a);
    SumSqConst(accs, a);
    SummaryOfConstant(m, accs, a, k);
  }

  lemma SummaryOfConstant(m: Math, accs: seq<real>, a: real, k: nat)
    requires SqrtFacts(m) && k > 0 && |accs| == k
    requires Sum(accs) == k as real * a && SumSq(accs) == k as real * (a * a)
    ensures AccuracySummary(m, accs, k) == MeanStd(a, 0.0)
  {
    var kr := k as real;
    MulDivCancel(kr, a);
    MulDivCancel(kr, a * a);
    var mean := Sum(accs) / kr;
    assert mean == a;
    var sq := SumSq(accs) / kr;
    assert sq == a * a;
    var v := sq - mean * mean;
    assert v == 0.0;
    assert m.sqrt(0.0) == 0.0;
  }

  lemma {:induction false} SumSqConst(s: seq<real>, c: real)
    requires forall i :: 0 <= i < |s| ==> s[i] == c
    ensures SumSq(s) == |s| as real * (c * c)
  {
    if |s| > 0 {
      SumSqConst(s[..|s| - 1], c);
    }
  }
}

=== FILE: csv.dfy ===
/**
 * The minimal CSV reader of src/csv.c. A line is the text before its
 * terminating NUL, so it holds no NUL character; the allocation failures of
 * the C code (a silently dropped character, a truncated row) are not modelled.
 */
module Csv {
  import opened Wrappers
  import opened Text

  /** A character that ends an unquoted field. */
  predicate IsSeparator(c: char) {
    c == ',' || c == '\r' || c == '\n'
  }

  /** No character of `s` would end an unquoted field. */
  predicate NoSeparator(s: string) {
    forall i :: 0 <= i < |s| ==> !IsSeparator(s[i])
  }

  /** Neither a quote, a carriage return nor a line feed. */
  predicate PlainChar(c: char) {
    c != '"' && c != '\r' && c != '\n'
  }

  /** Text with no quote, carriage return or line feed. */
  predicate Plain(s: string) {
    forall i :: 0 <= i < |s| ==> PlainChar(s[i])
  }

  /** One field read from the front of a line, and the text after its terminator. */
  datatype Scanned = Scanned(field: string, rest: string)

  function Push(c: char, r: Scanned): Scanned {
    Scanned([c] + r.field, r.rest)
  }

  /**
   * The inner loop of `csv_split_line`. Inside quotes `""` yields one quote and
   * a lone quote leaves quoted mode; outside quotes a comma, CR or LF is
   * consumed and ends the field, and every other character is kept.
   */
  function Scan(s: string, inQuotes: bool): (r: Scanned)
    ensures |r.rest| <= |s| && (|s| > 0 ==> |r.rest| < |s|)
    decreases |s|
  {
    if |s| == 0 then Scanned("", "")
    else if inQuotes then
      if s[0] == '"' then
        if |s| > 1 && s[1] == '"' then Push('"', Scan(s[2..], true))
        else Scan(s[1..], false)
      else Push(s[0], Scan(s[1..], true))
    else if IsSeparator(s[0]) then Scanned("", s[1..])
    else Push(s[0], Scan(s[1..], false))
  }

  /**
   * Outside quotes a field is the longest separator-free prefix; the text
   * after it is empty, or starts just past the separator that ended it.
   */
  lemma {:induction false} ScanUnquotedSpec(s: string)
    ensures var r := Scan(s, false);
      && |r.field| <= |s| && r.field == s[..|r.field|] && NoSeparator(r.field)
      && ((|r.field| == |s| && r.rest == [])
          || (|r.field| < |s| && IsSeparator(s[|r.field|]) && r.rest == s[|r.field| + 1..]))
    decreases |s|
  {
    if |s| > 0 && !IsSeparator(s[0]) {
      var t := Scan(s[1..], false);
      ScanUnquotedSpec(s[1..]);
      assert Scan(s, false) == Push(s[0], t);
      assert s[1..][..|t.field|] == s[1..|t.field| + 1];
      assert s[..|t.field| + 1] == [s[0]] + s[1..|t.field| + 1];
      if |t.field| < |s[1..]| {
        assert s[1..][|t.field|] == s[|t.field| + 1];
        assert s[1..][|t.field| + 1..] == s[|t.field| + 2..];
      }
    }
  }

  /** The field starting at the front of a non-empty line: a leading quote enters quoted mode. */
  function FirstField(s: string): (r: Scanned)
    requires |s| > 0
    ensures |r.rest| < |s|
  {
    if s[0] == '"' then Scan(s[1..], true) else Scan(s, false)
  }

  /**
   * `csv_split_line`: an empty line has no field; otherwise fields are read
   * until the text is used up, so a terminator at the very end opens no
   * further field.
   */
  function SplitLine(line: string): (fields: seq<string>)
    ensures |line| == 0 <==> |fields| == 0
    ensures |fields| <= |line|
    decreases |line|
  {
    if |line| == 0 then []
    else
      var first := FirstField(line);
      [first.field] + (if first.rest == [] then [] else SplitLine(first.rest))
  }

  /** The record `csv_split_line` fills and `csv_free_row` clears; `None` is a null array. */
  datatype CsvRow = CsvRow(fields: Option<seq<string>>, count: nat)

  /** `csv_split_line` on a possibly null line: a null line reads like an empty one. */
  function SplitToRow(line: Option<string>): (row: CsvRow)
    ensures row.fields.Some? && row.count == |row.fields.value|
    ensures (line.None? || line.value == []) ==> row.count == 0
    ensures line.Some? ==> row.fields.value == SplitLine(line.value)
  {
    var fields := if line.None? then [] else SplitLine(line.value);
    CsvRow(Some(fields), |fields|)
  }

  /** `csv_free_row`: a null row, or one without a field array, is left alone. */
  function FreeRow(row: Option<CsvRow>): (r: Option<CsvRow>)
    ensures r.None? <==> row.None?
    ensures row.Some? && row.value.fields.Some? ==> r.value.fields.None? && r.value.count == 0
    ensures row.Some? && row.value.fields.None? ==> r == row
  {
    match row
    case None => None
    case Some(x) => if x.fields.None? then row else Some(CsvRow(None, 0))
  }

  /** Freeing a split row always leaves it empty, and freeing twice changes nothing more. */
  lemma FreeSplitRow(line: Option<string>)
    ensures FreeRow(Some(SplitToRow(line))) == Some(CsvRow(None, 0))
    ensures FreeRow(FreeRow(Some(SplitToRow(line)))) == FreeRow(Some(SplitToRow(line)))
  {
  }

  // ---------------------------------------------------------------------------
  // Unquoted lines

  /** An unquoted field with no separator, then a comma and more text. */
  lemma {:induction false} ScanUnquoted(f: string, t: string)
    requires NoSeparator(f)
    ensures Scan(f + [','] + t, false) == Scanned(f, t)
    ensures Scan(f, false) == Scanned(f, [])
    decreases |f|
  {
    if |f| > 0 {
      var s := f + [','] + t;
      assert s[0] == f[0] && s[1..] == f[1..] + [','] + t;
      ScanUnquoted(f[1..], t);
      assert [f[0]] + f[1..] == f;
    } else {
      assert f + [','] + t == [','] + t;
    }
  }

  lemma JoinCons(f: string, parts: seq<string>, sep: char)
    requires |parts| > 0
    ensures Join([f] + parts, sep) == f + [sep] + Join(parts, sep)
  {
    assert ([f] + parts)[1..] == parts;
  }

  lemma JoinNotEmpty(parts: seq<string>, sep: char)
    requires |parts| > 0 && |parts[|parts| - 1]| > 0
    ensures |Join(parts, sep)| > 0
    decreases |parts|
  {
    if |parts| > 1 {
      JoinNotEmpty(parts[1..], sep);
    }
  }

  /**
   * Splitting a line without quotes, CR or LF that does not end in a comma,
   * then joining the fields with commas, gives back the line; every field is
   * free of separators.
   */
  lemma {:induction false} JoinSplitPlain(line: string)
    requires Plain(line) && |line| > 0 && line[|line| - 1] != ','
    ensures Join(SplitLine(line), ',') == line
    ensures forall i :: 0 <= i < |SplitLine(line)| ==> NoSeparator(SplitLine(line)[i])
    decreases |line|
  {
    ScanUnquotedSpec(line);
    var first := Scan(line, false);
    assert PlainChar(line[0]);
    assert FirstField(line) == first;
    var k := |first.field|;
    if first.rest == [] {
      assert SplitLine(line) == [first.field];
      assert first.field == line;
    } else {
      var rest := line[k + 1..];
      assert first.rest == rest;
      assert line == first.field + [','] + rest by {
        assert PlainChar(line[k]);
      }
      PlainSuffix(line, k + 1);
      assert rest[|rest| - 1] == line[|line| - 1];
      JoinSplitPlain(rest);
      assert SplitLine(line) == [first.field] + SplitLine(rest);
      JoinCons(first.field, SplitLine(rest), ',');
    }
  }

  lemma PlainSuffix(s: string, k: nat)
    requires Plain(s) && k <= |s|
    ensures Plain(s[k..])
  {
    forall i | 0 <= i < |s| - k
      ensures PlainChar(s[k..][i])
    {
      assert s[k..][i] == s[k + i];
    }
  }

  /**
   * Fields without quotes or separators, the last one non-empty, survive
   * being joined with commas and split again; empty fields in between come
   * back as empty fields.
   */
  lemma {:induction false} SplitJoinPlain(fields: seq<string>)
    requires |fields| > 0 && |fields[|fields| - 1]| > 0
    requires forall i :: 0 <= i < |fields| ==> NoSeparator(fields[i]) && '"' !in fields[i]
    ensures SplitLine(Join(fields, ',')) == fields
    decreases |fields|
  {
    var f := fields[0];
    if |fields| == 1 {
      ScanUnquoted(f, []);
      assert f[0] != '"' by { assert f[0] in f; }
    } else {
      var rest := fields[1..];
      var j := Join(rest, ',');
      assert fields == [f] + rest;
      JoinCons(f, rest, ',');
      var s := f + [','] + j;
      assert Join(fields, ',') == s;
      assert s[0] != '"' by {
        if |f| > 0 { assert s[0] == f[0] && f[0] in f; }
      }
      ScanUnquoted(f, j);
      JoinNotEmpty(rest, ',');
      SplitJoinPlain(rest);
    }
  }

  lemma {:induction false} ScanToSeparator(f: string, c: char, t: string)
    requires NoSeparator(f) && IsSeparator(c)
    ensures Scan(f + [c] + t, false) == Scanned(f, t)
    decreases |f|
  {
    if |f| > 0 {
      var s := f + [c] + t;
      assert s[0] == f[0] && s[1..] == f[1..] + [c] + t;
      ScanToSeparator(f[1..], c, t);
      assert [f[0]] + f[1..] == f;
    } else {
      assert f + [c] + t == [c] + t;
    }
  }

  /**
   * A written line, its fields joined with commas and ended by a line feed,
   * splits back into its fields, empty ones included.
   */
  lemma {:induction false} SplitWrittenLine(fields: seq<string>)
    requires |fields| > 0
    requires forall i :: 0 <= i < |fields| ==> NoSeparator(fields[i]) && '"' !in fields[i]
    ensures SplitLine(Join(fields, ',') + "\n") == fields
    decreases |fields|
  {
    var f := fields[0];
    if |fields| == 1 {
      if |f| > 0 {
        assert f[0] in f;
      }
      ScanToSeparator(f, '\n', []);
      assert Join(fields, ',') + "\n" == f + ['\n'] + [];
    } else {
      var rest := fields[1..];
      var j := Join(rest, ',') + "\n";
      assert fields == [f] + rest;
      JoinCons(f, rest, ',');
      var s := f + [','] + j;
      assert Join(fields, ',') + "\n" == s;
      assert s[0] != '"' by {
        if |f| > 0 { assert s[0] == f[0] && f[0] in f; }
      }
      ScanToSeparator(f, ',', j);
      SplitWrittenLine(rest);
    }
  }

  /**
   * A trailing comma opens no empty field: it reads like the same line
   * without it.
   */
  lemma {:induction false} TrailingComma(line: string)
    requires Plain(line) && |line| > 0 && line[|line| - 1] != ','
    ensures SplitLine(line + [',']) == SplitLine(line)
    decreases |line|
  {
    ScanUnquotedSpec(line);
    var first := Scan(line, false);
    var k := |first.field|;
    var s := line + [','];
    assert s[0] == line[0] && PlainChar(line[0]);
    assert FirstField(line) == first;
    if first.rest == [] {
      assert first.field == line;
      ScanUnquoted(line, []);
      assert s == line + [','] + [];
    } else {
      var rest := line[k + 1..];
      assert first.rest == rest;
      assert line == first.field + [','] + rest by {
        assert PlainChar(line[k]);
      }
      assert s == first.field + [','] + (rest + [',']);
      ScanUnquoted(first.field, rest + [',']);
      PlainSuffix(line, k + 1);
      assert rest[|rest| - 1] == line[|line| - 1];
      TrailingComma(rest);
    }
  }

  /** An unquoted CR or LF ends a field, so a CRLF line ending leaves one empty field behind. */
  lemma CrLfEnding()
    ensures SplitLine("a\r\n") == ["a", ""]
  {
    assert Scan("\n", false) == Scanned("", "");
    assert Scan("\r\n", false) == Scanned("", "\n");
    assert Scan("a\r\n", false) == Scanned("a", "\n");
    assert SplitLine("\n") == [""];
  }

  /** Consecutive commas give empty fields. */
  lemma EmptyFields()
    ensures SplitLine(",,x") == ["", "", "x"]
  {
    SplitJoinPlain(["", "", "x"]);
    assert Join(["", "", "x"], ',') == ",,x";
  }

  // ---------------------------------------------------------------------------
  // Quoted fields

  /** The body of a quoted field as a writer would produce it: every quote doubled. */
  function Escape(c: string): (e: string)
    ensures |e| >= |c|
  {
    if |c| == 0 then ""
    else (if c[0] == '"' then "\"\"" else [c[0]]) + Escape(c[1..])
  }

  function Quote(c: string): string {
    "\"" + Escape(c) + "\""
  }

  function QuoteAll(fields: seq<string>): (q: seq<string>)
    ensures |q| == |fields| && forall i :: 0 <= i < |q| ==> q[i] == Quote(fields[i])
  {
    if |fields| == 0 then [] else [Quote(fields[0])] + QuoteAll(fields[1..])
  }

  /**
   * Inside quotes, commas, CR and LF are kept and `""` becomes `"`; after the
   * closing quote the field goes on unquoted, so any later characters up to
   * a separator are appended.
   */
  lemma {:induction false} ScanEscaped(c: string, t: string)
    requires |t| == 0 || t[0] != '"'
    ensures Scan(Escape(c) + ['"'] + t, true)
         == Scanned(c + Scan(t, false).field, Scan(t, false).rest)
    decreases |c|
  {
    if |c| == 0 {
      var s := Escape(c) + ['"'] + t;
      assert s == ['"'] + t && s[1..] == t;
    } else {
      ScanEscapedStep(c, t);
      ScanEscaped(c[1..], t);
      assert c == [c[0]] + c[1..];
      ConsAppend(c[0], c[1..], Scan(t, false).field, c);
    }
  }

  /** One character of a quoted body: a doubled quote or a plain character. */
  lemma ScanEscapedStep(c: string, t: string)
    requires |c| > 0
    ensures Scan(Escape(c) + ['"'] + t, true) == Push(c[0], Scan(Escape(c[1..]) + ['"'] + t, true))
  {
    var s := Escape(c) + ['"'] + t;
    var tail := Escape(c[1..]) + ['"'] + t;
    if c[0] == '"' {
      assert s == "\"\"" + tail;
      assert s[2..] == tail;
    } else {
      assert s == [c[0]] + tail;
      assert s[1..] == tail;
    }
  }

  lemma ConsAppend(x: char, a: string, b: string, whole: string)
    requires whole == [x] + a
    ensures [x] + (a + b) == whole + b
  {
  }

  /** A line of quoted fields, however they are written, splits back into the fields. */
  lemma {:induction false} SplitJoinQuoted(fields: seq<string>)
    requires |fields| > 0
    ensures SplitLine(Join(QuoteAll(fields), ',')) == fields
    decreases |fields|
  {
    var f := fields[0];
    var s := Join(QuoteAll(fields), ',');
    if |fields| == 1 {
      assert s == Quote(f);
      QuotedLast(f);
      SplitFirst(s, f, []);
    } else {
      var q := QuoteAll(fields[1..]);
      var j := Join(q, ',');
      assert QuoteAll(fields) == [Quote(f)] + q;
      JoinCons(Quote(f), q, ',');
      assert s == Quote(f) + [','] + j;
      assert |j| > 0 by {
        JoinNotEmpty(q, ',');
      }
      QuotedThenMore(f, j);
      SplitFirst(s, f, j);
      SplitJoinQuoted(fields[1..]);
      assert fields == [f] + fields[1..];
    }
  }

  /** The fields of a line are its first field and then the fields of what follows. */
  lemma SplitFirst(s: string, f: string, rest: string)
    requires |s| > 0 && FirstField(s) == Scanned(f, rest)
    ensures SplitLine(s) == [f] + (if rest == [] then [] else SplitLine(rest))
  {
  }

  /** A quoted field alone on the line is the line's only field. */
  lemma QuotedLast(f: string)
    ensures FirstField(Quote(f)) == Scanned(f, [])
  {
    var s := Quote(f);
    assert s[1..] == Escape(f) + ['"'] + [];
    ScanEscaped(f, []);
    assert Scan([], false) == Scanned("", "");
  }

  /** A quoted field, a comma and more text: the field, then the text. */
  lemma QuotedThenMore(f: string, j: string)
    ensures FirstField(Quote(f) + [','] + j) == Scanned(f, j)
  {
    var s := Quote(f) + [','] + j;
    assert s[1..] == Escape(f) + ['"'] + ([','] + j);
    ScanEscaped(f, [','] + j);
    assert Scan([','] + j, false) == Scanned("", j);
  }
}

=== FILE: dataset.dfy ===
/**
 * The dataset helpers that split_normalize.c and cross_validate.c each carry
 * as identical static functions: column lookup, the class list, the speaker
 * key of a sample, the seeded shuffle, the per-speaker class counts and the
 * z-score statistics of the training rows.
 */
module Dataset {
  import opened Wrappers
  import opened Text
  import opened Numerics

  // ---------------------------------------------------------------------------
  // Lookup

  /** `header_index`: the first column whose name matches ignoring case, or -1. */
  function HeaderIndex(fields: seq<string>, name: string): (r: int)
    ensures -1 <= r < |fields|
    ensures r >= 0 ==> EqualsIgnoreCase(fields[r], name)
    ensures r >= 0 ==> forall j :: 0 <= j < r ==> !EqualsIgnoreCase(fields[j], name)
    ensures r == -1 <==> forall j :: 0 <= j < |fields| ==> !EqualsIgnoreCase(fields[j], name)
  {
    if |fields| == 0 then -1
    else if EqualsIgnoreCase(fields[0], name) then 0
    else
      var r := HeaderIndex(fields[1..], name);
      if r < 0 then -1 else r + 1
  }

  /** The first position of `x`, as `class_index`, `speaker_index` and `metadata_speaker` search. */
  function IndexOf<T(==)>(s: seq<T>, x: T): (r: Option<nat>)
    ensures r.None? <==> x !in s
    ensures r.Some? ==> r.value < |s| && s[r.value] == x && x !in s[..r.value]
  {
    if |s| == 0 then None
    else if s[0] == x then Some(0)
    else match IndexOf(s[1..], x)
      case None => None
      case Some(i) => assert s[1..][..i] == s[1..i + 1]; Some(i + 1)
  }

  /** Looking up an element present in a prefix is not affected by what follows. */
  lemma {:induction false} IndexOfPrefix<T>(s: seq<T>, t: seq<T>, x: T)
    requires x in s
    ensures IndexOf(s + t, x) == IndexOf(s, x)
  {
    var k := IndexOf(s, x).value;
    var u := s + t;
    assert u[k] == x;
    assert u[..k] == s[..k];
    IndexOfUnique(u, x, k);
  }

  /** The first position is the only one with the element and none before it. */
  lemma IndexOfUnique<T>(s: seq<T>, x: T, k: nat)
    requires k < |s| && s[k] == x && x !in s[..k]
    ensures IndexOf(s, x) == Some(k)
  {
  }

  predicate Distinct<T(==)>(s: seq<T>) {
    forall i, j :: 0 <= i < j < |s| ==> s[i] != s[j]
  }

  // ---------------------------------------------------------------------------
  // Class list

  /** A class list after an addition, and the position of the added name. */
  datatype Added = Added(list: seq<string>, index: nat)

  /**
   * `class_list_add`: a name already present is found where it first occurs;
   * a new one is appended. split_normalize.c returns the stored name,
   * cross_validate.c its index.
   */
  function ClassListAdd(list: seq<string>, name: string): (r: Added)
    ensures r.index < |r.list| && r.list[r.index] == name
    ensures name in list ==> r.list == list && IndexOf(list, name) == Some(r.index)
    ensures name !in list ==> r.list == list + [name] && r.index == |list|
  {
    match IndexOf(list, name)
    case Some(i) => Added(list, i)
    case None => Added(list + [name], |list|)
  }

  /** The class list after adding every name in turn. */
  function ClassListOf(labels: seq<string>): (list: seq<string>)
    ensures |list| <= |labels|
  {
    if |labels| == 0 then []
    else ClassListAdd(ClassListOf(labels[..|labels| - 1]), labels[|labels| - 1]).list
  }

  /** Every entry of `list` occurs in `labels`, and earlier entries occur first earlier. */
  predicate FirstSeenOrder(labels: seq<string>, list: seq<string>) {
    forall i, j :: 0 <= i < j < |list| ==>
      list[i] in labels && list[j] in labels
      && IndexOf(labels, list[i]).value < IndexOf(labels, list[j]).value
  }

  /**
   * The class list holds each name once, holds nothing else, and orders
   * the labels by where they first appear.
   */
  lemma ClassListOfSpec(labels: seq<string>)
    ensures Distinct(ClassListOf(labels))
    ensures forall x :: x in ClassListOf(labels) <==> x in labels
    ensures FirstSeenOrder(labels, ClassListOf(labels))
  {
    ClassListMembers(labels);
    ClassListOrder(labels);
  }

  lemma {:induction false} ClassListMembers(labels: seq<string>)
    ensures Distinct(ClassListOf(labels))
    ensures forall x :: x in ClassListOf(labels) <==> x in labels
    decreases |labels|
  {
    if |labels| > 0 {
      var init := labels[..|labels| - 1];
      ClassListMembers(init);
      assert labels == init + [labels[|labels| - 1]];
    }
  }

  lemma {:induction false} ClassListOrder(labels: seq<string>)
    ensures FirstSeenOrder(labels, ClassListOf(labels))
    decreases |labels|
  {
    if |labels| > 0 {
      var init := labels[..|labels| - 1];
      ClassListOrder(init);
      ClassListMembers(init);
      assert labels == init + [labels[|labels| - 1]];
      OrderStep(init, labels[|labels| - 1], ClassListOf(init));
    }
  }

  lemma OrderStep(init: seq<string>, x: string, before: seq<string>)
    requires forall y :: y in before <==> y in init
    requires FirstSeenOrder(init, before)
    ensures FirstSeenOrder(init + [x], ClassListAdd(before, x).list)
  {
    var labels := init + [x];
    var after := ClassListAdd(before, x).list;
    forall y | y in init
      ensures IndexOf(labels, y) == IndexOf(init, y)
    {
      IndexOfPrefix(init, [x], y);
    }
    if x !in before {
      IndexOfUnique(labels, x, |labels| - 1);
      forall i, j | 0 <= i < j < |after|
        ensures after[i] in labels && after[j] in labels
        ensures IndexOf(labels, after[i]).value < IndexOf(labels, after[j]).value
      {
        assert after[i] == before[i] && after[i] in init;
        if j < |before| {
          assert after[j] == before[j];
        }
      }
    }
  }

  // ---------------------------------------------------------------------------
  // Speakers

  /** `speaker_from_id`: the id up to its first `_`, or the whole id. */
  function SpeakerFromId(id: string): (speaker: string)
    ensures '_' !in speaker && IsPrefix(speaker, id)
    ensures |speaker| == |id| || id[|speaker|] == '_'
  {
    match FirstIndexOf(id, '_')
    case None => id
    case Some(k) => id[..k]
  }

  /** The speaker of an id written as `<speaker>_<rest>` is recovered. */
  lemma SpeakerOfPrefixed(speaker: string, rest: string)
    requires '_' !in speaker
    ensures SpeakerFromId(speaker + "_" + rest) == speaker
  {
    var id := speaker + "_" + rest;
    assert id[|speaker|] == '_';
    assert id[..|speaker|] == speaker;
  }

  /** An entry of metadata.csv: the id and its speaker, `None` for a missing or empty column. */
  datatype MetaEntry = MetaEntry(id: string, speaker: Option<string>)

  /**
   * One metadata row, given the `id` and `speaker_id` column positions: an
   * empty row or one too short for the id is skipped.
   */
  function MetaEntryOf(row: seq<string>, idIdx: nat, speakerIdx: int): (e: Option<MetaEntry>)
    ensures e.Some? <==> idIdx < |row|
    ensures e.Some? ==> e.value.id == row[idIdx]
    ensures e.Some? && e.value.speaker.Some? ==> 0 <= speakerIdx < |row| && e.value.speaker.value == row[speakerIdx] != ""
  {
    if |row| == 0 || idIdx >= |row| then None
    else
      var speaker := if 0 <= speakerIdx < |row| && row[speakerIdx] != "" then Some(row[speakerIdx]) else None;
      Some(MetaEntry(row[idIdx], speaker))
  }

  /** `metadata_speaker`: the speaker of the first entry with this id. */
  function MetadataSpeaker(meta: seq<MetaEntry>, id: string): (s: Option<string>)
    ensures s.Some? ==> exists i :: 0 <= i < |meta| && meta[i].id == id && meta[i].speaker == s
  {
    if |meta| == 0 then None
    else if meta[0].id == id then meta[0].speaker
    else MetadataSpeaker(meta[1..], id)
  }

  /** The speaker of a sample: its non-empty metadata speaker, else the id prefix. */
  function SampleSpeaker(meta: seq<MetaEntry>, id: string): (speaker: string)
    ensures speaker == SpeakerFromId(id) || (MetadataSpeaker(meta, id) == Some(speaker) && speaker != "")
    ensures MetadataSpeaker(meta, id).None? ==> speaker == SpeakerFromId(id)
  {
    match MetadataSpeaker(meta, id)
    case Some(s) => if s != "" then s else SpeakerFromId(id)
    case None => SpeakerFromId(id)
  }

  // ---------------------------------------------------------------------------
  // Shuffle

  /**
   * `shuffle_indices`: Fisher-Yates from the last position down, swapping
   * position i with `rand() % (i + 1)`. `rand(k)` stands for the value of the
   * k-th call after seeding, so any draw sequence is allowed.
   */
  method Shuffle(arr: seq<nat>, rand: nat -> nat) returns (r: seq<nat>)
    ensures |r| == |arr| && multiset(r) == multiset(arr)
    ensures |arr| < 2 ==> r == arr
  {
    r := arr;
    if |arr| < 2 {
      return;
    }
    var i := |arr| - 1;
    var k := 0;
    while i > 0
      invariant 0 <= i < |arr| && |r| == |arr|
      invariant multiset(r) == multiset(arr)
      decreases i
    {
      var j := rand(k) % (i + 1);
      r := Swap(r, i, j);
      i := i - 1;
      k := k + 1;
    }
  }

  function Swap(s: seq<nat>, i: nat, j: nat): (r: seq<nat>)
    requires i < |s| && j < |s|
    ensures |r| == |s| && multiset(r) == multiset(s)
    ensures r[i] == s[j] && r[j] == s[i]
    ensures forall k :: 0 <= k < |s| && k != i && k != j ==> r[k] == s[k]
  {
    s[i := s[j]][j := s[i]]
  }

  /** `0, 1, …, n-1`, the order array before shuffling. */
  function Range(n: nat): (r: seq<nat>)
    ensures |r| == n && forall i :: 0 <= i < n ==> r[i] == i
  {
    if n == 0 then [] else Range(n - 1) + [n - 1]
  }

  /** An order of `n` items: each of 0..n-1 exactly once. */
  predicate IsOrder(order: seq<nat>, n: nat) {
    |order| == n && Distinct(order) && forall i :: 0 <= i < n ==> order[i] < n
  }

  /** A shuffled `0..n-1` visits every position exactly once. */
  lemma ShuffledRangeIsOrder(order: seq<nat>, n: nat)
    requires multiset(order) == multiset(Range(n))
    ensures IsOrder(order, n)
  {
    assert |order| == n by {
      assert |multiset(order)| == |multiset(Range(n))|;
    }
    forall i | 0 <= i < n
      ensures order[i] < n
    {
      assert order[i] in multiset(order);
      assert order[i] in Range(n);
    }
    forall i, j | 0 <= i < j < n
      ensures order[i] != order[j]
    {
      if order[i] == order[j] {
        var v := order[i];
        MultisetCountTwo(order, i, j);
        assert multiset(Range(n))[v] >= 2;
        RangeCountOne(n, v);
      }
    }
  }

  lemma MultisetCountTwo(s: seq<nat>, i: nat, j: nat)
    requires i < j < |s| && s[i] == s[j]
    ensures multiset(s)[s[i]] >= 2
  {
    var v := s[i];
    assert s == s[..j] + [s[j]] + s[j + 1..];
    assert s[..j] == s[..i] + [s[i]] + s[i + 1..j];
    assert multiset(s) == multiset(s[..i]) + multiset{v} + multiset(s[i + 1..j]) + multiset{v} + multiset(s[j + 1..]);
  }

  lemma {:induction false} RangeCountOne(n: nat, v: nat)
    ensures multiset(Range(n))[v] <= 1
  {
    if n > 0 {
      RangeCountOne(n - 1, v);
      assert Range(n) == Range(n - 1) + [n - 1];
      if v == n - 1 {
        assert v !in Range(n - 1);
      }
    }
  }

  // ---------------------------------------------------------------------------
  // Speaker pool

  /** A sample as the pool sees it: its speaker and class index, negative when the class is unknown. */
  datatype Labelled = Labelled(speaker: string, cls: int)

  /** Speakers in first-seen order, with one class-count vector each. */
  datatype Pool = Pool(speakers: seq<string>, counts: seq<seq<nat>>)

  predicate PoolShaped(p: Pool, nClasses: nat) {
    |p.counts| == |p.speakers| && forall s :: 0 <= s < |p.counts| ==> |p.counts[s]| == nClasses
  }

  predicate ClassesBelow(samples: seq<Labelled>, nClasses: nat) {
    forall i :: 0 <= i < |samples| ==> samples[i].cls < nClasses
  }

  function Zeros(n: nat): (z: seq<nat>)
    ensures |z| == n && forall c :: 0 <= c < n ==> z[c] == 0
  {
    if n == 0 then [] else Zeros(n - 1) + [0]
  }

  /** One more sample of class `c`. */
  function Bump(v: seq<nat>, c: nat): (r: seq<nat>)
    requires c < |v|
    ensures |r| == |v| && r[c] == v[c] + 1
    ensures forall d :: 0 <= d < |v| && d != c ==> r[d] == v[d]
  {
    v[c := v[c] + 1]
  }

  /**
   * One step of the counting loop: a sample of unknown class is skipped,
   * a new speaker is added with zero counts, and the speaker's count for
   * the sample's class goes up by one.
   */
  function AddSample(p: Pool, nClasses: nat, x: Labelled): (r: Pool)
    requires PoolShaped(p, nClasses) && x.cls < nClasses
    ensures PoolShaped(r, nClasses)
    ensures x.cls >= 0 ==> x.speaker in r.speakers
    ensures x.cls < 0 ==> r == p
  {
    if x.cls < 0 then p
    else match IndexOf(p.speakers, x.speaker)
      case Some(i) => Pool(p.speakers, p.counts[i := Bump(p.counts[i], x.cls)])
      case None => Pool(p.speakers + [x.speaker], p.counts + [Bump(Zeros(nClasses), x.cls)])
  }

  /** The pool after the counting loop over all samples. */
  function BuildPool(samples: seq<Labelled>, nClasses: nat): (p: Pool)
    requires ClassesBelow(samples, nClasses)
    ensures PoolShaped(p, nClasses)
  {
    if |samples| == 0 then Pool([], [])
    else AddSample(BuildPool(samples[..|samples| - 1], nClasses), nClasses, samples[|samples| - 1])
  }

  /** `total_class[c]`: the samples of class `c`. */
  function ClassTotal(samples: seq<Labelled>, c: nat): nat {
    if |samples| == 0 then 0
    else ClassTotal(samples[..|samples| - 1], c) + (if samples[|samples| - 1].cls == c then 1 else 0)
  }

  /** The count for class `c`, summed over speakers. */
  function ColumnSum(counts: seq<seq<nat>>, c: nat): nat
    requires forall s :: 0 <= s < |counts| ==> c < |counts[s]|
  {
    if |counts| == 0 then 0 else ColumnSum(counts[..|counts| - 1], c) + counts[|counts| - 1][c]
  }

  lemma {:induction false} ColumnSumUpdate(counts: seq<seq<nat>>, i: nat, v: seq<nat>, c: nat)
    requires i < |counts| && forall s :: 0 <= s < |counts| ==> c < |counts[s]|
    requires c < |v|
    ensures ColumnSum(counts[i := v], c) == ColumnSum(counts, c) - counts[i][c] + v[c]
    decreases |counts|
  {
    var n := |counts|;
    var u := counts[i := v];
    if i < n - 1 {
      assert u[..n - 1] == counts[..n - 1][i := v];
      ColumnSumUpdate(counts[..n - 1], i, v, c);
    } else {
      assert u[..n - 1] == counts[..n - 1];
    }
  }

  lemma ColumnSumAppend(counts: seq<seq<nat>>, v: seq<nat>, c: nat)
    requires forall s :: 0 <= s < |counts| ==> c < |counts[s]|
    requires c < |v|
    ensures ColumnSum(counts + [v], c) == ColumnSum(counts, c) + v[c]
  {
    assert (counts + [v])[..|counts|] == counts;
  }

  /**
   * The pool's speakers are distinct, are exactly the speakers of samples
   * with a known class, and for every class the speakers' counts add up to
   * the class total.
   */
  lemma {:induction false} PoolSpec(samples: seq<Labelled>, nClasses: nat)
    requires ClassesBelow(samples, nClasses)
    ensures Distinct(BuildPool(samples, nClasses).speakers)
    ensures forall s :: s in BuildPool(samples, nClasses).speakers <==>
      exists i :: 0 <= i < |samples| && samples[i].cls >= 0 && samples[i].speaker == s
    ensures forall c :: 0 <= c < nClasses ==>
      ColumnSum(BuildPool(samples, nClasses).counts, c) == ClassTotal(samples, c)
    decreases |samples|
  {
    if |samples| > 0 {
      var n := |samples|;
      var init := samples[..n - 1];
      var x := samples[n - 1];
      var p := BuildPool(init, nClasses);
      PoolSpec(init, nClasses);
      forall s | s in BuildPool(samples, nClasses).speakers
        ensures exists i :: 0 <= i < n && samples[i].cls >= 0 && samples[i].speaker == s
      {
        if s in p.speakers {
          var i :| 0 <= i < n - 1 && init[i].cls >= 0 && init[i].speaker == s;
          assert samples[i] == init[i];
        } else {
          assert samples[n - 1].speaker == s;
        }
      }
      forall s | exists i :: 0 <= i < n && samples[i].cls >= 0 && samples[i].speaker == s
        ensures s in BuildPool(samples, nClasses).speakers
      {
        var i :| 0 <= i < n && samples[i].cls >= 0 && samples[i].speaker == s;
        if i < n - 1 {
          assert init[i] == samples[i];
          assert s in p.speakers;
        }
      }
      forall c | 0 <= c < nClasses
        ensures ColumnSum(BuildPool(samples, nClasses).counts, c) == ClassTotal(samples, c)
      {
        assert samples[..n - 1] == init;
        PoolStepSum(p, nClasses, x, c);
      }
    }
  }

  lemma PoolStepSum(p: Pool, nClasses: nat, x: Labelled, c: nat)
    requires PoolShaped(p, nClasses) && x.cls < nClasses && c < nClasses
    ensures ColumnSum(AddSample(p, nClasses, x).counts, c) == ColumnSum(p.counts, c) + (if x.cls == c then 1 else 0)
  {
    if x.cls >= 0 {
      match IndexOf(p.speakers, x.speaker)
      case Some(i) =>
        ColumnSumUpdate(p.counts, i, Bump(p.counts[i], x.cls), c);
      case None =>
        ColumnSumAppend(p.counts, Bump(Zeros(nClasses), x.cls), c);
    }
  }

  // ---------------------------------------------------------------------------
  // z-score statistics

  /** Feature `f` of every row. */
  function Column(rows: seq<seq<real>>, f: nat): (col: seq<real>)
    requires forall i :: 0 <= i < |rows| ==> f < |rows[i]|
    ensures |col| == |rows| && forall i :: 0 <= i < |rows| ==> col[i] == rows[i][f]
  {
    if |rows| == 0 then [] else Column(rows[..|rows| - 1], f) + [rows[|rows| - 1][f]]
  }

  predicate RowsOf(rows: seq<seq<real>>, dim: nat) {
    forall i :: 0 <= i < |rows| ==> |rows[i]| == dim
  }

  /** Per-feature training mean and standard deviation. */
  datatype Scaler = Scaler(mean: seq<real>, std: seq<real>)

  /**
   * `compute_mean_std` and the same code in split_normalize.c: the mean and
   * the population deviation of each feature over the training rows, a zero
   * deviation replaced by 1.
   */
  function ZScoreStats(m: Math, rows: seq<seq<real>>, dim: nat): (s: Scaler)
    requires Valid(m) && |rows| > 0 && RowsOf(rows, dim)
    ensures |s.mean| == dim && |s.std| == dim
    ensures forall f :: 0 <= f < dim ==> s.mean[f] == Sum(Column(rows, f)) / |rows| as real
    ensures forall f :: 0 <= f < dim ==> s.std[f] > 0.0
  {
    var n := |rows| as real;
    var mean := seq(dim, f requires 0 <= f < dim => Sum(Column(rows, f)) / n);
    var std := seq(dim, f requires 0 <= f < dim => StdOf(m, Column(rows, f), mean[f]));
    Scaler(mean, std)
  }

  /** One feature's deviation: sqrt of the mean squared deviation, or 1 when that is 0. */
  function StdOf(m: Math, col: seq<real>, mean: real): (sd: real)
    requires Valid(m) && |col| > 0
    ensures sd > 0.0
    ensures sd == 1.0 || sd == m.sqrt(SumSq(Deviations(col, mean)) / |col| as real)
  {
    var v := m.sqrt(SumSq(Deviations(col, mean)) / |col| as real);
    if v == 0.0 then 1.0 else v
  }

  /** A feature that never varies over the training rows gets deviation 1. */
  lemma ConstantFeatureStd(m: Math, col: seq<real>)
    requires Valid(m) && |col| > 0
    requires forall i :: 0 <= i < |col| ==> col[i] == col[0]
    ensures StdOf(m, col, col[0]) == 1.0
  {
    SumSqZero(Deviations(col, col[0]));
  }
}

=== FILE: dsp.dfy ===
/**
 * Windowing, the radix-2 FFT, magnitude spectra and the autocorrelation pitch
 * estimator of dsp.c.
 *
 * Bitwise operations on `size_t` are written arithmetically: `p << 1` is
 * `2 * p`, `n >> 1` is `n / 2`, `j & bit` for a power of two `bit` is
 * `(j / bit) % 2`, and `j ^= bit` / `j |= bit` subtract / add `bit` when the
 * bit is known to be set / clear.
 */
module Dsp {
  import opened Numerics
  import opened Wrappers

  // ---------------------------------------------------------------------------
  // Powers of two and next_pow2

  function Pow2(k: nat): (r: nat)
    ensures r >= 1
  {
    if k == 0 then 1 else 2 * Pow2(k - 1)
  }

  predicate IsPow2(n: nat)
    decreases n
  {
    n == 1 || (n > 1 && n % 2 == 0 && IsPow2(n / 2))
  }

  lemma {:induction false} Pow2IsPow2(k: nat)
    ensures IsPow2(Pow2(k))
  {
    if k > 0 {
      Pow2IsPow2(k - 1);
      assert Pow2(k) / 2 == Pow2(k - 1);
    }
  }

  /** Of two powers of two, the smaller is at most half the larger. */
  lemma {:induction false} Pow2Order(a: nat, b: nat)
    requires IsPow2(a) && IsPow2(b) && a < b
    ensures a <= b / 2
    decreases b
  {
    if a > b / 2 {
      assert b > 1 && a > 1;
      Pow2Order(a / 2, b / 2);
    }
  }

  function Grow(p: nat, n: nat): (r: nat)
    requires IsPow2(p) && (p == 1 || p / 2 < n)
    ensures IsPow2(r) && n <= r && (r == 1 || r / 2 < n)
    decreases n - p
  {
    if p < n then
      assert IsPow2((2 * p) / 2);
      Grow(2 * p, n)
    else p
  }

  /** `next_pow2`: doubles from 1 until the value reaches `n`. */
  function NextPow2(n: nat): (r: nat)
    ensures IsPow2(r) && n <= r
    ensures r == 1 || r / 2 < n
  {
    Grow(1, n)
  }

  /** No power of two at least `n` is smaller than `NextPow2(n)`. */
  lemma NextPow2Least(n: nat, q: nat)
    requires IsPow2(q) && n <= q
    ensures NextPow2(n) <= q
  {
    var r := NextPow2(n);
    if q < r {
      Pow2Order(q, r);
    }
  }

  lemma NextPow2OfZero()
    ensures NextPow2(0) == 1
  {}

  // ---------------------------------------------------------------------------
  // Hamming window

  /**
   * `hamming_window(n)`: 0.54 - 0.46 cos(2 pi i / (n - 1)). For n = 1 the C
   * code divides 0 by 0 and yields NaN; that case is excluded.
   */
  function HammingWindow(m: Math, n: nat): (w: seq<real>)
    requires Valid(m)
    requires n != 1
    ensures |w| == n
    ensures n > 1 ==> w[0] == 0.08 && w[n - 1] == 0.08
    ensures forall i :: 0 <= i < n ==> 0.08 <= w[i] <= 1.0
  {
    if n == 0 then []
    else
      var w := seq(n, i requires 0 <= i < n =>
                     0.54 - 0.46 * m.cos(2.0 * Pi * i as real / (n - 1) as real));
      assert 2.0 * Pi * 0 as real / (n - 1) as real == 0.0;
      DivSelf(2.0 * Pi, (n - 1) as real);
      w
  }

  lemma DivSelf(a: real, d: real)
    requires d != 0.0
    ensures a * d / d == a
  {
  }

  // ---------------------------------------------------------------------------
  // Bit reversal

  /** Reverses the low `bits` bits of `x`. */
  function Rev(x: nat, bits: nat): (r: nat)
    ensures r < Pow2(bits)
  {
    if bits == 0 then 0
    else (if x % 2 == 1 then Pow2(bits - 1) else 0) + Rev(x / 2, bits - 1)
  }

  lemma {:induction false} RevZero(bits: nat)
    ensures Rev(0, bits) == 0
  {
    if bits > 0 {
      RevZero(bits - 1);
    }
  }

  lemma DivModSplit(x: nat, m: nat)
    requires m > 0
    ensures (x % (2 * m)) % 2 == x % 2
    ensures (x % (2 * m)) / 2 == (x / 2) % m
    ensures x / (2 * m) == (x / 2) / m
  {
    var q, r := x / 2, x % 2;
    var a, c := q / m, q % m;
    assert x == 2 * m * a + (2 * c + r);
    assert 0 <= 2 * c + r < 2 * m;
    DivModUnique(x, 2 * m, a, 2 * c + r);
  }

  /** Moving the top bit of `x` to the bottom gives the same reversal. */
  lemma {:induction false} RevTop(x: nat, bits: nat)
    requires bits >= 1 && x < Pow2(bits)
    ensures Rev(x, bits) == 2 * Rev(x % Pow2(bits - 1), bits - 1) + x / Pow2(bits - 1)
  {
    if bits > 1 {
      var p, m := Pow2(bits - 1), Pow2(bits - 2);
      assert p == 2 * m;
      var y := x % p;
      var r1, r2, t := Rev(x / 2, bits - 1), Rev((x / 2) % m, bits - 2), (x / 2) / m;
      var top, half := (if x % 2 == 1 then p else 0), (if x % 2 == 1 then m else 0);
      assert Rev(x, bits) == top + r1;
      assert r1 == 2 * r2 + t by {
        HalfBelow(x, p);
        RevTop(x / 2, bits - 1);
      }
      assert y % 2 == x % 2 && y / 2 == (x / 2) % m && x / p == t by {
        DivModSplit(x, m);
      }
      assert Rev(y, bits - 1) == half + r2;
    }
  }

  lemma HalfBelow(x: nat, p: nat)
    requires x < 2 * p
    ensures x / 2 < p
  {
  }

  lemma {:induction false} RevInvolutive(x: nat, bits: nat)
    requires x < Pow2(bits)
    ensures Rev(Rev(x, bits), bits) == x
  {
    if bits > 0 {
      var h, low, b := Pow2(bits - 1), Rev(x / 2, bits - 1), x % 2;
      var y := Rev(x, bits);
      assert y % h == low && y / h == b by {
        assert y == (if b == 1 then h else 0) + low && low < h;
        if b == 1 {
          DivModUnique(y, h, 1, low);
        } else {
          DivModUnique(y, h, 0, low);
        }
      }
      assert Rev(y, bits) == 2 * Rev(low, bits - 1) + b by {
        RevTop(y, bits);
      }
      assert Rev(low, bits - 1) == x / 2 by {
        assert Pow2(bits) == 2 * h;
        HalfBelow(x, h);
        RevInvolutive(x / 2, bits - 1);
      }
    }
  }

  /** The update of `j` that follows each index in bit_reverse. */
  function RevInc(j: nat, bit: nat): nat
    decreases bit
  {
    if bit > 0 && (j / bit) % 2 == 1 then
      DivAtLeastOne(j, bit);
      RevInc(j - bit, bit / 2)
    else j + bit
  }

  lemma DivAtLeastOne(j: nat, bit: nat)
    requires bit > 0 && (j / bit) % 2 == 1
    ensures j >= bit
  {
    assert j == bit * (j / bit) + j % bit;
    assert bit * (j / bit) >= bit * 1;
  }

  lemma RevIncClear(low: nat, h: nat)
    requires low < h
    ensures RevInc(low, h) == low + h
  {
    DivModUnique(low, h, 0, low);
  }

  lemma RevIncSet(low: nat, h: nat)
    requires low < h
    ensures RevInc(h + low, h) == RevInc(low, h / 2)
  {
    DivModUnique(h + low, h, 1, low);
  }

  lemma RevEvenStep(i: nat, bits: nat)
    requires bits >= 1 && i % 2 == 0
    ensures Rev(i, bits) == Rev(i / 2, bits - 1)
    ensures Rev(i + 1, bits) == Pow2(bits - 1) + Rev(i / 2, bits - 1)
  {
    assert (i + 1) / 2 == i / 2;
  }

  lemma RevOddStep(i: nat, bits: nat)
    requires bits >= 2 && i % 2 == 1
    ensures Rev(i, bits) == Pow2(bits - 1) + Rev(i / 2, bits - 1)
    ensures Rev(i + 1, bits) == Rev(i / 2 + 1, bits - 1)
    ensures Pow2(bits - 1) / 2 == Pow2(bits - 2)
  {
    assert (i + 1) / 2 == i / 2 + 1;
  }

  /** Reversed-carry increment: the update turns Rev(i) into Rev(i + 1). */
  lemma {:induction false} RevIncStep(i: nat, bits: nat)
    requires bits >= 1 && i + 1 < Pow2(bits)
    ensures RevInc(Rev(i, bits), Pow2(bits - 1)) == Rev(i + 1, bits)
    decreases bits, 1
  {
    if i % 2 == 0 {
      var h, low := Pow2(bits - 1), Rev(i / 2, bits - 1);
      assert Rev(i, bits) == low && Rev(i + 1, bits) == h + low by {
        RevEvenStep(i, bits);
      }
      assert RevInc(low, h) == low + h by {
        RevIncClear(low, h);
      }
    } else {
      RevIncStepOdd(i, bits);
    }
  }

  /** The carry case of RevIncStep: an odd index passes its carry to the next bit. */
  lemma {:induction false} RevIncStepOdd(i: nat, bits: nat)
    requires bits >= 1 && i + 1 < Pow2(bits) && i % 2 == 1
    ensures RevInc(Rev(i, bits), Pow2(bits - 1)) == Rev(i + 1, bits)
    decreases bits, 0
  {
    var h, low := Pow2(bits - 1), Rev(i / 2, bits - 1);
    assert bits >= 2;
    assert Rev(i, bits) == h + low && Rev(i + 1, bits) == Rev(i / 2 + 1, bits - 1) && h / 2 == Pow2(bits - 2) by {
      RevOddStep(i, bits);
    }
    assert RevInc(h + low, h) == RevInc(low, h / 2) by {
      RevIncSet(low, h);
    }
    assert i / 2 + 1 < h by {
      assert Pow2(bits) == 2 * h;
      OddHalfBelow(i, h);
    }
    var k, b := i / 2, bits - 1;
    assert Pow2(b - 1) == Pow2(bits - 2);
    RevIncStep(k, b);
  }

  lemma OddHalfBelow(i: nat, h: nat)
    requires i % 2 == 1 && i + 1 < 2 * h
    ensures i / 2 + 1 < h
  {
    assert i == 2 * (i / 2) + 1;
  }

  /** The bit-reversal permutation of a power-of-two-length sequence. */
  function BitReversed<T>(a: seq<T>, bits: nat): (r: seq<T>)
    requires |a| == Pow2(bits)
    ensures |r| == |a|
  {
    seq(|a|, p requires 0 <= p < |a| => a[Rev(p, bits)])
  }

  lemma BitReversedTwice<T>(a: seq<T>, bits: nat)
    requires |a| == Pow2(bits)
    ensures BitReversed(BitReversed(a, bits), bits) == a
  {
    forall p | 0 <= p < |a|
      ensures BitReversed(BitReversed(a, bits), bits)[p] == a[p]
    {
      RevInvolutive(p, bits);
    }
  }

  ghost function Source(p: nat, i: nat, bits: nat): nat {
    var q := Rev(p, bits);
    if p < i || q < i then q else p
  }

  /** Finishing index `i` settles exactly the positions `i` and `Rev(i)`. */
  lemma SourceStep(p: nat, i: nat, bits: nat)
    requires p < Pow2(bits) && i < Pow2(bits)
    ensures Source(p, i + 1, bits) ==
            (if p == i || p == Rev(i, bits) then Rev(p, bits) else Source(p, i, bits))
  {
    RevInvolutive(p, bits);
    RevInvolutive(i, bits);
  }

  /** The inner `while` of bit_reverse followed by `j |= bit`. */
  method NextReversed(j: nat, n: nat) returns (j': nat)
    ensures j' == RevInc(j, n / 2)
  {
    j' := j;
    var bit: nat := n / 2;
    while bit > 0 && (j' / bit) % 2 == 1
      invariant RevInc(j', bit) == RevInc(j, n / 2)
      decreases bit
    {
      DivAtLeastOne(j', bit);
      j' := j' - bit;
      bit := bit / 2;
    }
    j' := j' + bit;
  }

  /** One `if (i < j)` swap of bit_reverse, on one array. */
  method SwapStep(cur: seq<real>, orig: seq<real>, i: nat, j: nat, ghost bits: nat) returns (next: seq<real>)
    requires |cur| == |orig| == Pow2(bits) && i < |cur| && j == Rev(i, bits)
    requires forall p :: 0 <= p < |cur| ==> cur[p] == orig[Source(p, i, bits)]
    requires multiset(cur) == multiset(orig)
    ensures |next| == |cur|
    ensures forall p :: 0 <= p < |next| ==> next[p] == orig[Source(p, i + 1, bits)]
    ensures multiset(next) == multiset(orig)
  {
    next := cur;
    if i < j {
      next := cur[i := cur[j]][j := cur[i]];
    }
    forall p | 0 <= p < |next|
      ensures next[p] == orig[Source(p, i + 1, bits)]
    {
      SourceStep(p, i, bits);
      RevInvolutive(i, bits);
    }
  }

  /**
   * `bit_reverse`: the in-place swap loop over both arrays, with the
   * reversed-carry update of `j`.
   */
  method BitReverse(re: seq<real>, im: seq<real>, ghost bits: nat) returns (re': seq<real>, im': seq<real>)
    requires |re| == |im| == Pow2(bits)
    ensures re' == BitReversed(re, bits) && im' == BitReversed(im, bits)
    ensures multiset(re') == multiset(re) && multiset(im') == multiset(im)
  {
    var n := |re|;
    re', im' := re, im;
    var j := 0;
    var i := 0;
    RevZero(bits);
    while i < n
      invariant 0 <= i <= n && |re'| == n && |im'| == n
      invariant i < n ==> j == Rev(i, bits)
      invariant forall p :: 0 <= p < n ==> re'[p] == re[Source(p, i, bits)]
      invariant forall p :: 0 <= p < n ==> im'[p] == im[Source(p, i, bits)]
      invariant multiset(re') == multiset(re) && multiset(im') == multiset(im)
    {
      re' := SwapStep(re', re, i, j, bits);
      im' := SwapStep(im', im, i, j, bits);
      j := NextReversed(j, n);
      if i + 1 < n {
        assert n / 2 == Pow2(bits - 1);
        RevIncStep(i, bits);
      }
      i := i + 1;
    }
    forall p | 0 <= p < n
      ensures re'[p] == BitReversed(re, bits)[p] && im'[p] == BitReversed(im, bits)[p]
    {
    }
  }

  // ---------------------------------------------------------------------------
  // Radix-2 FFT

  /** Real and imaginary parts of a complex sequence, kept as two arrays. */
  datatype Spectrum = Spectrum(re: seq<real>, im: seq<real>)

  /** Both parts vanish everywhere. */
  ghost predicate Silent(s: Spectrum) {
    && (forall k :: 0 <= k < |s.re| ==> s.re[k] == 0.0)
    && (forall k :: 0 <= k < |s.im| ==> s.im[k] == 0.0)
  }

  /** One butterfly on positions `u` < `v` with twiddle `w`. */
  function Butterfly(s: Spectrum, u: nat, v: nat, w: (real, real)): (r: Spectrum)
    requires |s.re| == |s.im| && u < v < |s.re|
    ensures |r.re| == |r.im| == |s.re|
  {
    var vr := s.re[v] * w.0 - s.im[v] * w.1;
    var vi := s.re[v] * w.1 + s.im[v] * w.0;
    Spectrum(s.re[u := s.re[u] + vr][v := s.re[u] - vr], s.im[u := s.im[u] + vi][v := s.im[u] - vi])
  }

  /** Complex product w * wl: the per-butterfly twiddle recurrence. */
  function NextTwiddle(w: (real, real), wl: (real, real)): (real, real) {
    (w.0 * wl.0 - w.1 * wl.1, w.0 * wl.1 + w.1 * wl.0)
  }

  /** The `j` loop of one block: butterflies with the twiddle recurrence. */
  function Butterflies(s: Spectrum, i: nat, half: nat, j: nat, w: (real, real), wl: (real, real)): (r: Spectrum)
    requires |s.re| == |s.im| && i + 2 * half <= |s.re|
    ensures |r.re| == |r.im| == |s.re|
    decreases half - j
  {
    if j >= half then s
    else Butterflies(Butterfly(s, i + j, i + j + half, w), i, half, j + 1, NextTwiddle(w, wl), wl)
  }

  lemma BlockFits(i: nat, len: nat, n: nat)
    requires len > 0 && i % len == 0 && n % len == 0 && i < n
    ensures i + len <= n
  {
    var a, c := i / len, n / len;
    DivModUnique(i, len, a, 0);
    DivModUnique(n, len, c, 0);
    assert len * a < len * c;
    if a + 1 > c {
      assert a >= c;
      MulMono(len, c, a);
    }
    MulMono(len, a + 1, c);
  }

  lemma NextBlock(i: nat, len: nat, n: nat)
    requires len > 0 && i % len == 0 && n % len == 0 && i < n
    ensures i + len <= n && (i + len) % len == 0
  {
    BlockFits(i, len, n);
    DivModUnique(i + len, len, i / len + 1, 0);
  }

  lemma {:induction false} Pow2Divides(len: nat, n: nat)
    requires IsPow2(len) && IsPow2(n) && len <= n
    ensures n % len == 0
    decreases n
  {
    if len < n {
      Pow2Order(len, n);
      Pow2Divides(len, n / 2);
      var q := (n / 2) / len;
      assert n / 2 == len * q;
      assert n == 2 * (n / 2);
      assert n == len * (2 * q);
      DivModUnique(n, len, 2 * q, 0);
    } else {
      DivModUnique(n, len, 1, 0);
    }
  }

  /** The `i` loop of one stage: one run of butterflies per block of `len`. */
  function Blocks(s: Spectrum, len: nat, i: nat, wl: (real, real)): (r: Spectrum)
    requires |s.re| == |s.im| && len >= 2 && len % 2 == 0
    requires i % len == 0 && |s.re| % len == 0
    ensures |r.re| == |r.im| == |s.re|
    decreases |s.re| - i
  {
    if i >= |s.re| then s
    else
      NextBlock(i, len, |s.re|);
      Blocks(Butterflies(s, i, len / 2, 0, (1.0, 0.0), wl), len, i + len, wl)
  }

  /** The `len` loop of `fft_inplace`: stages of width 2, 4, ..., n. */
  function Stages(m: Math, s: Spectrum, len: nat): (r: Spectrum)
    requires |s.re| == |s.im| && IsPow2(|s.re|) && IsPow2(len) && len >= 2
    ensures |r.re| == |r.im| == |s.re|
    decreases |s.re| - len
  {
    if len > |s.re| then s
    else
      Pow2Divides(len, |s.re|);
      assert IsPow2((2 * len) / 2);
      var ang := -2.0 * Pi / len as real;
      Stages(m, Blocks(s, len, 0, (m.cos(ang), m.sin(ang))), 2 * len)
  }

  /** Exponent of a power of two. */
  function Log2(n: nat): (k: nat)
    requires IsPow2(n)
    ensures Pow2(k) == n
    decreases n
  {
    if n == 1 then 0 else 1 + Log2(n / 2)
  }

  /**
   * `fft_real`: copies a real frame into the real part, zeroes the imaginary
   * part, bit-reverses both and runs the butterflies. For `n == 0` the C code
   * returns without touching its outputs, modelled as `None`.
   */
  function FftReal(m: Math, x: seq<real>): (r: Option<Spectrum>)
    requires |x| == 0 || IsPow2(|x|)
    ensures r.None? <==> |x| == 0
    ensures r.Some? ==> |r.value.re| == |r.value.im| == |x|
  {
    if |x| == 0 then None
    else
      var bits := Log2(|x|);
      var zero := seq(|x|, _ => 0.0);
      Pow2IsPow2(bits);
      Some(Stages(m, Spectrum(BitReversed(x, bits), BitReversed(zero, bits)), 2))
  }

  lemma ButterflySilent(s: Spectrum, u: nat, v: nat, w: (real, real))
    requires |s.re| == |s.im| && u < v < |s.re| && Silent(s)
    ensures Silent(Butterfly(s, u, v, w))
  {
    assert s.re[v] == 0.0 && s.im[v] == 0.0;
  }

  lemma {:induction false} ButterfliesSilent(s: Spectrum, i: nat, half: nat, j: nat, w: (real, real), wl: (real, real))
    requires |s.re| == |s.im| && i + 2 * half <= |s.re| && Silent(s)
    ensures Silent(Butterflies(s, i, half, j, w, wl))
    decreases half - j
  {
    if j < half {
      ButterflySilent(s, i + j, i + j + half, w);
      ButterfliesSilent(Butterfly(s, i + j, i + j + half, w), i, half, j + 1, NextTwiddle(w, wl), wl);
    }
  }

  lemma {:induction false} BlocksSilent(s: Spectrum, len: nat, i: nat, wl: (real, real))
    requires |s.re| == |s.im| && len >= 2 && len % 2 == 0
    requires i % len == 0 && |s.re| % len == 0 && Silent(s)
    ensures Silent(Blocks(s, len, i, wl))
    decreases |s.re| - i
  {
    if i < |s.re| {
      NextBlock(i, len, |s.re|);
      ButterfliesSilent(s, i, len / 2, 0, (1.0, 0.0), wl);
      BlocksSilent(Butterflies(s, i, len / 2, 0, (1.0, 0.0), wl), len, i + len, wl);
    }
  }

  lemma {:induction false} StagesSilent(m: Math, s: Spectrum, len: nat)
    requires |s.re| == |s.im| && IsPow2(|s.re|) && IsPow2(len) && len >= 2 && Silent(s)
    ensures Silent(Stages(m, s, len))
    decreases |s.re| - len
  {
    if len <= |s.re| {
      Pow2Divides(len, |s.re|);
      assert IsPow2((2 * len) / 2);
      var ang := -2.0 * Pi / len as real;
      BlocksSilent(s, len, 0, (m.cos(ang), m.sin(ang)));
      StagesSilent(m, Blocks(s, len, 0, (m.cos(ang), m.sin(ang))), 2 * len);
    }
  }

  /** A silent frame has an all-zero spectrum. */
  lemma FftRealOfSilence(m: Math, x: seq<real>)
    requires IsPow2(|x|)
    requires forall k :: 0 <= k < |x| ==> x[k] == 0.0
    ensures Silent(FftReal(m, x).value)
  {
    var bits := Log2(|x|);
    Pow2IsPow2(bits);
    var zero := seq(|x|, _ => 0.0);
    var s := Spectrum(BitReversed(x, bits), BitReversed(zero, bits));
    forall k | 0 <= k < |x|
      ensures s.re[k] == 0.0 && s.im[k] == 0.0
    {
      assert Rev(k, bits) < |x|;
    }
    StagesSilent(m, s, 2);
  }

  /**
   * `magnitude_spectrum`: |X[k]| for the n/2 + 1 non-negative-frequency
   * bins.
   */
  function Magnitude(m: Math, s: Spectrum, n: nat): (mag: seq<real>)
    requires Valid(m)
    requires n / 2 + 1 <= |s.re| && n / 2 + 1 <= |s.im|
    ensures |mag| == n / 2 + 1
    ensures forall k :: 0 <= k < |mag| ==> mag[k] >= 0.0
    ensures forall k :: 0 <= k < |mag| && s.re[k] == 0.0 && s.im[k] == 0.0 ==> mag[k] == 0.0
  {
    seq(n / 2 + 1, k requires 0 <= k < n / 2 + 1 => m.sqrt(s.re[k] * s.re[k] + s.im[k] * s.im[k]))
  }

  // ---------------------------------------------------------------------------
  // Autocorrelation pitch estimate

  /** Result of `compute_f0`: the return value and the `harmonicity` output. */
  datatype Pitch = Pitch(f0: real, harmonicity: real)

  /** Shortest lag searched: one period at 500 Hz. */
  function MinLag(sr: nat): nat {
    sr / 500
  }

  /** Longest lag searched: one period at 75 Hz, clamped to the frame. */
  function MaxLag(sr: nat, len: nat): (r: nat)
    requires len > 0
    ensures r < len && r <= sr / 75
    ensures r == sr / 75 || r == len - 1
  {
    if sr / 75 >= len then len - 1 else sr / 75
  }

  /** Unnormalised autocorrelation at `lag`: sum of x[i] * x[i + lag]. */
  function Autocorr(x: seq<real>, lag: nat): real
    requires lag < |x|
  {
    Sum(seq(|x| - lag, i requires 0 <= i < |x| - lag => x[i] * x[i + lag]))
  }

  function Normalized(x: seq<real>, lag: nat, energy: real): real
    requires lag < |x| && energy > 0.0
  {
    Autocorr(x, lag) / energy
  }

  /**
   * The lag loop: scans `lag..hi` and keeps the first lag whose normalised
   * autocorrelation strictly exceeds the best so far.
   */
  function BestLag(x: seq<real>, energy: real, lag: nat, hi: nat, best: (real, nat)): (r: (real, nat))
    requires energy > 0.0 && hi < |x|
    ensures r.0 >= best.0
    ensures r.0 == best.0 ==> r == best
    ensures forall l :: lag <= l <= hi ==> Normalized(x, l, energy) <= r.0
    ensures r.0 > best.0 ==>
              && lag <= r.1 <= hi
              && Normalized(x, r.1, energy) == r.0
              && forall l :: lag <= l < r.1 ==> Normalized(x, l, energy) < r.0
    decreases hi + 1 - lag
  {
    if lag > hi then best
    else
      var v := Normalized(x, lag, energy);
      BestLag(x, energy, lag + 1, hi, if v > best.0 then (v, lag) else best)
  }

  /**
   * `compute_f0`: the strongest normalised autocorrelation peak between
   * 75 Hz and 500 Hz; voiced when it exceeds 0.85 at a non-zero lag.
   */
  function ComputeF0(sr: nat, x: seq<real>): (r: Pitch)
    ensures |x| == 0 || SumSq(x) < 1.0e-6 ==> r == Pitch(0.0, 0.0)
    ensures r.f0 >= 0.0
  {
    if |x| == 0 then Pitch(0.0, 0.0)
    else
      var energy := SumSq(x);
      if energy < 1.0e-6 then Pitch(0.0, 0.0)
      else
        var best := BestLag(x, energy, MinLag(sr), MaxLag(sr, |x|), (-1.0, 0));
        if best.0 > 0.85 && best.1 > 0 then Pitch(sr as real / best.1 as real, best.0)
        else Pitch(0.0, best.0)
  }

  /**
   * On a frame with energy, the harmonicity is the largest normalised
   * autocorrelation over the searched lags, or -1 when no lag is searched.
   */
  lemma ComputeF0Peak(sr: nat, x: seq<real>)
    requires |x| > 0 && SumSq(x) >= 1.0e-6
    ensures forall l :: MinLag(sr) <= l <= MaxLag(sr, |x|) ==> Normalized(x, l, SumSq(x)) <= ComputeF0(sr, x).harmonicity
    ensures MinLag(sr) > MaxLag(sr, |x|) ==> ComputeF0(sr, x) == Pitch(0.0, -1.0)
  {
  }

  /**
   * A voiced estimate comes from a searched, non-zero lag whose normalised
   * autocorrelation exceeds 0.85; the estimate is one period of that lag.
   */
  lemma ComputeF0Voiced(sr: nat, x: seq<real>)
    requires |x| > 0 && SumSq(x) >= 1.0e-6
    requires ComputeF0(sr, x).f0 > 0.0
    ensures ComputeF0(sr, x).harmonicity > 0.85
    ensures exists l :: MinLag(sr) <= l <= MaxLag(sr, |x|) && l > 0
                        && Normalized(x, l, SumSq(x)) == ComputeF0(sr, x).harmonicity
                        && ComputeF0(sr, x).f0 == sr as real / l as real
  {
    var best := BestLag(x, SumSq(x), MinLag(sr), MaxLag(sr, |x|), (-1.0, 0));
    assert best.0 > 0.85 && best.1 > 0;
    assert ComputeF0(sr, x) == Pitch(sr as real / best.1 as real, best.0);
    var l := best.1;
    assert MinLag(sr) <= l <= MaxLag(sr, |x|) && l > 0
           && Normalized(x, l, SumSq(x)) == ComputeF0(sr, x).harmonicity
           && ComputeF0(sr, x).f0 == sr as real / l as real;
  }

  /** Conversely, a peak above 0.85 is voiced whenever the lag range excludes 0. */
  lemma ComputeF0VoicedWhenPeak(sr: nat, x: seq<real>)
    requires |x| > 0 && SumSq(x) >= 1.0e-6
    requires ComputeF0(sr, x).harmonicity > 0.85 && MinLag(sr) > 0
    ensures ComputeF0(sr, x).f0 > 0.0
  {
  }
}

=== FILE: dump_weights.dfy ===
/**
 * scripts/dump_fann_weights.py: the layer sizes of a FANN `.net` file, the
 * numbering of its neurons by layer, the connection windows of the neurons,
 * and the per-layer CSV tables of weights.
 *
 * The regular-expression scans that split the `neurons` and `connections`
 * blocks into tuples are not modelled: the neurons come as their
 * `num_inputs` values and the connections as (source, weight) pairs.
 */
module DumpWeights {
  import opened Wrappers
  import opened Text

  // ---------------------------------------------------------------------------
  // layer_sizes

  const SizesKey := "layer_sizes="

  /** A character of the `[0-9 ]` class. */
  predicate IsSizeChar(c: char) {
    IsDigit(c) || c == ' '
  }

  /** The longest prefix of size characters. */
  function SizeRun(s: string): (k: nat)
    ensures k <= |s| && forall i :: 0 <= i < k ==> IsSizeChar(s[i])
    ensures k < |s| ==> !IsSizeChar(s[k])
  {
    if |s| == 0 || !IsSizeChar(s[0]) then 0 else 1 + SizeRun(s[1..])
  }

  /**
   * The text the pattern `^layer_sizes=([0-9 ]+)` captures on one line: the
   * key at the start, then at least one size character.
   */
  function SizesField(line: string): (r: Option<string>)
    ensures r.Some? ==> |r.value| > 0 && forall i :: 0 <= i < |r.value| ==> IsSizeChar(r.value[i])
  {
    if IsPrefix(SizesKey, line) && |line| > |SizesKey| && IsSizeChar(line[|SizesKey|]) then
      var rest := line[|SizesKey|..];
      Some(rest[..SizeRun(rest)])
    else None
  }

  /** `str.split()` on a text of digits and spaces: its maximal digit runs. */
  function Words(s: string): (w: seq<string>)
    requires forall i :: 0 <= i < |s| ==> IsSizeChar(s[i])
    ensures forall j :: 0 <= j < |w| ==> |w[j]| > 0 && forall i :: 0 <= i < |w[j]| ==> IsDigit(w[j][i])
    decreases |s|
  {
    if |s| == 0 then []
    else if s[0] == ' ' then Words(s[1..])
    else
      var k := DigitRun(s);
      assert IsSizeChar(s[0]) && IsDigit(s[0]);
      assert k > 0;
      [s[..k]] + Words(s[k..])
  }

  function Values(words: seq<string>): (v: seq<nat>)
    requires forall j :: 0 <= j < |words| ==> forall i :: 0 <= i < |words[j]| ==> IsDigit(words[j][i])
    ensures |v| == |words| && forall j :: 0 <= j < |words| ==> v[j] == DigitsValue(words[j])
  {
    seq(|words|, j requires 0 <= j < |words| => DigitsValue(words[j]))
  }

  /**
   * `parse_layer_sizes` over the file's lines: the integers of the first line
   * the pattern matches, or None for the ValueError when no line does.
   */
  function ParseLayerSizes(lines: seq<string>): (r: Option<seq<nat>>)
    ensures r.None? <==> forall i :: 0 <= i < |lines| ==> SizesField(lines[i]).None?
    decreases |lines|
  {
    if |lines| == 0 then None
    else match SizesField(lines[0])
      case Some(f) => Some(Values(Words(f)))
      case None =>
        var r := ParseLayerSizes(lines[1..]);
        assert forall i :: 0 < i < |lines| ==> lines[i] == lines[1..][i - 1];
        r
  }

  /** A `layer_sizes=` line: each size in decimal followed by a space. */
  function SizesLine(sizes: seq<nat>): string {
    SizesKey + Spaced(sizes)
  }

  function Spaced(sizes: seq<nat>): (s: string)
    ensures forall i :: 0 <= i < |s| ==> IsSizeChar(s[i])
  {
    if |sizes| == 0 then "" else NatToString(sizes[0]) + " " + Spaced(sizes[1..])
  }

  lemma {:induction false} SizeRunAll(s: string)
    requires forall i :: 0 <= i < |s| ==> IsSizeChar(s[i])
    ensures SizeRun(s) == |s|
    decreases |s|
  {
    if |s| > 0 {
      SizeRunAll(s[1..]);
    }
  }

  /** A digit run ends at the first non-digit. */
  lemma {:induction false} DigitRunStops(d: string, t: string)
    requires forall i :: 0 <= i < |d| ==> IsDigit(d[i])
    requires |t| > 0 && !IsDigit(t[0])
    ensures DigitRun(d + t) == |d|
    decreases |d|
  {
    if |d| > 0 {
      assert (d + t)[1..] == d[1..] + t;
      DigitRunStops(d[1..], t);
    }
  }

  /** The words of a spaced list are the decimals of its sizes. */
  lemma {:induction false} WordsOfSpaced(sizes: seq<nat>)
    ensures Values(Words(Spaced(sizes))) == sizes
    decreases |sizes|
  {
    if |sizes| > 0 {
      var d := NatToString(sizes[0]);
      var rest := Spaced(sizes[1..]);
      WordsCons(d, rest);
      WordsOfSpaced(sizes[1..]);
      DigitsValueOfNatToString(sizes[0]);
      assert Values([d] + Words(rest)) == [DigitsValue(d)] + Values(Words(rest));
    }
  }

  /** A decimal then a space starts the words with that decimal. */
  lemma WordsCons(d: string, rest: string)
    requires |d| > 0 && forall i :: 0 <= i < |d| ==> IsDigit(d[i])
    requires forall i :: 0 <= i < |rest| ==> IsSizeChar(rest[i])
    ensures forall i :: 0 <= i < |d + " " + rest| ==> IsSizeChar((d + " " + rest)[i])
    ensures Words(d + " " + rest) == [d] + Words(rest)
  {
    var t := " " + rest;
    var s := d + " " + rest;
    assert s == d + t;
    DigitRunStops(d, t);
    assert s[0] == d[0] && IsDigit(s[0]);
    assert s[..|d|] == d && s[|d|..] == t;
    assert t[0] == ' ' && t[1..] == rest;
    assert Words(t) == Words(rest);
  }

  /** The sizes of the first `layer_sizes=` line read back as written. */
  lemma ParseWrittenSizes(before: seq<string>, sizes: seq<nat>, after: seq<string>)
    requires |sizes| > 0
    requires forall i :: 0 <= i < |before| ==> SizesField(before[i]).None?
    ensures ParseLayerSizes(before + [SizesLine(sizes)] + after) == Some(sizes)
  {
    var line := SizesLine(sizes);
    var sp := Spaced(sizes);
    assert line[..|SizesKey|] == SizesKey && line[|SizesKey|..] == sp;
    assert sp[0] == NatToString(sizes[0])[0];
    SizeRunAll(sp);
    assert sp[..|sp|] == sp;
    assert SizesField(line) == Some(sp);
    WordsOfSpaced(sizes);
    SkipUnmatched(before, [line] + after);
    assert before + [line] + after == before + ([line] + after);
  }

  lemma {:induction false} SkipUnmatched(before: seq<string>, rest: seq<string>)
    requires forall i :: 0 <= i < |before| ==> SizesField(before[i]).None?
    ensures ParseLayerSizes(before + rest) == ParseLayerSizes(rest)
    decreases |before|
  {
    if |before| > 0 {
      var lines := before + rest;
      assert lines[0] == before[0] && lines[1..] == before[1..] + rest;
      assert SizesField(lines[0]).None?;
      assert ParseLayerSizes(lines) == ParseLayerSizes(lines[1..]);
      SkipUnmatched(before[1..], rest);
    } else {
      assert before + rest == rest;
    }
  }

  // ---------------------------------------------------------------------------
  // build_mapping

  /** The sum of the sizes. */
  function Total(sizes: seq<nat>): nat {
    if |sizes| == 0 then 0 else Total(sizes[..|sizes| - 1]) + sizes[|sizes| - 1]
  }

  lemma TotalStep(sizes: seq<nat>, l: nat)
    requires l < |sizes|
    ensures Total(sizes[..l + 1]) == Total(sizes[..l]) + sizes[l]
  {
    assert sizes[..l + 1][..l] == sizes[..l];
  }

  lemma {:induction false} TotalMono(sizes: seq<nat>, a: nat, b: nat)
    requires a <= b <= |sizes|
    ensures Total(sizes[..a]) <= Total(sizes[..b])
    decreases b - a
  {
    if a < b {
      TotalStep(sizes, b - 1);
      TotalMono(sizes, a, b - 1);
    }
  }

  /** Global neuron `g` is neuron `local` of layer `layer`. */
  predicate Located(sizes: seq<nat>, offsets: seq<nat>, g: nat, at: (nat, nat))
    requires |offsets| == |sizes|
  {
    at.0 < |sizes| && at.1 < sizes[at.0] && offsets[at.0] + at.1 == g
  }

  /**
   * What `build_mapping` returns: the offsets are the prefix sums of the
   * sizes, and the mapping is defined exactly on the global indices, each
   * sent to the layer and local index it stands for.
   */
  ghost predicate IsMapping(sizes: seq<nat>, offsets: seq<nat>, mapping: map<nat, (nat, nat)>) {
    && |offsets| == |sizes|
    && (forall l :: 0 <= l < |sizes| ==> offsets[l] == Total(sizes[..l]))
    && (forall g: nat :: g in mapping <==> g < Total(sizes))
    && (forall g :: g in mapping ==> Located(sizes, offsets, g, mapping[g]))
  }

  method BuildMapping(sizes: seq<nat>) returns (offsets: seq<nat>, mapping: map<nat, (nat, nat)>)
    ensures IsMapping(sizes, offsets, mapping)
  {
    offsets := [];
    var current := 0;
    for l := 0 to |sizes|
      invariant |offsets| == l && current == Total(sizes[..l])
      invariant forall j :: 0 <= j < l ==> offsets[j] == Total(sizes[..j])
    {
      offsets := offsets + [current];
      TotalStep(sizes, l);
      current := current + sizes[l];
    }
    assert sizes[..|sizes|] == sizes;
    mapping := map[];
    for l := 0 to |sizes|
      invariant forall g: nat :: g in mapping <==> g < Total(sizes[..l])
      invariant forall g :: g in mapping ==> Located(sizes, offsets, g, mapping[g])
    {
      TotalStep(sizes, l);
      for i := 0 to sizes[l]
        invariant forall g: nat :: g in mapping <==> g < Total(sizes[..l]) + i
        invariant forall g :: g in mapping ==> Located(sizes, offsets, g, mapping[g])
      {
        mapping := mapping[offsets[l] + i := (l, i)];
      }
    }
  }

  /** The mapping is a bijection: every (layer, local) pair is the image of its offset plus local index. */
  lemma MappingHits(sizes: seq<nat>, offsets: seq<nat>, mapping: map<nat, (nat, nat)>, l: nat, i: nat)
    requires IsMapping(sizes, offsets, mapping) && l < |sizes| && i < sizes[l]
    ensures offsets[l] + i in mapping && mapping[offsets[l] + i] == (l, i)
  {
    var g := offsets[l] + i;
    TotalStep(sizes, l);
    TotalMono(sizes, l + 1, |sizes|);
    assert sizes[..|sizes|] == sizes;
    assert g in mapping;
    var at := mapping[g];
    if at.0 < l {
      TotalStep(sizes, at.0);
      TotalMono(sizes, at.0 + 1, l);
    } else if at.0 > l {
      TotalMono(sizes, l + 1, at.0);
    }
  }

  /** Distinct global indices stand for distinct neurons. */
  lemma MappingInjective(sizes: seq<nat>, offsets: seq<nat>, mapping: map<nat, (nat, nat)>, g: nat, h: nat)
    requires IsMapping(sizes, offsets, mapping) && g in mapping && h in mapping && mapping[g] == mapping[h]
    ensures g == h
  {
  }

  // ---------------------------------------------------------------------------
  // collect_weights

  datatype Connection = Connection(source: int, weight: real)

  /** One target neuron's row: its indices, its weights by source, and the sources outside the previous layer. */
  datatype Row = Row(targetGlobal: nat, targetLocal: nat, weights: seq<Option<real>>, extras: seq<Connection>)

  /** The connection comes from neuron `i` of layer `prev`. */
  predicate Hits(c: Connection, mapping: map<nat, (nat, nat)>, prev: nat, i: nat) {
    c.source >= 0 && c.source as nat in mapping && mapping[c.source as nat] == (prev, i)
  }

  /** The connection comes from some neuron of layer `prev`. */
  predicate FromLayer(c: Connection, mapping: map<nat, (nat, nat)>, prev: nat) {
    c.source >= 0 && c.source as nat in mapping && mapping[c.source as nat].0 == prev
  }

  predicate Bounded(mapping: map<nat, (nat, nat)>, prev: nat, size: nat) {
    forall g :: g in mapping && mapping[g].0 == prev ==> mapping[g].1 < size
  }

  /**
   * The inner loop over a window: weights from layer `prev` go to their
   * local slot, a later one overwriting an earlier; the others are extras.
   */
  function Place(window: seq<Connection>, mapping: map<nat, (nat, nat)>, prev: nat, size: nat): (r: (seq<Option<real>>, seq<Connection>))
    requires Bounded(mapping, prev, size)
    ensures |r.0| == size
    decreases |window|
  {
    if |window| == 0 then (seq(size, _ => None), [])
    else
      var n := |window| - 1;
      var before := Place(window[..n], mapping, prev, size);
      var c := window[n];
      if FromLayer(c, mapping, prev) then
        var i := mapping[c.source as nat].1;
        (before.0[i := Some(c.weight)], before.1)
      else (before.0, before.1 + [c])
  }

  /**
   * A slot is empty exactly when no connection of the window comes from its
   * neuron, and otherwise holds the weight of the last one that does; the
   * extras are the window's connections from outside the previous layer.
   */
  lemma {:induction false} PlaceSpec(window: seq<Connection>, mapping: map<nat, (nat, nat)>, prev: nat, size: nat)
    requires Bounded(mapping, prev, size)
    ensures forall i :: 0 <= i < size ==>
      (Place(window, mapping, prev, size).0[i].None? <==> forall j :: 0 <= j < |window| ==> !Hits(window[j], mapping, prev, i))
    ensures forall i :: 0 <= i < size && Place(window, mapping, prev, size).0[i].Some? ==>
      exists j :: 0 <= j < |window| && Hits(window[j], mapping, prev, i) && Place(window, mapping, prev, size).0[i] == Some(window[j].weight)
        && forall j' :: j < j' < |window| ==> !Hits(window[j'], mapping, prev, i)
    ensures forall c :: c in Place(window, mapping, prev, size).1 <==> c in window && !FromLayer(c, mapping, prev)
    decreases |window|
  {
    if |window| > 0 {
      var n := |window| - 1;
      PlaceSpec(window[..n], mapping, prev, size);
      var before := Place(window[..n], mapping, prev, size);
      var c := window[n];
      assert forall j :: 0 <= j < n ==> window[..n][j] == window[j];
      assert forall x :: x in window <==> x in window[..n] || x == c;
      var r := Place(window, mapping, prev, size);
      if FromLayer(c, mapping, prev) {
        var i := mapping[c.source as nat].1;
        assert Hits(c, mapping, prev, i);
        assert r == (before.0[i := Some(c.weight)], before.1);
        forall k | 0 <= k < size && r.0[k].Some?
          ensures exists j :: (0 <= j < |window| && Hits(window[j], mapping, prev, k) && r.0[k] == Some(window[j].weight)
            && forall j' :: j < j' < |window| ==> !Hits(window[j'], mapping, prev, k))
        {
          if k == i {
            assert Hits(window[n], mapping, prev, k);
          } else {
            var j :| 0 <= j < n && Hits(window[..n][j], mapping, prev, k) && before.0[k] == Some(window[..n][j].weight)
              && forall j' :: j < j' < n ==> !Hits(window[..n][j'], mapping, prev, k);
            assert Hits(window[j], mapping, prev, k);
          }
        }
      } else {
        assert r == (before.0, before.1 + [c]);
        forall k | 0 <= k < size && r.0[k].Some?
          ensures exists j :: (0 <= j < |window| && Hits(window[j], mapping, prev, k) && r.0[k] == Some(window[j].weight)
            && forall j' :: j < j' < |window| ==> !Hits(window[j'], mapping, prev, k))
        {
          var j :| 0 <= j < n && Hits(window[..n][j], mapping, prev, k) && before.0[k] == Some(window[..n][j].weight)
            && forall j' :: j < j' < n ==> !Hits(window[..n][j'], mapping, prev, k);
          assert Hits(window[j], mapping, prev, k);
        }
      }
    }
  }

  /** The sum of the `num_inputs` of the first `k` neurons: where neuron `k`'s window starts. */
  function Consumed(neurons: seq<nat>, k: nat): nat
    requires k <= |neurons|
  {
    Total(neurons[..k])
  }

  /**
   * Neuron `k` runs past the connections: it has inputs, is not in the input
   * layer, and its window would end beyond the list.
   */
  predicate Overruns(neurons: seq<nat>, conns: seq<Connection>, mapping: map<nat, (nat, nat)>, k: nat)
    requires k < |neurons|
  {
    neurons[k] > 0 && k in mapping && mapping[k].0 > 0 && Consumed(neurons, k + 1) > |conns|
  }

  function AddRow(acc: map<nat, seq<Row>>, layer: nat, row: Row): (r: map<nat, seq<Row>>)
    ensures r.Keys == acc.Keys + {layer}
  {
    acc[layer := (if layer in acc then acc[layer] else []) + [row]]
  }

  /** Rows whose targets sit in their layer and have one slot per neuron of the layer before. */
  ghost predicate ShapedRows(rows: map<nat, seq<Row>>, sizes: seq<nat>, mapping: map<nat, (nat, nat)>) {
    forall l :: l in rows ==> 0 < l < |sizes| && forall j :: 0 <= j < |rows[l]| ==>
      && rows[l][j].targetGlobal in mapping
      && mapping[rows[l][j].targetGlobal] == (l, rows[l][j].targetLocal)
      && |rows[l][j].weights| == sizes[l - 1]
  }

  lemma AddRowShape(acc: map<nat, seq<Row>>, l: nat, row: Row, sizes: seq<nat>, mapping: map<nat, (nat, nat)>)
    requires ShapedRows(acc, sizes, mapping) && 0 < l < |sizes|
    requires row.targetGlobal in mapping && mapping[row.targetGlobal] == (l, row.targetLocal) && |row.weights| == sizes[l - 1]
    ensures ShapedRows(AddRow(acc, l, row), sizes, mapping)
  {
    var r := AddRow(acc, l, row);
    var earlier := if l in acc then acc[l] else [];
    assert r[l] == earlier + [row];
    assert forall j :: 0 <= j < |earlier| ==> r[l][j] == earlier[j];
  }

  /** The row of neuron `k` of `layer`, from its window. */
  function RowOf(k: nat, at: (nat, nat), window: seq<Connection>, sizes: seq<nat>, offsets: seq<nat>, mapping: map<nat, (nat, nat)>): (row: Row)
    requires IsMapping(sizes, offsets, mapping) && 0 < at.0 < |sizes|
    ensures row.targetGlobal == k && row.targetLocal == at.1 && |row.weights| == sizes[at.0 - 1]
  {
    var p := Place(window, mapping, at.0 - 1, sizes[at.0 - 1]);
    Row(k, at.1, p.0, p.1)
  }

  /**
   * The loop of `collect_weights` from neuron `k` with the cursor at
   * `cursor`: the rows by layer and the final cursor, or the error of a
   * window running past the connections.
   */
  function CollectFrom(neurons: seq<nat>, conns: seq<Connection>, sizes: seq<nat>, offsets: seq<nat>, mapping: map<nat, (nat, nat)>,
                       k: nat, cursor: nat, acc: map<nat, seq<Row>>): (r: Result<(map<nat, seq<Row>>, nat)>)
    requires IsMapping(sizes, offsets, mapping) && |neurons| == Total(sizes) && k <= |neurons|
    decreases |neurons| - k
  {
    if k == |neurons| then Ok((acc, cursor))
    else
      var n := neurons[k];
      if n == 0 then CollectFrom(neurons, conns, sizes, offsets, mapping, k + 1, cursor, acc)
      else
        var at := mapping[k];
        if at.0 == 0 then CollectFrom(neurons, conns, sizes, offsets, mapping, k + 1, cursor + n, acc)
        else if cursor + n > |conns| then Err("connection block ended unexpectedly")
        else
          var row := RowOf(k, at, conns[cursor..cursor + n], sizes, offsets, mapping);
          CollectFrom(neurons, conns, sizes, offsets, mapping, k + 1, cursor + n, AddRow(acc, at.0, row))
  }

  /** The result of `collect_weights`: the rows by layer and whether the warning is printed. */
  datatype Collected = Collected(rows: map<nat, seq<Row>>, warning: bool)

  function CollectWeights(neurons: seq<nat>, conns: seq<Connection>, sizes: seq<nat>, offsets: seq<nat>, mapping: map<nat, (nat, nat)>): (r: Result<Collected>)
    requires IsMapping(sizes, offsets, mapping)
    ensures |neurons| != Total(sizes) ==> r.Err?
  {
    if |neurons| != Total(sizes) then Err("neuron count differs from the layer sizes")
    else match CollectFrom(neurons, conns, sizes, offsets, mapping, 0, 0, map[])
      case Err(e) => Err(e)
      case Ok(res) => Ok(Collected(res.0, res.1 != |conns|))
  }

  /**
   * The reference rows: neuron `k`'s window is the slice from the inputs of
   * the neurons before it, and every neuron with inputs outside the input
   * layer adds its row to its layer, in neuron order.
   */
  function RowsUpTo(neurons: seq<nat>, conns: seq<Connection>, sizes: seq<nat>, offsets: seq<nat>, mapping: map<nat, (nat, nat)>, k: nat): map<nat, seq<Row>>
    requires IsMapping(sizes, offsets, mapping) && |neurons| == Total(sizes) && k <= |neurons|
    requires forall g :: 0 <= g < k ==> !Overruns(neurons, conns, mapping, g)
  {
    if k == 0 then map[]
    else
      var prev := RowsUpTo(neurons, conns, sizes, offsets, mapping, k - 1);
      var g := k - 1;
      assert g in mapping;
      var at := mapping[g];
      if neurons[g] == 0 || at.0 == 0 then prev
      else
        assert !Overruns(neurons, conns, mapping, g);
        TotalStep(neurons, g);
        AddRow(prev, at.0, RowOf(g, at, conns[Consumed(neurons, g)..Consumed(neurons, g + 1)], sizes, offsets, mapping))
  }

  predicate NoOverrun(neurons: seq<nat>, conns: seq<Connection>, mapping: map<nat, (nat, nat)>, from: nat)
    requires from <= |neurons|
  {
    forall g :: from <= g < |neurons| ==> !Overruns(neurons, conns, mapping, g)
  }

  /**
   * The cursor is always the inputs consumed so far: the loop fails exactly
   * when some later neuron overruns, and otherwise ends with the reference
   * rows and every input consumed.
   */
  lemma {:induction false} CollectFromSpec(neurons: seq<nat>, conns: seq<Connection>, sizes: seq<nat>, offsets: seq<nat>, mapping: map<nat, (nat, nat)>, k: nat)
    requires IsMapping(sizes, offsets, mapping) && |neurons| == Total(sizes) && k <= |neurons|
    requires forall g :: 0 <= g < k ==> !Overruns(neurons, conns, mapping, g)
    ensures var r := CollectFrom(neurons, conns, sizes, offsets, mapping, k, Consumed(neurons, k), RowsUpTo(neurons, conns, sizes, offsets, mapping, k));
      && (r.Err? <==> !NoOverrun(neurons, conns, mapping, k))
      && (r.Ok? ==> r.value == (RowsUpTo(neurons, conns, sizes, offsets, mapping, |neurons|), Total(neurons)))
    decreases |neurons| - k
  {
    if k == |neurons| {
      assert neurons[..k] == neurons;
    } else if Overruns(neurons, conns, mapping, k) {
      OverrunFails(neurons, conns, sizes, offsets, mapping, k);
    } else {
      assert NoOverrun(neurons, conns, mapping, k) <==> NoOverrun(neurons, conns, mapping, k + 1);
      CollectStep(neurons, conns, sizes, offsets, mapping, k);
      CollectFromSpec(neurons, conns, sizes, offsets, mapping, k + 1);
    }
  }

  lemma OverrunFails(neurons: seq<nat>, conns: seq<Connection>, sizes: seq<nat>, offsets: seq<nat>, mapping: map<nat, (nat, nat)>, k: nat)
    requires IsMapping(sizes, offsets, mapping) && |neurons| == Total(sizes) && k < |neurons|
    requires forall g :: 0 <= g < k ==> !Overruns(neurons, conns, mapping, g)
    requires Overruns(neurons, conns, mapping, k)
    ensures CollectFrom(neurons, conns, sizes, offsets, mapping, k, Consumed(neurons, k), RowsUpTo(neurons, conns, sizes, offsets, mapping, k)).Err?
  {
    TotalStep(neurons, k);
  }

  /** One neuron without an overrun moves the cursor to the inputs consumed through it. */
  lemma CollectStep(neurons: seq<nat>, conns: seq<Connection>, sizes: seq<nat>, offsets: seq<nat>, mapping: map<nat, (nat, nat)>, k: nat)
    requires IsMapping(sizes, offsets, mapping) && |neurons| == Total(sizes) && k < |neurons|
    requires forall g :: 0 <= g <= k ==> !Overruns(neurons, conns, mapping, g)
    ensures CollectFrom(neurons, conns, sizes, offsets, mapping, k, Consumed(neurons, k), RowsUpTo(neurons, conns, sizes, offsets, mapping, k))
         == CollectFrom(neurons, conns, sizes, offsets, mapping, k + 1, Consumed(neurons, k + 1), RowsUpTo(neurons, conns, sizes, offsets, mapping, k + 1))
  {
    assert k in mapping;
    TotalStep(neurons, k);
    if neurons[k] == 0 || mapping[k].0 == 0 {
      SkipStep(neurons, conns, sizes, offsets, mapping, k);
    } else {
      RowStep(neurons, conns, sizes, offsets, mapping, k);
    }
  }

  lemma SkipStep(neurons: seq<nat>, conns: seq<Connection>, sizes: seq<nat>, offsets: seq<nat>, mapping: map<nat, (nat, nat)>, k: nat)
    requires IsMapping(sizes, offsets, mapping) && |neurons| == Total(sizes) && k < |neurons|
    requires forall g :: 0 <= g <= k ==> !Overruns(neurons, conns, mapping, g)
    requires k in mapping && (neurons[k] == 0 || mapping[k].0 == 0)
    requires Consumed(neurons, k + 1) == Consumed(neurons, k) + neurons[k]
    ensures CollectFrom(neurons, conns, sizes, offsets, mapping, k, Consumed(neurons, k), RowsUpTo(neurons, conns, sizes, offsets, mapping, k))
         == CollectFrom(neurons, conns, sizes, offsets, mapping, k + 1, Consumed(neurons, k + 1), RowsUpTo(neurons, conns, sizes, offsets, mapping, k + 1))
  {
    assert RowsUpTo(neurons, conns, sizes, offsets, mapping, k + 1) == RowsUpTo(neurons, conns, sizes, offsets, mapping, k);
  }

  lemma RowStep(neurons: seq<nat>, conns: seq<Connection>, sizes: seq<nat>, offsets: seq<nat>, mapping: map<nat, (nat, nat)>, k: nat)
    requires IsMapping(sizes, offsets, mapping) && |neurons| == Total(sizes) && k < |neurons|
    requires forall g :: 0 <= g <= k ==> !Overruns(neurons, conns, mapping, g)
    requires k in mapping && neurons[k] > 0 && mapping[k].0 > 0
    requires Consumed(neurons, k + 1) == Consumed(neurons, k) + neurons[k]
    ensures CollectFrom(neurons, conns, sizes, offsets, mapping, k, Consumed(neurons, k), RowsUpTo(neurons, conns, sizes, offsets, mapping, k))
         == CollectFrom(neurons, conns, sizes, offsets, mapping, k + 1, Consumed(neurons, k + 1), RowsUpTo(neurons, conns, sizes, offsets, mapping, k + 1))
  {
    var at := mapping[k];
    var cur, n := Consumed(neurons, k), neurons[k];
    assert cur + n <= |conns| by {
      assert !Overruns(neurons, conns, mapping, k);
    }
    var row := RowOf(k, at, conns[cur..cur + n], sizes, offsets, mapping);
    var prev := RowsUpTo(neurons, conns, sizes, offsets, mapping, k);
    assert RowsUpTo(neurons, conns, sizes, offsets, mapping, k + 1) == AddRow(prev, at.0, row);
    assert CollectFrom(neurons, conns, sizes, offsets, mapping, k, cur, prev)
        == CollectFrom(neurons, conns, sizes, offsets, mapping, k + 1, cur + n, AddRow(prev, at.0, row));
  }

  /**
   * `collect_weights` fails exactly on a neuron count different from the
   * sizes' sum or on a window past the connections; otherwise its rows are
   * the reference rows and the warning is printed exactly when the inputs
   * do not add up to the number of connections.
   */
  lemma CollectWeightsSpec(neurons: seq<nat>, conns: seq<Connection>, sizes: seq<nat>, offsets: seq<nat>, mapping: map<nat, (nat, nat)>)
    requires IsMapping(sizes, offsets, mapping)
    ensures var r := CollectWeights(neurons, conns, sizes, offsets, mapping);
      && (r.Ok? <==> |neurons| == Total(sizes) && NoOverrun(neurons, conns, mapping, 0))
      && (r.Ok? ==> r.value.rows == RowsUpTo(neurons, conns, sizes, offsets, mapping, |neurons|))
      && (r.Ok? ==> (r.value.warning <==> Total(neurons) != |conns|))
  {
    if |neurons| == Total(sizes) {
      assert neurons[..0] == [];
      CollectFromSpec(neurons, conns, sizes, offsets, mapping, 0);
    }
  }

  /**
   * Every reference row sits in a layer after the input layer, belongs to a
   * neuron of that layer, and has one weight slot per neuron of the layer
   * before.
   */
  lemma {:induction false} RowsShape(neurons: seq<nat>, conns: seq<Connection>, sizes: seq<nat>, offsets: seq<nat>, mapping: map<nat, (nat, nat)>, k: nat)
    requires IsMapping(sizes, offsets, mapping) && |neurons| == Total(sizes) && k <= |neurons|
    requires forall g :: 0 <= g < k ==> !Overruns(neurons, conns, mapping, g)
    ensures ShapedRows(RowsUpTo(neurons, conns, sizes, offsets, mapping, k), sizes, mapping)
    decreases k
  {
    if k > 0 {
      RowsShape(neurons, conns, sizes, offsets, mapping, k - 1);
      var g := k - 1;
      assert g in mapping;
      var at := mapping[g];
      assert Located(sizes, offsets, g, at);
      if neurons[g] > 0 && at.0 > 0 {
        assert !Overruns(neurons, conns, mapping, g);
        TotalStep(neurons, g);
        var row := RowOf(g, at, conns[Consumed(neurons, g)..Consumed(neurons, g + 1)], sizes, offsets, mapping);
        AddRowShape(RowsUpTo(neurons, conns, sizes, offsets, mapping, g), at.0, row, sizes, mapping);
      }
    }
  }

  // ---------------------------------------------------------------------------
  // write_layer_csv

  function Cell(w: Option<real>, render: real -> string): string {
    match w
    case None => ""
    case Some(x) => render(x)
  }

  function SourceHeader(offset: nat, size: nat): (h: seq<string>)
    ensures |h| == size && forall i :: 0 <= i < size ==> h[i] == "src_global_" + NatToString(offset + i)
  {
    seq(size, i requires 0 <= i < size => "src_global_" + NatToString(offset + i))
  }

  function Packed(row: Row, layer: nat, render: real -> string): (fields: seq<string>)
    ensures |fields| == 3 + |row.weights|
    ensures fields[..3] == [NatToString(row.targetGlobal), NatToString(layer), NatToString(row.targetLocal)]
    ensures forall i :: 0 <= i < |row.weights| ==> fields[3 + i] == Cell(row.weights[i], render)
  {
    [NatToString(row.targetGlobal), NatToString(layer), NatToString(row.targetLocal)]
      + seq(|row.weights|, i requires 0 <= i < |row.weights| => Cell(row.weights[i], render))
  }

  /** The rows of one table: a header naming the source neurons, then one row per target. */
  function LayerCsv(layer: nat, prev: nat, rows: seq<Row>, offsets: seq<nat>, sizes: seq<nat>, render: real -> string): (csv: seq<seq<string>>)
    requires prev < |sizes| == |offsets|
    ensures |csv| == |rows| + 1
    ensures forall k :: 1 <= k <= |rows| ==> csv[k] == Packed(rows[k - 1], layer, render)
  {
    [["target_global", "target_layer", "target_local"] + SourceHeader(offsets[prev], sizes[prev])]
      + seq(|rows|, k requires 0 <= k < |rows| => Packed(rows[k], layer, render))
  }

  /**
   * Every table row, header included, has three fields plus one per source
   * neuron, the header names the sources by global index, and a missing
   * weight is an empty field.
   */
  lemma LayerCsvShape(layer: nat, prev: nat, rows: seq<Row>, sizes: seq<nat>, offsets: seq<nat>, mapping: map<nat, (nat, nat)>, render: real -> string)
    requires IsMapping(sizes, offsets, mapping) && prev < |sizes|
    requires forall j :: 0 <= j < |rows| ==> |rows[j].weights| == sizes[prev]
    ensures var csv := LayerCsv(layer, prev, rows, offsets, sizes, render);
      && (forall k :: 0 <= k < |csv| ==> |csv[k]| == 3 + sizes[prev])
      && (forall i :: 0 <= i < sizes[prev] ==> csv[0][3..][i] == "src_global_" + NatToString(offsets[prev] + i))
      && (forall g: nat :: offsets[prev] <= g < offsets[prev] + sizes[prev] ==> g in mapping && mapping[g] == (prev, g - offsets[prev]))
      && (forall k :: 1 <= k < |csv| ==> EmptyWhereMissing(csv[k], rows[k - 1].weights))
  {
    var csv := LayerCsv(layer, prev, rows, offsets, sizes, render);
    var head := SourceHeader(offsets[prev], sizes[prev]);
    assert csv[0] == ["target_global", "target_layer", "target_local"] + head;
    assert csv[0][3..] == head;
    forall g: nat | offsets[prev] <= g < offsets[prev] + sizes[prev]
      ensures g in mapping && mapping[g] == (prev, g - offsets[prev])
    {
      MappingHits(sizes, offsets, mapping, prev, g - offsets[prev]);
    }
  }

  /** The fields after the first three are empty where the weight is missing. */
  predicate EmptyWhereMissing(fields: seq<string>, weights: seq<Option<real>>)
    requires |fields| == 3 + |weights|
  {
    forall i :: 0 <= i < |weights| && weights[i].None? ==> fields[3 + i] == ""
  }

  /** `{stem}-layer{prev}-to-layer{layer}.csv` */
  function CsvName(stem: string, prev: nat, layer: nat): string {
    stem + "-layer" + NatToString(prev) + "-to-layer" + NatToString(layer) + ".csv"
  }

  /** The layers `main` exports, in ascending order: every layer with rows after the input layer. */
  function ExportedLayers(layers: set<nat>, lo: nat, hi: nat): (ls: seq<nat>)
    requires lo <= hi
    decreases hi - lo
  {
    if lo == hi then []
    else (if lo in layers && lo >= 1 then [lo] else []) + ExportedLayers(layers, lo + 1, hi)
  }

  /** The exported layers lie in range, have rows and follow the input layer. */
  lemma {:induction false} ExportedBounds(layers: set<nat>, lo: nat, hi: nat)
    requires lo <= hi
    ensures forall j :: 0 <= j < |ExportedLayers(layers, lo, hi)| ==>
      lo <= ExportedLayers(layers, lo, hi)[j] < hi && ExportedLayers(layers, lo, hi)[j] in layers && ExportedLayers(layers, lo, hi)[j] >= 1
    decreases hi - lo
  {
    if lo < hi {
      ExportedBounds(layers, lo + 1, hi);
      var rest := ExportedLayers(layers, lo + 1, hi);
      if lo in layers && lo >= 1 {
        assert ExportedLayers(layers, lo, hi) == [lo] + rest;
      } else {
        assert ExportedLayers(layers, lo, hi) == rest;
      }
    }
  }

  /** Every layer in range with rows after the input layer is exported. */
  lemma {:induction false} ExportedComplete(layers: set<nat>, lo: nat, hi: nat)
    requires lo <= hi
    ensures forall l :: lo <= l < hi && l in layers && l >= 1 ==> l in ExportedLayers(layers, lo, hi)
    decreases hi - lo
  {
    if lo < hi {
      ExportedComplete(layers, lo + 1, hi);
    }
  }

  /** The layers are exported in ascending order, as `sorted` gives them. */
  lemma {:induction false} ExportedSorted(layers: set<nat>, lo: nat, hi: nat)
    requires lo <= hi
    ensures forall a, b :: 0 <= a < b < |ExportedLayers(layers, lo, hi)| ==> ExportedLayers(layers, lo, hi)[a] < ExportedLayers(layers, lo, hi)[b]
    decreases hi - lo
  {
    if lo < hi {
      ExportedSorted(layers, lo + 1, hi);
      ExportedBounds(layers, lo + 1, hi);
      var rest := ExportedLayers(layers, lo + 1, hi);
      if lo in layers && lo >= 1 {
        var ls := [lo] + rest;
        assert ExportedLayers(layers, lo, hi) == ls;
        assert forall j :: 1 <= j < |ls| ==> ls[j] == rest[j - 1];
      } else {
        assert ExportedLayers(layers, lo, hi) == rest;
      }
    }
  }

  /** Every layer with rows is exported: the layers before `|sizes|` cover all keys of the reference rows. */
  lemma ExportsAll(neurons: seq<nat>, conns: seq<Connection>, sizes: seq<nat>, offsets: seq<nat>, mapping: map<nat, (nat, nat)>)
    requires IsMapping(sizes, offsets, mapping) && |neurons| == Total(sizes) && NoOverrun(neurons, conns, mapping, 0)
    ensures var rows := RowsUpTo(neurons, conns, sizes, offsets, mapping, |neurons|);
      forall l :: l in rows <==> l in ExportedLayers(rows.Keys, 0, |sizes|)
  {
    var rows := RowsUpTo(neurons, conns, sizes, offsets, mapping, |neurons|);
    RowsShape(neurons, conns, sizes, offsets, mapping, |neurons|);
    ExportedBounds(rows.Keys, 0, |sizes|);
    ExportedComplete(rows.Keys, 0, |sizes|);
  }

  /** The exit status of `main`: 1 when no table is written. */
  function ExitCode(rows: map<nat, seq<Row>>, numLayers: nat): (code: nat)
    ensures code == 1 <==> forall l :: 1 <= l < numLayers ==> l !in rows
  {
    ExportedBounds(rows.Keys, 0, numLayers);
    ExportedComplete(rows.Keys, 0, numLayers);
    if |ExportedLayers(rows.Keys, 0, numLayers)| == 0 then 1
    else
      assert ExportedLayers(rows.Keys, 0, numLayers)[0] in ExportedLayers(rows.Keys, 0, numLayers);
      0
  }
}

=== FILE: evaluate.dfy ===
/**
 * evaluate.c: runs a trained network over the test set, takes the first-max
 * argmax of the network's output and of the stored target as prediction and
 * truth, and reports accuracy, precision, recall and the confusion matrix.
 *
 * The network is a parameter: `net` maps an input row to the output vector
 * the FANN library would compute.
 */
module Evaluate {
  import opened Wrappers
  import Metrics

  /** The test set as FANN reads it: input rows, target rows, and the output width. */
  datatype TestSet = TestSet(inputs: seq<seq<real>>, outputs: seq<seq<real>>, numOutput: nat)

  /** Every target row, and every network output, has the output width. */
  predicate Consistent(t: TestSet, net: seq<real> -> seq<real>) {
    && |t.inputs| == |t.outputs|
    && (forall i :: 0 <= i < |t.outputs| ==> |t.outputs[i]| == t.numOutput)
    && (forall i :: 0 <= i < |t.inputs| ==> |net(t.inputs[i])| == t.numOutput)
  }

  function Truths(t: TestSet): (truth: seq<int>)
    ensures |truth| == |t.outputs|
    ensures forall i :: 0 <= i < |truth| ==> truth[i] == Metrics.Argmax(t.outputs[i])
  {
    seq(|t.outputs|, i requires 0 <= i < |t.outputs| => Metrics.Argmax(t.outputs[i]))
  }

  function Predictions(t: TestSet, net: seq<real> -> seq<real>): (pred: seq<int>)
    ensures |pred| == |t.inputs|
    ensures forall i :: 0 <= i < |pred| ==> pred[i] == Metrics.Argmax(net(t.inputs[i]))
  {
    seq(|t.inputs|, i requires 0 <= i < |t.inputs| => Metrics.Argmax(net(t.inputs[i])))
  }

  /**
   * The whole evaluation. A class file whose label count differs from the
   * output width is an error and nothing is reported. With no output units
   * the C code reads past its buffers for any sample, so a caller must not
   * pass samples then.
   */
  function Evaluate(classes: seq<string>, t: TestSet, net: seq<real> -> seq<real>): (r: Result<Metrics.Report>)
    requires Consistent(t, net)
    requires t.numOutput == 0 && |classes| == 0 ==> |t.inputs| == 0
    ensures r.Err? <==> |classes| != t.numOutput
    ensures r.Ok? ==> r.value.labels == classes && Metrics.WellShaped(r.value)
    ensures r.Ok? ==> 0.0 <= r.value.accuracy <= 1.0
  {
    if |classes| != t.numOutput then Err("class count mismatch")
    else
      var n := |classes|;
      var truth, pred := Truths(t), Predictions(t, net);
      var conf := Metrics.Confusion(truth, pred, n);
      Metrics.CountedBounds(truth, pred, n);
      Ok(Metrics.ReportOf(classes, conf, Metrics.Correct(truth, pred), |truth|))
  }

  /**
   * With every prediction and truth in range, the confusion cells sum to the
   * number of test samples and the diagonal to the correct predictions, and
   * accuracy is correct over total.
   */
  lemma EvaluateCounts(classes: seq<string>, t: TestSet, net: seq<real> -> seq<real>)
    requires Consistent(t, net)
    requires |classes| == t.numOutput
    requires t.numOutput == 0 ==> |t.inputs| == 0
    ensures var r := Evaluate(classes, t, net).value; var n := |classes|;
      && Metrics.MatrixTotal(r.confusion) == |t.inputs|
      && Metrics.Trace(r.confusion, n) == Metrics.Correct(Truths(t), Predictions(t, net))
      && r.accuracy == Metrics.Accuracy(Metrics.Correct(Truths(t), Predictions(t, net)), |t.inputs|)
  {
    var n := |classes|;
    var truth, pred := Truths(t), Predictions(t, net);
    assert forall i :: 0 <= i < |truth| ==> Metrics.InRange(truth[i], n) && Metrics.InRange(pred[i], n);
    Metrics.ConfusionCounts(truth, pred, n);
    Metrics.AllInRange(truth, pred, n);
  }
}

=== FILE: extract.dfy ===
/**
 * The per-recording part of `main` in extract_features.c: one static feature
 * row per frame, the two delta passes, the trajectory statistics, the voicing
 * summary, and the layout of the output header and of one output row.
 *
 * Two behaviours of the program are kept as written. `mfcc_compute` reads a
 * `power` buffer that nothing fills, so the model takes that buffer as an
 * explicit argument and uses the same contents for every frame. The delta
 * passes read the static buffer with stride `n_mfcc` although its rows are
 * `n_mfcc + 8` wide.
 */
module Extract {
  import opened Numerics
  import opened Wrappers
  import opened Text
  import opened Dsp
  import opened Mfcc
  import opened Features

  // ---------------------------------------------------------------------------
  // Column layout

  /** rms, zcr, crest, centroid, rolloff, bandwidth, flatness, flux. */
  const OtherCount: nat := 8

  function StatName(s: nat): string
    requires s < 4
  {
    ["mean", "std", "skew", "kurt"][s]
  }

  function OtherName(i: nat): string
    requires i < OtherCount
  {
    ["rms", "zcr", "crest", "centroid", "rolloff", "bandwidth", "flatness", "flux"][i]
  }

  function TailName(i: nat): string
    requires i < 5
  {
    ["f0_mean", "f0_std", "voicing_rate", "harmonicity_mean", "harmonicity_std"][i]
  }

  /** `mfcc%02d` of the one-based coefficient number. */
  function MfccName(i: nat): string {
    "mfcc" + Pad2(i + 1)
  }

  /** The four groups of summarised trajectories. */
  datatype Group = Static | Delta | Delta2 | Other

  /** One output value: statistic `stat` of trajectory `index` of a group, or one of the five tail values. */
  datatype Col = Stat(group: Group, index: nat, stat: nat) | Tail(which: nat)

  /** Values per statistic: three groups of `n_mfcc` and the eight other descriptors. */
  function Width(n: nat): nat {
    3 * n + OtherCount
  }

  /** Number of values after `id` and `classe`. */
  function ValueCount(n: nat): nat {
    4 * Width(n) + 5
  }

  /** Position `r` inside the block of statistic `s`. */
  function BlockCol(n: nat, s: nat, r: nat): (c: Col)
    requires s < 4 && r < Width(n)
    ensures c.Stat? && c.stat == s
  {
    if r < n then Stat(Static, r, s)
    else if r < 2 * n then Stat(Delta, r - n, s)
    else if r < 3 * n then Stat(Delta2, r - 2 * n, s)
    else Stat(Other, r - 3 * n, s)
  }

  /**
   * Reference layout: what the value at position `j` after `id,classe` is.
   * Four blocks of `Width(n)` values, one per statistic, then the tail.
   */
  function ColAt(n: nat, j: nat): (c: Col)
    requires j < ValueCount(n)
  {
    var w := Width(n);
    if j < w then BlockCol(n, 0, j)
    else if j < 2 * w then BlockCol(n, 1, j - w)
    else if j < 3 * w then BlockCol(n, 2, j - 2 * w)
    else if j < 4 * w then BlockCol(n, 3, j - 3 * w)
    else Tail(j - 4 * w)
  }

  /** A column index is in range for `n` coefficients. */
  predicate ColFits(n: nat, c: Col) {
    match c
    case Stat(g, i, s) => s < 4 && (if g == Other then i < OtherCount else i < n)
    case Tail(k) => k < 5
  }

  lemma ColAtFits(n: nat, j: nat)
    requires j < ValueCount(n)
    ensures ColFits(n, ColAt(n, j))
  {
  }

  function ColName(n: nat, c: Col): string
    requires ColFits(n, c)
  {
    match c
    case Stat(Static, i, s) => MfccName(i) + "_" + StatName(s)
    case Stat(Delta, i, s) => MfccName(i) + "_delta_" + StatName(s)
    case Stat(Delta2, i, s) => MfccName(i) + "_delta2_" + StatName(s)
    case Stat(Other, i, s) => OtherName(i) + "_" + StatName(s)
    case Tail(k) => TailName(k)
  }

  // ---------------------------------------------------------------------------
  // Header, written group by group as the header loop does

  function HeaderBlock(n: nat, s: nat): (h: seq<string>)
    requires s < 4
    ensures |h| == Width(n)
  {
    seq(n, i requires 0 <= i < n => MfccName(i) + "_" + StatName(s))
    + seq(n, i requires 0 <= i < n => MfccName(i) + "_delta_" + StatName(s))
    + seq(n, i requires 0 <= i < n => MfccName(i) + "_delta2_" + StatName(s))
    + seq(OtherCount, i requires 0 <= i < OtherCount => OtherName(i) + "_" + StatName(s))
  }

  /** The header line's fields. */
  function Header(n: nat): (h: seq<string>)
  {
    ["id", "classe"] + HeaderNames(n)
  }

  /** The header fields after `id,classe`: four blocks, then the five tail names. */
  function HeaderNames(n: nat): (h: seq<string>)
  {
    HeaderBlock(n, 0) + HeaderBlock(n, 1) + HeaderBlock(n, 2) + HeaderBlock(n, 3)
    + ["f0_mean", "f0_std", "voicing_rate", "harmonicity_mean", "harmonicity_std"]
  }

  lemma HeaderBlockAt(n: nat, s: nat, r: nat)
    requires s < 4 && r < Width(n)
    ensures ColFits(n, BlockCol(n, s, r))
    ensures HeaderBlock(n, s)[r] == ColName(n, BlockCol(n, s, r))
  {
  }

  lemma HeaderNameAt(n: nat, j: nat)
    requires j < ValueCount(n)
    ensures |HeaderNames(n)| == ValueCount(n)
    ensures ColFits(n, ColAt(n, j)) && HeaderNames(n)[j] == ColName(n, ColAt(n, j))
  {
    var w := Width(n);
    var b0, b1, b2, b3 := HeaderBlock(n, 0), HeaderBlock(n, 1), HeaderBlock(n, 2), HeaderBlock(n, 3);
    var h := b0 + b1 + b2 + b3;
    assert HeaderNames(n) == h + ["f0_mean", "f0_std", "voicing_rate", "harmonicity_mean", "harmonicity_std"];
    if j < w {
      HeaderBlockAt(n, 0, j);
      assert h[j] == b0[j];
    } else if j < 2 * w {
      HeaderBlockAt(n, 1, j - w);
      assert h[j] == b1[j - w];
    } else if j < 3 * w {
      HeaderBlockAt(n, 2, j - 2 * w);
      assert h[j] == b2[j - 2 * w];
    } else if j < 4 * w {
      HeaderBlockAt(n, 3, j - 3 * w);
      assert h[j] == b3[j - 3 * w];
    }
  }

  /**
   * The header has `id`, `classe` and then one name per value position,
   * naming exactly the column of the reference layout.
   */
  lemma HeaderLayout(n: nat)
    ensures |Header(n)| == 2 + ValueCount(n)
    ensures Header(n)[0] == "id" && Header(n)[1] == "classe"
    ensures forall j :: 0 <= j < ValueCount(n) ==>
              ColFits(n, ColAt(n, j)) && Header(n)[2 + j] == ColName(n, ColAt(n, j))
  {
    var names := HeaderNames(n);
    HeaderNameAt(n, 0);
    forall j | 0 <= j < ValueCount(n)
      ensures ColFits(n, ColAt(n, j)) && Header(n)[2 + j] == ColName(n, ColAt(n, j))
    {
      HeaderNameAt(n, j);
      assert Header(n)[2 + j] == names[j];
    }
  }

  // ---------------------------------------------------------------------------
  // Output row, written group by group as the row loop does

  /** All statistics a recording's row is printed from. */
  datatype Summary = Summary(
    mfcc: seq<FeatureStats>,
    delta: seq<FeatureStats>,
    delta2: seq<FeatureStats>,
    other: seq<FeatureStats>,
    f0: FeatureStats,
    voicingRate: real,
    harmonicity: FeatureStats)

  predicate Shaped(sum: Summary, n: nat) {
    |sum.mfcc| == n && |sum.delta| == n && |sum.delta2| == n && |sum.other| == OtherCount
  }

  /** The `s == 0 / 1 / 2 / else` selection of mean, std, skewness, kurtosis. */
  function StatValue(st: FeatureStats, s: nat): real {
    if s == 0 then st.mean
    else if s == 1 then st.std
    else if s == 2 then st.skewness
    else st.kurtosis
  }

  function ColValue(sum: Summary, n: nat, c: Col): real
    requires Shaped(sum, n) && ColFits(n, c)
  {
    match c
    case Stat(Static, i, s) => StatValue(sum.mfcc[i], s)
    case Stat(Delta, i, s) => StatValue(sum.delta[i], s)
    case Stat(Delta2, i, s) => StatValue(sum.delta2[i], s)
    case Stat(Other, i, s) => StatValue(sum.other[i], s)
    case Tail(k) =>
      if k == 0 then sum.f0.mean
      else if k == 1 then sum.f0.std
      else if k == 2 then sum.voicingRate
      else if k == 3 then sum.harmonicity.mean
      else sum.harmonicity.std
  }

  function ValueBlock(sum: Summary, n: nat, s: nat): (v: seq<real>)
    requires Shaped(sum, n) && s < 4
    ensures |v| == Width(n)
  {
    seq(n, i requires 0 <= i < n => StatValue(sum.mfcc[i], s))
    + seq(n, i requires 0 <= i < n => StatValue(sum.delta[i], s))
    + seq(n, i requires 0 <= i < n => StatValue(sum.delta2[i], s))
    + seq(OtherCount, i requires 0 <= i < OtherCount => StatValue(sum.other[i], s))
  }

  /** The values of one output row, after `id` and `classe`. */
  function RowValues(sum: Summary, n: nat): (v: seq<real>)
    requires Shaped(sum, n)
  {
    ValueBlock(sum, n, 0) + ValueBlock(sum, n, 1) + ValueBlock(sum, n, 2) + ValueBlock(sum, n, 3)
    + [sum.f0.mean, sum.f0.std, sum.voicingRate, sum.harmonicity.mean, sum.harmonicity.std]
  }

  lemma ValueBlockAt(sum: Summary, n: nat, s: nat, r: nat)
    requires Shaped(sum, n) && s < 4 && r < Width(n)
    ensures ColFits(n, BlockCol(n, s, r))
    ensures ValueBlock(sum, n, s)[r] == ColValue(sum, n, BlockCol(n, s, r))
  {
  }

  /**
   * A row has exactly `4 (3 n + 8) + 5` values, and the value at each
   * position is the one the reference layout (and so the header) names.
   */
  lemma RowLayout(sum: Summary, n: nat)
    requires Shaped(sum, n)
    ensures |RowValues(sum, n)| == ValueCount(n)
    ensures forall j :: 0 <= j < ValueCount(n) ==>
              ColFits(n, ColAt(n, j)) && RowValues(sum, n)[j] == ColValue(sum, n, ColAt(n, j))
  {
    var w := Width(n);
    var b0, b1, b2, b3 := ValueBlock(sum, n, 0), ValueBlock(sum, n, 1), ValueBlock(sum, n, 2), ValueBlock(sum, n, 3);
    var tail := [sum.f0.mean, sum.f0.std, sum.voicingRate, sum.harmonicity.mean, sum.harmonicity.std];
    assert RowValues(sum, n) == b0 + b1 + b2 + b3 + tail;
    forall j | 0 <= j < ValueCount(n)
      ensures ColFits(n, ColAt(n, j)) && RowValues(sum, n)[j] == ColValue(sum, n, ColAt(n, j))
    {
      if j < w {
        ValueBlockAt(sum, n, 0, j);
      } else if j < 2 * w {
        ValueBlockAt(sum, n, 1, j - w);
      } else if j < 3 * w {
        ValueBlockAt(sum, n, 2, j - 2 * w);
      } else if j < 4 * w {
        ValueBlockAt(sum, n, 3, j - 3 * w);
      }
    }
  }

  /** Header and row agree: two more header fields than row values. */
  lemma HeaderMatchesRow(sum: Summary, n: nat)
    requires Shaped(sum, n)
    ensures |Header(n)| == 2 + |RowValues(sum, n)| == 2 + 4 * (3 * n + 8) + 5
  {
    HeaderLayout(n);
    RowLayout(sum, n);
  }

  // ---------------------------------------------------------------------------
  // Per-frame analysis

  /** Command-line parameters: `--n-mfcc`, `--n-mels`, `--rolloff`. */
  datatype Params = Params(nMfcc: nat, nMels: nat, rolloffPct: real)

  const Defaults := Params(13, 26, 0.85)

  /** The decoded `.frames` file: sample rate, frame length and the frames in order. */
  datatype Recording = Recording(sampleRate: nat, frameLen: nat, frames: seq<seq<real>>)

  ghost predicate Framed(rec: Recording) {
    forall f :: 0 <= f < |rec.frames| ==> |rec.frames[f]| == rec.frameLen
  }

  /** What stays fixed over the frames of one recording. */
  datatype Setup = Setup(sampleRate: nat, fftSize: nat, window: seq<real>, mfcc: seq<real>, pct: real)

  ghost predicate SetupFits(st: Setup, frameLen: nat) {
    st.fftSize > 0 && IsPow2(st.fftSize) && |st.window| == frameLen <= st.fftSize
  }

  /**
   * The buffers prepared before the frame loop: FFT size `next_pow2(frame_len)`,
   * the Hamming window, and the filterbank. `mfcc_compute` is applied to the
   * `power` argument, whose contents do not change between frames, so its
   * coefficients are computed once.
   */
  function MakeSetup(m: Math, rec: Recording, p: Params, power: seq<real>): (st: Setup)
    requires Valid(m) && rec.sampleRate > 0 && rec.frameLen != 1 && p.nMfcc > 0 && p.nMels > 0
    requires |power| >= NextPow2(rec.frameLen) / 2 + 1
    ensures SetupFits(st, rec.frameLen) && st.fftSize == NextPow2(rec.frameLen)
    ensures st.sampleRate == rec.sampleRate && st.pct == p.rolloffPct
    ensures |st.mfcc| == p.nMfcc
    ensures var bank := MfccInit(m, rec.sampleRate, st.fftSize, p.nMels, p.nMfcc);
            bank.Ok? && st.mfcc == MfccCompute(m, bank.value, power)
  {
    var fft := NextPow2(rec.frameLen);
    var bank := MfccInit(m, rec.sampleRate, fft, p.nMels, p.nMfcc).value;
    Setup(rec.sampleRate, fft, HammingWindow(m, rec.frameLen), MfccCompute(m, bank, power), p.rolloffPct)
  }

  /** `fft_in`: the windowed frame followed by zeros up to `size`. */
  function Windowed(frame: seq<real>, window: seq<real>, size: nat): (x: seq<real>)
    requires |window| == |frame| <= size
    ensures |x| == size
  {
    seq(size, i requires 0 <= i < size => if i < |frame| then frame[i] * window[i] else 0.0)
  }

  /** Magnitude spectrum of one windowed, zero-padded frame. */
  function FrameSpectrum(m: Math, st: Setup, frame: seq<real>): (mag: seq<real>)
    requires Valid(m) && SetupFits(st, |frame|)
    ensures |mag| == st.fftSize / 2 + 1
    ensures AllNonNeg(mag)
  {
    var s := FftReal(m, Windowed(frame, st.window, st.fftSize)).value;
    Magnitude(m, s, st.fftSize)
  }

  /**
   * The static row of frame `f`: the MFCCs, then rms, zcr, crest, the four
   * spectral descriptors and the flux against the previous frame's spectrum
   * (0 for the first frame).
   */
  function StaticRow(m: Math, st: Setup, frames: seq<seq<real>>, f: nat): (row: seq<real>)
    requires Valid(m) && f < |frames|
    requires forall g :: 0 <= g < |frames| ==> SetupFits(st, |frames[g]|)
    ensures |row| == |st.mfcc| + OtherCount
    ensures forall k :: 0 <= k < |st.mfcc| ==> row[k] == st.mfcc[k]
  {
    var frame := frames[f];
    var mag := FrameSpectrum(m, st, frame);
    var rms := Rms(m, frame);
    var sp := SpectralFeatures(m, mag, st.sampleRate, st.fftSize, st.pct);
    var flux := if f > 0 then Flux(m, mag, FrameSpectrum(m, st, frames[f - 1])) else 0.0;
    st.mfcc + [rms, Zcr(frame), Crest(frame, rms), sp.centroid, sp.rolloff, sp.bandwidth, sp.flatness, flux]
  }

  function StaticRows(m: Math, st: Setup, frames: seq<seq<real>>): (rows: seq<seq<real>>)
    requires Valid(m)
    requires forall g :: 0 <= g < |frames| ==> SetupFits(st, |frames[g]|)
    ensures |rows| == |frames|
    ensures forall f :: 0 <= f < |rows| ==> |rows[f]| == |st.mfcc| + OtherCount
  {
    seq(|frames|, f requires 0 <= f < |frames| => StaticRow(m, st, frames, f))
  }

  /** The first frame's flux is 0, and every later flux is non-negative. */
  lemma FluxColumn(m: Math, st: Setup, frames: seq<seq<real>>, f: nat)
    requires Valid(m) && f < |frames|
    requires forall g :: 0 <= g < |frames| ==> SetupFits(st, |frames[g]|)
    ensures f == 0 ==> StaticRow(m, st, frames, f)[|st.mfcc| + 7] == 0.0
    ensures StaticRow(m, st, frames, f)[|st.mfcc| + 7] >= 0.0
  {
  }

  /**
   * Every frame's MFCCs are the same: those of the `power` buffer, whatever
   * the frame contains.
   */
  lemma MfccIndependentOfFrame(m: Math, st: Setup, frames: seq<seq<real>>, f: nat, k: nat)
    requires Valid(m) && f < |frames| && k < |st.mfcc|
    requires forall g :: 0 <= g < |frames| ==> SetupFits(st, |frames[g]|)
    ensures StaticRows(m, st, frames)[f][k] == st.mfcc[k]
  {
    var row := StaticRow(m, st, frames, f);
    assert row[..|st.mfcc|][k] == row[k];
  }

  // ---------------------------------------------------------------------------
  // Voicing

  /** Frames whose estimate is voiced, `f0 > 0`. */
  function VoicedCount(ps: seq<Pitch>): (c: nat)
    ensures c <= |ps|
  {
    if |ps| == 0 then 0 else VoicedCount(ps[..|ps| - 1]) + (if ps[|ps| - 1].f0 > 0.0 then 1 else 0)
  }

  /** No frame counts as voiced exactly when no estimate is positive. */
  lemma {:induction false} VoicedCountZero(ps: seq<Pitch>)
    ensures VoicedCount(ps) == 0 <==> forall f :: 0 <= f < |ps| ==> ps[f].f0 <= 0.0
    ensures VoicedCount(ps) == |ps| <==> forall f :: 0 <= f < |ps| ==> ps[f].f0 > 0.0
  {
    if |ps| > 0 {
      var init := ps[..|ps| - 1];
      VoicedCountZero(init);
      assert forall f :: 0 <= f < |init| ==> init[f] == ps[f];
    }
  }

  /** The F0 values of the voiced frames, in frame order. */
  function VoicedF0s(ps: seq<Pitch>): (v: seq<real>)
  {
    if |ps| == 0 then []
    else VoicedF0s(ps[..|ps| - 1]) + (if ps[|ps| - 1].f0 > 0.0 then [ps[|ps| - 1].f0] else [])
  }

  /**
   * The collected values are exactly the voiced estimates: one per voiced
   * frame, each positive and taken from some frame.
   */
  lemma {:induction false} VoicedF0sSpec(ps: seq<Pitch>)
    ensures |VoicedF0s(ps)| == VoicedCount(ps)
    ensures forall k :: 0 <= k < |VoicedF0s(ps)| ==> VoicedF0s(ps)[k] > 0.0
    ensures forall k :: 0 <= k < |VoicedF0s(ps)| ==> exists f :: 0 <= f < |ps| && ps[f].f0 == VoicedF0s(ps)[k]
  {
    if |ps| > 0 {
      var init := ps[..|ps| - 1];
      VoicedF0sSpec(init);
      forall k | 0 <= k < |VoicedF0s(init)|
        ensures exists f :: 0 <= f < |ps| && ps[f].f0 == VoicedF0s(init)[k]
      {
        var f :| 0 <= f < |init| && init[f].f0 == VoicedF0s(init)[k];
        assert ps[f] == init[f];
      }
    }
  }

  /** Every frame voiced: the collected values are all the estimates. */
  lemma {:induction false} VoicedF0sAll(ps: seq<Pitch>)
    requires forall f :: 0 <= f < |ps| ==> ps[f].f0 > 0.0
    ensures VoicedF0s(ps) == seq(|ps|, f requires 0 <= f < |ps| => ps[f].f0)
  {
    if |ps| > 0 {
      VoicedF0sAll(ps[..|ps| - 1]);
    }
  }

  /** The share of voiced frames. */
  function VoicingRate(ps: seq<Pitch>): (r: real)
    requires |ps| > 0
    ensures 0.0 <= r <= 1.0
    ensures r == 0.0 <==> VoicedCount(ps) == 0
    ensures r == 1.0 <==> VoicedCount(ps) == |ps|
  {
    var n, v := |ps| as real, VoicedCount(ps) as real;
    assert v / n <= 1.0 by {
      DivBounds(v, n, 0.0, 1.0);
    }
    v / n
  }

  /** F0 statistics over the voiced frames only; all zero when none is voiced. */
  function F0Stats(m: Math, ps: seq<Pitch>): (r: FeatureStats)
    requires Valid(m)
    ensures VoicedCount(ps) == 0 ==> r == FeatureStats(0.0, 0.0, 0.0, 0.0)
    ensures VoicedCount(ps) > 0 ==> r == ComputeStats(m, VoicedF0s(ps))
  {
    if VoicedCount(ps) > 0 then ComputeStats(m, VoicedF0s(ps)) else FeatureStats(0.0, 0.0, 0.0, 0.0)
  }

  /** Bounds on the voiced estimates carry over to the collected values. */
  lemma {:induction false} VoicedF0sWithin(ps: seq<Pitch>, lo: real, hi: real)
    requires forall f :: 0 <= f < |ps| && ps[f].f0 > 0.0 ==> lo <= ps[f].f0 <= hi
    ensures forall k :: 0 <= k < |VoicedF0s(ps)| ==> lo <= VoicedF0s(ps)[k] <= hi
  {
    if |ps| > 0 {
      VoicedF0sWithin(ps[..|ps| - 1], lo, hi);
    }
  }

  /** The mean F0 lies between the lowest and highest voiced estimate. */
  lemma F0MeanBounds(m: Math, ps: seq<Pitch>, lo: real, hi: real)
    requires Valid(m) && VoicedCount(ps) > 0
    requires forall f :: 0 <= f < |ps| && ps[f].f0 > 0.0 ==> lo <= ps[f].f0 <= hi
    ensures lo <= F0Stats(m, ps).mean <= hi
  {
    var v := VoicedF0s(ps);
    assert |v| > 0 by {
      VoicedF0sSpec(ps);
    }
    VoicedF0sWithin(ps, lo, hi);
    MeanBounds(m, v, lo, hi);
  }

  // ---------------------------------------------------------------------------
  // One recording

  function Pitches(st: Setup, frames: seq<seq<real>>): (ps: seq<Pitch>)
    ensures |ps| == |frames|
    ensures forall f :: 0 <= f < |frames| ==> ps[f] == ComputeF0(st.sampleRate, frames[f])
  {
    seq(|frames|, f requires 0 <= f < |frames| => ComputeF0(st.sampleRate, frames[f]))
  }

  function Harmonicities(ps: seq<Pitch>): (h: seq<real>)
    ensures |h| == |ps| && forall f :: 0 <= f < |ps| ==> h[f] == ps[f].harmonicity
  {
    seq(|ps|, f requires 0 <= f < |ps| => ps[f].harmonicity)
  }

  /** `static_features`: the static rows laid end to end, `n_mfcc + 8` per frame. */
  function StaticBuffer(m: Math, st: Setup, frames: seq<seq<real>>): (buf: seq<real>)
    requires Valid(m)
    requires forall g :: 0 <= g < |frames| ==> SetupFits(st, |frames[g]|)
    ensures |buf| == |frames| * (|st.mfcc| + OtherCount)
    ensures |frames| * |st.mfcc| <= |buf|
  {
    MulMono(|frames|, |st.mfcc|, |st.mfcc| + OtherCount);
    Flatten(StaticRows(m, st, frames), |st.mfcc| + OtherCount)
  }

  /** `delta_mfccs`: deltas of the static buffer read with stride `n_mfcc`. */
  function DeltaBuffer(m: Math, st: Setup, frames: seq<seq<real>>): (buf: seq<real>)
    requires Valid(m)
    requires forall g :: 0 <= g < |frames| ==> SetupFits(st, |frames[g]|)
    ensures |buf| == |frames| * |st.mfcc|
    ensures |st.mfcc| > 0 ==> |buf| >= |frames|
  {
    if |frames| > 0 && |st.mfcc| > 0 then
      MulAtLeast(|frames|, |st.mfcc|);
      ComputeDeltas(StaticBuffer(m, st, frames), |frames|, |st.mfcc|)
    else ComputeDeltas(StaticBuffer(m, st, frames), |frames|, |st.mfcc|)
  }

  /** `delta2_mfccs`: deltas of the delta buffer. */
  function Delta2Buffer(m: Math, st: Setup, frames: seq<seq<real>>): (buf: seq<real>)
    requires Valid(m)
    requires forall g :: 0 <= g < |frames| ==> SetupFits(st, |frames[g]|)
    ensures |buf| == |frames| * |st.mfcc|
  {
    ComputeDeltas(DeltaBuffer(m, st, frames), |frames|, |st.mfcc|)
  }

  /** Statistics of every column `offset + i`, `i < count`, of a buffer with row stride `stride`. */
  function ColumnStats(m: Math, buf: seq<real>, stride: nat, offset: nat, count: nat, rows: nat): (r: seq<FeatureStats>)
    requires Valid(m) && offset + count <= stride && rows * stride <= |buf|
    ensures |r| == count
    ensures forall i :: 0 <= i < count ==> r[i] == ComputeStats(m, Column(buf, stride, offset + i, rows))
  {
    seq(count, i requires 0 <= i < count => ComputeStats(m, Column(buf, stride, offset + i, rows)))
  }

  /** Buffers of the right sizes for `n` coefficients over `nf` frames. */
  predicate Buffers(n: nat, nf: nat, buf: seq<real>, d1: seq<real>, d2: seq<real>, ps: seq<Pitch>) {
    nf > 0 && |buf| == nf * (n + OtherCount) && |d1| == nf * n && |d2| == nf * n && |ps| == nf
  }

  /**
   * The statistics a row is printed from: per-column statistics of the
   * static buffer (stride `n + 8`) and of the two delta buffers (stride `n`),
   * then the F0, voicing and harmonicity summaries of the pitch track.
   */
  function Summarize(m: Math, n: nat, nf: nat, buf: seq<real>, d1: seq<real>, d2: seq<real>, ps: seq<Pitch>): (sum: Summary)
    requires Valid(m) && Buffers(n, nf, buf, d1, d2, ps)
    ensures Shaped(sum, n)
  {
    MulMono(nf, n, n + OtherCount);
    Summary(
      ColumnStats(m, buf, n + OtherCount, 0, n, nf),
      ColumnStats(m, d1, n, 0, n, nf),
      ColumnStats(m, d2, n, 0, n, nf),
      ColumnStats(m, buf, n + OtherCount, n, OtherCount, nf),
      F0Stats(m, ps),
      VoicingRate(ps),
      ComputeStats(m, Harmonicities(ps)))
  }

  /** The summary of one recording's frames. */
  function RecordingSummary(m: Math, st: Setup, frames: seq<seq<real>>): (sum: Summary)
    requires Valid(m) && |frames| > 0
    requires forall g :: 0 <= g < |frames| ==> SetupFits(st, |frames[g]|)
    ensures Shaped(sum, |st.mfcc|)
  {
    Summarize(m, |st.mfcc|, |frames|, StaticBuffer(m, st, frames), DeltaBuffer(m, st, frames),
              Delta2Buffer(m, st, frames), Pitches(st, frames))
  }

  /**
   * One recording's output values (after `id,classe`): none for fewer than
   * three frames, otherwise `4 (3 n_mfcc + 8) + 5` values laid out as
   * `ColAt` describes.
   */
  function ExtractRow(m: Math, rec: Recording, p: Params, power: seq<real>): (r: Option<seq<real>>)
    requires Valid(m) && Framed(rec)
    requires rec.sampleRate > 0 && rec.frameLen != 1 && p.nMfcc > 0 && p.nMels > 0
    requires |power| >= NextPow2(rec.frameLen) / 2 + 1
    ensures r.None? <==> |rec.frames| < 3
    ensures r.Some? ==> |r.value| == ValueCount(p.nMfcc)
  {
    if |rec.frames| < 3 then None
    else
      var st := MakeSetup(m, rec, p, power);
      var sum := RecordingSummary(m, st, rec.frames);
      RowLayout(sum, p.nMfcc);
      Some(RowValues(sum, p.nMfcc))
  }

  /**
   * Because every frame gets the same MFCCs, each static MFCC trajectory is
   * constant: mean the coefficient of the `power` buffer, no spread, whatever
   * the delta buffers and the pitch track.
   */
  lemma StaticMfccStatsConstant(m: Math, st: Setup, frames: seq<seq<real>>, d1: seq<real>, d2: seq<real>, ps: seq<Pitch>, i: nat)
    requires Valid(m) && |frames| >= 2 && i < |st.mfcc|
    requires forall g :: 0 <= g < |frames| ==> SetupFits(st, |frames[g]|)
    requires Buffers(|st.mfcc|, |frames|, StaticBuffer(m, st, frames), d1, d2, ps)
    ensures Summarize(m, |st.mfcc|, |frames|, StaticBuffer(m, st, frames), d1, d2, ps).mfcc[i]
            == FeatureStats(st.mfcc[i], 0.0, 0.0, 0.0)
  {
    StaticMfccColumnStats(m, st, frames, i);
  }

  lemma StaticMfccColumnStats(m: Math, st: Setup, frames: seq<seq<real>>, i: nat)
    requires Valid(m) && |frames| >= 2 && i < |st.mfcc|
    requires forall g :: 0 <= g < |frames| ==> SetupFits(st, |frames[g]|)
    ensures ColumnStats(m, StaticBuffer(m, st, frames), |st.mfcc| + OtherCount, 0, |st.mfcc|, |frames|)[i]
            == FeatureStats(st.mfcc[i], 0.0, 0.0, 0.0)
  {
    var rows := StaticRows(m, st, frames);
    forall f | 0 <= f < |frames|
      ensures rows[f][i] == st.mfcc[i]
    {
      MfccIndependentOfFrame(m, st, frames, f, i);
    }
    StatsOfConstantColumn(m, rows, |st.mfcc| + OtherCount, i, st.mfcc[i]);
  }

  /**
   * The stride mismatch of the first delta pass: the trajectory it takes for
   * coefficient 0 has frame 0's RMS as its second entry, so the first delta
   * is that RMS minus the first coefficient.
   */
  lemma FirstDeltaMixesRows(m: Math, st: Setup, frames: seq<seq<real>>)
    requires Valid(m) && |frames| >= 2 && |st.mfcc| > 0
    requires forall g :: 0 <= g < |frames| ==> SetupFits(st, |frames[g]|)
    ensures DeltaBuffer(m, st, frames)[0] == Rms(m, frames[0]) - st.mfcc[0]
  {
    StrideColumnStart(m, st, frames);
    FirstDelta(StaticBuffer(m, st, frames), |frames|, |st.mfcc|);
  }

  /** The first two entries of column 0 read with stride `n_mfcc`. */
  lemma StrideColumnStart(m: Math, st: Setup, frames: seq<seq<real>>)
    requires Valid(m) && |frames| >= 2 && |st.mfcc| > 0
    requires forall g :: 0 <= g < |frames| ==> SetupFits(st, |frames[g]|)
    ensures var col := Column(StaticBuffer(m, st, frames), |st.mfcc|, 0, |frames|);
            col[0] == st.mfcc[0] && col[1] == Rms(m, frames[0])
  {
    var n := |st.mfcc|;
    var rows := StaticRows(m, st, frames);
    DeltaStrideMismatch(rows, n);
    assert rows[0] == StaticRow(m, st, frames, 0);
    FlattenAt(rows, n + OtherCount, 0, 0);
    MfccIndependentOfFrame(m, st, frames, 0, 0);
  }

  /** The first delta of column 0 is its second entry minus its first. */
  lemma FirstDelta(buf: seq<real>, frames: nat, n: nat)
    requires frames >= 2 && n > 0 && frames * n <= |buf|
    ensures frames * n > 0
    ensures var col := Column(buf, n, 0, frames);
            ComputeDeltas(buf, frames, n)[0] == col[1] - col[0]
  {
    MulAtLeast(frames, n);
    DeltasAt(buf, frames, n, 0, 0);
  }

  /**
   * The voicing value is the share of frames whose estimate is positive: 0
   * exactly when no frame is voiced, and then the F0 statistics are zero.
   */
  lemma VoicingSummary(m: Math, n: nat, nf: nat, buf: seq<real>, d1: seq<real>, d2: seq<real>, ps: seq<Pitch>)
    requires Valid(m) && Buffers(n, nf, buf, d1, d2, ps)
    ensures var sum := Summarize(m, n, nf, buf, d1, d2, ps);
            && 0.0 <= sum.voicingRate <= 1.0
            && (sum.voicingRate == 0.0 <==> forall f :: 0 <= f < |ps| ==> ps[f].f0 <= 0.0)
            && (sum.voicingRate == 1.0 <==> forall f :: 0 <= f < |ps| ==> ps[f].f0 > 0.0)
            && (sum.voicingRate == 0.0 ==> sum.f0 == FeatureStats(0.0, 0.0, 0.0, 0.0))
  {
    VoicedCountZero(ps);
  }

  /**
   * A produced row has the reference layout over the recording's summary,
   * and the header names every one of its values.
   */
  lemma ExtractRowLayout(m: Math, rec: Recording, p: Params, power: seq<real>, sum: Summary)
    requires Valid(m) && Framed(rec)
    requires rec.sampleRate > 0 && rec.frameLen != 1 && p.nMfcc > 0 && p.nMels > 0
    requires |power| >= NextPow2(rec.frameLen) / 2 + 1
    requires |rec.frames| >= 3
    requires sum == RecordingSummary(m, MakeSetup(m, rec, p, power), rec.frames)
    ensures ExtractRow(m, rec, p, power).Some?
    ensures Shaped(sum, p.nMfcc)
    ensures var row := ExtractRow(m, rec, p, power).value;
            && |Header(p.nMfcc)| == 2 + |row|
            && forall j :: 0 <= j < |row| ==> ColFits(p.nMfcc, ColAt(p.nMfcc, j)) && row[j] == ColValue(sum, p.nMfcc, ColAt(p.nMfcc, j))
  {
    RowLayout(sum, p.nMfcc);
    HeaderLayout(p.nMfcc);
  }
}

=== FILE: fann.dfy ===
/**
 * The FANN text training format as split_normalize.c writes it and
 * svm_baseline.c reads it back: a header of three unsigned counts, then per
 * sample a line of input values and a line of target values.
 *
 * A file is a sequence of whitespace-separated number tokens. A `Count` token
 * is a printed unsigned integer and a `Value` token a printed decimal; the
 * decimal rendering itself is not modelled, a `Value` carries the number
 * that was printed.
 */
module Fann {
  import opened Wrappers
  import Metrics
  import Numerics

  datatype Token = Count(n: nat) | Value(x: real)

  /** `%f` accepts either kind of token. */
  function Number(t: Token): real {
    match t
    case Count(n) => n as real
    case Value(x) => x
  }

  function Numbers(ts: seq<Token>): (r: seq<real>)
    ensures |r| == |ts| && forall j :: 0 <= j < |ts| ==> r[j] == Number(ts[j])
  {
    if |ts| == 0 then [] else [Number(ts[0])] + Numbers(ts[1..])
  }

  // ---------------------------------------------------------------------------
  // Writer

  /** One sample to write: its raw feature vector and its class index. */
  datatype Example = Example(features: seq<real>, cls: int)

  /** The z-score of one feature, 0 when the scale is not positive. */
  function Normalize(x: real, mean: real, std: real): (r: real)
    ensures std > 0.0 ==> r * std == x - mean
    ensures std <= 0.0 ==> r == 0.0
  {
    if std > 0.0 then (x - mean) / std else 0.0
  }

  predicate CanWrite(samples: seq<Example>, dim: nat, mean: seq<real>, std: seq<real>) {
    |mean| >= dim && |std| >= dim && forall i :: 0 <= i < |samples| ==> |samples[i].features| >= dim
  }

  /** The normalised inputs of one sample. */
  function Inputs(e: Example, dim: nat, mean: seq<real>, std: seq<real>): (v: seq<real>)
    requires |e.features| >= dim && |mean| >= dim && |std| >= dim
    ensures |v| == dim && forall f :: 0 <= f < dim ==> v[f] == Normalize(e.features[f], mean[f], std[f])
  {
    seq(dim, f requires 0 <= f < dim => Normalize(e.features[f], mean[f], std[f]))
  }

  function ValueTokens(v: seq<real>): (ts: seq<Token>)
    ensures |ts| == |v| && forall j :: 0 <= j < |v| ==> ts[j] == Value(v[j])
  {
    seq(|v|, j requires 0 <= j < |v| => Value(v[j]))
  }

  /** The two lines of one sample: the inputs, then the one-hot target (`1.0` / `0.0`). */
  function SampleTokens(e: Example, dim: nat, nClasses: nat, mean: seq<real>, std: seq<real>): (ts: seq<Token>)
    requires |e.features| >= dim && |mean| >= dim && |std| >= dim
    ensures |ts| == dim + nClasses
  {
    ValueTokens(Inputs(e, dim, mean, std)) + ValueTokens(Metrics.OneHot(nClasses, e.cls))
  }

  function Body(samples: seq<Example>, dim: nat, nClasses: nat, mean: seq<real>, std: seq<real>): (ts: seq<Token>)
    requires CanWrite(samples, dim, mean, std)
  {
    if |samples| == 0 then []
    else SampleTokens(samples[0], dim, nClasses, mean, std) + Body(samples[1..], dim, nClasses, mean, std)
  }

  /** `write_fann_data`: the header `count feat_dim n_classes`, then every sample. */
  function WriteFannData(samples: seq<Example>, dim: nat, nClasses: nat, mean: seq<real>, std: seq<real>): (ts: seq<Token>)
    requires CanWrite(samples, dim, mean, std)
    ensures |ts| >= 3 && ts[..3] == [Count(|samples|), Count(dim), Count(nClasses)]
  {
    [Count(|samples|), Count(dim), Count(nClasses)] + Body(samples, dim, nClasses, mean, std)
  }

  /** The target line of a sample holds one 1.0, at its class, when the class is in range. */
  lemma TargetLine(e: Example, dim: nat, nClasses: nat, mean: seq<real>, std: seq<real>, c: nat)
    requires |e.features| >= dim && |mean| >= dim && |std| >= dim && c < nClasses
    ensures SampleTokens(e, dim, nClasses, mean, std)[dim + c] == Value(if c == e.cls then 1.0 else 0.0)
  {
  }

  // ---------------------------------------------------------------------------
  // Reader

  /** What `read_fann_data` returns: the input rows and the argmax label of every target line. */
  datatype FannData = FannData(inputs: seq<seq<real>>, labels: seq<nat>, numInputs: nat, numOutputs: nat)

  datatype Samples = Samples(inputs: seq<seq<real>>, labels: seq<nat>)

  /**
   * Reads `n` samples of `ni` inputs and `no` outputs. Every token is a
   * number, so reading fails exactly when the tokens run out.
   */
  function ReadSamples(ts: seq<Token>, n: nat, ni: nat, no: nat): (r: Result<Samples>)
    ensures r.Ok? ==> |r.value.inputs| == n && |r.value.labels| == n
    ensures r.Ok? ==> forall i :: 0 <= i < n ==> |r.value.inputs[i]| == ni
    ensures r.Ok? && no > 0 ==> forall i :: 0 <= i < n ==> r.value.labels[i] < no
    decreases n
  {
    if n == 0 then Ok(Samples([], []))
    else if |ts| < ni then Err("missing input value")
    else if |ts| < ni + no then Err("missing output value")
    else
      var rest := ReadSamples(ts[ni + no..], n - 1, ni, no);
      if rest.Err? then rest
      else Ok(Samples([Numbers(ts[..ni])] + rest.value.inputs,
                      [Metrics.Argmax(Numbers(ts[ni..ni + no]))] + rest.value.labels))
  }

  /** `read_fann_data`: the three header counts, then the samples. */
  function ReadFannData(ts: seq<Token>): (r: Result<FannData>)
    ensures r.Ok? ==> |ts| >= 3 && ts[0] == Count(|r.value.inputs|) && ts[1] == Count(r.value.numInputs) && ts[2] == Count(r.value.numOutputs)
    ensures r.Ok? ==> |r.value.labels| == |r.value.inputs|
    ensures r.Ok? && r.value.numOutputs > 0 ==> forall i :: 0 <= i < |r.value.labels| ==> r.value.labels[i] < r.value.numOutputs
  {
    if |ts| < 3 || !ts[0].Count? || !ts[1].Count? || !ts[2].Count? then Err("bad header")
    else
      var n, ni, no := ts[0].n, ts[1].n, ts[2].n;
      var s := ReadSamples(ts[3..], n, ni, no);
      if s.Err? then Err(s.reason) else Ok(FannData(s.value.inputs, s.value.labels, ni, no))
  }

  /** Reading fails exactly when fewer numbers follow than the header announces. */
  lemma {:induction false} ReadSamplesOk(ts: seq<Token>, n: nat, ni: nat, no: nat)
    ensures ReadSamples(ts, n, ni, no).Ok? <==> |ts| >= Span(n, ni + no)
    decreases n
  {
    if n > 0 {
      var w := ni + no;
      if |ts| >= w {
        ReadSamplesOk(ts[w..], n - 1, ni, no);
        assert |ts[w..]| == |ts| - w;
      }
    }
  }

  /** The tokens `n` samples of width `w` take: `n * w`, as `SpanIsProduct` shows. */
  function Span(n: nat, w: nat): (k: nat)
    ensures n > 0 ==> k >= w
  {
    if n == 0 then 0 else Span(n - 1, w) + w
  }

  lemma {:induction false} SpanIsProduct(n: nat, w: nat)
    ensures Span(n, w) == n * w
  {
    if n > 0 {
      SpanIsProduct(n - 1, w);
      assert n * w == (n - 1) * w + w;
    }
  }

  /** Header check and length check: the whole success condition of the reader. */
  lemma ReadFannDataOk(ts: seq<Token>)
    ensures ReadFannData(ts).Ok? <==>
      |ts| >= 3 && ts[0].Count? && ts[1].Count? && ts[2].Count? && |ts| - 3 >= ts[0].n * (ts[1].n + ts[2].n)
  {
    if |ts| >= 3 && ts[0].Count? && ts[1].Count? && ts[2].Count? {
      ReadSamplesOk(ts[3..], ts[0].n, ts[1].n, ts[2].n);
      SpanIsProduct(ts[0].n, ts[1].n + ts[2].n);
    }
  }

  /** The class of every sample, the labels a reader should recover. */
  function Classes(samples: seq<Example>): (c: seq<int>)
    ensures |c| == |samples| && forall i :: 0 <= i < |samples| ==> c[i] == samples[i].cls
  {
    seq(|samples|, i requires 0 <= i < |samples| => samples[i].cls)
  }

  function AllInputs(samples: seq<Example>, dim: nat, mean: seq<real>, std: seq<real>): (rows: seq<seq<real>>)
    requires CanWrite(samples, dim, mean, std)
    ensures |rows| == |samples| && forall i :: 0 <= i < |samples| ==> rows[i] == Inputs(samples[i], dim, mean, std)
  {
    seq(|samples|, i requires 0 <= i < |samples| => Inputs(samples[i], dim, mean, std))
  }

  lemma NumbersValues(v: seq<real>)
    ensures Numbers(ValueTokens(v)) == v
  {
  }

  lemma {:induction false} ReadBody(samples: seq<Example>, dim: nat, nClasses: nat, mean: seq<real>, std: seq<real>)
    requires CanWrite(samples, dim, mean, std)
    requires forall i :: 0 <= i < |samples| ==> 0 <= samples[i].cls < nClasses
    ensures ReadSamples(Body(samples, dim, nClasses, mean, std), |samples|, dim, nClasses)
         == Ok(Samples(AllInputs(samples, dim, mean, std), Classes(samples)))
    decreases |samples|
  {
    if |samples| > 0 {
      var e := samples[0];
      var tail := Samples(AllInputs(samples[1..], dim, mean, std), Classes(samples[1..]));
      ReadBody(samples[1..], dim, nClasses, mean, std);
      ReadOneSample(e, dim, nClasses, mean, std, Body(samples[1..], dim, nClasses, mean, std), |samples|, tail);
      SamplesCons(samples, dim, mean, std);
    }
  }

  lemma ThreeParts<T>(a: seq<T>, b: seq<T>, c: seq<T>)
    ensures (a + b + c)[..|a|] == a
    ensures (a + b + c)[|a|..|a| + |b|] == b
    ensures (a + b + c)[|a| + |b|..] == c
  {
    assert (a + b + c)[..|a|] == a;
    assert (a + b + c)[|a|..|a| + |b|] == b;
    assert (a + b + c)[|a| + |b|..] == c;
  }

  lemma SamplesCons(samples: seq<Example>, dim: nat, mean: seq<real>, std: seq<real>)
    requires CanWrite(samples, dim, mean, std) && |samples| > 0
    ensures AllInputs(samples, dim, mean, std) == [Inputs(samples[0], dim, mean, std)] + AllInputs(samples[1..], dim, mean, std)
    ensures Classes(samples) == [samples[0].cls] + Classes(samples[1..])
  {
    assert AllInputs(samples, dim, mean, std) == [Inputs(samples[0], dim, mean, std)] + AllInputs(samples[1..], dim, mean, std);
    assert Classes(samples) == [samples[0].cls] + Classes(samples[1..]);
  }

  /** The reader takes one sample's two lines off the front and recovers its inputs and class. */
  lemma ReadOneSample(e: Example, dim: nat, nClasses: nat, mean: seq<real>, std: seq<real>, rest: seq<Token>, n: nat, tail: Samples)
    requires |e.features| >= dim && |mean| >= dim && |std| >= dim && 0 <= e.cls < nClasses
    requires n > 0 && ReadSamples(rest, n - 1, dim, nClasses) == Ok(tail)
    ensures ReadSamples(SampleTokens(e, dim, nClasses, mean, std) + rest, n, dim, nClasses)
         == Ok(Samples([Inputs(e, dim, mean, std)] + tail.inputs, [e.cls] + tail.labels))
  {
    var input := ValueTokens(Inputs(e, dim, mean, std));
    var target := ValueTokens(Metrics.OneHot(nClasses, e.cls));
    ThreeParts(input, target, rest);
    NumbersValues(Inputs(e, dim, mean, std));
    NumbersValues(Metrics.OneHot(nClasses, e.cls));
    Metrics.ArgmaxOneHot(nClasses, e.cls);
  }

  /**
   * Reading what `write_fann_data` wrote gives back the header counts, the
   * normalised inputs and every sample's class index as its label.
   */
  lemma WriteThenRead(samples: seq<Example>, dim: nat, nClasses: nat, mean: seq<real>, std: seq<real>)
    requires CanWrite(samples, dim, mean, std)
    requires forall i :: 0 <= i < |samples| ==> 0 <= samples[i].cls < nClasses
    ensures ReadFannData(WriteFannData(samples, dim, nClasses, mean, std))
         == Ok(FannData(AllInputs(samples, dim, mean, std), Classes(samples), dim, nClasses))
  {
    var body := Body(samples, dim, nClasses, mean, std);
    var ts := [Count(|samples|), Count(dim), Count(nClasses)] + body;
    assert ts[3..] == body;
    ReadBody(samples, dim, nClasses, mean, std);
  }
}

=== FILE: features.dfy ===
/**
 * The per-frame descriptors, the trajectory summariser and the delta operator
 * of extract_features.c.
 */
module Features {
  import opened Numerics
  import opened Wrappers

  // ---------------------------------------------------------------------------
  // Time-domain descriptors

  /** `compute_rms`: 0 for an empty frame, else sqrt of the mean square. */
  function Rms(m: Math, x: seq<real>): (r: real)
    requires Valid(m)
    ensures r >= 0.0
    ensures |x| == 0 ==> r == 0.0
  {
    if |x| == 0 then 0.0 else m.sqrt(SumSq(x) / |x| as real)
  }

  lemma RmsOfSilence(m: Math, x: seq<real>)
    requires Valid(m)
    requires forall i :: 0 <= i < |x| ==> x[i] == 0.0
    ensures Rms(m, x) == 0.0
  {
    SumSqZero(x);
  }

  /** A sign change between consecutive samples, with 0 counted as positive. */
  predicate Crossing(a: real, b: real) {
    (a >= 0.0 && b < 0.0) || (a < 0.0 && b >= 0.0)
  }

  /** Number of consecutive pairs of `x` that change sign. */
  function Crossings(x: seq<real>): (c: nat)
    ensures |x| >= 1 ==> c <= |x| - 1
    ensures |x| <= 1 ==> c == 0
  {
    if |x| < 2 then 0
    else Crossings(x[..|x| - 1]) + (if Crossing(x[|x| - 2], x[|x| - 1]) then 1 else 0)
  }

  /** `compute_zcr`: crossings per pair, 0 for fewer than two samples. */
  function Zcr(x: seq<real>): (r: real)
    ensures 0.0 <= r <= 1.0
    ensures |x| < 2 ==> r == 0.0
  {
    if |x| < 2 then 0.0 else Crossings(x) as real / (|x| - 1) as real
  }

  /** A frame that never changes sign has no crossings. */
  lemma {:induction false} CrossingsOfNonNegative(x: seq<real>)
    requires forall i :: 0 <= i < |x| ==> x[i] >= 0.0
    ensures Crossings(x) == 0
  {
    if |x| >= 2 {
      CrossingsOfNonNegative(x[..|x| - 1]);
    }
  }

  /** A frame whose sign alternates at every sample crosses at every pair. */
  lemma {:induction false} CrossingsOfAlternating(x: seq<real>)
    requires |x| >= 1
    requires forall i :: 0 <= i < |x| - 1 ==> Crossing(x[i], x[i + 1])
    ensures Crossings(x) == |x| - 1
  {
    if |x| >= 2 {
      CrossingsOfAlternating(x[..|x| - 1]);
      assert Crossing(x[|x| - 2], x[|x| - 1]);
    }
  }

  lemma ZcrExtremes(x: seq<real>)
    requires |x| >= 2
    ensures (forall i :: 0 <= i < |x| ==> x[i] >= 0.0) ==> Zcr(x) == 0.0
    ensures (forall i :: 0 <= i < |x| - 1 ==> Crossing(x[i], x[i + 1])) ==> Zcr(x) == 1.0
  {
    if forall i :: 0 <= i < |x| ==> x[i] >= 0.0 {
      CrossingsOfNonNegative(x);
    }
    if forall i :: 0 <= i < |x| - 1 ==> Crossing(x[i], x[i + 1]) {
      CrossingsOfAlternating(x);
    }
  }

  /** Largest absolute sample, starting from 0. */
  function Peak(x: seq<real>): (p: real)
    ensures p >= 0.0
    ensures forall i :: 0 <= i < |x| ==> Abs(x[i]) <= p
    ensures p == 0.0 || exists i :: 0 <= i < |x| && p == Abs(x[i])
  {
    if |x| == 0 then 0.0
    else
      var q := Peak(x[..|x| - 1]);
      assert forall i :: 0 <= i < |x| - 1 ==> x[..|x| - 1][i] == x[i];
      if Abs(x[|x| - 1]) > q then Abs(x[|x| - 1]) else q
  }

  /** `compute_crest_factor`: peak over RMS, 0 when the RMS is below 1e-9. */
  function Crest(x: seq<real>, rms: real): (r: real)
    ensures r >= 0.0
    ensures rms < 1.0e-9 ==> r == 0.0
  {
    if rms < 1.0e-9 then 0.0 else Peak(x) / rms
  }

  lemma {:induction false} SumSqAtMost(x: seq<real>, p: real)
    requires p >= 0.0
    requires forall i :: 0 <= i < |x| ==> Abs(x[i]) <= p
    ensures SumSq(x) <= |x| as real * (p * p)
  {
    if |x| > 0 {
      SumSqAtMost(x[..|x| - 1], p);
      var a := Abs(x[|x| - 1]);
      assert x[|x| - 1] * x[|x| - 1] == a * a;
      SquareMono(a, p);
    }
  }

  /** The peak is never below the RMS, so a non-degenerate crest factor is at least 1. */
  lemma CrestAtLeastOne(m: Math, x: seq<real>)
    requires Valid(m) && Rms(m, x) >= 1.0e-9
    ensures Crest(x, Rms(m, x)) >= 1.0
  {
    var p := Peak(x);
    RmsAtMostPeak(m, x);
    QuotAtLeastOne(p, Rms(m, x));
  }

  lemma RmsAtMostPeak(m: Math, x: seq<real>)
    requires Valid(m) && |x| > 0
    ensures Rms(m, x) <= Peak(x)
  {
    RmsBound(m, x, Peak(x));
  }

  /** A bound on every magnitude bounds the RMS. */
  lemma RmsBound(m: Math, x: seq<real>, p: real)
    requires Valid(m) && |x| > 0 && p >= 0.0
    requires forall i :: 0 <= i < |x| ==> Abs(x[i]) <= p
    ensures Rms(m, x) <= p
  {
    SumSqAtMost(x, p);
    RootMeanAtMost(m, SumSq(x), |x| as real, p);
  }

  lemma RootMeanAtMost(m: Math, s: real, n: real, p: real)
    requires Valid(m) && n > 0.0 && p >= 0.0 && 0.0 <= s <= n * (p * p)
    ensures m.sqrt(s / n) <= p
  {
    DivBounds(s, n, 0.0, p * p);
    assert m.sqrt(s / n) <= m.sqrt(Square(p));
  }

  // ---------------------------------------------------------------------------
  // Spectral descriptors

  /** Difference of two magnitude spectra, bin by bin. */
  function Diff(a: seq<real>, b: seq<real>): (d: seq<real>)
    requires |a| == |b|
    ensures |d| == |a| && forall k :: 0 <= k < |a| ==> d[k] == a[k] - b[k]
  {
    if |a| == 0 then [] else Diff(a[..|a| - 1], b[..|b| - 1]) + [a[|a| - 1] - b[|b| - 1]]
  }

  /** `compute_spectral_flux`: RMS of the bin-wise difference, 0 for no bins. */
  function Flux(m: Math, mag: seq<real>, prev: seq<real>): (r: real)
    requires Valid(m) && |prev| == |mag|
    ensures r >= 0.0
    ensures |mag| == 0 ==> r == 0.0
  {
    if |mag| == 0 then 0.0 else m.sqrt(SumSq(Diff(mag, prev)) / |mag| as real)
  }

  lemma FluxOfIdentical(m: Math, mag: seq<real>)
    requires Valid(m)
    ensures Flux(m, mag, mag) == 0.0
  {
    SumSqZero(Diff(mag, mag));
  }

  /** Centre frequency of bin `k`. */
  function Freq(k: nat, sr: nat, fft: nat): (f: real)
    requires fft > 0
    ensures f >= 0.0
  {
    k as real * sr as real / fft as real
  }

  lemma FreqMonotone(j: nat, k: nat, sr: nat, fft: nat)
    requires fft > 0 && j <= k
    ensures Freq(j, sr, fft) <= Freq(k, sr, fft)
  {
    assert j as real * sr as real <= k as real * sr as real;
  }

  /** Sum of magnitude times frequency over the first `n` bins. */
  function WeightedSum(mag: seq<real>, n: nat, sr: nat, fft: nat): real
    requires n <= |mag| && fft > 0
  {
    if n == 0 then 0.0 else WeightedSum(mag, n - 1, sr, fft) + mag[n - 1] * Freq(n - 1, sr, fft)
  }

  /** Sum of log(mag + 1e-9) over the first `n` bins. */
  function LogSum(m: Math, mag: seq<real>, n: nat): real
    requires n <= |mag|
  {
    if n == 0 then 0.0 else LogSum(m, mag, n - 1) + m.log(mag[n - 1] + 1.0e-9)
  }

  /** Magnitude-weighted squared distance of the bin frequencies from `c`. */
  function SpreadSum(mag: seq<real>, n: nat, sr: nat, fft: nat, c: real): real
    requires n <= |mag| && fft > 0
  {
    if n == 0 then 0.0
    else
      var d := Freq(n - 1, sr, fft) - c;
      SpreadSum(mag, n - 1, sr, fft, c) + d * d * mag[n - 1]
  }

  /** The cumulative magnitude through bin `j` reaches `target`. */
  predicate Reaches(mag: seq<real>, j: nat, target: real)
    requires j < |mag|
  {
    PrefixSum(mag, j + 1) >= target
  }

  /**
   * The roll-off scan from bin `k`: the first bin whose cumulative magnitude
   * reaches `target`.
   */
  function RolloffBin(mag: seq<real>, target: real, k: nat): (r: Option<nat>)
    requires k <= |mag|
    ensures r.Some? ==> k <= r.value < |mag| && Reaches(mag, r.value, target)
    ensures r.Some? ==> forall j :: k <= j < r.value ==> !Reaches(mag, j, target)
    ensures r.None? ==> forall j :: k <= j < |mag| ==> !Reaches(mag, j, target)
    decreases |mag| - k
  {
    if k == |mag| then None
    else if Reaches(mag, k, target) then Some(k)
    else RolloffBin(mag, target, k + 1)
  }

  /** Frequency of the roll-off bin, or 0 when no bin reaches the target. */
  function RolloffFreq(mag: seq<real>, target: real, sr: nat, fft: nat): (f: real)
    requires fft > 0 && |mag| > 0
    ensures 0.0 <= f <= Freq(|mag| - 1, sr, fft)
    ensures match RolloffBin(mag, target, 0)
            case None => f == 0.0
            case Some(b) => f == Freq(b, sr, fft)
  {
    match RolloffBin(mag, target, 0)
    case None => 0.0
    case Some(b) =>
      FreqMonotone(b, |mag| - 1, sr, fft);
      Freq(b, sr, fft)
  }

  /** `b` is the first bin whose cumulative magnitude reaches `target`. */
  predicate FirstReach(mag: seq<real>, b: nat, target: real)
  {
    b < |mag| && Reaches(mag, b, target) && forall j :: 0 <= j < b ==> !Reaches(mag, j, target)
  }

  /**
   * `f` is the roll-off frequency of `mag` for `target`: the frequency of the
   * first bin reaching it, or 0 when no bin does.
   */
  ghost predicate IsRolloff(mag: seq<real>, target: real, sr: nat, fft: nat, f: real)
    requires fft > 0
  {
    || (exists b :: FirstReach(mag, b, target) && f == Freq(b, sr, fft))
    || ((forall j :: 0 <= j < |mag| ==> !Reaches(mag, j, target)) && f == 0.0)
  }

  lemma RolloffFreqIsRolloff(mag: seq<real>, target: real, sr: nat, fft: nat)
    requires fft > 0 && |mag| > 0
    ensures IsRolloff(mag, target, sr, fft, RolloffFreq(mag, target, sr, fft))
  {
    match RolloffBin(mag, target, 0)
    case None =>
    case Some(b) =>
      assert FirstReach(mag, b, target);
  }

  /** The four outputs of `compute_spectral_features`. */
  datatype Spectral = Spectral(centroid: real, rolloff: real, bandwidth: real, flatness: real)

  /** Centroid, bandwidth and flatness of a spectrum whose magnitude sum passed the guard. */
  function Shape(m: Math, mag: seq<real>, sr: nat, fft: nat, sum: real): (r: (real, real, real))
    requires Valid(m) && fft > 0 && |mag| > 0 && sum == PrefixSum(mag, |mag|) && sum > 1.0e-9
    ensures r.2 > 0.0
  {
    var n := |mag| as real;
    var centroid := WeightedSum(mag, |mag|, sr, fft) / sum;
    var flatness := m.exp(LogSum(m, mag, |mag|) / n) / (sum / n);
    var bandwidth := m.sqrt(SpreadSum(mag, |mag|, sr, fft, centroid) / sum);
    (centroid, bandwidth, flatness)
  }

  /**
   * `compute_spectral_features`: centroid, flatness and bandwidth behind the
   * 1e-9 magnitude-sum guard; roll-off at the fraction `pct` of the total.
   */
  function SpectralFeatures(m: Math, mag: seq<real>, sr: nat, fft: nat, pct: real): (r: Spectral)
    requires Valid(m) && fft > 0
    ensures |mag| == 0 ==> r == Spectral(0.0, 0.0, 0.0, 0.0)
    ensures PrefixSum(mag, |mag|) <= 1.0e-9 ==> r.centroid == 0.0 && r.bandwidth == 0.0 && r.flatness == 0.0
    ensures PrefixSum(mag, |mag|) > 1.0e-9 ==> r.flatness > 0.0
    ensures r.rolloff >= 0.0
    ensures |mag| > 0 ==> r.rolloff <= Freq(|mag| - 1, sr, fft)
  {
    if |mag| == 0 then Spectral(0.0, 0.0, 0.0, 0.0)
    else
      var sum := PrefixSum(mag, |mag|);
      var rolloff := RolloffFreq(mag, sum * pct, sr, fft);
      if sum > 1.0e-9 then
        var shape := Shape(m, mag, sr, fft, sum);
        Spectral(shape.0, rolloff, shape.1, shape.2)
      else Spectral(0.0, rolloff, 0.0, 0.0)
  }

  lemma {:induction false} PrefixSumNonNeg(mag: seq<real>, n: nat)
    requires n <= |mag| && AllNonNeg(mag)
    ensures PrefixSum(mag, n) >= 0.0
  {
    if n > 0 {
      PrefixSumNonNeg(mag, n - 1);
    }
  }

  lemma {:induction false} PrefixSumMonotone(mag: seq<real>, j: nat, n: nat)
    requires j <= n <= |mag| && AllNonNeg(mag)
    ensures PrefixSum(mag, j) <= PrefixSum(mag, n)
    decreases n - j
  {
    if j < n {
      PrefixSumMonotone(mag, j, n - 1);
    }
  }

  /** The roll-off output is the roll-off frequency at the fraction `pct` of the total magnitude. */
  lemma SpectralRolloff(m: Math, mag: seq<real>, sr: nat, fft: nat, pct: real)
    requires Valid(m) && fft > 0 && |mag| > 0
    ensures IsRolloff(mag, PrefixSum(mag, |mag|) * pct, sr, fft, SpectralFeatures(m, mag, sr, fft, pct).rolloff)
  {
    RolloffFreqIsRolloff(mag, PrefixSum(mag, |mag|) * pct, sr, fft);
  }

  /** With non-negative magnitudes and pct <= 1, some bin always reaches the target. */
  lemma RolloffFound(mag: seq<real>, pct: real, target: real)
    requires |mag| > 0 && AllNonNeg(mag) && pct <= 1.0 && target == PrefixSum(mag, |mag|) * pct
    ensures RolloffBin(mag, target, 0).Some?
  {
    var sum := PrefixSum(mag, |mag|);
    PrefixSumNonNeg(mag, |mag|);
    MulRealMono(sum, pct, 1.0);
    assert Reaches(mag, |mag| - 1, target);
  }

  lemma {:induction false} WeightedSumBounds(mag: seq<real>, n: nat, sr: nat, fft: nat, fmax: real)
    requires n <= |mag| && fft > 0 && AllNonNeg(mag)
    requires forall k :: 0 <= k < n ==> Freq(k, sr, fft) <= fmax
    ensures 0.0 <= WeightedSum(mag, n, sr, fft) <= fmax * PrefixSum(mag, n)
  {
    if n > 0 {
      WeightedSumBounds(mag, n - 1, sr, fft, fmax);
      var w, f := mag[n - 1], Freq(n - 1, sr, fft);
      assert 0.0 <= w * f <= w * fmax;
    }
  }

  lemma {:induction false} SpreadSumNonNeg(mag: seq<real>, n: nat, sr: nat, fft: nat, c: real)
    requires n <= |mag| && fft > 0 && AllNonNeg(mag)
    ensures SpreadSum(mag, n, sr, fft, c) >= 0.0
  {
    if n > 0 {
      SpreadSumNonNeg(mag, n - 1, sr, fft, c);
      var d := Freq(n - 1, sr, fft) - c;
      assert d * d * mag[n - 1] >= 0.0;
    }
  }

  /**
   * For a non-negative spectrum with energy, the centroid lies between 0 and
   * the top bin's frequency, and the bandwidth is a real square root.
   */
  lemma CentroidInRange(m: Math, mag: seq<real>, sr: nat, fft: nat, pct: real)
    requires Valid(m) && fft > 0 && |mag| > 0 && AllNonNeg(mag)
    requires PrefixSum(mag, |mag|) > 1.0e-9
    ensures 0.0 <= SpectralFeatures(m, mag, sr, fft, pct).centroid <= Freq(|mag| - 1, sr, fft)
    ensures SpectralFeatures(m, mag, sr, fft, pct).bandwidth >= 0.0
  {
    var n := |mag|;
    var top := Freq(n - 1, sr, fft);
    forall k | 0 <= k < n
      ensures Freq(k, sr, fft) <= top
    {
      FreqMonotone(k, n - 1, sr, fft);
    }
    WeightedSumBounds(mag, n, sr, fft, top);
    var sum := PrefixSum(mag, n);
    var w := WeightedSum(mag, n, sr, fft);
    assert w / sum <= top by {
      assert w <= top * sum;
    }
    SpreadSumNonNeg(mag, n, sr, fft, w / sum);
  }

  // ---------------------------------------------------------------------------
  // Trajectory statistics

  /** `FeatureStats`: mean, sample std, population skewness and excess kurtosis. */
  datatype FeatureStats = FeatureStats(mean: real, std: real, skewness: real, kurtosis: real)

  function SumCubes(d: seq<real>): real {
    if |d| == 0 then 0.0 else SumCubes(d[..|d| - 1]) + d[|d| - 1] * d[|d| - 1] * d[|d| - 1]
  }

  function SumFourths(d: seq<real>): real {
    if |d| == 0 then 0.0
    else
      var x := d[|d| - 1];
      SumFourths(d[..|d| - 1]) + x * x * x * x
  }

  /**
   * `compute_stats`: fewer than two values give zeros (with the mean of a
   * single value); otherwise std uses divisor n - 1 and the third and fourth
   * moments divisor n, behind a 1e-9 guard on std.
   */
  function ComputeStats(m: Math, v: seq<real>): (r: FeatureStats)
    requires Valid(m)
    ensures |v| == 0 ==> r == FeatureStats(0.0, 0.0, 0.0, 0.0)
    ensures |v| == 1 ==> r == FeatureStats(v[0], 0.0, 0.0, 0.0)
    ensures r.std >= 0.0
    ensures r.std <= 1.0e-9 ==> r.skewness == 0.0 && r.kurtosis == 0.0
  {
    if |v| < 2 then
      if |v| == 1 then FeatureStats(v[0], 0.0, 0.0, 0.0) else FeatureStats(0.0, 0.0, 0.0, 0.0)
    else
      var n := |v| as real;
      var mean := Sum(v) / n;
      var d := Deviations(v, mean);
      var std := m.sqrt(SumSq(d) / (n - 1.0));
      if std > 1.0e-9 then
        var shape := Moments(d, n, std);
        FeatureStats(mean, std, shape.0, shape.1)
      else FeatureStats(mean, std, 0.0, 0.0)
  }

  /** Skewness and excess kurtosis from the deviations, with population moments. */
  function Moments(d: seq<real>, n: real, std: real): (real, real)
    requires n > 0.0 && std > 1.0e-9
  {
    var m3 := SumCubes(d) / n;
    var m4 := SumFourths(d) / n;
    var p3 := std * std * std;
    (m3 / p3, m4 / (p3 * std) - 3.0)
  }

  /** The mean of values in [lo, hi] lies in [lo, hi]. */
  lemma MeanBounds(m: Math, v: seq<real>, lo: real, hi: real)
    requires Valid(m) && |v| > 0
    requires forall i :: 0 <= i < |v| ==> lo <= v[i] <= hi
    ensures lo <= ComputeStats(m, v).mean <= hi
  {
    SumBounds(v, lo, hi);
    var n := |v| as real;
    if |v| >= 2 {
      DivBounds(Sum(v), n, lo, hi);
    }
  }

  /** A constant trajectory has that constant as mean and no spread. */
  lemma StatsOfConstant(m: Math, v: seq<real>, c: real)
    requires Valid(m) && |v| >= 2
    requires forall i :: 0 <= i < |v| ==> v[i] == c
    ensures ComputeStats(m, v) == FeatureStats(c, 0.0, 0.0, 0.0)
  {
    var n := |v| as real;
    assert Sum(v) == n * c by {
      SumConst(v, c);
    }
    assert Sum(v) / n == c by {
      MulDivCancel(n, c);
    }
    assert SumSq(Deviations(v, c)) == 0.0 by {
      SumSqZero(Deviations(v, c));
    }
    assert 0.0 / (n - 1.0) == 0.0;
  }

  // ---------------------------------------------------------------------------
  // Delta operator

  /**
   * Delta of one trajectory: forward difference at the start, central
   * differences inside, backward difference at the end; all zeros when there
   * are fewer than two frames.
   */
  function DeltaSeq(col: seq<real>): (d: seq<real>)
    ensures |d| == |col|
    ensures |col| < 2 ==> forall t :: 0 <= t < |d| ==> d[t] == 0.0
  {
    var n := |col|;
    if n < 2 then seq(n, _ => 0.0)
    else seq(n, t requires 0 <= t < n =>
               if t == 0 then col[1] - col[0]
               else if t == n - 1 then col[n - 1] - col[n - 2]
               else col[t + 1] - col[t - 1])
  }

  /** Interior entries of the delta are central differences. */
  lemma DeltaInside(col: seq<real>, t: nat)
    requires 0 < t < |col| - 1
    ensures DeltaSeq(col)[t] == col[t + 1] - col[t - 1]
  {
  }

  /** A linear trajectory a + b t has delta b at both ends and 2b inside. */
  lemma DeltaOfLinear(col: seq<real>, a: real, b: real)
    requires |col| >= 2
    requires forall t :: 0 <= t < |col| ==> col[t] == a + b * t as real
    ensures var d := DeltaSeq(col);
            d[0] == b && d[|col| - 1] == b
            && forall t :: 0 < t < |col| - 1 ==> d[t] == 2.0 * b
  {
    var n := |col|;
    LinearStep(col, a, b, 0);
    LinearStep(col, a, b, n - 2);
    forall t | 0 < t < n - 1
      ensures DeltaSeq(col)[t] == 2.0 * b
    {
      LinearCentral(col, a, b, t);
      DeltaInside(col, t);
    }
  }

  lemma LinearStep(col: seq<real>, a: real, b: real, t: nat)
    requires t + 1 < |col|
    requires forall t :: 0 <= t < |col| ==> col[t] == a + b * t as real
    ensures col[t + 1] - col[t] == b
  {
    LinearDiff(a, b, t as real, (t + 1) as real);
  }

  lemma LinearCentral(col: seq<real>, a: real, b: real, t: nat)
    requires 0 < t < |col| - 1
    requires forall t :: 0 <= t < |col| ==> col[t] == a + b * t as real
    ensures col[t + 1] - col[t - 1] == 2.0 * b
  {
    var r := t as real;
    assert col[t + 1] == a + b * (r + 1.0);
    assert col[t - 1] == a + b * (r - 1.0);
    Central(a, b, r);
  }

  lemma Central(a: real, b: real, r: real)
    ensures (a + b * (r + 1.0)) - (a + b * (r - 1.0)) == 2.0 * b
  {
  }

  lemma MulLess(f: nat, rows: nat, stride: nat, offset: nat)
    requires f < rows && offset < stride
    ensures f * stride + offset < rows * stride
  {
    assert (f + 1) * stride <= rows * stride by {
      assert rows - (f + 1) >= 0;
      assert rows * stride - (f + 1) * stride == (rows - (f + 1)) * stride;
    }
  }

  /** Column `offset` of a flat row-major buffer read with row stride `stride`. */
  function Column(buf: seq<real>, stride: nat, offset: nat, rows: nat): (c: seq<real>)
    requires offset < stride && rows * stride <= |buf|
    ensures |c| == rows
  {
    seq(rows, f requires 0 <= f < rows => MulLess(f, rows, stride, offset); buf[f * stride + offset])
  }

  lemma DivBelow(i: nat, rows: nat, width: nat)
    requires i < rows * width
    ensures width > 0 && i / width < rows && i % width < width
  {
    if width > 0 && i / width >= rows {
      MulMono(width, rows, i / width);
    }
  }

  /**
   * `compute_deltas(features, deltas, frames, n)`: the delta of every
   * column of a buffer with `n` entries per frame.
   */
  function ComputeDeltas(features: seq<real>, frames: nat, n: nat): (d: seq<real>)
    requires frames * n <= |features|
    ensures |d| == frames * n
  {
    seq(frames * n, i requires 0 <= i < frames * n => DeltaEntry(features, frames, n, i))
  }

  /** Entry `i` of the deltas: frame i / n of the delta of column i % n. */
  function DeltaEntry(features: seq<real>, frames: nat, n: nat, i: nat): real
    requires frames * n <= |features| && i < frames * n
  {
    DivBelow(i, frames, n);
    var f, k := i / n, i % n;
    DeltaSeq(Column(features, n, k, frames))[f]
  }

  /** With fewer than two frames every delta is zero. */
  lemma DeltasOfShortTrajectory(features: seq<real>, frames: nat, n: nat)
    requires frames * n <= |features| && frames < 2
    ensures forall i :: 0 <= i < frames * n ==> ComputeDeltas(features, frames, n)[i] == 0.0
  {
    forall i | 0 <= i < frames * n
      ensures ComputeDeltas(features, frames, n)[i] == 0.0
    {
      DivBelow(i, frames, n);
      var col := Column(features, n, i % n, frames);
      assert |col| < 2;
      assert ComputeDeltas(features, frames, n)[i] == DeltaSeq(col)[i / n];
    }
  }

  /** Entry (f, k) of the deltas is the delta of column k at frame f. */
  lemma DeltasAt(features: seq<real>, frames: nat, n: nat, f: nat, k: nat)
    requires frames * n <= |features| && f < frames && k < n
    ensures f * n + k < frames * n
    ensures ComputeDeltas(features, frames, n)[f * n + k] == DeltaSeq(Column(features, n, k, frames))[f]
  {
    MulLess(f, frames, n, k);
    DivModOf(f, n, k);
    var i := f * n + k;
    assert ComputeDeltas(features, frames, n)[i] == DeltaSeq(Column(features, n, i % n, frames))[i / n];
  }

  /** Row-major concatenation of equal-width rows. */
  function Flatten(rows: seq<seq<real>>, width: nat): (r: seq<real>)
    requires forall f :: 0 <= f < |rows| ==> |rows[f]| == width
    ensures |r| == |rows| * width
  {
    seq(|rows| * width, i requires 0 <= i < |rows| * width => FlatEntry(rows, width, i))
  }

  /** Entry `i` of the concatenation: entry i % width of row i / width. */
  function FlatEntry(rows: seq<seq<real>>, width: nat, i: nat): real
    requires forall f :: 0 <= f < |rows| ==> |rows[f]| == width
    requires i < |rows| * width
  {
    DivBelow(i, |rows|, width);
    var f, k := i / width, i % width;
    rows[f][k]
  }

  lemma FlattenAt(rows: seq<seq<real>>, width: nat, f: nat, k: nat)
    requires forall g :: 0 <= g < |rows| ==> |rows[g]| == width
    requires f < |rows| && k < width
    ensures f * width + k < |rows| * width
    ensures Flatten(rows, width)[f * width + k] == rows[f][k]
  {
    MulLess(f, |rows|, width, k);
    DivModOf(f, width, k);
    var i := f * width + k;
    assert Flatten(rows, width)[i] == FlatEntry(rows, width, i);
  }

  /** Reading a column with the row width as stride recovers that column. */
  lemma ColumnOfFlatten(rows: seq<seq<real>>, width: nat, k: nat)
    requires forall g :: 0 <= g < |rows| ==> |rows[g]| == width
    requires k < width
    ensures forall f :: 0 <= f < |rows| ==> Column(Flatten(rows, width), width, k, |rows|)[f] == rows[f][k]
  {
    forall f | 0 <= f < |rows|
      ensures Column(Flatten(rows, width), width, k, |rows|)[f] == rows[f][k]
    {
      FlattenAt(rows, width, f, k);
    }
  }

  /** A column that holds the same value in every row has that value as mean and no spread. */
  lemma StatsOfConstantColumn(m: Math, rows: seq<seq<real>>, width: nat, k: nat, c: real)
    requires Valid(m) && |rows| >= 2 && k < width
    requires forall g :: 0 <= g < |rows| ==> |rows[g]| == width
    requires forall g :: 0 <= g < |rows| ==> rows[g][k] == c
    ensures ComputeStats(m, Column(Flatten(rows, width), width, k, |rows|)) == FeatureStats(c, 0.0, 0.0, 0.0)
  {
    ColumnOfFlatten(rows, width, k);
    StatsOfConstant(m, Column(Flatten(rows, width), width, k, |rows|), c);
  }

  /**
   * With stride `n_mfcc` on rows `n_mfcc + 8` wide, the value taken as frame
   * 1's first coefficient is frame 0's entry at index `n_mfcc`, its RMS.
   */
  lemma DeltaStrideMismatch(rows: seq<seq<real>>, nMfcc: nat)
    requires |rows| >= 2 && nMfcc >= 1
    requires forall g :: 0 <= g < |rows| ==> |rows[g]| == nMfcc + 8
    ensures |rows| * nMfcc <= |Flatten(rows, nMfcc + 8)|
    ensures Column(Flatten(rows, nMfcc + 8), nMfcc, 0, |rows|)[1] == rows[0][nMfcc]
  {
    var w := nMfcc + 8;
    assert |rows| * nMfcc <= |rows| * w;
    FlattenAt(rows, w, 0, nMfcc);
  }
}

=== FILE: frame_io.dfy ===
/**
 * The binary `.frames` container written by the preprocessor and read by the
 * feature extractor: a 24-byte header (an 8-byte magic and four little-endian
 * 32-bit unsigned fields) followed by the samples, each stored as the 4 bytes
 * of a 32-bit float. A sample is modelled by its 32-bit pattern (`Word`); which
 * real number that pattern denotes is outside this model.
 *
 * A file is a sequence of bytes; an open output stream is those bytes and a
 * write position. A C NULL is `None`.
 */
module FrameIo {
  import opened Wrappers
  import opened Numerics

  newtype Byte = x: int | 0 <= x < 256

  const WordLimit: nat := 0x1_0000_0000

  /** A `uint32_t`, and also the bit pattern of one stored `float` sample. */
  type Word = x: nat | x < WordLimit

  /** "FRAMES1" followed by a NUL byte. */
  const Magic: seq<Byte> := [70, 82, 65, 77, 69, 83, 49, 0]

  const HeaderSize: nat := 24

  datatype FrameHeader = FrameHeader(magic: seq<Byte>, sampleRate: Word, frameLen: Word,
                                     hopLen: Word, numFrames: Word)

  /** The header's magic field is eight bytes, as its C array is. */
  predicate Sized(h: FrameHeader) {
    |h.magic| == 8
  }

  /** The header as the writer fills it in: the fixed magic and the given fields. */
  function FillHeader(sampleRate: Word, frameLen: Word, hopLen: Word, numFrames: Word): (h: FrameHeader)
    ensures Sized(h) && h.magic == Magic
    ensures h.sampleRate == sampleRate && h.frameLen == frameLen
    ensures h.hopLen == hopLen && h.numFrames == numFrames
  {
    FrameHeader(Magic, sampleRate, frameLen, hopLen, numFrames)
  }

  // ---------------------------------------------------------------------------
  // Little-endian words
  // ---------------------------------------------------------------------------

  function EncodeWord(x: Word): (r: seq<Byte>)
    ensures |r| == 4
  {
    [(x % 256) as Byte, (x / 256 % 256) as Byte, (x / 65536 % 256) as Byte, (x / 16777216) as Byte]
  }

  function DecodeWord(b: seq<Byte>): (x: Word)
    requires |b| == 4
  {
    b[0] as nat + 256 * b[1] as nat + 65536 * b[2] as nat + 16777216 * b[3] as nat
  }

  /** Decoding the four bytes of an encoded word gives the word back. */
  lemma DecodeEncodeWord(x: Word)
    ensures DecodeWord(EncodeWord(x)) == x
  {
    var q1 := x / 256;
    var q2 := q1 / 256;
    var q3 := q2 / 256;
    var r0, r1, r2 := x % 256, q1 % 256, q2 % 256;
    assert x == r0 + 256 * q1 && q1 == r1 + 256 * q2 && q2 == r2 + 256 * q3;
    assert x == (r0 + 256 * r1) + 65536 * q2;
    DivModUnique(x, 65536, q2, r0 + 256 * r1);
    assert x == (r0 + 256 * r1 + 65536 * r2) + 16777216 * q3;
    DivModUnique(x, 16777216, q3, r0 + 256 * r1 + 65536 * r2);
  }

  /** Every four bytes are the encoding of the word they decode to. */
  lemma EncodeDecodeWord(b: seq<Byte>)
    requires |b| == 4
    ensures EncodeWord(DecodeWord(b)) == b
  {
    var b0, b1, b2, b3 := b[0] as int, b[1] as int, b[2] as int, b[3] as int;
    var q2 := b2 + 256 * b3;
    var q1 := b1 + 256 * q2;
    var x := DecodeWord(b) as int;
    assert x == b0 + 256 * q1;
    DivModUnique(x, 256, q1, b0);
    DivModUnique(q1, 256, q2, b1);
    DivModUnique(q2, 256, b3, b2);
    assert x / 256 / 256 == x / 65536;
    assert x / 65536 / 256 == x / 16777216;
    var e := EncodeWord(x);
    assert e[0] == b[0] && e[1] == b[1] && e[2] == b[2] && e[3] == b[3];
  }

  /** The words laid out one after another, 4 bytes each. */
  function EncodeWords(ws: seq<Word>): (r: seq<Byte>)
    ensures |r| == 4 * |ws|
  {
    if ws == [] then [] else EncodeWord(ws[0]) + EncodeWords(ws[1..])
  }

  /** The first `count` words stored in `b`. */
  function DecodeWords(b: seq<Byte>, count: nat): (r: seq<Word>)
    requires |b| >= 4 * count
    ensures |r| == count
  {
    if count == 0 then [] else [DecodeWord(b[..4])] + DecodeWords(b[4..], count - 1)
  }

  /** Word `i` of the decoded payload comes from bytes `4i .. 4i+4`. */
  lemma {:induction false} DecodeWordsAt(b: seq<Byte>, count: nat, i: nat)
    requires |b| >= 4 * count && i < count
    ensures DecodeWords(b, count)[i] == DecodeWord(b[4 * i..4 * i + 4])
  {
    if i > 0 {
      DecodeWordsAt(b[4..], count - 1, i - 1);
      assert b[4..][4 * (i - 1)..4 * (i - 1) + 4] == b[4 * i..4 * i + 4];
    }
  }

  /** Only the first `4 * count` bytes matter to the decoded words. */
  lemma {:induction false} DecodeWordsPrefix(b: seq<Byte>, extra: seq<Byte>, count: nat)
    requires |b| >= 4 * count
    ensures DecodeWords(b + extra, count) == DecodeWords(b, count)
  {
    if count > 0 {
      assert (b + extra)[..4] == b[..4];
      assert (b + extra)[4..] == b[4..] + extra;
      DecodeWordsPrefix(b[4..], extra, count - 1);
    }
  }

  /** Decoding an encoding gives the words back, whatever follows them. */
  lemma {:induction false} DecodeEncodeWords(ws: seq<Word>, rest: seq<Byte>)
    ensures DecodeWords(EncodeWords(ws) + rest, |ws|) == ws
  {
    if ws != [] {
      var b := EncodeWords(ws) + rest;
      assert b[..4] == EncodeWord(ws[0]);
      assert b[4..] == EncodeWords(ws[1..]) + rest;
      DecodeEncodeWord(ws[0]);
      DecodeEncodeWords(ws[1..], rest);
    }
  }

  /** Encoding distributes over concatenation. */
  lemma {:induction false} EncodeWordsAppend(a: seq<Word>, b: seq<Word>)
    ensures EncodeWords(a + b) == EncodeWords(a) + EncodeWords(b)
  {
    if a != [] {
      assert (a + b)[0] == a[0];
      assert (a + b)[1..] == a[1..] + b;
      EncodeWordsAppend(a[1..], b);
      calc {
        EncodeWords(a + b);
        EncodeWord(a[0]) + EncodeWords(a[1..] + b);
        EncodeWord(a[0]) + (EncodeWords(a[1..]) + EncodeWords(b));
        (EncodeWord(a[0]) + EncodeWords(a[1..])) + EncodeWords(b);
      }
    } else {
      assert a + b == b;
    }
  }

  // ---------------------------------------------------------------------------
  // The header as bytes
  // ---------------------------------------------------------------------------

  function EncodeHeader(h: FrameHeader): (r: seq<Byte>)
    requires Sized(h)
    ensures |r| == HeaderSize
  {
    h.magic + EncodeWord(h.sampleRate) + EncodeWord(h.frameLen) + EncodeWord(h.hopLen)
      + EncodeWord(h.numFrames)
  }

  function DecodeHeader(b: seq<Byte>): (h: FrameHeader)
    requires |b| >= HeaderSize
    ensures Sized(h)
  {
    FrameHeader(b[..8], DecodeWord(b[8..12]), DecodeWord(b[12..16]), DecodeWord(b[16..20]),
                DecodeWord(b[20..24]))
  }

  /** A stored header reads back as itself, whatever bytes follow it. */
  lemma HeaderRoundTrip(h: FrameHeader, rest: seq<Byte>)
    requires Sized(h)
    ensures DecodeHeader(EncodeHeader(h) + rest) == h
  {
    var b := EncodeHeader(h) + rest;
    assert b[..8] == h.magic;
    assert b[8..12] == EncodeWord(h.sampleRate);
    assert b[12..16] == EncodeWord(h.frameLen);
    assert b[16..20] == EncodeWord(h.hopLen);
    assert b[20..24] == EncodeWord(h.numFrames);
    DecodeEncodeWord(h.sampleRate);
    DecodeEncodeWord(h.frameLen);
    DecodeEncodeWord(h.hopLen);
    DecodeEncodeWord(h.numFrames);
  }

  // ---------------------------------------------------------------------------
  // Writing
  // ---------------------------------------------------------------------------

  /** An open output stream: the file's bytes and the write position. */
  datatype Stream = Stream(bytes: seq<Byte>, pos: nat)

  predicate Positioned(s: Stream) {
    s.pos <= |s.bytes|
  }

  /** `fwrite` of `data` at the current position: overwrite, then extend. */
  function WriteAt(s: Stream, data: seq<Byte>): (r: Stream)
    requires Positioned(s)
    ensures Positioned(r) && r.pos == s.pos + |data|
    ensures |r.bytes| == if s.pos + |data| < |s.bytes| then |s.bytes| else s.pos + |data|
    ensures r.bytes[..s.pos] == s.bytes[..s.pos]
    ensures r.bytes[s.pos..s.pos + |data|] == data
    ensures r.bytes[s.pos + |data|..] == if s.pos + |data| < |s.bytes| then s.bytes[s.pos + |data|..] else []
  {
    var tail := if s.pos + |data| < |s.bytes| then s.bytes[s.pos + |data|..] else [];
    Stream(s.bytes[..s.pos] + data + tail, s.pos + |data|)
  }

  /** A fresh file opened for writing. */
  const Empty: Stream := Stream([], 0)

  /** Writes the header at the current position; null arguments fail. */
  function WriteHeader(out: Option<Stream>, header: Option<FrameHeader>): (r: Result<Stream>)
    requires out.Some? ==> Positioned(out.value)
    requires header.Some? ==> Sized(header.value)
    ensures r.Ok? <==> out.Some? && header.Some?
    ensures r.Ok? ==> r.value == WriteAt(out.value, EncodeHeader(header.value))
  {
    if out.None? || header.None? then Err("null argument")
    else Ok(WriteAt(out.value, EncodeHeader(header.value)))
  }

  /** Seeks to the start and overwrites the header; null arguments fail. */
  function UpdateHeader(out: Option<Stream>, header: Option<FrameHeader>): (r: Result<Stream>)
    requires out.Some? ==> Positioned(out.value)
    requires header.Some? ==> Sized(header.value)
    ensures r.Ok? <==> out.Some? && header.Some?
    ensures r.Ok? ==> r.value == WriteAt(Stream(out.value.bytes, 0), EncodeHeader(header.value))
  {
    if out.None? || header.None? then Err("null argument")
    else Ok(WriteAt(Stream(out.value.bytes, 0), EncodeHeader(header.value)))
  }

  /**
   * Appends `frameLen` samples from the buffer `frame` at the current position.
   * A null stream, a null buffer or a zero length fail.
   */
  function WriteFrame(out: Option<Stream>, frame: Option<seq<Word>>, frameLen: nat): (r: Result<Stream>)
    requires out.Some? ==> Positioned(out.value)
    requires frame.Some? ==> |frame.value| >= frameLen
    ensures r.Ok? <==> out.Some? && frame.Some? && frameLen > 0
    ensures r.Ok? ==> r.value == WriteAt(out.value, EncodeWords(frame.value[..frameLen]))
  {
    if out.None? || frame.None? || frameLen == 0 then Err("null argument or empty frame")
    else Ok(WriteAt(out.value, EncodeWords(frame.value[..frameLen])))
  }

  /** Writing at the end of the file appends. */
  lemma WriteAtEnd(s: Stream, data: seq<Byte>)
    requires s.pos == |s.bytes|
    ensures WriteAt(s, data) == Stream(s.bytes + data, |s.bytes| + |data|)
  {
  }

  /** Overwriting the start of a file at least a header long replaces exactly the header. */
  lemma WriteAtStart(bytes: seq<Byte>, data: seq<Byte>)
    requires |bytes| >= |data|
    ensures WriteAt(Stream(bytes, 0), data).bytes == data + bytes[|data|..]
  {
  }

  // ---------------------------------------------------------------------------
  // Reading
  // ---------------------------------------------------------------------------

  /** What a successful read hands back: the stored header and its samples. */
  datatype FramesFile = FramesFile(header: FrameHeader, samples: seq<Word>)

  /** The number of samples a header announces (a 64-bit product of two 32-bit fields). */
  function PayloadCount(h: FrameHeader): nat {
    h.frameLen * h.numFrames
  }

  /**
   * Reads a whole file; `None` is a file that cannot be opened. Fails on a
   * header shorter than 24 bytes, on a wrong magic, and when fewer than
   * `frameLen * numFrames` whole samples follow the header. Anything after that
   * payload is not read.
   */
  function ReadAll(file: Option<seq<Byte>>): (r: Result<FramesFile>)
    ensures r.Ok? ==> file.Some? && |file.value| >= HeaderSize
    ensures r.Ok? ==> Sized(r.value.header) && r.value.header.magic == Magic
    ensures r.Ok? ==> |r.value.samples| == PayloadCount(r.value.header)
  {
    if file.None? then Err("cannot open")
    else
      var b := file.value;
      if |b| < HeaderSize then Err("short header")
      else if b[..8] != Magic then Err("bad magic")
      else
        var h := DecodeHeader(b);
        var total := PayloadCount(h);
        if (|b| - HeaderSize) / 4 < total then Err("short payload")
        else Ok(FramesFile(h, DecodeWords(b[HeaderSize..], total)))
  }

  /**
   * Exactly when reading succeeds, and what it returns: the header stored in the
   * first 24 bytes and the samples stored right after it.
   */
  lemma ReadAllSpec(b: seq<Byte>)
    ensures ReadAll(Some(b)).Ok? <==>
      |b| >= HeaderSize && b[..8] == Magic && |b| >= HeaderSize + 4 * PayloadCount(DecodeHeader(b))
    ensures ReadAll(Some(b)).Ok? ==>
      var r := ReadAll(Some(b)).value;
      r.header == DecodeHeader(b) &&
      forall i :: 0 <= i < |r.samples| ==>
        r.samples[i] == DecodeWord(b[HeaderSize + 4 * i..HeaderSize + 4 * i + 4])
  {
    if ReadAll(Some(b)).Ok? {
      var r := ReadAll(Some(b)).value;
      forall i | 0 <= i < |r.samples|
        ensures r.samples[i] == DecodeWord(b[HeaderSize + 4 * i..HeaderSize + 4 * i + 4])
      {
        DecodeWordsAt(b[HeaderSize..], |r.samples|, i);
        assert b[HeaderSize..][4 * i..4 * i + 4] == b[HeaderSize + 4 * i..HeaderSize + 4 * i + 4];
      }
    }
  }

  /** The three ways a file that can be opened is rejected. */
  lemma ReadAllRejects(b: seq<Byte>)
    ensures |b| < HeaderSize ==> ReadAll(Some(b)) == Err("short header")
    ensures |b| >= HeaderSize && b[..8] != Magic ==> ReadAll(Some(b)) == Err("bad magic")
    ensures |b| >= HeaderSize && b[..8] == Magic && |b| < HeaderSize + 4 * PayloadCount(DecodeHeader(b))
            ==> ReadAll(Some(b)) == Err("short payload")
  {
  }

  /** Bytes after a complete payload do not change what is read. */
  lemma ReadAllIgnoresTrailing(b: seq<Byte>, extra: seq<Byte>)
    requires ReadAll(Some(b)).Ok?
    ensures ReadAll(Some(b + extra)) == ReadAll(Some(b))
  {
    var c := b + extra;
    assert c[..8] == b[..8];
    assert c[..HeaderSize] == b[..HeaderSize];
    assert DecodeHeader(c) == DecodeHeader(b);
    assert c[HeaderSize..] == b[HeaderSize..] + extra;
    DecodeWordsPrefix(b[HeaderSize..], extra, PayloadCount(DecodeHeader(b)));
  }

  // ---------------------------------------------------------------------------
  // The writer sequence and the round trip
  // ---------------------------------------------------------------------------

  /** All frames, one after another. */
  function Concat(frames: seq<seq<Word>>): (r: seq<Word>)
  {
    if frames == [] then [] else frames[0] + Concat(frames[1..])
  }

  lemma {:induction false} ConcatLength(frames: seq<seq<Word>>, frameLen: nat)
    requires forall f :: 0 <= f < |frames| ==> |frames[f]| == frameLen
    ensures |Concat(frames)| == |frames| * frameLen
  {
    if frames != [] {
      ConcatLength(frames[1..], frameLen);
    }
  }

  /** Frame `f` of a payload of frames `frameLen` long: samples `f*frameLen ..`. */
  function FrameAt(samples: seq<Word>, frameLen: nat, f: nat): seq<Word>
    requires (f + 1) * frameLen <= |samples|
  {
    samples[f * frameLen..(f + 1) * frameLen]
  }

  /** Cutting the concatenation at multiples of `frameLen` gives the frames back. */
  lemma {:induction false} FrameAtConcat(frames: seq<seq<Word>>, frameLen: nat, f: nat)
    requires forall g :: 0 <= g < |frames| ==> |frames[g]| == frameLen
    requires f < |frames|
    ensures (f + 1) * frameLen <= |Concat(frames)|
    ensures FrameAt(Concat(frames), frameLen, f) == frames[f]
  {
    ConcatLength(frames, frameLen);
    MulMono(frameLen, f + 1, |frames|);
    var lo, hi := f * frameLen, (f + 1) * frameLen;
    assert hi == lo + frameLen;
    if f > 0 {
      var rest := Concat(frames[1..]);
      FrameAtConcat(frames[1..], frameLen, f - 1);
      assert lo == frameLen + (f - 1) * frameLen;
      assert Concat(frames) == frames[0] + rest;
      SliceAfter(frames[0], rest, lo, hi);
    }
  }

  /** A slice lying wholly in the second part of a concatenation. */
  lemma SliceAfter<T>(a: seq<T>, b: seq<T>, lo: nat, hi: nat)
    requires |a| <= lo <= hi <= |a| + |b|
    ensures (a + b)[lo..hi] == b[lo - |a|..hi - |a|]
  {
  }

  /** Appends each frame in turn; the first failure stops the sequence. */
  function WriteFrames(s: Stream, frames: seq<seq<Word>>, frameLen: nat): (r: Result<Stream>)
    requires Positioned(s)
    requires forall f :: 0 <= f < |frames| ==> |frames[f]| >= frameLen
    ensures r.Ok? ==> Positioned(r.value)
    decreases |frames|
  {
    if frames == [] then Ok(s)
    else
      var w := WriteFrame(Some(s), Some(frames[0]), frameLen);
      if w.Err? then w else WriteFrames(w.value, frames[1..], frameLen)
  }

  /** A count as the 32-bit header field keeps it (`(uint32_t)` wraps modulo 2^32). */
  function StoredCount(n: nat): (w: Word)
    ensures n < WordLimit ==> w == n
  {
    n % WordLimit
  }

  /**
   * The preprocessor's writer sequence on a fresh file: a header filled with no
   * frames, each frame appended, then the header rewritten with the frame count.
   */
  function WriteFile(sampleRate: Word, frameLen: Word, hopLen: Word, frames: seq<seq<Word>>): (r: Result<seq<Byte>>)
    requires forall f :: 0 <= f < |frames| ==> |frames[f]| >= frameLen
  {
    var w0 := WriteHeader(Some(Empty), Some(FillHeader(sampleRate, frameLen, hopLen, 0)));
    if w0.Err? then Err(w0.reason)
    else
      var w1 := WriteFrames(w0.value, frames, frameLen);
      if w1.Err? then Err(w1.reason)
      else
        var w2 := UpdateHeader(Some(w1.value), Some(FillHeader(sampleRate, frameLen, hopLen, StoredCount(|frames|))));
        if w2.Err? then Err(w2.reason) else Ok(w2.value.bytes)
  }

  /** One step of the writer loop at the end of the file. */
  lemma WriteFramesStep(s: Stream, frames: seq<seq<Word>>, frameLen: nat)
    requires s.pos == |s.bytes| && frameLen > 0 && frames != []
    requires forall f :: 0 <= f < |frames| ==> |frames[f]| == frameLen
    ensures WriteFrames(s, frames, frameLen)
         == WriteFrames(AtEnd(s.bytes + EncodeWords(frames[0])), frames[1..], frameLen)
  {
    assert frames[0][..frameLen] == frames[0];
    WriteAtEnd(s, EncodeWords(frames[0]));
  }

  /** Appending non-empty frames at the end of a file appends their encodings. */
  lemma {:induction false} WriteFramesAppends(s: Stream, frames: seq<seq<Word>>, frameLen: nat)
    requires s.pos == |s.bytes| && frameLen > 0
    requires forall f :: 0 <= f < |frames| ==> |frames[f]| == frameLen
    ensures WriteFrames(s, frames, frameLen) == Ok(AtEnd(s.bytes + EncodeWords(Concat(frames))))
    decreases |frames|
  {
    if frames != [] {
      var s1 := AtEnd(s.bytes + EncodeWords(frames[0]));
      WriteFramesStep(s, frames, frameLen);
      WriteFramesAppends(s1, frames[1..], frameLen);
      EncodeWordsAppend(frames[0], Concat(frames[1..]));
      AppendAssoc(s.bytes, EncodeWords(frames[0]), EncodeWords(Concat(frames[1..])), EncodeWords(Concat(frames)));
    } else {
      assert s.bytes + EncodeWords(Concat(frames)) == s.bytes;
    }
  }

  lemma AppendAssoc(x: seq<Byte>, a: seq<Byte>, b: seq<Byte>, whole: seq<Byte>)
    requires whole == a + b
    ensures (x + a) + b == x + whole
  {
  }

  /** A stream positioned at the end of `bytes`. */
  function AtEnd(bytes: seq<Byte>): (s: Stream)
  {
    Stream(bytes, |bytes|)
  }

  /** The bytes the writer sequence leaves: the final header, then every sample. */
  lemma WriteFileBytes(sampleRate: Word, frameLen: Word, hopLen: Word, frames: seq<seq<Word>>)
    requires frameLen > 0
    requires forall f :: 0 <= f < |frames| ==> |frames[f]| == frameLen
    ensures WriteFile(sampleRate, frameLen, hopLen, frames)
         == Ok(EncodeHeader(FillHeader(sampleRate, frameLen, hopLen, StoredCount(|frames|))) + EncodeWords(Concat(frames)))
  {
    var h0 := FillHeader(sampleRate, frameLen, hopLen, 0);
    var h1 := FillHeader(sampleRate, frameLen, hopLen, StoredCount(|frames|));
    var payload := EncodeWords(Concat(frames));
    WriteAtEnd(Empty, EncodeHeader(h0));
    var s0 := Stream(EncodeHeader(h0), HeaderSize);
    assert WriteHeader(Some(Empty), Some(h0)) == Ok(s0);
    WriteFramesAppends(s0, frames, frameLen);
    var s1 := WriteFrames(s0, frames, frameLen).value;
    assert s1.bytes == EncodeHeader(h0) + payload;
    WriteAtStart(s1.bytes, EncodeHeader(h1));
    assert s1.bytes[HeaderSize..] == payload;
  }

  /**
   * Round trip: writing frames of `frameLen > 0` samples and reading the file
   * back yields the header with the frame count filled in and the frames'
   * samples in order.
   */
  lemma RoundTrip(sampleRate: Word, frameLen: Word, hopLen: Word, frames: seq<seq<Word>>)
    requires |frames| < WordLimit && frameLen > 0
    requires forall f :: 0 <= f < |frames| ==> |frames[f]| == frameLen
    ensures WriteFile(sampleRate, frameLen, hopLen, frames).Ok?
    ensures ReadAll(Some(WriteFile(sampleRate, frameLen, hopLen, frames).value))
         == Ok(FramesFile(FillHeader(sampleRate, frameLen, hopLen, |frames| as Word), Concat(frames)))
  {
    var h1 := FillHeader(sampleRate, frameLen, hopLen, |frames| as Word);
    var samples := Concat(frames);
    WriteFileBytes(sampleRate, frameLen, hopLen, frames);
    ConcatLength(frames, frameLen);
    assert |samples| == PayloadCount(h1) by {
      assert |frames| * frameLen == frameLen * |frames|;
    }
    ReadBack(h1, samples);
  }

  /** A header followed by exactly its announced samples reads back as both. */
  lemma ReadBack(h: FrameHeader, samples: seq<Word>)
    requires Sized(h) && h.magic == Magic && |samples| == PayloadCount(h)
    ensures ReadAll(Some(EncodeHeader(h) + EncodeWords(samples))) == Ok(FramesFile(h, samples))
  {
    var payload := EncodeWords(samples);
    var b := EncodeHeader(h) + payload;
    HeaderRoundTrip(h, payload);
    assert b[..8] == Magic;
    assert b[HeaderSize..] == payload + [];
    DecodeEncodeWords(samples, []);
  }
}

=== FILE: metrics.dfy ===
/**
 * The classification metrics that evaluate.c and svm_baseline.c compute the
 * same way: first-max argmax, the confusion matrix, accuracy, per-class and
 * macro precision and recall behind zero-denominator guards, and the
 * results.csv report they write.
 */
module Metrics {
  import opened Numerics
  import opened Text

  // ---------------------------------------------------------------------------
  // Argmax

  /** `argmax`: the first position of the largest value; 0 for an empty array. */
  function Argmax(a: seq<real>): (r: nat)
    ensures |a| == 0 ==> r == 0
    ensures |a| > 0 ==> r < |a|
    ensures forall i :: 0 <= i < |a| ==> a[i] <= a[r]
    ensures forall i :: 0 <= i < r ==> a[i] < a[r]
  {
    if |a| <= 1 then 0
    else
      var b := Argmax(a[..|a| - 1]);
      if a[|a| - 1] > a[b] then |a| - 1 else b
  }

  /** The target vector of a sample of class `c` among `n`: 1 at `c`, 0 elsewhere. */
  function OneHot(n: nat, c: int): (v: seq<real>)
    ensures |v| == n
    ensures forall k :: 0 <= k < n ==> v[k] == (if k == c then 1.0 else 0.0)
  {
    seq(n, k requires 0 <= k < n => if k == c then 1.0 else 0.0)
  }

  /** The argmax of a one-hot vector is its class. */
  lemma ArgmaxOneHot(n: nat, c: nat)
    requires c < n
    ensures Argmax(OneHot(n, c)) == c
  {
    var v := OneHot(n, c);
    var r := Argmax(v);
    assert v[c] == 1.0 && v[r] >= v[c];
  }

  // ---------------------------------------------------------------------------
  // Confusion matrix

  /** An n by n matrix of counts: rows are true classes, columns predictions. */
  predicate IsSquare(m: seq<seq<nat>>, n: nat) {
    |m| == n && forall i :: 0 <= i < n ==> |m[i]| == n
  }

  function ZeroMatrix(n: nat): (m: seq<seq<nat>>)
    ensures IsSquare(m, n) && forall i, j :: 0 <= i < n && 0 <= j < n ==> m[i][j] == 0
  {
    seq(n, i requires 0 <= i < n => seq(n, j requires 0 <= j < n => 0))
  }

  predicate InRange(x: int, n: nat) {
    0 <= x < n
  }

  /**
   * The confusion matrix of paired truths and predictions. A pair with either
   * side outside [0, n) is not counted, as svm_baseline.c guards; evaluate.c's
   * pairs are always in range.
   */
  function Confusion(truth: seq<int>, pred: seq<int>, n: nat): (m: seq<seq<nat>>)
    requires |truth| == |pred|
    ensures IsSquare(m, n)
  {
    if |truth| == 0 then ZeroMatrix(n)
    else
      var k := |truth| - 1;
      var prev := Confusion(truth[..k], pred[..k], n);
      if InRange(truth[k], n) && InRange(pred[k], n) then
        prev[truth[k] := prev[truth[k]][pred[k] := prev[truth[k]][pred[k]] + 1]]
      else prev
  }

  /** Sum of a sequence of counts. */
  function Total(v: seq<nat>): nat {
    if |v| == 0 then 0 else Total(v[..|v| - 1]) + v[|v| - 1]
  }

  /** Sum of every cell. */
  function MatrixTotal(m: seq<seq<nat>>): nat {
    if |m| == 0 then 0 else MatrixTotal(m[..|m| - 1]) + Total(m[|m| - 1])
  }

  /** Sum of the diagonal. */
  function Trace(m: seq<seq<nat>>, n: nat): nat
    requires IsSquare(m, n)
  {
    TraceUpTo(m, n, n)
  }

  function TraceUpTo(m: seq<seq<nat>>, n: nat, k: nat): nat
    requires IsSquare(m, n) && k <= n
  {
    if k == 0 then 0 else TraceUpTo(m, n, k - 1) + m[k - 1][k - 1]
  }

  /** The pairs with both sides in range. */
  function Counted(truth: seq<int>, pred: seq<int>, n: nat): nat
    requires |truth| == |pred|
  {
    if |truth| == 0 then 0
    else
      var k := |truth| - 1;
      Counted(truth[..k], pred[..k], n) + (if InRange(truth[k], n) && InRange(pred[k], n) then 1 else 0)
  }

  /** The pairs whose prediction equals the truth, in range or not. */
  function Correct(truth: seq<int>, pred: seq<int>): nat
    requires |truth| == |pred|
  {
    if |truth| == 0 then 0
    else
      var k := |truth| - 1;
      Correct(truth[..k], pred[..k]) + (if truth[k] == pred[k] then 1 else 0)
  }

  /** The correct pairs with the class in range. */
  function CorrectInRange(truth: seq<int>, pred: seq<int>, n: nat): nat
    requires |truth| == |pred|
  {
    if |truth| == 0 then 0
    else
      var k := |truth| - 1;
      CorrectInRange(truth[..k], pred[..k], n) + (if truth[k] == pred[k] && InRange(truth[k], n) then 1 else 0)
  }

  lemma {:induction false} TotalUpdate(v: seq<nat>, j: nat, x: nat)
    requires j < |v|
    ensures Total(v[j := x]) == Total(v) - v[j] + x
    decreases |v|
  {
    var k := |v| - 1;
    if j < k {
      assert v[j := x][..k] == v[..k][j := x];
      TotalUpdate(v[..k], j, x);
    } else {
      assert v[j := x][..k] == v[..k];
    }
  }

  lemma {:induction false} MatrixTotalUpdate(m: seq<seq<nat>>, i: nat, row: seq<nat>)
    requires i < |m|
    ensures MatrixTotal(m[i := row]) == MatrixTotal(m) - Total(m[i]) + Total(row)
    decreases |m|
  {
    var k := |m| - 1;
    if i < k {
      assert m[i := row][..k] == m[..k][i := row];
      MatrixTotalUpdate(m[..k], i, row);
    } else {
      assert m[i := row][..k] == m[..k];
    }
  }

  lemma {:induction false} TraceUpdate(m: seq<seq<nat>>, n: nat, i: nat, j: nat, k: nat)
    requires IsSquare(m, n) && i < n && j < n && k <= n
    ensures IsSquare(m[i := m[i][j := m[i][j] + 1]], n)
    ensures TraceUpTo(m[i := m[i][j := m[i][j] + 1]], n, k)
         == TraceUpTo(m, n, k) + (if i == j && i < k then 1 else 0)
    decreases k
  {
    if k > 0 {
      TraceUpdate(m, n, i, j, k - 1);
    }
  }

  lemma {:induction false} TotalZero(n: nat)
    ensures Total(seq(n, j requires 0 <= j < n => 0)) == 0
  {
    if n > 0 {
      var z := seq(n, j requires 0 <= j < n => 0);
      assert z[..n - 1] == seq(n - 1, j requires 0 <= j < n - 1 => 0);
      TotalZero(n - 1);
    }
  }

  lemma {:induction false} ZeroMatrixCounts(n: nat, k: nat)
    requires k <= n
    ensures MatrixTotal(ZeroMatrix(n)[..k]) == 0
    ensures TraceUpTo(ZeroMatrix(n), n, k) == 0
  {
    if k > 0 {
      ZeroMatrixCounts(n, k - 1);
      assert ZeroMatrix(n)[..k][..k - 1] == ZeroMatrix(n)[..k - 1];
      TotalZero(n);
    }
  }

  /**
   * Every counted pair lands in exactly one cell and the correct ones on the
   * diagonal: the cells sum to the counted pairs and the diagonal to the
   * correct pairs in range.
   */
  lemma {:induction false} ConfusionCounts(truth: seq<int>, pred: seq<int>, n: nat)
    requires |truth| == |pred|
    ensures MatrixTotal(Confusion(truth, pred, n)) == Counted(truth, pred, n)
    ensures Trace(Confusion(truth, pred, n), n) == CorrectInRange(truth, pred, n)
    decreases |truth|
  {
    if |truth| == 0 {
      ZeroMatrixCounts(n, n);
      assert ZeroMatrix(n)[..n] == ZeroMatrix(n);
    } else {
      var k := |truth| - 1;
      var prev := Confusion(truth[..k], pred[..k], n);
      ConfusionCounts(truth[..k], pred[..k], n);
      if InRange(truth[k], n) && InRange(pred[k], n) {
        CountStep(prev, n, truth[k], pred[k]);
      }
    }
  }

  /** Adding one count to a cell adds one to the total, and to the trace when on the diagonal. */
  lemma CountStep(m: seq<seq<nat>>, n: nat, t: nat, p: nat)
    requires IsSquare(m, n) && t < n && p < n
    ensures IsSquare(m[t := m[t][p := m[t][p] + 1]], n)
    ensures MatrixTotal(m[t := m[t][p := m[t][p] + 1]]) == MatrixTotal(m) + 1
    ensures Trace(m[t := m[t][p := m[t][p] + 1]], n) == Trace(m, n) + (if t == p then 1 else 0)
  {
    TotalUpdate(m[t], p, m[t][p] + 1);
    MatrixTotalUpdate(m, t, m[t][p := m[t][p] + 1]);
    TraceUpdate(m, n, t, p, n);
  }

  /** When every class is in range, all pairs are counted and the diagonal holds all correct ones. */
  lemma {:induction false} AllInRange(truth: seq<int>, pred: seq<int>, n: nat)
    requires |truth| == |pred|
    requires forall i :: 0 <= i < |truth| ==> InRange(truth[i], n) && InRange(pred[i], n)
    ensures Counted(truth, pred, n) == |truth|
    ensures CorrectInRange(truth, pred, n) == Correct(truth, pred)
    decreases |truth|
  {
    if |truth| > 0 {
      AllInRange(truth[..|truth| - 1], pred[..|truth| - 1], n);
    }
  }

  /** With every truth in range, a correct pair is in range too, so every correct pair is counted. */
  lemma {:induction false} TruthsInRange(truth: seq<int>, pred: seq<int>, n: nat)
    requires |truth| == |pred|
    requires forall i :: 0 <= i < |truth| ==> InRange(truth[i], n)
    ensures CorrectInRange(truth, pred, n) == Correct(truth, pred)
    decreases |truth|
  {
    if |truth| > 0 {
      TruthsInRange(truth[..|truth| - 1], pred[..|truth| - 1], n);
    }
  }

  /** Guarding never counts more pairs than there are, nor more correct ones than are correct. */
  lemma {:induction false} CountedBounds(truth: seq<int>, pred: seq<int>, n: nat)
    requires |truth| == |pred|
    ensures Counted(truth, pred, n) <= |truth|
    ensures CorrectInRange(truth, pred, n) <= Correct(truth, pred)
    ensures CorrectInRange(truth, pred, n) <= Counted(truth, pred, n)
    ensures Correct(truth, pred) <= |truth|
    decreases |truth|
  {
    if |truth| > 0 {
      CountedBounds(truth[..|truth| - 1], pred[..|truth| - 1], n);
    }
  }

  /** The correct count reaches the number of pairs exactly when every pair agrees. */
  lemma {:induction false} CorrectAll(truth: seq<int>, pred: seq<int>)
    requires |truth| == |pred|
    ensures Correct(truth, pred) == |truth| <==> forall i :: 0 <= i < |truth| ==> truth[i] == pred[i]
    decreases |truth|
  {
    if |truth| > 0 {
      var k := |truth| - 1;
      CorrectAll(truth[..k], pred[..k]);
      CountedBounds(truth[..k], pred[..k], 0);
      assert forall i :: 0 <= i < k ==> truth[..k][i] == truth[i] && pred[..k][i] == pred[i];
    }
  }

  // ---------------------------------------------------------------------------
  // Per-class metrics

  /** Column `c` without its diagonal cell: samples of other classes predicted as `c`. */
  function FalsePositives(m: seq<seq<nat>>, n: nat, c: nat): nat
    requires IsSquare(m, n) && c < n
  {
    OffDiagonal(seq(n, j requires 0 <= j < n => m[j][c]), c)
  }

  /** Row `c` without its diagonal cell: samples of class `c` predicted otherwise. */
  function FalseNegatives(m: seq<seq<nat>>, n: nat, c: nat): nat
    requires IsSquare(m, n) && c < n
  {
    OffDiagonal(m[c], c)
  }

  /** Sum of the entries at every position but `c`, as the `j != c` loops accumulate. */
  function OffDiagonal(v: seq<nat>, c: nat): nat {
    if |v| == 0 then 0 else OffDiagonal(v[..|v| - 1], c) + (if |v| - 1 != c then v[|v| - 1] else 0)
  }

  lemma {:induction false} OffDiagonalSplit(v: seq<nat>, c: nat)
    requires c < |v|
    ensures v[c] + OffDiagonal(v, c) == Total(v)
    decreases |v|
  {
    var k := |v| - 1;
    if c < k {
      assert v[..k][c] == v[c];
      OffDiagonalSplit(v[..k], c);
    } else {
      OffDiagonalAll(v[..k], c);
    }
  }

  lemma {:induction false} OffDiagonalAll(v: seq<nat>, c: nat)
    requires |v| <= c
    ensures OffDiagonal(v, c) == Total(v)
    decreases |v|
  {
    if |v| > 0 {
      OffDiagonalAll(v[..|v| - 1], c);
    }
  }

  /** A ratio of counts with the zero-denominator guard: 0 when nothing was counted. */
  function Ratio(num: nat, den: nat): (r: real)
    ensures den == 0 ==> r == 0.0
    ensures num <= den ==> 0.0 <= r <= 1.0
    ensures 0 < den && num == den ==> r == 1.0
  {
    if den > 0 then num as real / den as real else 0.0
  }

  /** With samples, accuracy times their number gives back the correct count, and it is 1 exactly when all are correct. */
  lemma AccuracyScale(a: real, correct: nat, total: nat)
    requires total > 0 && a == Accuracy(correct, total)
    ensures a * total as real == correct as real
    ensures a == 1.0 <==> correct == total
  {
  }

  /** Precision of class `c`: tp / (tp + fp), or 0. */
  function Precision(m: seq<seq<nat>>, n: nat, c: nat): (p: real)
    requires IsSquare(m, n) && c < n
    ensures 0.0 <= p <= 1.0
  {
    Ratio(m[c][c], m[c][c] + FalsePositives(m, n, c))
  }

  /** Recall of class `c`: tp / (tp + fn), or 0. */
  function Recall(m: seq<seq<nat>>, n: nat, c: nat): (r: real)
    requires IsSquare(m, n) && c < n
    ensures 0.0 <= r <= 1.0
  {
    Ratio(m[c][c], m[c][c] + FalseNegatives(m, n, c))
  }

  /** The denominators are the column and row totals of the class. */
  lemma Denominators(m: seq<seq<nat>>, n: nat, c: nat)
    requires IsSquare(m, n) && c < n
    ensures m[c][c] + FalsePositives(m, n, c) == Total(seq(n, j requires 0 <= j < n => m[j][c]))
    ensures m[c][c] + FalseNegatives(m, n, c) == Total(m[c])
  {
    var col := seq(n, j requires 0 <= j < n => m[j][c]);
    assert col[c] == m[c][c];
    OffDiagonalSplit(col, c);
    OffDiagonalSplit(m[c], c);
  }

  /** Accuracy: correct / total, or 0 without samples. */
  function Accuracy(correct: nat, total: nat): (a: real)
    ensures total == 0 ==> a == 0.0
    ensures correct <= total ==> 0.0 <= a <= 1.0
  {
    Ratio(correct, total)
  }

  function Precisions(m: seq<seq<nat>>, n: nat): (p: seq<real>)
    requires IsSquare(m, n)
    ensures |p| == n && forall c :: 0 <= c < n ==> p[c] == Precision(m, n, c)
  {
    seq(n, c requires 0 <= c < n => Precision(m, n, c))
  }

  function Recalls(m: seq<seq<nat>>, n: nat): (r: seq<real>)
    requires IsSquare(m, n)
    ensures |r| == n && forall c :: 0 <= c < n ==> r[c] == Recall(m, n, c)
  {
    seq(n, c requires 0 <= c < n => Recall(m, n, c))
  }

  /** The mean over classes; the sum is left undivided, and so 0, when there are none. */
  function Macro(v: seq<real>): (r: real)
    ensures (forall c :: 0 <= c < |v| ==> 0.0 <= v[c] <= 1.0) ==> 0.0 <= r <= 1.0
    ensures |v| == 0 ==> r == 0.0
  {
    if |v| > 0 then
      MacroBounds(v);
      Sum(v) / |v| as real
    else Sum(v)
  }

  lemma MacroBounds(v: seq<real>)
    requires |v| > 0
    ensures (forall c :: 0 <= c < |v| ==> 0.0 <= v[c] <= 1.0) ==> 0.0 <= Sum(v) / |v| as real <= 1.0
  {
    if forall c :: 0 <= c < |v| ==> 0.0 <= v[c] <= 1.0 {
      SumBounds(v, 0.0, 1.0);
      DivBounds(Sum(v), |v| as real, 0.0, 1.0);
    }
  }

  // ---------------------------------------------------------------------------
  // The report

  /** Everything results.csv reports. */
  datatype Report = Report(
    labels: seq<string>, accuracy: real, precision: seq<real>, recall: seq<real>,
    precisionMacro: real, recallMacro: real, confusion: seq<seq<nat>>)

  /** The metrics of a confusion matrix, with `correct` counted separately. */
  function ReportOf(labels: seq<string>, m: seq<seq<nat>>, correct: nat, total: nat): (r: Report)
    requires IsSquare(m, |labels|)
    ensures |r.precision| == |labels| && |r.recall| == |labels|
    ensures correct <= total ==> 0.0 <= r.accuracy <= 1.0
    ensures 0.0 <= r.precisionMacro <= 1.0 && 0.0 <= r.recallMacro <= 1.0
  {
    var n := |labels|;
    var p := Precisions(m, n);
    var q := Recalls(m, n);
    Report(labels, Accuracy(correct, total), p, q, Macro(p), Macro(q), m)
  }

  predicate WellShaped(r: Report) {
    var n := |r.labels|;
    |r.precision| == n && |r.recall| == n && IsSquare(r.confusion, n)
  }

  /**
   * The rows of results.csv as CSV fields, `render` standing for `%.6f`:
   * three overall metrics, a precision and a recall row per class, the
   * `confusion,actual/pred` header and one confusion row per true class.
   */
  function ReportRows(r: Report, render: real -> string): (rows: seq<seq<string>>)
    requires WellShaped(r)
    ensures |rows| == 3 + 2 * |r.labels| + 1 + |r.labels|
  {
    var n := |r.labels|;
    [["metric", "accuracy", render(r.accuracy)],
     ["metric", "precision_macro", render(r.precisionMacro)],
     ["metric", "recall_macro", render(r.recallMacro)]]
    + ClassMetricRows(r, render, n)
    + [["confusion", "actual/pred"] + r.labels]
    + ConfusionRows(r.labels, r.confusion, n)
  }

  function ClassMetricRows(r: Report, render: real -> string, k: nat): (rows: seq<seq<string>>)
    requires WellShaped(r) && k <= |r.labels|
    ensures |rows| == 2 * k
  {
    if k == 0 then []
    else
      ClassMetricRows(r, render, k - 1)
      + [["metric", "precision_" + r.labels[k - 1], render(r.precision[k - 1])],
         ["metric", "recall_" + r.labels[k - 1], render(r.recall[k - 1])]]
  }

  /** One row per true class: `confusion`, its label, then its counts in decimal. */
  function ConfusionRows(labels: seq<string>, m: seq<seq<nat>>, k: nat): (rows: seq<seq<string>>)
    requires IsSquare(m, |labels|) && k <= |labels|
    ensures |rows| == k
    ensures forall i :: 0 <= i < k ==> rows[i] == ["confusion", labels[i]] + Decimals(m[i])
  {
    if k == 0 then [] else ConfusionRows(labels, m, k - 1) + [["confusion", labels[k - 1]] + Decimals(m[k - 1])]
  }

  /** `%u` for each count. */
  function Decimals(v: seq<nat>): (s: seq<string>)
    ensures |s| == |v| && forall j :: 0 <= j < |v| ==> s[j] == NatToString(v[j])
  {
    if |v| == 0 then [] else Decimals(v[..|v| - 1]) + [NatToString(v[|v| - 1])]
  }

  /** The report's shape: the header row and every confusion row carry n + 2 fields. */
  lemma ReportShape(r: Report, render: real -> string)
    requires WellShaped(r)
    ensures var rows := ReportRows(r, render); var n := |r.labels|;
      && rows[3 + 2 * n] == ["confusion", "actual/pred"] + r.labels
      && forall i :: 0 <= i < n ==> |rows[4 + 2 * n + i]| == n + 2 && rows[4 + 2 * n + i][1] == r.labels[i]
  {
  }
}

=== FILE: mfcc.dfy ===
/**
 * The mel filterbank and MFCC computation of mfcc.c: triangular filters over
 * FFT bins placed evenly on the mel scale, log filter energies floored at
 * 1e-10, and a DCT-II of the log energies.
 */
module Mfcc {
  import opened Numerics
  import opened Wrappers

  /** `MfccBank`: the parameters and the `n_mels` x `n_bins` filter weights. */
  datatype MfccBank = MfccBank(
    sampleRate: nat,
    fftSize: nat,
    nMels: nat,
    nMfcc: nat,
    nBins: nat,
    filters: seq<seq<real>>)

  ghost predicate WellFormed(b: MfccBank) {
    && b.sampleRate > 0 && b.fftSize > 0 && b.nMels > 0 && b.nMfcc > 0
    && b.nBins == b.fftSize / 2 + 1
    && |b.filters| == b.nMels
    && (forall i :: 0 <= i < b.nMels ==> |b.filters[i]| == b.nBins)
  }

  function HzToMel(m: Math, hz: real): real {
    2595.0 * m.log10(1.0 + hz / 700.0)
  }

  function MelToHz(m: Math, mel: real): real {
    700.0 * (m.pow10(mel / 2595.0) - 1.0)
  }

  /** Width of one step between the `n_mels + 2` mel points. */
  function MelStep(m: Math, sr: nat, nMels: nat): (step: real)
    requires Valid(m)
    ensures step >= 0.0
  {
    var low := HzToMel(m, 0.0);
    var high := HzToMel(m, sr as real / 2.0);
    assert 1.0 + 0.0 / 700.0 <= 1.0 + (sr as real / 2.0) / 700.0;
    (high - low) / (nMels + 1) as real
  }

  /** The `i`-th mel point, equally spaced between 0 Hz and half the sample rate. */
  function MelPoint(m: Math, sr: nat, nMels: nat, i: nat): real
    requires Valid(m)
  {
    HzToMel(m, 0.0) + MelStep(m, sr, nMels) * i as real
  }

  function Clamp(x: int, lo: int, hi: int): (r: int)
    requires lo <= hi
    ensures lo <= r <= hi
    ensures lo <= x <= hi ==> r == x
  {
    if x < lo then lo else if x > hi then hi else x
  }

  /** `(int)floorf((fft_size + 1) * hz / sample_rate)`, clamped to `0..n_bins - 1`. */
  function BinOf(sr: nat, fft: nat, hz: real): (bin: int)
    requires sr > 0
    ensures 0 <= bin <= fft / 2
  {
    Clamp(BinPosition(sr, fft, hz).Floor, 0, fft / 2)
  }

  /** The unrounded bin position (fft_size + 1) * hz / sample_rate. */
  function BinPosition(sr: nat, fft: nat, hz: real): real
    requires sr > 0
  {
    (fft + 1) as real * hz / sr as real
  }

  /** The FFT bin of the `i`-th mel point. */
  function MelBin(m: Math, sr: nat, fft: nat, nMels: nat, i: nat): (bin: int)
    requires Valid(m) && sr > 0
    ensures 0 <= bin <= fft / 2
  {
    BinOf(sr, fft, MelToHz(m, MelPoint(m, sr, nMels, i)))
  }

  lemma BinOfMonotone(sr: nat, fft: nat, a: real, b: real)
    requires sr > 0 && a <= b
    ensures BinOf(sr, fft, a) <= BinOf(sr, fft, b)
  {
    var x, y := BinPosition(sr, fft, a), BinPosition(sr, fft, b);
    assert x <= y by {
      ScaleMono((fft + 1) as real, sr as real, a, b);
    }
    FloorMono(x, y);
    ClampMono(x.Floor, y.Floor, 0, fft / 2);
  }

  lemma ScaleMono(c: real, d: real, a: real, b: real)
    requires c >= 0.0 && d > 0.0 && a <= b
    ensures c * a / d <= c * b / d
  {
    MulRealMono(c, a, b);
    MulRealMono(1.0 / d, c * a, c * b);
    assert c * a / d == (1.0 / d) * (c * a);
    assert c * b / d == (1.0 / d) * (c * b);
  }

  lemma ClampMono(x: int, y: int, lo: int, hi: int)
    requires x <= y && lo <= hi
    ensures Clamp(x, lo, hi) <= Clamp(y, lo, hi)
  {
  }

  lemma FloorMono(x: real, y: real)
    requires x <= y
    ensures x.Floor <= y.Floor
  {
  }

  lemma MelPointMonotone(m: Math, sr: nat, nMels: nat, i: nat, j: nat)
    requires Valid(m) && i <= j
    ensures MelPoint(m, sr, nMels, i) <= MelPoint(m, sr, nMels, j)
  {
    MulRealMono(MelStep(m, sr, nMels), i as real, j as real);
  }

  lemma MelToHzMonotone(m: Math, a: real, b: real)
    requires Valid(m) && a <= b
    ensures MelToHz(m, a) <= MelToHz(m, b)
  {
    assert a / 2595.0 <= b / 2595.0;
  }

  /** Mel points, and hence their bins, never decrease. */
  lemma MelBinMonotone(m: Math, sr: nat, fft: nat, nMels: nat, i: nat, j: nat)
    requires Valid(m) && sr > 0 && i <= j
    ensures MelBin(m, sr, fft, nMels, i) <= MelBin(m, sr, fft, nMels, j)
  {
    var a, b := MelPoint(m, sr, nMels, i), MelPoint(m, sr, nMels, j);
    MelPointMonotone(m, sr, nMels, i, j);
    MelToHzMonotone(m, a, b);
    BinOfMonotone(sr, fft, MelToHz(m, a), MelToHz(m, b));
  }

  lemma FracBounds(a: int, b: int)
    requires 0 <= a <= b && b > 0
    ensures 0.0 <= a as real / b as real <= 1.0
  {
    var q := a as real / b as real;
    assert q * b as real == a as real;
    if q > 1.0 {
      MulRealMono(b as real, 1.0, q);
    }
    if q < 0.0 {
      MulRealMono(b as real, q, 0.0);
    }
  }

  /**
   * Weight of bin `k` in the triangle over `left`, `center`, `right`: rising
   * on `left..center - 1`, falling on `center..right - 1`, 0 elsewhere (the
   * calloc'd default).
   */
  function Weight(left: int, center: int, right: int, k: int): (w: real)
    ensures 0.0 <= w <= 1.0
    ensures w != 0.0 ==> (left < k < center) || (center <= k < right)
    ensures k == center && center < right ==> w == 1.0
  {
    if left <= k < center then
      FracBounds(k - left, center - left);
      (if center == left then 0.0 else (k - left) as real / (center - left) as real)
    else if center <= k < right then
      FracBounds(right - k, right - center);
      (if right == center then 0.0 else (right - k) as real / (right - center) as real)
    else 0.0
  }

  function FilterRow(m: Math, sr: nat, fft: nat, nMels: nat, row: nat): (r: seq<real>)
    requires Valid(m) && sr > 0
    ensures |r| == fft / 2 + 1
  {
    var left := MelBin(m, sr, fft, nMels, row);
    var center := MelBin(m, sr, fft, nMels, row + 1);
    var right := MelBin(m, sr, fft, nMels, row + 2);
    seq(fft / 2 + 1, k requires 0 <= k < fft / 2 + 1 => Weight(left, center, right, k))
  }

  /**
   * `mfcc_init`: -1 for any non-positive parameter; otherwise the bank with
   * one triangular filter per mel band.
   */
  function MfccInit(m: Math, sr: int, fft: int, nMels: int, nMfcc: int): (r: Result<MfccBank>)
    requires Valid(m)
    ensures r.Err? <==> sr <= 0 || fft <= 0 || nMels <= 0 || nMfcc <= 0
    ensures r.Ok? ==> WellFormed(r.value)
    ensures r.Ok? ==> r.value.sampleRate == sr && r.value.fftSize == fft
                      && r.value.nMels == nMels && r.value.nMfcc == nMfcc
    ensures r.Ok? ==> forall i, k :: 0 <= i < nMels && 0 <= k < r.value.nBins ==>
                        0.0 <= r.value.filters[i][k] <= 1.0
  {
    if sr <= 0 || fft <= 0 || nMels <= 0 || nMfcc <= 0 then Err("invalid mfcc parameters")
    else
      var filters := seq(nMels, i requires 0 <= i < nMels => FilterRow(m, sr, fft, nMels, i));
      Ok(MfccBank(sr, fft, nMels, nMfcc, fft / 2 + 1, filters))
  }

  /**
   * Filter `i` of a bank is supported between the bins of mel points `i` and
   * `i + 2`, and peaks at 1 on the bin of mel point `i + 1` when that bin is
   * below the next one.
   */
  lemma FilterSupport(m: Math, sr: int, fft: int, nMels: int, nMfcc: int, i: nat, k: nat)
    requires Valid(m) && MfccInit(m, sr, fft, nMels, nMfcc).Ok?
    requires i < nMels && k <= fft / 2
    ensures var w := MfccInit(m, sr, fft, nMels, nMfcc).value.filters[i][k];
            w != 0.0 ==> MelBin(m, sr, fft, nMels, i) <= k < MelBin(m, sr, fft, nMels, i + 2)
    ensures var w := MfccInit(m, sr, fft, nMels, nMfcc).value.filters[i][k];
            k == MelBin(m, sr, fft, nMels, i + 1) < MelBin(m, sr, fft, nMels, i + 2) ==> w == 1.0
  {
    var left, center, right := MelBin(m, sr, fft, nMels, i), MelBin(m, sr, fft, nMels, i + 1), MelBin(m, sr, fft, nMels, i + 2);
    MelBinMonotone(m, sr, fft, nMels, i, i + 1);
    MelBinMonotone(m, sr, fft, nMels, i + 1, i + 2);
    var bank := MfccInit(m, sr, fft, nMels, nMfcc).value;
    assert bank.filters[i] == FilterRow(m, sr, fft, nMels, i);
    assert bank.filters[i][k] == Weight(left, center, right, k);
  }

  /** Dot product of the first `|w|` power bins with a filter row. */
  function FilterEnergy(power: seq<real>, w: seq<real>): real
    requires |power| >= |w|
  {
    Sum(FilterTerms(power, w))
  }

  /** The products power[k] * w[k] that a filter energy accumulates. */
  function FilterTerms(power: seq<real>, w: seq<real>): (t: seq<real>)
    requires |power| >= |w|
    ensures |t| == |w| && forall k :: 0 <= k < |w| ==> t[k] == power[k] * w[k]
  {
    seq(|w|, k requires 0 <= k < |w| => power[k] * w[k])
  }

  /** Log of a filter energy, floored at 1e-10 before the log. */
  function LogEnergy(m: Math, e: real): (r: real)
    requires Valid(m)
    ensures r >= m.log(1.0e-10)
    ensures e <= 1.0e-10 ==> r == m.log(1.0e-10)
  {
    m.log(if e < 1.0e-10 then 1.0e-10 else e)
  }

  function LogEnergies(m: Math, b: MfccBank, power: seq<real>): (r: seq<real>)
    requires Valid(m) && WellFormed(b) && |power| >= b.nBins
    ensures |r| == b.nMels
    ensures forall i :: 0 <= i < b.nMels ==> r[i] >= m.log(1.0e-10)
  {
    seq(b.nMels, i requires 0 <= i < b.nMels => LogEnergy(m, FilterEnergy(power, b.filters[i])))
  }

  /** DCT-II basis value cos(pi k (i + 1/2) / n). */
  function DctBasis(m: Math, k: nat, i: nat, n: nat): real
    requires n > 0
  {
    m.cos(Pi * k as real * (i as real + 0.5) / n as real)
  }

  function DctCoefficient(m: Math, logE: seq<real>, k: nat): real
    requires |logE| > 0
  {
    Sum(DctTerms(m, logE, k))
  }

  /** The products logE[i] * basis(k, i) that coefficient `k` accumulates. */
  function DctTerms(m: Math, logE: seq<real>, k: nat): (t: seq<real>)
    requires |logE| > 0
    ensures |t| == |logE| && forall i :: 0 <= i < |logE| ==> t[i] == logE[i] * DctBasis(m, k, i, |logE|)
  {
    seq(|logE|, i requires 0 <= i < |logE| => logE[i] * DctBasis(m, k, i, |logE|))
  }

  /** `mfcc_compute`: `n_mfcc` DCT-II coefficients of the floored log-mel energies. */
  function MfccCompute(m: Math, b: MfccBank, power: seq<real>): (c: seq<real>)
    requires Valid(m) && WellFormed(b) && |power| >= b.nBins
    ensures |c| == b.nMfcc
  {
    var logE := LogEnergies(m, b, power);
    seq(b.nMfcc, k requires 0 <= k < b.nMfcc => DctCoefficient(m, logE, k))
  }

  /** The zeroth coefficient is the plain sum of the log-mel energies. */
  lemma FirstCoefficientIsSum(m: Math, b: MfccBank, power: seq<real>)
    requires Valid(m) && WellFormed(b) && |power| >= b.nBins
    ensures MfccCompute(m, b, power)[0] == Sum(LogEnergies(m, b, power))
  {
    var logE := LogEnergies(m, b, power);
    assert MfccCompute(m, b, power)[0] == DctCoefficient(m, logE, 0);
    DctZero(m, logE);
  }

  /** The zeroth DCT-II coefficient has an all-ones basis. */
  lemma DctZero(m: Math, logE: seq<real>)
    requires CosFacts(m) && |logE| > 0
    ensures DctCoefficient(m, logE, 0) == Sum(logE)
  {
    DctTermsZero(m, logE);
    assert DctTerms(m, logE, 0) == logE;
  }

  lemma DctTermsZero(m: Math, logE: seq<real>)
    requires CosFacts(m) && |logE| > 0
    ensures forall i :: 0 <= i < |logE| ==> DctTerms(m, logE, 0)[i] == logE[i]
  {
    forall i | 0 <= i < |logE|
      ensures DctTerms(m, logE, 0)[i] == logE[i]
    {
      DctTermZero(m, logE, i);
    }
  }

  lemma DctTermZero(m: Math, logE: seq<real>, i: nat)
    requires CosFacts(m) && i < |logE|
    ensures DctTerms(m, logE, 0)[i] == logE[i]
  {
    var basis := DctBasis(m, 0, i, |logE|);
    DctBasisZero(m, i, |logE|);
    assert DctTerms(m, logE, 0)[i] == logE[i] * basis;
  }

  lemma DctBasisZero(m: Math, i: nat, n: nat)
    requires CosFacts(m) && n > 0
    ensures DctBasis(m, 0, i, n) == 1.0
  {
    assert Pi * 0 as real * (i as real + 0.5) / n as real == 0.0;
  }

  /** With non-negative power and weights in [0, 1], every filter energy is non-negative. */
  lemma FilterEnergyNonNeg(power: seq<real>, w: seq<real>)
    requires |power| >= |w|
    requires forall k :: 0 <= k < |power| ==> power[k] >= 0.0
    requires forall k :: 0 <= k < |w| ==> w[k] >= 0.0
    ensures FilterEnergy(power, w) >= 0.0
  {
    var terms := FilterTerms(power, w);
    assert AllNonNeg(terms);
    SumNonNeg(terms);
  }

  /**
   * A silent power spectrum hits the floor in every band, so the zeroth
   * coefficient is `n_mels * log(1e-10)`.
   */
  lemma SilentFirstCoefficient(m: Math, b: MfccBank, power: seq<real>)
    requires Valid(m) && WellFormed(b) && |power| >= b.nBins
    requires forall k :: 0 <= k < |power| ==> power[k] == 0.0
    ensures MfccCompute(m, b, power)[0] == b.nMels as real * m.log(1.0e-10)
  {
    SilentLogEnergySum(m, b, power);
    FirstCoefficientIsSum(m, b, power);
  }

  lemma SilentLogEnergySum(m: Math, b: MfccBank, power: seq<real>)
    requires Valid(m) && WellFormed(b) && |power| >= b.nBins
    requires forall k :: 0 <= k < |power| ==> power[k] == 0.0
    ensures Sum(LogEnergies(m, b, power)) == b.nMels as real * m.log(1.0e-10)
  {
    SilentLogEnergies(m, b, power);
    SumConst(LogEnergies(m, b, power), m.log(1.0e-10));
  }

  lemma SilentLogEnergies(m: Math, b: MfccBank, power: seq<real>)
    requires Valid(m) && WellFormed(b) && |power| >= b.nBins
    requires forall k :: 0 <= k < |power| ==> power[k] == 0.0
    ensures forall i :: 0 <= i < b.nMels ==> LogEnergies(m, b, power)[i] == m.log(1.0e-10)
  {
    forall i | 0 <= i < b.nMels
      ensures LogEnergies(m, b, power)[i] == m.log(1.0e-10)
    {
      SilentLogEnergy(m, power, b.filters[i]);
    }
  }

  /** A silent power spectrum gives every filter the floored log energy. */
  lemma SilentLogEnergy(m: Math, power: seq<real>, w: seq<real>)
    requires Valid(m) && |power| >= |w|
    requires forall k :: 0 <= k < |power| ==> power[k] == 0.0
    ensures LogEnergy(m, FilterEnergy(power, w)) == m.log(1.0e-10)
  {
    var terms := FilterTerms(power, w);
    SumConst(terms, 0.0);
  }
}

=== FILE: network_svg.dfy ===
/**
 * plot_network_svg.py: reads the layer sizes of a FANN `.net` file and lays
 * out the network diagram, one box per layer with a column of sampled nodes
 * and a fan of sampled connections between neighbouring layers.
 *
 * The SVG text itself is not modelled; the model computes the numbers the
 * script writes into it. Python's float arithmetic is modelled on reals and
 * `int()` of a float as truncation toward zero.
 */
module NetworkSvg {
  import opened Wrappers
  import opened Text
  import opened Numerics
  import PlotConfusionPy
  import PlotConfusion
  import DumpWeights

  // ---------------------------------------------------------------------------
  // The layer sizes

  const NotFound := "layer_sizes not found in .net file"

  /** `str.split()`: the maximal runs of non-white-space characters. */
  function SplitWs(s: string): (w: seq<string>)
    ensures forall j :: 0 <= j < |w| ==> |w[j]| > 0 && forall i :: 0 <= i < |w[j]| ==> !PyIsSpace(w[j][i])
    ensures |w| == 0 <==> forall i :: 0 <= i < |s| ==> PyIsSpace(s[i])
    decreases |s|
  {
    if |s| == 0 then []
    else if PyIsSpace(s[0]) then
      var w := SplitWs(s[1..]);
      assert forall i :: 0 < i < |s| ==> s[i] == s[1..][i - 1];
      w
    else
      var k := WordLen(s);
      [s[..k]] + SplitWs(s[k..])
  }

  /** The length of the leading run of non-white-space characters. */
  function WordLen(s: string): (k: nat)
    ensures k <= |s| && forall i :: 0 <= i < k ==> !PyIsSpace(s[i])
    ensures k < |s| ==> PyIsSpace(s[k])
    ensures |s| > 0 && !PyIsSpace(s[0]) ==> k > 0
  {
    if |s| == 0 || PyIsSpace(s[0]) then 0 else 1 + WordLen(s[1..])
  }

  /** A line is the sizes line when, stripped, it starts with "layer_sizes=". */
  predicate Matches(line: string) {
    IsPrefix(DumpWeights.SizesKey, PlotConfusionPy.Trim(line))
  }

  /**
   * The text after the first `=` of a matching stripped line, stripped. The
   * key holds exactly one `=`, as its last character, so that is where the
   * split happens.
   */
  function Raw(line: string): string
    requires Matches(line)
  {
    PlotConfusionPy.Trim(PlotConfusionPy.Trim(line)[|DumpWeights.SizesKey|..])
  }

  /**
   * What a matching line yields: an empty value is "not found", a word that
   * `int()` rejects raises, and otherwise the sizes, never empty.
   */
  function ParseLine(line: string): (r: Result<seq<int>>)
    requires Matches(line)
    ensures r == Err(NotFound) <==> |Raw(line)| == 0
    ensures r.Ok? <==> |Raw(line)| > 0 && PlotConfusionPy.ParseInts(SplitWs(Raw(line))).Some?
    ensures r.Ok? ==> |r.value| > 0 && |r.value| == |SplitWs(Raw(line))|
  {
    var raw := Raw(line);
    if |raw| == 0 then Err(NotFound)
    else
      match PlotConfusionPy.ParseInts(SplitWs(raw))
      case None => Err("invalid literal for int()")
      case Some(v) => Ok(v)
  }

  /**
   * `parse_layer_sizes`: the first matching line decides; with none, "not
   * found" is raised.
   */
  function ParseLayerSizes(lines: seq<string>): (r: Result<seq<int>>)
    ensures r.Ok? ==> |r.value| > 0
    ensures (forall i :: 0 <= i < |lines| ==> !Matches(lines[i])) ==> r == Err(NotFound)
    decreases |lines|
  {
    if |lines| == 0 then Err(NotFound)
    else if Matches(lines[0]) then ParseLine(lines[0])
    else
      var r := ParseLayerSizes(lines[1..]);
      assert forall i :: 0 <= i < |lines| - 1 ==> lines[1..][i] == lines[i + 1];
      r
  }

  /** Lines before the first sizes line do not matter, nor do lines after it. */
  lemma {:induction false} FirstMatchDecides(before: seq<string>, line: string, after: seq<string>)
    requires forall i :: 0 <= i < |before| ==> !Matches(before[i])
    requires Matches(line)
    ensures ParseLayerSizes(before + [line] + after) == ParseLine(line)
    decreases |before|
  {
    var all := before + [line] + after;
    if |before| > 0 {
      assert all[1..] == before[1..] + [line] + after;
      FirstMatchDecides(before[1..], line, after);
    } else {
      assert all[0] == line;
    }
  }

  /** A white-space character at the end adds no word. */
  lemma {:induction false} SplitWsSpaceEnd(s: string, c: char)
    requires PyIsSpace(c)
    ensures SplitWs(s + [c]) == SplitWs(s)
    decreases |s|
  {
    var t := s + [c];
    if |s| == 0 {
      assert SplitWs(t) == SplitWs(t[1..]) && t[1..] == [];
    } else if PyIsSpace(s[0]) {
      assert t[1..] == s[1..] + [c];
      SplitWsSpaceEnd(s[1..], c);
    } else {
      var k := WordLen(s);
      WordLenSpaceEnd(s, c);
      assert t[..k] == s[..k];
      assert t[k..] == s[k..] + [c];
      SplitWsSpaceEnd(s[k..], c);
    }
  }

  lemma {:induction false} WordLenSpaceEnd(s: string, c: char)
    requires PyIsSpace(c)
    ensures WordLen(s + [c]) == WordLen(s)
    decreases |s|
  {
    var t := s + [c];
    if |s| > 0 && !PyIsSpace(s[0]) {
      assert t[1..] == s[1..] + [c];
      WordLenSpaceEnd(s[1..], c);
    }
  }

  /** Trailing white space adds no word. */
  lemma {:induction false} SplitWsTrimEnd(s: string)
    ensures SplitWs(PlotConfusionPy.TrimEnd(s)) == SplitWs(s)
    decreases |s|
  {
    if |s| > 0 && PyIsSpace(s[|s| - 1]) {
      var p := s[..|s| - 1];
      assert s == p + [s[|s| - 1]];
      SplitWsSpaceEnd(p, s[|s| - 1]);
      SplitWsTrimEnd(p);
    }
  }

  /** Stripping the end of `p + s` strips the end of `s` when `s` starts with a non-space. */
  lemma {:induction false} TrimEndAppend(p: string, s: string)
    requires |s| > 0 && !PyIsSpace(s[0])
    ensures PlotConfusionPy.TrimEnd(p + s) == p + PlotConfusionPy.TrimEnd(s)
    decreases |s|
  {
    var t := p + s;
    if PyIsSpace(s[|s| - 1]) {
      var q := s[..|s| - 1];
      assert t[..|t| - 1] == p + q;
      TrimEndAppend(p, q);
    }
  }

  /** The decimals of the sizes, in order. */
  function Decimals(sizes: seq<nat>): (d: seq<string>)
    ensures |d| == |sizes| && forall i :: 0 <= i < |sizes| ==> d[i] == NatToString(sizes[i])
  {
    seq(|sizes|, i requires 0 <= i < |sizes| => NatToString(sizes[i]))
  }

  /** The words of FANN's space-separated sizes are their decimals. */
  lemma {:induction false} SplitWsSpaced(sizes: seq<nat>)
    ensures SplitWs(DumpWeights.Spaced(sizes)) == Decimals(sizes)
    decreases |sizes|
  {
    if |sizes| > 0 {
      var d := NatToString(sizes[0]);
      var rest := DumpWeights.Spaced(sizes[1..]);
      assert DumpWeights.Spaced(sizes) == d + " " + rest;
      SplitWsDecimalCons(d, rest);
      SplitWsSpaced(sizes[1..]);
      DecimalsCons(sizes);
    }
  }

  lemma DecimalsCons(sizes: seq<nat>)
    requires |sizes| > 0
    ensures Decimals(sizes) == [NatToString(sizes[0])] + Decimals(sizes[1..])
  {
    var r := [NatToString(sizes[0])] + Decimals(sizes[1..]);
    assert forall i :: 0 < i < |sizes| ==> r[i] == NatToString(sizes[1..][i - 1]) == NatToString(sizes[i]);
  }

  /** A decimal followed by a space is one word. */
  lemma SplitWsDecimalCons(d: string, rest: string)
    requires |d| > 0 && forall i :: 0 <= i < |d| ==> IsDigit(d[i])
    ensures SplitWs(d + " " + rest) == [d] + SplitWs(rest)
  {
    var s := d + " " + rest;
    WordLenDecimal(d, rest);
    assert s[..|d|] == d && s[|d|..] == " " + rest;
    assert (" " + rest)[1..] == rest;
  }

  lemma {:induction false} WordLenDecimal(d: string, rest: string)
    requires forall i :: 0 <= i < |d| ==> IsDigit(d[i])
    ensures WordLen(d + " " + rest) == |d|
    decreases |d|
  {
    var s := d + " " + rest;
    if |d| > 0 {
      assert s[1..] == d[1..] + " " + rest;
      WordLenDecimal(d[1..], rest);
    } else {
      assert s[0] == ' ';
    }
  }

  /** Each decimal reads back as its natural. */
  lemma ParseDecimals(sizes: seq<nat>)
    ensures PlotConfusionPy.ParseInts(Decimals(sizes)) == Some(sizes)
  {
    var d := Decimals(sizes);
    forall i | 0 <= i < |d|
      ensures PlotConfusionPy.ParseInt(d[i]) == Some(sizes[i])
    {
      PlotConfusionPy.ParseIntOfDecimal(sizes[i]);
    }
    var r := PlotConfusionPy.ParseInts(d);
    assert r.value == sizes;
  }

  /**
   * The two readers part on a sizes line of spaces only: the weight dumper's
   * pattern captures the space and finds no sizes, while this script strips
   * it and raises "not found".
   */
  lemma SpacesOnlyLine()
    ensures DumpWeights.ParseLayerSizes(["layer_sizes= "]) == Some([])
    ensures ParseLayerSizes(["layer_sizes= "]) == Err(NotFound)
  {
    var line := "layer_sizes= ";
    var key := DumpWeights.SizesKey;
    assert line == key + " ";
    assert IsPrefix(key, line);
    var rest := line[|key|..];
    assert |line| > |key| && line[|key|] == ' ' && DumpWeights.IsSizeChar(line[|key|]);
    assert rest == " ";
    assert DumpWeights.SizeRun(rest) == 1 by {
      assert rest[1..] == "";
    }
    assert rest[..1] == " ";
    assert DumpWeights.SizesField(line) == Some(" ");
    assert DumpWeights.Words(" ") == [];
    assert PlotConfusionPy.TrimStart(line) == line;
    assert PlotConfusionPy.TrimEnd(line) == key;
    assert PlotConfusionPy.Trim(line) == key;
    assert Matches(line);
    assert Raw(line) == "";
  }

  /** `int()` reads an underscore-grouped size: "layer_sizes=1_0" gives [10]. */
  lemma GroupedSizeLine(line: string)
    requires line == DumpWeights.SizesKey + "1_0"
    ensures ParseLayerSizes([line]) == Ok([10])
  {
    GroupedRaw(line);
    GroupedWords();
    GroupedInts();
    assert ParseLine(line) == Ok([10]);
    FirstMatchDecides([], line, []);
    assert [] + [line] + [] == [line];
  }

  lemma GroupedInts()
    ensures PlotConfusionPy.ParseInts(["1_0"]) == Some([10])
  {
    PlotConfusionPy.UnderscoreGroup('1', '0');
    assert "1_0" == ['1', '_', '0'];
    var f: seq<string> := ["1_0"];
    assert f[0] == "1_0";
    var r := PlotConfusionPy.ParseInts(f);
    assert r.Some? && |r.value| == 1 && r.value[0] == 10;
    assert r.value == [10];
  }

  lemma GroupedRaw(line: string)
    requires line == DumpWeights.SizesKey + "1_0"
    ensures Matches(line) && Raw(line) == "1_0"
  {
    assert PlotConfusionPy.TrimStart(line) == line;
    assert PlotConfusionPy.Trim(line) == line;
    assert line[|DumpWeights.SizesKey|..] == "1_0";
    assert PlotConfusionPy.TrimStart("1_0") == "1_0";
  }

  lemma GroupedWords()
    ensures SplitWs("1_0") == ["1_0"]
  {
    var w := "1_0";
    assert WordLen(w[2..]) == 1 by {
      assert w[2..][1..] == "";
    }
    assert w[1..][1..] == w[2..];
    assert WordLen(w[1..]) == 2;
    assert WordLen(w) == 3;
    assert w[..3] == w && |w[3..]| == 0;
  }

  /** The sizes line FANN writes reads back as the sizes it was written from. */
  lemma ParseWrittenSizes(before: seq<string>, sizes: seq<nat>, after: seq<string>)
    requires |sizes| > 0
    requires forall i :: 0 <= i < |before| ==> !Matches(before[i])
    ensures ParseLayerSizes(before + [DumpWeights.SizesLine(sizes)] + after) == Ok(sizes)
  {
    var key := DumpWeights.SizesKey;
    var sp := DumpWeights.Spaced(sizes);
    var line := DumpWeights.SizesLine(sizes);
    var d0 := NatToString(sizes[0]);
    assert sp == d0 + " " + DumpWeights.Spaced(sizes[1..]);
    assert sp[0] == d0[0] && IsDigit(sp[0]);
    assert line == key + sp && line[0] == 'l';
    assert PlotConfusionPy.TrimStart(line) == line;
    TrimEndAppend(key, sp);
    var body := PlotConfusionPy.TrimEnd(sp);
    var t := PlotConfusionPy.Trim(line);
    assert t == key + body;
    assert |body| > 0 && body[0] == sp[0] by {
      SplitWsTrimEnd(sp);
      SplitWsSpaced(sizes);
      assert |SplitWs(body)| > 0;
      assert body == sp[..|body|];
    }
    assert t[..|key|] == key && t[|key|..] == body;
    assert Matches(line);
    assert PlotConfusionPy.TrimStart(body) == body;
    assert PlotConfusionPy.TrimEnd(body) == body by {
      assert |body| > 0 && !PyIsSpace(body[|body| - 1]);
    }
    assert Raw(line) == body;
    SplitWsTrimEnd(sp);
    SplitWsSpaced(sizes);
    ParseDecimals(sizes);
    assert ParseLine(line) == Ok(sizes);
    FirstMatchDecides(before, line, after);
  }

  // ---------------------------------------------------------------------------
  // Labels

  /** `layer_label`: the first layer is the input, the last the output, and the rest hidden. */
  function LayerLabel(index: nat, total: int): (s: string)
    ensures s == "Input" <==> index == 0
    ensures s == "Output" <==> index != 0 && index == total - 1
    ensures s == "Hidden" <==> index != 0 && index != total - 1 && total == 3
    ensures index != 0 && index != total - 1 && total != 3 ==> s == "Hidden " + NatToString(index)
  {
    if index == 0 then "Input"
    else if index == total - 1 then "Output"
    else if total == 3 then "Hidden"
    else
      var s := "Hidden " + NatToString(index);
      assert s[0] == 'H' && |s| > 6 && s[6] == ' ';
      s
  }

  /** No two layers of one network carry the same label. */
  lemma LabelsDistinct(total: nat, i: nat, j: nat)
    requires i < j < total
    ensures LayerLabel(i, total) != LayerLabel(j, total)
  {
    if i != 0 && j != total - 1 {
      var a, b := NatToString(i), NatToString(j);
      assert LayerLabel(i, total) == "Hidden " + a && LayerLabel(j, total) == "Hidden " + b;
      if "Hidden " + a == "Hidden " + b {
        assert a == ("Hidden " + a)[7..] && b == ("Hidden " + b)[7..];
        DigitsValueOfNatToString(i);
        DigitsValueOfNatToString(j);
      }
    }
  }

  /** The CSS class of a layer's nodes. */
  function NodeClass(index: nat, total: int): (c: string)
    ensures c == "node-input" || c == "node-output" || c == "node-hidden"
  {
    if index == 0 then "node-input"
    else if index == total - 1 then "node-output"
    else "node-hidden"
  }

  /** The node colour follows the layer's label. */
  lemma ClassFollowsLabel(index: nat, total: int)
    ensures NodeClass(index, total) == "node-input" <==> LayerLabel(index, total) == "Input"
    ensures NodeClass(index, total) == "node-output" <==> LayerLabel(index, total) == "Output"
    ensures NodeClass(index, total) == "node-hidden" <==> IsPrefix("Hidden", LayerLabel(index, total))
  {
    var s := LayerLabel(index, total);
    if index != 0 && index != total - 1 {
      assert s[..6] == "Hidden";
    }
  }

  /** The bias note of the neuron count: on every layer but the last that has more than one neuron. */
  function BiasNote(index: nat, total: int, size: int): (s: string)
    ensures s == "" || s == " (incl bias)"
    ensures s != "" <==> index < total - 1 && size > 1
  {
    if index < total - 1 && size > 1 then " (incl bias)" else ""
  }

  /** `clamp`: `max(low, min(high, value))`; `low` wins when the bounds cross. */
  function ClampInt(value: int, low: int, high: int): (r: int)
    ensures low <= high ==> low <= r <= high
    ensures low <= value <= high ==> r == value
    ensures value < low ==> r == low
    ensures low <= high < value ==> r == high
    ensures high < low ==> r == low
  {
    var m := if high < value then high else value;
    if low > m then low else m
  }

  // ---------------------------------------------------------------------------
  // Horizontal layout

  const CanvasWidth: int := 1200
  /** The width the boxes should fit in: the canvas less a 20-pixel margin on each side. */
  const FitWidth: int := CanvasWidth - 40
  const BoxWidth: int := 220
  const MinBoxWidth: int := 160
  const WideGap: int := 120
  const NarrowGap: int := 60

  /** `total`: the width of `n` boxes with `n - 1` gaps between them. */
  function BoxesWidth(n: nat, boxWidth: int, gap: int): int {
    n * boxWidth + (n - 1) * gap
  }

  datatype Layout = Layout(boxWidth: int, gap: int, total: int, left: int)

  /** The boxes centred on the canvas: `left = int((width - total) / 2)`. */
  function Centre(n: nat, boxWidth: int, gap: int): (l: Layout)
    ensures l.boxWidth == boxWidth && l.gap == gap && l.total == BoxesWidth(n, boxWidth, gap)
    ensures CanvasWidth - l.total - 1 <= 2 * l.left <= CanvasWidth - l.total + 1
  {
    var total := BoxesWidth(n, boxWidth, gap);
    TruncHalf(CanvasWidth - total);
    Layout(boxWidth, gap, total, PlotConfusion.Trunc((CanvasWidth - total) as real / 2.0))
  }

  lemma TruncHalf(x: int)
    ensures x - 1 <= 2 * PlotConfusion.Trunc(x as real / 2.0) <= x + 1
  {
    if x >= 0 {
      var q, r := x / 2, x % 2;
      assert x as real / 2.0 == q as real + r as real / 2.0;
      assert (x as real / 2.0).Floor == q;
    } else {
      var q, r := (-x) / 2, (-x) % 2;
      assert (-(x as real / 2.0)) == q as real + r as real / 2.0;
      assert (-(x as real / 2.0)).Floor == q;
    }
  }

  /** `max(160, int((width - 40 - (n - 1) * gap) / n))`. */
  function ShrunkWidth(n: nat, gap: int): int
    requires n > 0
  {
    var w := PlotConfusion.Trunc((FitWidth - (n - 1) * gap) as real / n as real);
    if MinBoxWidth > w then MinBoxWidth else w
  }

  /**
   * When the full-width boxes overflow, the shrunk width lies in [160, 220),
   * and the boxes fit unless the width is stuck at 160.
   */
  lemma ShrunkFits(n: nat, gap: int)
    requires n > 0 && BoxesWidth(n, BoxWidth, gap) > FitWidth
    ensures MinBoxWidth <= ShrunkWidth(n, gap) < BoxWidth
    ensures ShrunkWidth(n, gap) > MinBoxWidth ==> BoxesWidth(n, ShrunkWidth(n, gap), gap) <= FitWidth
  {
    var s := FitWidth - (n - 1) * gap;
    assert s < n * BoxWidth;
    QuotBelow(s, n, BoxWidth);
    var w := PlotConfusion.Trunc(s as real / n as real);
    if w > MinBoxWidth {
      QuotTimes(s, n, w);
    }
  }

  /** A quotient below a bound: `s < n * c` gives `s / n < c`. */
  lemma QuotBelow(s: int, n: nat, c: int)
    requires n > 0 && s < n * c
    ensures s as real / n as real < c as real
  {
    var x := s as real / n as real;
    assert x * n as real == s as real;
    assert (n * c) as real == n as real * c as real;
    if x >= c as real {
      MulRealMono(n as real, c as real, x);
    }
  }

  /** A whole number at most `s / n` times `n` is at most `s`. */
  lemma QuotTimes(s: int, n: nat, w: int)
    requires n > 0 && w as real <= s as real / n as real
    ensures n * w <= s
  {
    var x := s as real / n as real;
    assert x * n as real == s as real;
    MulRealMono(n as real, w as real, x);
    assert (n * w) as real == n as real * w as real;
  }

  /**
   * The layout of `build_svg`: 220-pixel boxes 120 apart; when they overflow
   * the fit width the gap drops to 60; when they still overflow the boxes
   * shrink, but never below 160. The result is centred on the canvas.
   */
  function FitLayout(n: nat): (l: Layout)
    ensures l.total == BoxesWidth(n, l.boxWidth, l.gap)
    ensures l.gap == WideGap <==> BoxesWidth(n, BoxWidth, WideGap) <= FitWidth
    ensures l.gap == NarrowGap <==> BoxesWidth(n, BoxWidth, WideGap) > FitWidth
    ensures MinBoxWidth <= l.boxWidth <= BoxWidth
    ensures l.boxWidth == BoxWidth <==> BoxesWidth(n, BoxWidth, l.gap) <= FitWidth
    ensures l.boxWidth > MinBoxWidth ==> l.total <= FitWidth
    ensures CanvasWidth - l.total - 1 <= 2 * l.left <= CanvasWidth - l.total + 1
  {
    var gap := if BoxesWidth(n, BoxWidth, WideGap) > FitWidth then NarrowGap else WideGap;
    if BoxesWidth(n, BoxWidth, gap) <= FitWidth then Centre(n, BoxWidth, gap)
    else
      ShrunkFits(n, gap);
      Centre(n, ShrunkWidth(n, gap), gap)
  }

  /**
   * Up to five layers fit the canvas; from six on, the boxes stay 160 wide
   * and the diagram starts left of the canvas.
   */
  lemma LayoutFits(n: nat)
    requires n >= 1
    ensures FitLayout(n).total <= FitWidth <==> n <= 5
    ensures n >= 6 ==> FitLayout(n).boxWidth == MinBoxWidth && FitLayout(n).left < 0
  {
    if n >= 6 {
      WideLayout(n);
    } else {
      SmallLayout(n);
    }
  }

  lemma WideLayout(n: nat)
    requires n >= 6
    ensures FitLayout(n).boxWidth == MinBoxWidth && FitLayout(n).total > FitWidth && FitLayout(n).left < 0
  {
    assert BoxesWidth(n, BoxWidth, WideGap) > FitWidth;
    assert BoxesWidth(n, BoxWidth, NarrowGap) > FitWidth;
    var s := FitWidth - (n - 1) * NarrowGap;
    assert s < n * MinBoxWidth;
    QuotBelow(s, n, MinBoxWidth);
    assert ShrunkWidth(n, NarrowGap) == MinBoxWidth;
    assert FitLayout(n) == Centre(n, MinBoxWidth, NarrowGap);
  }

  lemma SmallLayout(n: nat)
    requires 1 <= n <= 5
    ensures FitLayout(n).total <= FitWidth
  {
    if n == 5 {
      assert BoxesWidth(5, BoxWidth, NarrowGap) > FitWidth;
      assert (920 as real / 5 as real) == 184.0;
      assert ShrunkWidth(5, NarrowGap) == 184;
      assert FitLayout(5) == Centre(5, 184, NarrowGap);
    } else if n == 4 {
      assert FitLayout(4) == Centre(4, BoxWidth, NarrowGap);
    } else {
      assert FitLayout(n) == Centre(n, BoxWidth, WideGap);
    }
  }

  /** `x` of a layer's box. */
  function BoxX(l: Layout, index: nat): int {
    l.left + index * (l.boxWidth + l.gap)
  }

  /** `center_x`: the middle of a layer's box, where its nodes and connections sit. */
  function CenterX(l: Layout, index: nat): int {
    BoxX(l, index) + l.boxWidth / 2
  }

  /** When the layout fits, every box lies inside the canvas's 20-pixel margins. */
  lemma BoxesInside(n: nat, index: nat)
    requires index < n && FitLayout(n).total <= FitWidth
    ensures 20 <= BoxX(FitLayout(n), index)
    ensures BoxX(FitLayout(n), index) + FitLayout(n).boxWidth <= CanvasWidth - 20
  {
    var l := FitLayout(n);
    BoxInside(l.left, l.boxWidth, l.gap, l.total, n, index);
  }

  lemma BoxInside(left: int, bw: nat, gap: nat, total: int, n: nat, index: nat)
    requires index < n && total == BoxesWidth(n, bw, gap) && total <= FitWidth
    requires CanvasWidth - total - 1 <= 2 * left <= CanvasWidth - total + 1
    ensures 20 <= left + index * (bw + gap)
    ensures left + index * (bw + gap) + bw <= CanvasWidth - 20
  {
    var d: nat := bw + gap;
    MulMono(d, index, n - 1);
    var before := index * d;
    var span := (n - 1) * d;
    assert before <= span;
    Distribute(n - 1, bw, gap);
    assert total == span + bw;
  }

  lemma Distribute(a: int, b: int, c: int)
    ensures a * (b + c) == a * b + a * c
  {
  }

  // ---------------------------------------------------------------------------
  // Nodes

  const BoxTop: int := 140
  const BoxHeight: int := 420
  const InnerTop: int := BoxTop + 70
  const InnerBottom: int := BoxTop + BoxHeight - 60
  /** At most this many nodes are drawn per layer; more than that shows eight and an ellipsis. */
  const DisplayLimit: int := 10
  const ElidedCount: int := 8

  /** `draw_count`: the size itself up to ten, otherwise eight. */
  function DrawCount(size: int): (d: int)
    ensures d <= DisplayLimit && d <= size
    ensures d == size <==> size <= DisplayLimit
    ensures size > DisplayLimit ==> d == ElidedCount
  {
    var limit := if size <= DisplayLimit then DisplayLimit else ElidedCount;
    if size < limit then size else limit
  }

  /** The ellipsis under a layer's nodes. */
  predicate Ellipsis(size: int) {
    size > DrawCount(size)
  }

  /** The distance between neighbouring nodes when `draw` of them are spread. */
  function NodeStep(draw: int): real
    requires draw > 1
  {
    (InnerBottom - InnerTop) as real / (draw - 1) as real
  }

  function NodeY(draw: int, i: nat): int
    requires draw > 1
  {
    PlotConfusion.Trunc(InnerTop as real + NodeStep(draw) * i as real)
  }

  lemma StepSpan(draw: int)
    requires draw > 1
    ensures NodeStep(draw) > 0.0
    ensures NodeStep(draw) * (draw - 1) as real == (InnerBottom - InnerTop) as real
  {
  }

  /** The spread nodes run from the top of the inner area to its bottom. */
  lemma NodeYBounds(draw: int)
    requires draw > 1
    ensures NodeY(draw, 0) == InnerTop
    ensures NodeY(draw, (draw - 1) as nat) == InnerBottom
    ensures forall i: nat :: i < draw ==> InnerTop <= NodeY(draw, i) <= InnerBottom
  {
    StepSpan(draw);
    forall i: nat | i < draw
      ensures InnerTop <= NodeY(draw, i) <= InnerBottom
    {
      MulRealMono(NodeStep(draw), 0.0, i as real);
      MulRealMono(NodeStep(draw), i as real, (draw - 1) as real);
    }
  }

  /** `positions`: one node in the middle, or nodes evenly spread over the inner area. */
  function Positions(draw: int): (ys: seq<int>)
    ensures |ys| == if draw <= 0 then 0 else draw
    ensures draw == 1 ==> ys == [(InnerTop + InnerBottom) / 2]
    ensures draw > 1 ==> ys[0] == InnerTop && ys[draw - 1] == InnerBottom
    ensures forall i :: 0 <= i < |ys| ==> InnerTop <= ys[i] <= InnerBottom
  {
    if draw <= 0 then []
    else if draw == 1 then
      assert (InnerTop + InnerBottom) as real / 2.0 == 355.0;
      [PlotConfusion.Trunc((InnerTop + InnerBottom) as real / 2.0)]
    else
      NodeYBounds(draw);
      seq(draw, i requires 0 <= i < draw => NodeY(draw, i))
  }

  /**
   * With at most ten nodes, neighbouring nodes are at least 32 pixels apart,
   * so circles of radius 10 never touch.
   */
  lemma PositionsSpaced(draw: int)
    requires 1 < draw <= DisplayLimit
    ensures forall i :: 0 <= i < draw - 1 ==> Positions(draw)[i] + 32 <= Positions(draw)[i + 1]
  {
    forall i | 0 <= i < draw - 1
      ensures Positions(draw)[i] + 32 <= Positions(draw)[i + 1]
    {
      NodeYSpaced(draw, i);
    }
  }

  lemma NodeYSpaced(draw: int, i: nat)
    requires 1 < draw <= DisplayLimit && i + 1 < draw
    ensures NodeY(draw, i) + 32 <= NodeY(draw, i + 1)
  {
    var st := NodeStep(draw);
    StepSpan(draw);
    MulRealMono(st, (draw - 1) as real, 9.0);
    assert st >= 32.0;
    var a := InnerTop as real + st * i as real;
    assert InnerTop as real + st * (i + 1) as real == a + st;
    MulRealMono(st, 0.0, i as real);
  }

  /** The spread nodes are symmetric about the middle of the inner area, up to rounding down. */
  lemma PositionsSymmetric(draw: int)
    requires draw > 1
    ensures forall i :: 0 <= i < draw ==>
      InnerTop + InnerBottom - 1 <= Positions(draw)[i] + Positions(draw)[draw - 1 - i] <= InnerTop + InnerBottom
  {
    var ys := Positions(draw);
    var st := NodeStep(draw);
    StepSpan(draw);
    forall i | 0 <= i < draw
      ensures InnerTop + InnerBottom - 1 <= ys[i] + ys[draw - 1 - i] <= InnerTop + InnerBottom
    {
      var a := st * i as real;
      var b := st * (draw - 1 - i) as real;
      assert b == st * (draw - 1) as real - a;
      MulRealMono(st, 0.0, i as real);
      MulRealMono(st, 0.0, (draw - 1 - i) as real);
      assert ys[i] == (InnerTop as real + a).Floor;
      assert ys[draw - 1 - i] == (InnerTop as real + b).Floor;
    }
  }

  /** The ellipsis shows exactly when the layer has more than ten neurons, eight of them drawn. */
  lemma EllipsisIff(size: int)
    ensures Ellipsis(size) <==> size > DisplayLimit
    ensures |Positions(DrawCount(size))| == if size <= 0 then 0 else if size <= DisplayLimit then size else ElidedCount
  {
  }

  /** `nodes_by_layer[i]["ys"]` for every layer. */
  function NodesOf(sizes: seq<int>): (nodes: seq<seq<int>>)
    ensures |nodes| == |sizes|
    ensures forall i :: 0 <= i < |sizes| ==> nodes[i] == Positions(DrawCount(sizes[i]))
  {
    seq(|sizes|, i requires 0 <= i < |sizes| => Positions(DrawCount(sizes[i])))
  }

  // ---------------------------------------------------------------------------
  // Connections

  datatype Line = Line(x1: int, y1: int, x2: int, y2: int)

  /** `ys[:4]`: only the first four nodes of a layer get connection lines. */
  function Sample(ys: seq<int>): (s: seq<int>)
    ensures |s| == if |ys| <= 4 then |ys| else 4
    ensures forall y :: y in s <==> exists i :: 0 <= i < |s| && ys[i] == y
  {
    if |ys| <= 4 then ys else ys[..4]
  }

  /** The lines from one node to each of the right-hand nodes. */
  function LinesTo(x1: int, y1: int, x2: int, right: seq<int>): (lines: seq<Line>)
    ensures |lines| == |right|
  {
    seq(|right|, j requires 0 <= j < |right| => Line(x1, y1, x2, right[j]))
  }

  /** The nested `for y1 … for y2` loop: every left node joined to every right node. */
  function Fan(x1: int, left: seq<int>, x2: int, right: seq<int>): (lines: seq<Line>)
    ensures |lines| == |left| * |right|
    decreases |left|
  {
    if |left| == 0 then []
    else
      var rest := Fan(x1, left[1..], x2, right);
      assert |left| * |right| == |right| + (|left| - 1) * |right|;
      LinesTo(x1, left[0], x2, right) + rest
  }

  lemma RowMembers(x1: int, y1: int, x2: int, right: seq<int>)
    ensures forall ln: Line :: ln in LinesTo(x1, y1, x2, right) <==> ln.x1 == x1 && ln.y1 == y1 && ln.x2 == x2 && ln.y2 in right
  {
    var r := LinesTo(x1, y1, x2, right);
    forall ln: Line | ln.x1 == x1 && ln.y1 == y1 && ln.x2 == x2 && ln.y2 in right
      ensures ln in r
    {
      var j :| 0 <= j < |right| && right[j] == ln.y2;
      assert r[j] == ln;
    }
  }

  /** A fan holds exactly the lines from a left node to a right node. */
  lemma {:induction false} FanMembers(x1: int, left: seq<int>, x2: int, right: seq<int>)
    ensures forall ln: Line :: ln in Fan(x1, left, x2, right) <==> ln.x1 == x1 && ln.x2 == x2 && ln.y1 in left && ln.y2 in right
    decreases |left|
  {
    if |left| > 0 {
      RowMembers(x1, left[0], x2, right);
      FanMembers(x1, left[1..], x2, right);
      assert forall y :: y in left <==> y == left[0] || y in left[1..];
    }
  }

  /** Layer `index` and the next are joined through their sampled nodes. */
  ghost predicate Joins(ln: Line, l: Layout, nodes: seq<seq<int>>, index: nat) {
    index + 1 < |nodes|
    && ln.x1 == CenterX(l, index) && ln.x2 == CenterX(l, index + 1)
    && ln.y1 in Sample(nodes[index]) && ln.y2 in Sample(nodes[index + 1])
  }

  /** The `connections` group from layer `index` on. */
  function ConnectionsFrom(l: Layout, nodes: seq<seq<int>>, index: nat): (lines: seq<Line>)
    ensures |lines| <= 16 * (|nodes| - index - 1) || |lines| == 0
    decreases |nodes| - index
  {
    if index + 1 >= |nodes| then []
    else
      var fan := Fan(CenterX(l, index), Sample(nodes[index]), CenterX(l, index + 1), Sample(nodes[index + 1]));
      MulMono(|Sample(nodes[index])|, |Sample(nodes[index + 1])|, 4);
      MulMono(4, |Sample(nodes[index])|, 4);
      fan + ConnectionsFrom(l, nodes, index + 1)
  }

  function Connections(l: Layout, nodes: seq<seq<int>>): seq<Line> {
    ConnectionsFrom(l, nodes, 0)
  }

  /** A line is drawn exactly when it joins sampled nodes of neighbouring layers. */
  lemma ConnectionsMembers(l: Layout, nodes: seq<seq<int>>, index: nat)
    ensures forall ln: Line :: ln in ConnectionsFrom(l, nodes, index) <==> exists k :: index <= k && Joins(ln, l, nodes, k)
  {
    forall ln: Line
      ensures ln in ConnectionsFrom(l, nodes, index) <==> exists k :: index <= k && Joins(ln, l, nodes, k)
    {
      if ln in ConnectionsFrom(l, nodes, index) {
        ConnectionsOnly(l, nodes, index, ln);
      }
      if exists k :: index <= k && Joins(ln, l, nodes, k) {
        var k :| index <= k && Joins(ln, l, nodes, k);
        ConnectionsHas(l, nodes, index, ln, k);
      }
    }
  }

  lemma {:induction false} ConnectionsHas(l: Layout, nodes: seq<seq<int>>, index: nat, ln: Line, k: nat)
    requires index <= k && Joins(ln, l, nodes, k)
    ensures ln in ConnectionsFrom(l, nodes, index)
    decreases k - index
  {
    var left, right := Sample(nodes[index]), Sample(nodes[index + 1]);
    var fan := Fan(CenterX(l, index), left, CenterX(l, index + 1), right);
    assert ConnectionsFrom(l, nodes, index) == fan + ConnectionsFrom(l, nodes, index + 1);
    if k == index {
      FanMembers(CenterX(l, index), left, CenterX(l, index + 1), right);
      assert ln in fan;
    } else {
      ConnectionsHas(l, nodes, index + 1, ln, k);
    }
  }

  lemma {:induction false} ConnectionsOnly(l: Layout, nodes: seq<seq<int>>, index: nat, ln: Line)
    requires ln in ConnectionsFrom(l, nodes, index)
    ensures exists k :: index <= k && Joins(ln, l, nodes, k)
    decreases |nodes| - index
  {
    assert index + 1 < |nodes|;
    var left, right := Sample(nodes[index]), Sample(nodes[index + 1]);
    var fan := Fan(CenterX(l, index), left, CenterX(l, index + 1), right);
    assert ConnectionsFrom(l, nodes, index) == fan + ConnectionsFrom(l, nodes, index + 1);
    if ln in fan {
      FanMembers(CenterX(l, index), left, CenterX(l, index + 1), right);
      assert Joins(ln, l, nodes, index);
    } else {
      ConnectionsOnly(l, nodes, index + 1, ln);
    }
  }

  /** The number of nodes a layer of this size draws. */
  function Shown(size: int): (k: nat)
    ensures k <= DisplayLimit
  {
    if DrawCount(size) <= 0 then 0 else DrawCount(size)
  }

  /** The reference line count: min(4, shown) times min(4, shown) per pair of neighbours. */
  function PairCount(sizes: seq<int>, index: nat): nat
    decreases |sizes| - index
  {
    if index + 1 >= |sizes| then 0
    else
      var a := if Shown(sizes[index]) <= 4 then Shown(sizes[index]) else 4;
      var b := if Shown(sizes[index + 1]) <= 4 then Shown(sizes[index + 1]) else 4;
      a * b + PairCount(sizes, index + 1)
  }

  /** The diagram draws the reference number of connection lines. */
  lemma {:induction false} ConnectionCount(l: Layout, sizes: seq<int>, index: nat)
    ensures |ConnectionsFrom(l, NodesOf(sizes), index)| == PairCount(sizes, index)
    decreases |sizes| - index
  {
    if index + 1 < |sizes| {
      SampleShown(sizes, index);
      SampleShown(sizes, index + 1);
      ConnectionCount(l, sizes, index + 1);
    }
  }

  lemma SampleShown(sizes: seq<int>, i: nat)
    requires i < |sizes|
    ensures |Sample(NodesOf(sizes)[i])| == if Shown(sizes[i]) <= 4 then Shown(sizes[i]) else 4
  {
  }

}

=== FILE: numerics.dfy ===
/**
 * Real-valued primitives of the C math library, and sums over sequences of reals.
 *
 * The transcendental functions are not computed: they are carried in a `Math`
 * record of arbitrary total functions, and `Valid` states the few facts about
 * them that the model relies on.
 */
module Numerics {

  /** The value of `M_PI` used by dsp.c and mfcc.c. */
  const Pi: real := 3.14159265358979323846

  datatype Math = Math(
    sqrt: real -> real,
    log: real -> real,
    exp: real -> real,
    cos: real -> real,
    sin: real -> real,
    log10: real -> real,
    pow10: real -> real)

  /** The facts about the primitives that the proofs use. */
  ghost predicate Valid(m: Math) {
    SqrtFacts(m) && CosFacts(m) && ExpFacts(m) && LogFacts(m)
  }

  /** sqrt(0) = 0; sqrt is non-negative and monotone on [0, inf) and inverts squaring there. */
  ghost predicate SqrtFacts(m: Math) {
    && m.sqrt(0.0) == 0.0
    && (forall x :: x >= 0.0 ==> m.sqrt(x) >= 0.0)
    && (forall x, y :: 0.0 <= x <= y ==> m.sqrt(x) <= m.sqrt(y))
    && (forall x :: x >= 0.0 ==> m.sqrt(Square(x)) == x)
  }

  /** cos(0) = cos(2 pi) = 1 and cos stays in [-1, 1]. */
  ghost predicate CosFacts(m: Math) {
    && m.cos(0.0) == 1.0
    && m.cos(2.0 * Pi) == 1.0
    && (forall x :: -1.0 <= m.cos(x) <= 1.0)
  }

  /** exp is positive. */
  ghost predicate ExpFacts(m: Math) {
    forall x :: m.exp(x) > 0.0
  }

  /** log and log10 are monotone on the positives, log10(1) = 0, pow10 is monotone. */
  ghost predicate LogFacts(m: Math) {
    && (forall x, y :: 0.0 < x <= y ==> m.log(x) <= m.log(y))
    && m.log10(1.0) == 0.0
    && (forall x, y :: 0.0 < x <= y ==> m.log10(x) <= m.log10(y))
    && (forall x, y :: x <= y ==> m.pow10(x) <= m.pow10(y))
  }

  function Square(x: real): real {
    x * x
  }

  /** Left-to-right sum, in the order the C loops accumulate. */
  function Sum(s: seq<real>): real
  {
    if |s| == 0 then 0.0 else Sum(s[..|s| - 1]) + s[|s| - 1]
  }

  /** Sum of squares, as accumulated for energies and variances. */
  function SumSq(s: seq<real>): (r: real)
    ensures r >= 0.0
  {
    if |s| == 0 then 0.0 else SumSq(s[..|s| - 1]) + s[|s| - 1] * s[|s| - 1]
  }

  /** Each value minus the mean, the terms a variance squares. */
  function Deviations(v: seq<real>, mu: real): (d: seq<real>)
    ensures |d| == |v| && forall i :: 0 <= i < |v| ==> d[i] == v[i] - mu
  {
    if |v| == 0 then [] else Deviations(v[..|v| - 1], mu) + [v[|v| - 1] - mu]
  }

  ghost predicate AllNonNeg(s: seq<real>) {
    forall i :: 0 <= i < |s| ==> s[i] >= 0.0
  }

  lemma {:induction false} SumNonNeg(s: seq<real>)
    requires AllNonNeg(s)
    ensures Sum(s) >= 0.0
  {
    if |s| > 0 {
      SumNonNeg(s[..|s| - 1]);
    }
  }

  lemma {:induction false} SumConst(s: seq<real>, c: real)
    requires forall i :: 0 <= i < |s| ==> s[i] == c
    ensures Sum(s) == |s| as real * c
  {
    if |s| > 0 {
      SumConst(s[..|s| - 1], c);
    }
  }

  lemma {:induction false} SumSqZero(s: seq<real>)
    requires forall i :: 0 <= i < |s| ==> s[i] == 0.0
    ensures SumSq(s) == 0.0
  {
    if |s| > 0 {
      SumSqZero(s[..|s| - 1]);
    }
  }

  /** Bounds of a sum whose terms all lie in [lo, hi]. */
  lemma {:induction false} SumBounds(s: seq<real>, lo: real, hi: real)
    requires forall i :: 0 <= i < |s| ==> lo <= s[i] <= hi
    ensures |s| as real * lo <= Sum(s) <= |s| as real * hi
  {
    if |s| > 0 {
      SumBounds(s[..|s| - 1], lo, hi);
    }
  }

  lemma {:induction false} SumAppend(s: seq<real>, x: real)
    ensures Sum(s + [x]) == Sum(s) + x
  {
    assert (s + [x])[..|s|] == s;
  }

  /** Sum of the first `n` elements, accumulated left to right. */
  function PrefixSum(s: seq<real>, n: nat): real
    requires n <= |s|
  {
    if n == 0 then 0.0 else PrefixSum(s, n - 1) + s[n - 1]
  }

  lemma {:induction false} PrefixSumIsSum(s: seq<real>, n: nat)
    requires n <= |s|
    ensures PrefixSum(s, n) == Sum(s[..n])
  {
    if n > 0 {
      PrefixSumIsSum(s, n - 1);
      assert s[..n][..n - 1] == s[..n - 1];
    }
  }

  /** Larger of two reals, as `fmax`-style updates in the C loops. */
  function Max(a: real, b: real): real {
    if a >= b then a else b
  }

  function Abs(x: real): (r: real)
    ensures r >= 0.0 && (r == x || r == -x)
  {
    if x < 0.0 then -x else x
  }

  // ---------------------------------------------------------------------------
  // Integer and real arithmetic facts the solver does not find alone

  lemma DivModUnique(x: int, d: int, q: int, r: int)
    requires d > 0 && x == d * q + r && 0 <= r < d
    ensures x / d == q && x % d == r
  {
    var q', r' := x / d, x % d;
    assert x == d * q' + r';
    assert d * (q - q') == r' - r;
    if q - q' >= 1 {
      MulAtLeast(d, q - q');
    } else if q' - q >= 1 {
      MulAtLeast(d, q' - q);
    }
  }

  lemma {:induction false} MulAtLeast(d: int, k: int)
    requires d > 0 && k >= 1
    ensures d * k >= d
    decreases k
  {
    if k > 1 {
      MulAtLeast(d, k - 1);
      assert d * k == d * (k - 1) + d;
    }
  }

  lemma MulMono(d: nat, a: nat, b: nat)
    requires a <= b
    ensures d * a <= d * b
  {
    if a < b {
      MulAtLeast(d + 1, b - a);
    }
  }

  lemma DivModOf(f: nat, width: nat, k: nat)
    requires k < width
    ensures (f * width + k) / width == f && (f * width + k) % width == k
  {
    DivModUnique(f * width + k, width, f, k);
  }

  /** Product of reals is monotone in a non-negative factor. */
  lemma MulRealMono(c: real, a: real, b: real)
    requires c >= 0.0 && a <= b
    ensures c * a <= c * b
  {
    assert c * b - c * a == c * (b - a);
  }

  lemma SquareMono(a: real, p: real)
    requires 0.0 <= a <= p
    ensures a * a <= p * p
  {
    MulRealMono(a, a, p);
    MulRealMono(p, a, p);
    assert a * p == p * a;
  }

  /** A quotient of bounds: lo * n <= s <= hi * n gives lo <= s / n <= hi. */
  lemma DivBounds(s: real, n: real, lo: real, hi: real)
    requires n > 0.0 && n * lo <= s <= n * hi
    ensures lo <= s / n <= hi
  {
    var q := s / n;
    assert q * n == s;
    MulRealComm(q, n);
  }

  lemma MulRealComm(a: real, b: real)
    ensures a * b == b * a
  {
  }

  lemma MulDivCancel(n: real, c: real)
    requires n != 0.0
    ensures (n * c) / n == c
  {
  }

  lemma QuotAtLeastOne(p: real, r: real)
    requires r > 0.0 && p >= r
    ensures p / r >= 1.0
  {
    DivBounds(p, r, 1.0, p / r);
  }

  /** Difference of two points of the line a + b x. */
  lemma LinearDiff(a: real, b: real, u: real, v: real)
    ensures (a + b * v) - (a + b * u) == b * (v - u)
  {
  }
}

=== FILE: plot_confusion.dfy ===
/**
 * plot_confusion.c: reads the `confusion,…` section of results.csv and
 * draws the matrix as an SVG heat map.
 *
 * The reader is a state machine over the CSV rows of the file. A header row
 * `confusion,actual/pred,<labels>` starts a fresh n×n matrix, and the next n
 * well-formed `confusion,<label>,<counts>` rows fill it.
 */
module PlotConfusion {
  import opened Wrappers
  import opened Text
  import opened Numerics
  import Csv
  import Metrics

  const UIntMod: nat := 0x1_0000_0000
  const ULongMax: nat := 0xFFFF_FFFF_FFFF_FFFF

  /**
   * `strtoul(s, &end, 10)`: leading white space, an optional sign, then the
   * longest digit run (0 when there is none). A value past ULONG_MAX
   * saturates, and a minus sign negates modulo 2^64.
   */
  function Strtoul(s: string): (v: nat)
    ensures v <= ULongMax
    decreases |s|
  {
    if |s| > 0 && IsSpace(s[0]) then Strtoul(s[1..])
    else
      var signed := |s| > 0 && (s[0] == '-' || s[0] == '+');
      var body := if signed then s[1..] else s;
      var d := DigitsValue(body[..DigitRun(body)]);
      if d > ULongMax then ULongMax
      else if signed && s[0] == '-' && d > 0 then ULongMax + 1 - d
      else d
  }

  /** `strtoul` reads back what `%u` prints. */
  lemma StrtoulOfDecimal(n: nat)
    requires n <= ULongMax
    ensures Strtoul(NatToString(n)) == n
  {
    var d := NatToString(n);
    DigitRunOfDecimal(n);
    assert IsDigit(d[0]);
  }

  /** The counts of a data row: fields 2 onward, read with `strtoul` and cast to `unsigned int`. */
  function Cells(row: seq<string>, n: nat): (cells: seq<nat>)
    requires |row| >= n + 2
    ensures |cells| == n && forall i :: 0 <= i < n ==> cells[i] == Strtoul(row[i + 2]) % UIntMod
  {
    seq(n, i requires 0 <= i < n => Strtoul(row[i + 2]) % UIntMod)
  }

  // ---------------------------------------------------------------------------
  // The reader

  /** The reader's variables: the labels, the matrix, the next row to fill, and whether a header was seen. */
  datatype Reader = Reader(labels: seq<string>, matrix: seq<seq<nat>>, rowIdx: nat, headerSeen: bool)

  const Start := Reader([], [], 0, false)

  /** Once a header is seen the matrix is n×n for its n labels, with at most n rows filled. */
  predicate Inv(st: Reader) {
    st.headerSeen ==> Metrics.IsSquare(st.matrix, |st.labels|) && st.rowIdx <= |st.labels|
  }

  /** A `confusion,actual/pred` row with at least one label. */
  predicate IsHeader(row: seq<string>) {
    |row| >= 3 && row[0] == "confusion" && row[1] == "actual/pred"
  }

  /** A `confusion` row other than a header, wide enough for `n` counts. */
  predicate IsDataRow(row: seq<string>, n: nat) {
    |row| >= n + 2 && row[0] == "confusion" && row[1] != "actual/pred"
  }

  /** The state after a header row, whatever came before it. */
  function AfterHeader(row: seq<string>): Reader
    requires |row| >= 2
  {
    Reader(row[2..], Metrics.ZeroMatrix(|row| - 2), 0, true)
  }

  /**
   * One row. Rows of fewer than two fields, or whose first field is not
   * `confusion`, are skipped. A header with at least one label resets the
   * state. A data row is skipped before any header, when narrower than n + 2
   * fields, or once n rows are filled; otherwise it fills the next row.
   */
  function Step(st: Reader, row: seq<string>): (r: Reader)
    requires Inv(st)
    ensures Inv(r)
  {
    if |row| < 2 || row[0] != "confusion" then st
    else if row[1] == "actual/pred" then
      if |row| < 3 then st else AfterHeader(row)
    else if !st.headerSeen || |st.labels| == 0 then st
    else if |row| < |st.labels| + 2 then st
    else if st.rowIdx >= |st.labels| then st
    else st.(matrix := st.matrix[st.rowIdx := Cells(row, |st.labels|)], rowIdx := st.rowIdx + 1)
  }

  function Run(st: Reader, rows: seq<seq<string>>): (r: Reader)
    requires Inv(st)
    ensures Inv(r)
    decreases |rows|
  {
    if |rows| == 0 then st else Run(Step(st, rows[0]), rows[1..])
  }

  /** The matrix and its labels. */
  datatype Plot = Plot(labels: seq<string>, matrix: seq<seq<nat>>)

  /**
   * The end of `read_confusion`: no header or no data row is an error, and so
   * is a number of data rows other than the number of labels.
   */
  function ReadRows(rows: seq<seq<string>>): (r: Result<Plot>)
    ensures r.Ok? ==> |r.value.labels| > 0 && Metrics.IsSquare(r.value.matrix, |r.value.labels|)
  {
    Finish(Run(Start, rows))
  }

  function Finish(st: Reader): (r: Result<Plot>)
    requires Inv(st)
    ensures r.Ok? ==> |r.value.labels| > 0 && Metrics.IsSquare(r.value.matrix, |r.value.labels|)
  {
    if !st.headerSeen || st.rowIdx == 0 then Err("No confusion matrix found")
    else if st.rowIdx != |st.labels| then Err("Incomplete confusion matrix")
    else Ok(Plot(st.labels, st.matrix))
  }

  /** `read_confusion` on the lines of a file, each split by `csv_split_line`. */
  function ReadConfusion(lines: seq<string>): (r: Result<Plot>)
    ensures r == ReadRows(seq(|lines|, i requires 0 <= i < |lines| => Csv.SplitLine(lines[i])))
  {
    ReadRows(seq(|lines|, i requires 0 <= i < |lines| => Csv.SplitLine(lines[i])))
  }

  lemma {:induction false} RunAppend(st: Reader, a: seq<seq<string>>, b: seq<seq<string>>)
    requires Inv(st)
    ensures Run(st, a + b) == Run(Run(st, a), b)
    decreases |a|
  {
    if |a| == 0 {
      assert a + b == b;
    } else {
      assert (a + b)[0] == a[0] && (a + b)[1..] == a[1..] + b;
      RunAppend(Step(st, a[0]), a[1..], b);
    }
  }

  /** Before any header, every row is ignored. */
  lemma {:induction false} NoHeaderIgnored(rows: seq<seq<string>>)
    requires forall i :: 0 <= i < |rows| ==> !IsHeader(rows[i])
    ensures Run(Start, rows) == Start
    ensures ReadRows(rows).Err?
    decreases |rows|
  {
    if |rows| > 0 {
      NoHeaderIgnored(rows[1..]);
    }
  }

  /** The data rows among `rows` that a header with `n` labels would accept. */
  function DataRows(rows: seq<seq<string>>, n: nat): (k: nat)
    ensures k <= |rows|
  {
    if |rows| == 0 then 0 else (if IsDataRow(rows[0], n) then 1 else 0) + DataRows(rows[1..], n)
  }

  function Min(a: nat, b: nat): nat {
    if a <= b then a else b
  }

  /** After a header with n labels and no further header, the filled rows are the data rows, capped at n. */
  lemma {:induction false} FillCount(st: Reader, rows: seq<seq<string>>)
    requires Inv(st) && st.headerSeen && |st.labels| > 0
    requires forall i :: 0 <= i < |rows| ==> !IsHeader(rows[i])
    ensures Run(st, rows).headerSeen && Run(st, rows).labels == st.labels
    ensures Run(st, rows).rowIdx == Min(|st.labels|, st.rowIdx + DataRows(rows, |st.labels|))
    decreases |rows|
  {
    if |rows| > 0 {
      FillCount(Step(st, rows[0]), rows[1..]);
    }
  }

  lemma RunCons(st: Reader, row: seq<string>, rest: seq<seq<string>>)
    requires Inv(st)
    ensures Run(st, [row] + rest) == Run(Step(st, row), rest)
  {
    assert ([row] + rest)[0] == row && ([row] + rest)[1..] == rest;
  }

  /** A header resets the reader, so nothing before it matters. */
  lemma HeaderResets(before: seq<seq<string>>, header: seq<string>, after: seq<seq<string>>)
    requires IsHeader(header)
    ensures Run(Start, before + [header] + after) == Run(AfterHeader(header), after)
  {
    assert before + [header] + after == before + ([header] + after);
    RunAppend(Start, before, [header] + after);
    RunCons(Run(Start, before), header, after);
  }

  /** Whatever precedes the last header is irrelevant. */
  lemma LastHeaderWins(before: seq<seq<string>>, header: seq<string>, after: seq<seq<string>>)
    requires IsHeader(header)
    ensures ReadRows(before + [header] + after) == ReadRows([header] + after)
  {
    HeaderResets(before, header, after);
    HeaderResets([], header, after);
    assert [] + [header] + after == [header] + after;
  }

  /** After the last header, the reader succeeds exactly when at least as many data rows as labels follow. */
  lemma EnoughDataRows(header: seq<string>, after: seq<seq<string>>)
    requires IsHeader(header)
    requires forall i :: 0 <= i < |after| ==> !IsHeader(after[i])
    ensures ReadRows([header] + after).Ok? <==> DataRows(after, |header| - 2) >= |header| - 2
  {
    RunCons(Start, header, after);
    HeaderCount(header, after);
    FinishOk(Run(AfterHeader(header), after), DataRows(after, |header| - 2));
  }

  lemma FinishOk(st: Reader, k: nat)
    requires Inv(st) && st.headerSeen && |st.labels| > 0 && st.rowIdx == Min(|st.labels|, k)
    ensures Finish(st).Ok? <==> k >= |st.labels|
  {
  }

  lemma HeaderCount(header: seq<string>, after: seq<seq<string>>)
    requires IsHeader(header)
    requires forall i :: 0 <= i < |after| ==> !IsHeader(after[i])
    ensures var fin := Run(AfterHeader(header), after);
      fin.headerSeen && |fin.labels| == |header| - 2 && fin.rowIdx == Min(|header| - 2, DataRows(after, |header| - 2))
  {
    var st := AfterHeader(header);
    assert |st.labels| == |header| - 2 && st.rowIdx == 0;
    FillCount(st, after);
  }



  // ---------------------------------------------------------------------------
  // Reading what evaluate writes

  /** A label that the CSV reader gives back as one field and that is not mistaken for the header. */
  predicate Writable(name: string) {
    Csv.NoSeparator(name) && '"' !in name && name != "actual/pred"
  }

  /** Each row as one written line: fields joined with commas, ended by a line feed. */
  function WrittenLines(rows: seq<seq<string>>): (lines: seq<string>)
    ensures |lines| == |rows| && forall i :: 0 <= i < |rows| ==> lines[i] == Join(rows[i], ',') + "\n"
  {
    seq(|rows|, i requires 0 <= i < |rows| => Join(rows[i], ',') + "\n")
  }

  function SplitRows(lines: seq<string>): (rows: seq<seq<string>>)
    ensures |rows| == |lines| && forall i :: 0 <= i < |lines| ==> rows[i] == Csv.SplitLine(lines[i])
  {
    seq(|lines|, i requires 0 <= i < |lines| => Csv.SplitLine(lines[i]))
  }

  predicate PlainRow(row: seq<string>) {
    |row| > 0 && forall j :: 0 <= j < |row| ==> Csv.NoSeparator(row[j]) && '"' !in row[j]
  }

  /** Written lines of plain rows split back into the rows. */
  lemma SplitWritten(rows: seq<seq<string>>)
    requires forall i :: 0 <= i < |rows| ==> PlainRow(rows[i])
    ensures SplitRows(WrittenLines(rows)) == rows
  {
    forall i | 0 <= i < |rows|
      ensures Csv.SplitLine(WrittenLines(rows)[i]) == rows[i]
    {
      Csv.SplitWrittenLine(rows[i]);
    }
  }

  lemma SplitRowsAppend(a: seq<seq<string>>, b: seq<seq<string>>)
    ensures SplitRows(WrittenLines(a + b)) == SplitRows(WrittenLines(a)) + SplitRows(WrittenLines(b))
  {
  }

  lemma DecimalPlain(n: nat)
    ensures Csv.NoSeparator(NatToString(n)) && '"' !in NatToString(n)
  {
    var d := NatToString(n);
    assert forall k :: 0 <= k < |d| ==> IsDigit(d[k]);
  }

  /** A confusion row of a writable label is plain. */
  lemma ConfusionRowPlain(name: string, v: seq<nat>)
    requires Csv.NoSeparator(name) && '"' !in name
    ensures PlainRow(["confusion", name] + Metrics.Decimals(v))
  {
    var row := ["confusion", name] + Metrics.Decimals(v);
    forall j | 0 <= j < |row|
      ensures Csv.NoSeparator(row[j]) && '"' !in row[j]
    {
      if j >= 2 {
        assert row[j] == NatToString(v[j - 2]);
        DecimalPlain(v[j - 2]);
      }
    }
  }

  /** One count written with `%u` and read back with `strtoul`, then cast to `unsigned int`. */
  lemma CellOfDecimal(n: nat)
    requires n < UIntMod
    ensures Strtoul(NatToString(n)) % UIntMod == n
  {
    StrtoulOfDecimal(n);
  }

  /** The counts of one written confusion row come back as they were. */
  lemma CellsOfWritten(name: string, v: seq<nat>)
    requires forall j :: 0 <= j < |v| ==> v[j] < UIntMod
    ensures Cells(["confusion", name] + Metrics.Decimals(v), |v|) == v
  {
    var cells := Cells(["confusion", name] + Metrics.Decimals(v), |v|);
    forall j | 0 <= j < |v|
      ensures cells[j] == v[j]
    {
      CellOfWritten(name, v, j);
    }
  }

  lemma CellOfWritten(name: string, v: seq<nat>, j: nat)
    requires j < |v| && v[j] < UIntMod
    ensures Cells(["confusion", name] + Metrics.Decimals(v), |v|)[j] == v[j]
  {
    var row := ["confusion", name] + Metrics.Decimals(v);
    assert row[j + 2] == NatToString(v[j]);
    CellOfDecimal(v[j]);
  }

  /** One written row fills the next matrix row with its counts. */
  lemma FillOne(st: Reader, v: seq<nat>)
    requires Inv(st) && st.headerSeen && st.rowIdx < |st.labels| == |v|
    requires st.labels[st.rowIdx] != "actual/pred"
    requires forall j :: 0 <= j < |v| ==> v[j] < UIntMod
    ensures Step(st, ["confusion", st.labels[st.rowIdx]] + Metrics.Decimals(v))
         == st.(matrix := st.matrix[st.rowIdx := v], rowIdx := st.rowIdx + 1)
  {
    var row := ["confusion", st.labels[st.rowIdx]] + Metrics.Decimals(v);
    assert IsDataRow(row, |st.labels|) by {
      assert row[0] == "confusion" && row[1] == st.labels[st.rowIdx] && |row| == |v| + 2;
    }
    StepData(st, row);
    CellsOfWritten(st.labels[st.rowIdx], v);
  }

  /** A data row after a header, with a row still to fill, fills it. */
  lemma StepData(st: Reader, row: seq<string>)
    requires Inv(st) && st.headerSeen && st.rowIdx < |st.labels| && IsDataRow(row, |st.labels|)
    ensures Step(st, row) == st.(matrix := st.matrix[st.rowIdx := Cells(row, |st.labels|)], rowIdx := st.rowIdx + 1)
  {
  }

  /** Filling rows k.. of the matrix from the rows evaluate writes ends with the written matrix. */
  lemma {:induction false} FillRows(st: Reader, m: seq<seq<nat>>)
    requires Inv(st) && st.headerSeen && Metrics.IsSquare(m, |st.labels|)
    requires forall i, j :: 0 <= i < |m| && 0 <= j < |m| ==> m[i][j] < UIntMod
    requires forall i :: 0 <= i < |st.labels| ==> st.labels[i] != "actual/pred"
    requires st.matrix[..st.rowIdx] == m[..st.rowIdx]
    ensures Run(st, Metrics.ConfusionRows(st.labels, m, |st.labels|)[st.rowIdx..]) == st.(matrix := m, rowIdx := |st.labels|)
    decreases |st.labels| - st.rowIdx
  {
    var k, n := st.rowIdx, |st.labels|;
    var all := Metrics.ConfusionRows(st.labels, m, n);
    if k == n {
      assert all[k..] == [];
      assert st.matrix == st.matrix[..k] && m == m[..k];
    } else {
      FillOne(st, m[k]);
      var next := st.(matrix := st.matrix[k := m[k]], rowIdx := k + 1);
      FillNext(st, m);
      assert all[k..] == [all[k]] + all[k + 1..];
      RunCons(st, all[k], all[k + 1..]);
      FillRows(next, m);
    }
  }


  /** Writing row k of the matrix keeps the invariant and extends the filled prefix by one row. */
  lemma FillNext(st: Reader, m: seq<seq<nat>>)
    requires Inv(st) && st.headerSeen && Metrics.IsSquare(m, |st.labels|) && st.rowIdx < |st.labels|
    requires st.matrix[..st.rowIdx] == m[..st.rowIdx]
    ensures var next := st.(matrix := st.matrix[st.rowIdx := m[st.rowIdx]], rowIdx := st.rowIdx + 1);
      Inv(next) && next.matrix[..next.rowIdx] == m[..next.rowIdx]
  {
    var k := st.rowIdx;
    var next := st.(matrix := st.matrix[k := m[k]], rowIdx := k + 1);
    assert next.matrix[..k + 1] == m[..k + 1] by {
      assert next.matrix[..k + 1] == st.matrix[..k] + [m[k]];
      assert m[..k + 1] == m[..k] + [m[k]];
    }
    assert forall i :: 0 <= i < |next.matrix| ==> next.matrix[i] == (if i == k then m[k] else st.matrix[i]);
  }

  /** The written header and confusion rows are plain, and no confusion row looks like a header. */
  lemma ConfusionSectionPlain(r: Metrics.Report)
    requires Metrics.WellShaped(r)
    requires forall i :: 0 <= i < |r.labels| ==> Writable(r.labels[i])
    ensures var after := Metrics.ConfusionRows(r.labels, r.confusion, |r.labels|);
      && PlainRow(["confusion", "actual/pred"] + r.labels)
      && (forall i :: 0 <= i < |after| ==> PlainRow(after[i]) && !IsHeader(after[i]))
  {
    var n := |r.labels|;
    var after := Metrics.ConfusionRows(r.labels, r.confusion, n);
    forall i | 0 <= i < n
      ensures PlainRow(after[i]) && !IsHeader(after[i])
    {
      ConfusionRowPlain(r.labels[i], r.confusion[i]);
    }
    var header := ["confusion", "actual/pred"] + r.labels;
    assert forall j :: 2 <= j < |header| ==> header[j] == r.labels[j - 2];
  }

  /**
   * Reading back the results.csv that evaluate writes gives its labels and
   * confusion matrix, provided the labels are writable and the counts fit an
   * `unsigned int`; the metric lines before the header play no part.
   */
  lemma ReadWrittenReport(r: Metrics.Report, render: real -> string)
    requires Metrics.WellShaped(r) && |r.labels| > 0
    requires forall i :: 0 <= i < |r.labels| ==> Writable(r.labels[i])
    requires forall i, j :: 0 <= i < |r.labels| && 0 <= j < |r.labels| ==> r.confusion[i][j] < UIntMod
    ensures ReadConfusion(WrittenLines(Metrics.ReportRows(r, render))) == Ok(Plot(r.labels, r.confusion))
  {
    var header := ["confusion", "actual/pred"] + r.labels;
    var after := Metrics.ConfusionRows(r.labels, r.confusion, |r.labels|);
    var before := ReportSplit(r, render);
    HeaderResets(before, header, after);
    ReadConfusionSection(r);
  }

  /** The written report, split again, is some rows, then the header, then the confusion rows. */
  lemma ReportSplit(r: Metrics.Report, render: real -> string) returns (before: seq<seq<string>>)
    requires Metrics.WellShaped(r)
    requires forall i :: 0 <= i < |r.labels| ==> Writable(r.labels[i])
    ensures SplitRows(WrittenLines(Metrics.ReportRows(r, render)))
         == before + [["confusion", "actual/pred"] + r.labels] + Metrics.ConfusionRows(r.labels, r.confusion, |r.labels|)
  {
    var n := |r.labels|;
    var header := ["confusion", "actual/pred"] + r.labels;
    var metrics := [["metric", "accuracy", render(r.accuracy)],
                    ["metric", "precision_macro", render(r.precisionMacro)],
                    ["metric", "recall_macro", render(r.recallMacro)]]
                   + Metrics.ClassMetricRows(r, render, n);
    var after := Metrics.ConfusionRows(r.labels, r.confusion, n);
    assert Metrics.ReportRows(r, render) == metrics + ([header] + after);
    ConfusionSectionPlain(r);
    SplitWritten([header] + after);
    SplitRowsAppend(metrics, [header] + after);
    before := SplitRows(WrittenLines(metrics));
  }

  /** From the header on, the reader rebuilds the written matrix. */
  lemma ReadConfusionSection(r: Metrics.Report)
    requires Metrics.WellShaped(r) && |r.labels| > 0
    requires forall i :: 0 <= i < |r.labels| ==> Writable(r.labels[i])
    requires forall i, j :: 0 <= i < |r.labels| && 0 <= j < |r.labels| ==> r.confusion[i][j] < UIntMod
    ensures Finish(Run(AfterHeader(["confusion", "actual/pred"] + r.labels), Metrics.ConfusionRows(r.labels, r.confusion, |r.labels|)))
         == Ok(Plot(r.labels, r.confusion))
  {
    var header := ["confusion", "actual/pred"] + r.labels;
    var after := Metrics.ConfusionRows(r.labels, r.confusion, |r.labels|);
    assert header[2..] == r.labels;
    FillRows(AfterHeader(header), r.confusion);
    assert after[0..] == after;
  }


  // ---------------------------------------------------------------------------
  // Drawing

  /** A character that must not appear raw in SVG text or attributes. */
  predicate Special(c: char) {
    c == '&' || c == '<' || c == '>' || c == '"' || c == '\''
  }

  function EscapeChar(c: char): (e: string)
    ensures |e| > 0
  {
    match c
    case '&' => "&amp;"
    case '<' => "&lt;"
    case '>' => "&gt;"
    case '"' => "&quot;"
    case '\'' => "&apos;"
    case _ => [c]
  }

  /** `svg_escape`: the five XML specials become entities, every other character is copied. */
  function SvgEscape(s: string): (e: string)
    ensures forall i :: 0 <= i < |e| ==> e[i] != '<' && e[i] != '>' && e[i] != '"' && e[i] != '\''
    ensures |e| >= |s|
    decreases |s|
  {
    if |s| == 0 then "" else EscapeChar(s[0]) + SvgEscape(s[1..])
  }

  /** Text without specials is copied unchanged. */
  lemma {:induction false} EscapeOrdinary(s: string)
    requires forall i :: 0 <= i < |s| ==> !Special(s[i])
    ensures SvgEscape(s) == s
    decreases |s|
  {
    if |s| > 0 {
      EscapeOrdinary(s[1..]);
    }
  }

  /** The XML reading of escaped text: each entity stands for its character. */
  function Unescape(e: string): string
    decreases |e|
  {
    if |e| == 0 then ""
    else if IsPrefix("&amp;", e) then "&" + Unescape(e[5..])
    else if IsPrefix("&lt;", e) then "<" + Unescape(e[4..])
    else if IsPrefix("&gt;", e) then ">" + Unescape(e[4..])
    else if IsPrefix("&quot;", e) then "\"" + Unescape(e[6..])
    else if IsPrefix("&apos;", e) then "'" + Unescape(e[6..])
    else [e[0]] + Unescape(e[1..])
  }

  lemma UnescapeChar(c: char, t: string)
    ensures Unescape(EscapeChar(c) + t) == [c] + Unescape(t)
  {
    var e := EscapeChar(c) + t;
    if c == '&' {
      assert e[..5] == "&amp;" && e[5..] == t;
    } else if c == '<' {
      assert e[..4] == "&lt;" && e[4..] == t;
      assert !IsPrefix("&amp;", e) by { assert |e| >= 5 ==> e[..5][1] == 'l'; }
    } else if c == '>' {
      assert e[..4] == "&gt;" && e[4..] == t;
      assert !IsPrefix("&amp;", e) by { assert |e| >= 5 ==> e[..5][1] == 'g'; }
      assert !IsPrefix("&lt;", e) by { assert e[..4][1] == 'g'; }
    } else if c == '"' {
      assert e[..6] == "&quot;" && e[6..] == t;
      assert !IsPrefix("&amp;", e) by { assert e[..5][1] == 'q'; }
      assert !IsPrefix("&lt;", e) by { assert e[..4][1] == 'q'; }
      assert !IsPrefix("&gt;", e) by { assert e[..4][1] == 'q'; }
    } else if c == '\'' {
      assert e[..6] == "&apos;" && e[6..] == t;
      assert !IsPrefix("&amp;", e) by { assert e[..5][3] == 'o'; }
      assert !IsPrefix("&lt;", e) by { assert e[..4][1] == 'a'; }
      assert !IsPrefix("&gt;", e) by { assert e[..4][1] == 'a'; }
      assert !IsPrefix("&quot;", e) by { assert e[..6][1] == 'a'; }
    } else {
      assert e[0] == c && e[1..] == t;
      assert !IsPrefix("&amp;", e) && !IsPrefix("&lt;", e) && !IsPrefix("&gt;", e) by {
        assert |e| >= 4 ==> e[..4][0] == c;
      }
      assert !IsPrefix("&quot;", e) && !IsPrefix("&apos;", e) by {
        assert |e| >= 6 ==> e[..6][0] == c;
      }
    }
  }

  /** Escaping loses nothing: reading the entities back gives the original text. */
  lemma {:induction false} UnescapeEscape(s: string)
    ensures Unescape(SvgEscape(s)) == s
    decreases |s|
  {
    if |s| > 0 {
      UnescapeChar(s[0], SvgEscape(s[1..]));
      UnescapeEscape(s[1..]);
      assert s == [s[0]] + s[1..];
    }
  }

  datatype Rgb = Rgb(r: int, g: int, b: int)

  /** C's conversion of a double to `int`: truncation toward zero. */
  function Trunc(x: real): int {
    if x >= 0.0 then x.Floor else -((-x).Floor)
  }

  function Clamp01(t: real): (u: real)
    ensures 0.0 <= u <= 1.0
    ensures 0.0 <= t <= 1.0 ==> u == t
  {
    if t < 0.0 then 0.0 else if t > 1.0 then 1.0 else t
  }

  /** One channel, from `c0` at 0 to `c1` at 1, where `c1 <= c0`. */
  function Channel(c0: nat, c1: nat, u: real): (v: int)
    requires c1 <= c0 && 0.0 <= u <= 1.0
    ensures c1 <= v <= c0
    ensures u == 0.0 ==> v == c0
    ensures u == 1.0 ==> v == c1
  {
    var d := (c1 as int - c0 as int) as real;
    var x := c0 as real + u * d;
    assert c1 as real <= x <= c0 as real by {
      assert d == c1 as real - c0 as real && d <= 0.0;
      MulRealMono(-d, u, 1.0);
      MulRealMono(-d, 0.0, u);
      assert (-d) * u == -(u * d) && (-d) * 1.0 == -d && (-d) * 0.0 == 0.0;
      assert d <= u * d <= 0.0;
    }
    Trunc(x)
  }

  /** `color_from_value`: t clamped to [0, 1], white-blue at 0 to dark blue at 1. */
  function ColorFromValue(t: real): (c: Rgb)
    ensures t <= 0.0 ==> c == Rgb(247, 251, 255)
    ensures t >= 1.0 ==> c == Rgb(8, 48, 107)
    ensures 8 <= c.r <= 247 && 48 <= c.g <= 251 && 107 <= c.b <= 255
  {
    var u := Clamp01(t);
    Rgb(Channel(247, 8, u), Channel(251, 48, u), Channel(255, 107, u))
  }

  lemma ChannelMono(c0: nat, c1: nat, u: real, w: real)
    requires c1 <= c0 && 0.0 <= u <= w <= 1.0
    ensures Channel(c0, c1, w) <= Channel(c0, c1, u)
  {
    var d := (c1 as int - c0 as int) as real;
    MulRealMono(-d, u, w);
    assert (-d) * u == -(u * d) && (-d) * w == -(w * d);
  }

  /** A larger value is never drawn lighter: every channel falls as t grows. */
  lemma ColorMonotone(t: real, t': real)
    requires t <= t'
    ensures ColorFromValue(t').r <= ColorFromValue(t).r
    ensures ColorFromValue(t').g <= ColorFromValue(t).g
    ensures ColorFromValue(t').b <= ColorFromValue(t).b
  {
    var u, w := Clamp01(t), Clamp01(t');
    ChannelMono(247, 8, u, w);
    ChannelMono(251, 48, u, w);
    ChannelMono(255, 107, u, w);
  }

  /** The side of one cell: smaller as the matrix grows. */
  function CellSize(n: nat): (cell: nat)
    ensures n <= 12 ==> cell == 40
    ensures 12 < n <= 20 ==> cell == 32
    ensures 20 < n <= 28 ==> cell == 26
    ensures n > 28 ==> cell == 22
  {
    var c0 := 40;
    var c1 := if n > 12 then 32 else c0;
    var c2 := if n > 20 then 26 else c1;
    if n > 28 then 22 else c2
  }

  lemma CellSizeShrinks(n: nat, n': nat)
    requires n <= n'
    ensures 22 <= CellSize(n') <= CellSize(n) <= 40
  {
  }

  /** The longest label, as the C loop finds it. */
  function MaxLen(labels: seq<string>): (k: nat)
    ensures forall i :: 0 <= i < |labels| ==> |labels[i]| <= k
    ensures |labels| == 0 ==> k == 0
    ensures |labels| > 0 ==> exists i :: 0 <= i < |labels| && |labels[i]| == k
  {
    if |labels| == 0 then 0
    else
      var k := MaxLen(labels[..|labels| - 1]);
      if |labels[|labels| - 1]| > k then |labels[|labels| - 1]| else k
  }

  /** The largest count of a row, 0 for an empty row. */
  function RowMax(v: seq<nat>): (k: nat)
    ensures forall j :: 0 <= j < |v| ==> v[j] <= k
    ensures k == 0 || exists j :: 0 <= j < |v| && v[j] == k
  {
    if |v| == 0 then 0
    else
      var k := RowMax(v[..|v| - 1]);
      if v[|v| - 1] > k then v[|v| - 1] else k
  }

  /** `max_val`: the largest count of the matrix, 0 when it is all zeros. */
  function MatrixMax(m: seq<seq<nat>>): (k: nat)
    ensures forall i, j :: 0 <= i < |m| && 0 <= j < |m[i]| ==> m[i][j] <= k
    ensures k == 0 || exists i, j :: 0 <= i < |m| && 0 <= j < |m[i]| && m[i][j] == k
  {
    if |m| == 0 then 0
    else
      var k := MatrixMax(m[..|m| - 1]);
      var last := RowMax(m[|m| - 1]);
      if last > k then last else k
  }

  /** The page geometry of `write_svg`. */
  datatype Layout = Layout(cell: nat, left: nat, bottom: nat, width: nat, height: nat, fontLabel: nat, fontValue: nat)

  function SvgLayout(labels: seq<string>): (l: Layout)
    ensures l.cell == CellSize(|labels|)
    ensures l.left >= 120 && l.bottom >= 100
    ensures l.width == l.left + |labels| * l.cell + 20
    ensures l.height == 70 + |labels| * l.cell + l.bottom
  {
    var n, longest := |labels|, MaxLen(labels);
    var cell := CellSize(n);
    var left := if 20 + longest * 7 < 120 then 120 else 20 + longest * 7;
    var bottom := if 60 + longest * 6 < 100 then 100 else 60 + longest * 6;
    Layout(cell, left, bottom, left + cell * n + 20, 70 + cell * n + bottom,
           if cell >= 32 then 12 else 10, if cell >= 32 then 12 else 9)
  }

  /** The margins leave 7 units per character of the longest label to the left and 6 below. */
  lemma LabelsFit(labels: seq<string>, i: nat)
    requires i < |labels|
    ensures SvgLayout(labels).left >= 20 + 7 * |labels[i]|
    ensures SvgLayout(labels).bottom >= 60 + 6 * |labels[i]|
  {
  }

  /** A cell's shade: its count over the largest count, or 0 when every count is 0. */
  function Shade(val: nat, maxVal: nat): real {
    if maxVal > 0 then val as real / maxVal as real else 0.0
  }

  predicate WhiteText(t: real) {
    t > 0.55
  }

  /**
   * Every cell's shade lies in [0, 1]; an empty cell is drawn in the lightest
   * colour with dark text, and a cell holding the largest non-zero count in
   * the darkest colour with white text.
   */
  lemma CellShades(m: seq<seq<nat>>, i: nat, j: nat)
    requires i < |m| && j < |m[i]|
    ensures 0.0 <= Shade(m[i][j], MatrixMax(m)) <= 1.0
    ensures m[i][j] == 0 ==> ColorFromValue(Shade(m[i][j], MatrixMax(m))) == Rgb(247, 251, 255)
    ensures m[i][j] == 0 ==> !WhiteText(Shade(m[i][j], MatrixMax(m)))
    ensures m[i][j] == MatrixMax(m) > 0 ==> ColorFromValue(Shade(m[i][j], MatrixMax(m))) == Rgb(8, 48, 107)
    ensures m[i][j] == MatrixMax(m) > 0 ==> WhiteText(Shade(m[i][j], MatrixMax(m)))
  {
    var k := MatrixMax(m);
    if k > 0 {
      DivBoundsNat(m[i][j], k);
    }
  }

  lemma DivBoundsNat(v: nat, k: nat)
    requires 0 < k && v <= k
    ensures 0.0 <= v as real / k as real <= 1.0
    ensures v == k ==> v as real / k as real == 1.0
  {
  }
}

=== FILE: plot_confusion_py.dfy ===
/**
 * scripts/plot_confusion.py: the Python reader of the `confusion,…` section
 * of results.csv. Rows come from Python's CSV reader, which is not part of
 * this model: the rows are taken as already split.
 *
 * Unlike the C reader, it never resets its rows: every non-header
 * `confusion` row is kept, whether before or after a header, and a later
 * header only replaces the labels.
 */
module PlotConfusionPy {
  import opened Wrappers
  import opened Text
  import Metrics
  import PlotConfusion

  /**
   * Python's `int(x)` on a decimal string: surrounding white space, an
   * optional sign, then digits with single underscores between them and
   * nothing else; anything else raises ValueError.
   */
  function ParseInt(x: string): (r: Option<int>)
    ensures r.Some? <==> Grouped(Unsigned(Trim(x)))
    ensures r.Some? && r.value < 0 ==> Trim(x)[0] == '-'
  {
    var t := Trim(x);
    var body := Unsigned(t);
    if !Grouped(body) then None
    else
      var d := Ungroup(body);
      var v: int := DigitsValue(d);
      Some(if |t| > 0 && t[0] == '-' then -v else v)
  }

  /** The text after an optional leading sign. */
  function Unsigned(t: string): (b: string)
    ensures |b| <= |t| && b == t[|t| - |b|..]
    ensures |b| < |t| <==> |t| > 0 && (t[0] == '-' || t[0] == '+')
  {
    if |t| > 0 && (t[0] == '-' || t[0] == '+') then t[1..] else t
  }

  /** Digits, with single underscores between them, as Python groups integer literals. */
  predicate Grouped(s: string) {
    |s| > 0 && IsDigit(s[0]) && IsDigit(s[|s| - 1])
    && (forall i :: 0 <= i < |s| ==> IsDigit(s[i]) || s[i] == '_')
    && (forall i :: 0 <= i < |s| - 1 ==> IsDigit(s[i]) || IsDigit(s[i + 1]))
  }

  /** The digits of a grouped numeral, its underscores dropped. */
  function Ungroup(s: string): (d: string)
    ensures |d| <= |s| && forall i :: 0 <= i < |d| ==> IsDigit(d[i])
    ensures (forall i :: 0 <= i < |s| ==> IsDigit(s[i])) ==> d == s
    ensures (forall i :: 0 <= i < |s| ==> s[i] == '_') ==> d == []
    decreases |s|
  {
    if |s| == 0 then []
    else
      var rest := Ungroup(s[1..]);
      assert forall i :: 0 <= i < |s| - 1 ==> s[1..][i] == s[i + 1];
      if IsDigit(s[0]) then [s[0]] + rest else rest
  }

  /** `int()` reads digits grouped by an underscore: `int("1_0")` is 10. */
  lemma UnderscoreGroup(a: char, b: char)
    requires IsDigit(a) && IsDigit(b)
    ensures ParseInt([a, '_', b]) == Some(10 * (a as int - '0' as int) + (b as int - '0' as int))
  {
    var t := [a, '_', b];
    assert TrimStart(t) == t && TrimEnd(t) == t;
    assert Unsigned(t) == t;
    assert Grouped(t);
    var d := [a, b];
    assert Ungroup(t) == d by {
      assert t[1..] == ['_', b] && t[1..][1..] == [b];
      assert Ungroup([b]) == [b];
      assert Ungroup(['_', b]) == [b];
    }
    assert d[..1] == [a] && [a][..0] == [];
    assert DigitsValue([a]) == a as int - '0' as int;
  }

  /** `int()` strips the ASCII separators 0x1C to 0x1F as white space. */
  lemma SeparatorSpace(c: char, d: char)
    requires '\U{1C}' <= c <= '\U{1F}' && IsDigit(d)
    ensures ParseInt([c, d]) == Some(d as int - '0' as int)
  {
    var t := [c, d];
    var u := [d];
    assert t[1..] == u;
    assert TrimStart(u) == u;
    assert TrimStart(t) == u;
    assert TrimEnd(u) == u;
    assert Unsigned(u) == u;
    assert Grouped(u) && Ungroup(u) == u;
    assert u[..0] == [];
    assert DigitsValue(u) == d as int - '0' as int;
  }

  /** A doubled or leading underscore raises ValueError. */
  lemma MisplacedUnderscore()
    ensures ParseInt("1__0").None? && ParseInt("_1").None?
  {
    assert Trim("1__0") == "1__0" by {
      assert TrimStart("1__0") == "1__0";
    }
    assert !Grouped("1__0") by {
      assert "1__0"[1] == '_' && "1__0"[2] == '_';
    }
    assert Trim("_1") == "_1" by {
      assert TrimStart("_1") == "_1";
    }
    assert Unsigned("_1") == "_1";
  }

  function TrimStart(s: string): (t: string)
    ensures |t| <= |s| && (|t| > 0 ==> !PyIsSpace(t[0]))
    ensures |s| > 0 && !PyIsSpace(s[0]) ==> t == s
    decreases |s|
  {
    if |s| > 0 && PyIsSpace(s[0]) then TrimStart(s[1..]) else s
  }

  function TrimEnd(s: string): (t: string)
    ensures |t| <= |s| && t == s[..|t|] && (|t| > 0 ==> !PyIsSpace(t[|t| - 1]))
    ensures |s| > 0 && !PyIsSpace(s[|s| - 1]) ==> t == s
    decreases |s|
  {
    if |s| > 0 && PyIsSpace(s[|s| - 1]) then TrimEnd(s[..|s| - 1]) else s
  }

  /** `str.strip()`, with Python's white space. */
  function Trim(s: string): (t: string)
    ensures |t| <= |s| && (|t| > 0 ==> !PyIsSpace(t[0]) && !PyIsSpace(t[|t| - 1]))
  {
    TrimEnd(TrimStart(s))
  }

  lemma TrimDecimal(n: nat)
    ensures Trim(NatToString(n)) == NatToString(n)
  {
    var d := NatToString(n);
    assert IsDigit(d[0]) && IsDigit(d[|d| - 1]);
    assert TrimStart(d) == d;
  }

  /** `int` reads back what `str` prints. */
  lemma ParseIntOfDecimal(n: nat)
    ensures ParseInt(NatToString(n)) == Some(n)
  {
    var d := NatToString(n);
    TrimDecimal(n);
    DigitRunAll(d);
    DigitsValueOfNatToString(n);
    assert IsDigit(d[0]);
    assert d[0] != '-' && d[0] != '+';
  }

  /** `[int(x) for x in fields]`: the values, or the first ValueError. */
  function ParseInts(fields: seq<string>): (r: Option<seq<int>>)
    ensures r.Some? <==> forall i :: 0 <= i < |fields| ==> ParseInt(fields[i]).Some?
    ensures r.Some? ==> |r.value| == |fields| && forall i :: 0 <= i < |fields| ==> r.value[i] == ParseInt(fields[i]).value
  {
    if forall i :: 0 <= i < |fields| ==> ParseInt(fields[i]).Some? then
      Some(seq(|fields|, i requires 0 <= i < |fields| => ParseInt(fields[i]).value))
    else None
  }

  /** The reader's variables: the labels of the last header, and every data row so far. */
  datatype State = State(labels: seq<string>, rows: seq<seq<int>>)

  /** One row: an IndexError on a lone `confusion`, a ValueError on a bad count, or the new state. */
  function Step(st: State, row: seq<string>): (r: Result<State>)
    ensures r.Ok? && |row| > 0 && row[0] == "confusion" && |row| >= 2 && row[1] == "actual/pred" ==>
      r.value == State(row[2..], st.rows)
  {
    if |row| == 0 || row[0] != "confusion" then Ok(st)
    else if |row| < 2 then Err("list index out of range")
    else if row[1] == "actual/pred" then Ok(st.(labels := row[2..]))
    else match ParseInts(row[2..])
      case None => Err("invalid literal for int()")
      case Some(vs) => Ok(st.(rows := st.rows + [vs]))
  }

  function Run(st: State, rows: seq<seq<string>>): (r: Result<State>)
    decreases |rows|
  {
    if |rows| == 0 then Ok(st)
    else match Step(st, rows[0])
      case Err(e) => Err(e)
      case Ok(next) => Run(next, rows[1..])
  }

  const NotFound := "No confusion matrix found in results.csv"
  const Ragged := "setting an array element with a sequence: inhomogeneous shape"
  const TooLarge := "Python int too large to convert to C long"

  /** numpy's default integer, a 64-bit C long. */
  const Int64Min: int := -0x8000_0000_0000_0000
  const Int64Max: int := 0x7FFF_FFFF_FFFF_FFFF

  /** All rows have one length, so that they form a two-dimensional array. */
  predicate Rectangular(m: seq<seq<int>>) {
    forall i, j :: 0 <= i < |m| && 0 <= j < |m| ==> |m[i]| == |m[j]|
  }

  predicate FitsInt64(m: seq<seq<int>>) {
    forall i, j :: 0 <= i < |m| && 0 <= j < |m[i]| ==> Int64Min <= m[i][j] <= Int64Max
  }

  /**
   * `np.array(rows, dtype=int)`: ragged rows raise ValueError, and a count
   * beyond 64 bits raises OverflowError; otherwise the array holds the rows.
   */
  function ToArray(m: seq<seq<int>>): (r: Result<seq<seq<int>>>)
    ensures r.Ok? <==> Rectangular(m) && FitsInt64(m)
    ensures r.Ok? ==> r.value == m
    ensures !Rectangular(m) ==> r == Err(Ragged)
  {
    if !Rectangular(m) then Err(Ragged)
    else if !FitsInt64(m) then Err(TooLarge)
    else Ok(m)
  }

  /**
   * `read_confusion`: the labels and the matrix, or an error when either is
   * empty or the rows do not form an integer array.
   */
  function ReadConfusion(rows: seq<seq<string>>): (r: Result<(seq<string>, seq<seq<int>>)>)
    ensures r.Ok? ==> |r.value.0| > 0 && |r.value.1| > 0 && Rectangular(r.value.1) && FitsInt64(r.value.1)
  {
    match Run(State([], []), rows)
    case Err(e) => Err(e)
    case Ok(st) =>
      if |st.labels| == 0 || |st.rows| == 0 then Err(NotFound)
      else match ToArray(st.rows)
        case Err(e) => Err(e)
        case Ok(m) => Ok((st.labels, m))
  }

  /**
   * Over a file that raises nothing row by row, the read succeeds iff there
   * is a header with labels and the data rows form a non-empty 64-bit
   * array; it then gives the last header's labels and every data row.
   * Ragged data rows raise ValueError.
   */
  lemma ReadQuiet(rows: seq<seq<string>>)
    requires Quiet(rows)
    ensures var labels, data := LastLabels(rows, []), DataOf(rows);
      && (ReadConfusion(rows).Ok? <==> |labels| > 0 && |data| > 0 && Rectangular(data) && FitsInt64(data))
      && (ReadConfusion(rows).Ok? ==> ReadConfusion(rows).value == (labels, data))
      && (|labels| > 0 && !Rectangular(data) ==> ReadConfusion(rows) == Err(Ragged))
  {
    RunKeepsAll(State([], []), rows);
    assert [] + DataOf(rows) == DataOf(rows);
  }

  /** A `confusion` row other than a header, whose counts all parse. */
  predicate IsData(row: seq<string>) {
    |row| >= 2 && row[0] == "confusion" && row[1] != "actual/pred" && ParseInts(row[2..]).Some?
  }

  predicate IsHeader(row: seq<string>) {
    |row| >= 2 && row[0] == "confusion" && row[1] == "actual/pred"
  }

  /** Neither a `confusion` row nor empty-handed: skipped without effect. */
  predicate IsOther(row: seq<string>) {
    |row| == 0 || row[0] != "confusion"
  }

  /** Rows over which the reader raises nothing. */
  predicate Quiet(rows: seq<seq<string>>) {
    forall i :: 0 <= i < |rows| ==> IsData(rows[i]) || IsHeader(rows[i]) || IsOther(rows[i])
  }

  /** The data rows' counts, in file order. */
  function DataOf(rows: seq<seq<string>>): (d: seq<seq<int>>)
    requires Quiet(rows)
    ensures |d| <= |rows|
    decreases |rows|
  {
    if |rows| == 0 then []
    else (if IsData(rows[0]) then [ParseInts(rows[0][2..]).value] else []) + DataOf(rows[1..])
  }

  /** The labels of the last header, or those given when there is none. */
  function LastLabels(rows: seq<seq<string>>, labels: seq<string>): seq<string>
    decreases |rows|
  {
    if |rows| == 0 then labels
    else LastLabels(rows[1..], if IsHeader(rows[0]) then rows[0][2..] else labels)
  }

  /**
   * Over rows that raise nothing, the reader keeps every data row, those
   * before a header included, and the labels of the last header.
   */
  lemma {:induction false} RunKeepsAll(st: State, rows: seq<seq<string>>)
    requires Quiet(rows)
    ensures Run(st, rows) == Ok(State(LastLabels(rows, st.labels), st.rows + DataOf(rows)))
    decreases |rows|
  {
    if |rows| == 0 {
      assert st.rows + [] == st.rows;
    } else {
      var next := Absorb(st, rows[0]);
      StepQuiet(st, rows[0]);
      QuietTail(rows);
      RunKeepsAll(next, rows[1..]);
      AbsorbFirst(st, rows);
    }
  }

  /** The state after a row that raises nothing. */
  function Absorb(st: State, row: seq<string>): State
    requires IsData(row) || IsHeader(row) || IsOther(row)
  {
    if IsHeader(row) then st.(labels := row[2..])
    else if IsData(row) then st.(rows := st.rows + [ParseInts(row[2..]).value])
    else st
  }

  lemma StepQuiet(st: State, row: seq<string>)
    requires IsData(row) || IsHeader(row) || IsOther(row)
    ensures Step(st, row) == Ok(Absorb(st, row))
  {
  }

  lemma AbsorbFirst(st: State, rows: seq<seq<string>>)
    requires Quiet(rows) && |rows| > 0
    ensures Absorb(st, rows[0]).rows + DataOf(rows[1..]) == st.rows + DataOf(rows)
    ensures LastLabels(rows[1..], Absorb(st, rows[0]).labels) == LastLabels(rows, st.labels)
  {
    QuietTail(rows);
    AbsorbData(st, rows[0], rows[1..], rows);
  }

  lemma AbsorbData(st: State, row: seq<string>, rest: seq<seq<string>>, rows: seq<seq<string>>)
    requires rows == [row] + rest && Quiet(rows) && Quiet(rest)
    requires IsData(row) || IsHeader(row) || IsOther(row)
    ensures Absorb(st, row).rows + DataOf(rest) == st.rows + DataOf(rows)
  {
    assert rows[0] == row && rows[1..] == rest;
    var d := DataOf(rest);
    if IsData(row) {
      var v := ParseInts(row[2..]).value;
      assert DataOf(rows) == [v] + d;
      assert (st.rows + [v]) + d == st.rows + ([v] + d);
    } else {
      assert DataOf(rows) == [] + d;
    }
  }

  lemma QuietTail(rows: seq<seq<string>>)
    requires Quiet(rows) && |rows| > 0
    ensures Quiet(rows[1..])
  {
    assert forall i :: 0 <= i < |rows| - 1 ==> rows[1..][i] == rows[i + 1];
  }

  lemma QuietAppend(a: seq<seq<string>>, b: seq<seq<string>>)
    requires Quiet(a) && Quiet(b)
    ensures Quiet(a + b)
  {
    forall i | 0 <= i < |a + b|
      ensures IsData((a + b)[i]) || IsHeader((a + b)[i]) || IsOther((a + b)[i])
    {
      if i < |a| {
        assert (a + b)[i] == a[i];
      } else {
        assert (a + b)[i] == b[i - |a|];
      }
    }
  }

  lemma {:induction false} RunAppendOk(st: State, a: seq<seq<string>>, b: seq<seq<string>>)
    requires Quiet(a)
    ensures Run(st, a).Ok? && Run(st, a + b) == Run(Run(st, a).value, b)
    decreases |a|
  {
    RunKeepsAll(st, a);
    if |a| == 0 {
      assert a + b == b;
    } else {
      assert (a + b)[0] == a[0] && (a + b)[1..] == a[1..] + b;
      assert Step(st, a[0]).Ok?;
      var next := Step(st, a[0]).value;
      QuietTail(a);
      RunAppendOk(next, a[1..], b);
    }
  }

  /** A `confusion` row with a single field raises, as `row[1]` does not exist. */
  lemma LoneConfusionRaises(before: seq<seq<string>>, after: seq<seq<string>>)
    requires Quiet(before)
    ensures ReadConfusion(before + [["confusion"]] + after) == Err("list index out of range")
  {
    var rest := [["confusion"]] + after;
    RunAppendOk(State([], []), before, rest);
    assert before + [["confusion"]] + after == before + rest;
    var st := Run(State([], []), before).value;
    assert rest[0] == ["confusion"];
    assert Step(st, rest[0]) == Err("list index out of range");
    assert Run(st, rest) == Err("list index out of range");
    assert Run(State([], []), before + rest) == Err("list index out of range");
    assert ReadConfusion(before + rest) == Err("list index out of range");
  }

  /** Without a header, or without a data row, there is no matrix. */
  lemma NothingFound(rows: seq<seq<string>>)
    requires Quiet(rows)
    requires (forall i :: 0 <= i < |rows| ==> !IsHeader(rows[i])) || (forall i :: 0 <= i < |rows| ==> !IsData(rows[i]))
    ensures ReadConfusion(rows) == Err(NotFound)
  {
    RunKeepsAll(State([], []), rows);
    if forall i :: 0 <= i < |rows| ==> !IsHeader(rows[i]) {
      NoHeaderKeeps(rows, []);
    } else {
      NoDataEmpty(rows);
    }
  }

  lemma {:induction false} NoDataEmpty(rows: seq<seq<string>>)
    requires Quiet(rows) && forall i :: 0 <= i < |rows| ==> !IsData(rows[i])
    ensures DataOf(rows) == []
    decreases |rows|
  {
    if |rows| > 0 {
      QuietTail(rows);
      NoDataEmpty(rows[1..]);
    }
  }

  /** The counts of a written confusion row, as Python reads them. */
  lemma ParseWrittenCounts(v: seq<nat>)
    ensures ParseInts(Metrics.Decimals(v)) == Some(v)
  {
    var d := Metrics.Decimals(v);
    forall i | 0 <= i < |v|
      ensures ParseInt(d[i]) == Some(v[i])
    {
      ParseIntOfDecimal(v[i]);
    }
    var p := ParseInts(d);
    assert p.Some?;
    assert |p.value| == |v| && forall i :: 0 <= i < |v| ==> p.value[i] == v[i];
    assert p.value == v;
  }

  /**
   * A file of skipped rows, one header, then data rows only reads as the
   * header's labels and the data rows' counts.
   */
  lemma ReadSections(before: seq<seq<string>>, header: seq<string>, after: seq<seq<string>>, m: seq<seq<int>>)
    requires forall i :: 0 <= i < |before| ==> IsOther(before[i])
    requires IsHeader(header) && |header| > 2 && |m| > 0
    requires |after| == |m|
    requires forall i :: 0 <= i < |after| ==> IsData(after[i]) && ParseInts(after[i][2..]) == Some(m[i])
    requires Rectangular(m) && FitsInt64(m)
    ensures ReadConfusion(before + [header] + after) == Ok((header[2..], m))
  {
    var rest := [header] + after;
    assert Quiet(before);
    assert Quiet(after);
    assert Quiet([header]);
    QuietAppend([header], after);
    RunAppendOk(State([], []), before, rest);
    assert before + [header] + after == before + rest;
    RunKeepsAll(State([], []), before);
    DataOfOthers(before);
    NoHeaderKeeps(before, []);
    var st := Run(State([], []), before).value;
    assert st == State([], []);
    assert rest[0] == header && rest[1..] == after;
    assert Step(st, header) == Ok(State(header[2..], []));
    assert Run(st, rest) == Run(State(header[2..], []), after);
    RunKeepsAll(State(header[2..], []), after);
    NoHeaderKeeps(after, header[2..]);
    DataOfAll(after, m);
    assert [] + m == m;
    assert Run(st, rest) == Ok(State(header[2..], m));
  }

  /**
   * Reading back the metric and confusion rows evaluate writes gives its
   * labels and its matrix row by row.
   */
  lemma ReadWrittenReport(r: Metrics.Report, render: real -> string)
    requires Metrics.WellShaped(r) && |r.labels| > 0
    requires forall i :: 0 <= i < |r.labels| ==> r.labels[i] != "actual/pred"
    requires forall i, j :: 0 <= i < |r.labels| && 0 <= j < |r.labels| ==> r.confusion[i][j] < PlotConfusion.UIntMod
    ensures ReadConfusion(Metrics.ReportRows(r, render)) == Ok((r.labels, r.confusion))
  {
    var metrics, header, after := ReportParts(r, render);
    CountsArray(r);
    ReadSections(metrics, header, after, r.confusion);
  }

  /** The written report: skipped metric rows, the header, then one data row per matrix row. */
  lemma ReportParts(r: Metrics.Report, render: real -> string) returns (metrics: seq<seq<string>>, header: seq<string>, after: seq<seq<string>>)
    requires Metrics.WellShaped(r) && |r.labels| > 0
    requires forall i :: 0 <= i < |r.labels| ==> r.labels[i] != "actual/pred"
    ensures Metrics.ReportRows(r, render) == metrics + [header] + after
    ensures forall i :: 0 <= i < |metrics| ==> IsOther(metrics[i])
    ensures IsHeader(header) && |header| > 2 && header[2..] == r.labels
    ensures |after| == |r.confusion|
    ensures forall i :: 0 <= i < |after| ==> IsData(after[i]) && ParseInts(after[i][2..]) == Some(r.confusion[i])
  {
    var n := |r.labels|;
    header := ["confusion", "actual/pred"] + r.labels;
    var first := [["metric", "accuracy", render(r.accuracy)],
                  ["metric", "precision_macro", render(r.precisionMacro)],
                  ["metric", "recall_macro", render(r.recallMacro)]];
    var rest := Metrics.ClassMetricRows(r, render, n);
    metrics := first + rest;
    after := Metrics.ConfusionRows(r.labels, r.confusion, n);
    assert Metrics.ReportRows(r, render) == metrics + [header] + after;
    MetricRowsOther(r, render, first, rest);
    ConfusionRowsData(r);
  }

  /** The unsigned counts of a square matrix form a 64-bit integer array. */
  lemma CountsArray(r: Metrics.Report)
    requires Metrics.WellShaped(r)
    requires forall i, j :: 0 <= i < |r.labels| && 0 <= j < |r.labels| ==> r.confusion[i][j] < PlotConfusion.UIntMod
    ensures Rectangular(r.confusion) && FitsInt64(r.confusion)
  {
  }

  lemma MetricRowsOther(r: Metrics.Report, render: real -> string, first: seq<seq<string>>, rest: seq<seq<string>>)
    requires Metrics.WellShaped(r)
    requires first == [["metric", "accuracy", render(r.accuracy)],
                       ["metric", "precision_macro", render(r.precisionMacro)],
                       ["metric", "recall_macro", render(r.recallMacro)]]
    requires rest == Metrics.ClassMetricRows(r, render, |r.labels|)
    ensures forall i :: 0 <= i < |first + rest| ==> IsOther((first + rest)[i])
  {
    ClassRowsMetric(r, render, |r.labels|);
    forall i | 0 <= i < |first + rest|
      ensures IsOther((first + rest)[i])
    {
      if i < 3 {
        assert (first + rest)[i] == first[i];
      } else {
        assert (first + rest)[i] == rest[i - 3];
      }
    }
  }

  lemma {:induction false} ClassRowsMetric(r: Metrics.Report, render: real -> string, k: nat)
    requires Metrics.WellShaped(r) && k <= |r.labels|
    ensures forall i :: 0 <= i < 2 * k ==> IsOther(Metrics.ClassMetricRows(r, render, k)[i])
  {
    if k > 0 {
      ClassRowsMetric(r, render, k - 1);
      var prev := Metrics.ClassMetricRows(r, render, k - 1);
      var two := [["metric", "precision_" + r.labels[k - 1], render(r.precision[k - 1])],
                  ["metric", "recall_" + r.labels[k - 1], render(r.recall[k - 1])]];
      assert Metrics.ClassMetricRows(r, render, k) == prev + two;
      forall i | 0 <= i < 2 * k
        ensures IsOther((prev + two)[i])
      {
        if i < 2 * k - 2 {
          assert (prev + two)[i] == prev[i];
        } else {
          assert (prev + two)[i] == two[i - (2 * k - 2)];
        }
      }
    }
  }

  lemma ConfusionRowsData(r: Metrics.Report)
    requires Metrics.WellShaped(r)
    requires forall i :: 0 <= i < |r.labels| ==> r.labels[i] != "actual/pred"
    ensures var after := Metrics.ConfusionRows(r.labels, r.confusion, |r.labels|);
      forall i :: 0 <= i < |after| ==> IsData(after[i]) && ParseInts(after[i][2..]) == Some(r.confusion[i])
  {
    var after := Metrics.ConfusionRows(r.labels, r.confusion, |r.labels|);
    forall i | 0 <= i < |after|
      ensures IsData(after[i]) && ParseInts(after[i][2..]) == Some(r.confusion[i])
    {
      assert after[i][2..] == Metrics.Decimals(r.confusion[i]);
      ParseWrittenCounts(r.confusion[i]);
    }
  }

  lemma {:induction false} NoHeaderKeeps(rows: seq<seq<string>>, labels: seq<string>)
    requires forall i :: 0 <= i < |rows| ==> !IsHeader(rows[i])
    ensures LastLabels(rows, labels) == labels
    decreases |rows|
  {
    if |rows| > 0 {
      NoHeaderKeeps(rows[1..], labels);
    }
  }

  lemma {:induction false} DataOfOthers(rows: seq<seq<string>>)
    requires forall i :: 0 <= i < |rows| ==> IsOther(rows[i])
    ensures DataOf(rows) == []
    decreases |rows|
  {
    if |rows| > 0 {
      DataOfOthers(rows[1..]);
    }
  }

  lemma {:induction false} DataOfAll(rows: seq<seq<string>>, m: seq<seq<int>>)
    requires |rows| == |m|
    requires forall i :: 0 <= i < |rows| ==> IsData(rows[i]) && ParseInts(rows[i][2..]) == Some(m[i])
    ensures DataOf(rows) == m
    decreases |rows|
  {
    if |rows| > 0 {
      DataOfAll(rows[1..], m[1..]);
      assert m == [m[0]] + m[1..];
    }
  }
}

=== FILE: preprocess.dfy ===
/**
 * The preprocessor: from a mono recording to a `.frames` file. The recording is
 * resampled to 16 kHz when needed, peak-normalised, cut into overlapping
 * frames, optionally filtered against a silence threshold derived from the
 * 90th-percentile frame RMS, and written frame by frame. The class and the id
 * of the recording come from its path.
 *
 * Decoding the WAV file and mixing its channels down to mono happen before this
 * model starts: the mono samples are its input.
 */
module Preprocess {
  import opened Wrappers
  import opened Numerics
  import opened Text
  import FrameIo
  import Features

  // ---------------------------------------------------------------------------
  // File names

  /** `has_wav_extension`: the text from the last dot is ".wav", in any case. */
  function HasWavExtension(name: string): (b: bool)
    ensures '.' !in name ==> !b
  {
    match LastIndexOf(name, '.')
    case None => false
    case Some(d) => EqualsIgnoreCase(name[d..], ".wav")
  }

  /** The name's last four characters are ".wav" up to case. */
  predicate EndsWithWav(name: string) {
    |name| >= 4 && EqualsIgnoreCase(name[|name| - 4..], ".wav")
  }

  lemma LowerIsDot(c: char)
    ensures ToLower(c) == '.' <==> c == '.'
  {
  }

  /** The extension test is exactly a case-insensitive ".wav" suffix. */
  lemma HasWavExtensionIff(name: string)
    ensures HasWavExtension(name) <==> EndsWithWav(name)
  {
    if EndsWithWav(name) {
      var n := |name|;
      var tail := name[n - 4..];
      assert ToLower(tail[0]) == '.' && tail[0] == name[n - 4];
      LowerIsDot(name[n - 4]);
      forall k | n - 3 <= k < n
        ensures name[k] != '.'
      {
        assert name[k] == tail[k - (n - 4)];
        assert ToLower(name[k]) != '.';
      }
      var d := LastIndexOf(name, '.').value;
      assert d == n - 4;
    }
  }

  /** No directory separator. */
  predicate Slashless(s: string) {
    '/' !in s
  }

  datatype ClassId = ClassId(className: string, id: string)

  /** The path relative to `root`: a textual prefix and one `/` after it are dropped. */
  function Relative(root: string, path: string): (rel: string)
    ensures |rel| <= |path|
  {
    if IsPrefix(root, path) then
      var rest := path[|root|..];
      if |rest| > 0 && rest[0] == '/' then rest[1..] else rest
    else path
  }

  /** The relative path is a suffix of the path. */
  lemma RelativeIsSuffix(root: string, path: string)
    ensures Relative(root, path) == path[|path| - |Relative(root, path)|..]
  {
  }

  /** The text after the path's last `/`, or the whole path. */
  function BaseName(path: string): (file: string)
    ensures Slashless(file) && |file| <= |path|
  {
    match LastIndexOf(path, '/')
    case None => path
    case Some(k) => path[k + 1..]
  }

  /** The base name is a suffix of the path. */
  lemma BaseNameIsSuffix(path: string)
    ensures BaseName(path) == path[|path| - |BaseName(path)|..]
  {
  }

  /**
   * `extract_class_id` with buffers of `classCap` and `idCap` bytes: the class
   * is the relative path up to its first `/`, the id is the base name without
   * its 4-character extension. Fails without a `/`, for a name that is not a
   * .wav file, or when either part would not fit with its terminating NUL.
   */
  function ExtractClassId(root: string, path: string, classCap: nat, idCap: nat): (r: Result<ClassId>)
    ensures r.Ok? ==> |r.value.className| < classCap && |r.value.id| < idCap
  {
    SplitNames(Relative(root, path), BaseName(path), classCap, idCap)
  }

  /** What `extract_class_id` demands of the relative path and the base name. */
  function SplitNames(rel: string, file: string, classCap: nat, idCap: nat): (r: Result<ClassId>)
    ensures r.Ok? ==> |r.value.className| < classCap && |r.value.id| < idCap
  {
    match FirstIndexOf(rel, '/')
    case None => Err("no class directory")
    case Some(slash) =>
      if slash >= classCap then Err("class name too long")
      else if !HasWavExtension(file) then Err("not a .wav file")
      else
        HasWavExtensionIff(file);
        var baseLen := |file| - 4;
        if baseLen >= idCap then Err("id too long")
        else Ok(ClassId(rel[..slash], file[..baseLen]))
  }

  /** When the names are extracted, and what they are. */
  lemma ExtractClassIdSpec(root: string, path: string, classCap: nat, idCap: nat)
    ensures ExtractClassId(root, path, classCap, idCap).Ok? <==>
      (var rel := Relative(root, path);
       '/' in rel && FirstIndexOf(rel, '/').value < classCap
       && HasWavExtension(BaseName(path)) && |BaseName(path)| - 4 < idCap)
    ensures ExtractClassId(root, path, classCap, idCap).Ok? ==>
      (var names := ExtractClassId(root, path, classCap, idCap).value;
       var rel := Relative(root, path);
       var file := BaseName(path);
       && Slashless(names.className)
       && rel[..|names.className| + 1] == names.className + "/"
       && EndsWithWav(file) && file == names.id + file[|names.id|..] && |file| == |names.id| + 4)
  {
    SplitNamesSpec(Relative(root, path), BaseName(path), classCap, idCap);
  }

  lemma SplitNamesSpec(rel: string, file: string, classCap: nat, idCap: nat)
    ensures SplitNames(rel, file, classCap, idCap).Ok? <==>
      ('/' in rel && FirstIndexOf(rel, '/').value < classCap
       && HasWavExtension(file) && |file| - 4 < idCap)
    ensures SplitNames(rel, file, classCap, idCap).Ok? ==>
      (var names := SplitNames(rel, file, classCap, idCap).value;
       && Slashless(names.className)
       && rel[..|names.className| + 1] == names.className + "/"
       && EndsWithWav(file) && file == names.id + file[|names.id|..] && |file| == |names.id| + 4)
  {
    HasWavExtensionIff(file);
    if SplitNames(rel, file, classCap, idCap).Ok? {
      var slash := FirstIndexOf(rel, '/').value;
      PrefixThroughSlash(rel, slash);
      PrefixAndRest(file, |file| - 4);
    }
  }

  lemma PrefixThroughSlash(s: string, k: nat)
    requires k < |s| && s[k] == '/' && '/' !in s[..k]
    ensures Slashless(s[..k]) && s[..k + 1] == s[..k] + "/"
  {
  }

  lemma PrefixAndRest(s: string, k: nat)
    requires k <= |s|
    ensures s == s[..k] + s[k..] && |s[..k]| == k
  {
  }

  lemma RelativeOfLayout(root: string, rest: string)
    ensures Relative(root, root + "/" + rest) == rest
  {
    var path := root + "/" + rest;
    assert path[..|root|] == root;
    assert path[|root|..] == "/" + rest;
    assert ("/" + rest)[1..] == rest;
  }

  lemma FirstSlashOfLayout(className: string, file: string)
    requires Slashless(className)
    ensures FirstIndexOf(className + "/" + file, '/') == Some(|className|)
  {
    var rest := className + "/" + file;
    assert rest[|className|] == '/';
  }

  lemma BaseNameOfLayout(dir: string, file: string)
    requires Slashless(file)
    ensures BaseName(dir + "/" + file) == file
  {
    var path := dir + "/" + file;
    var k := |dir|;
    assert path[k] == '/';
    var last := LastIndexOf(path, '/').value;
    assert last == k;
    assert path[k + 1..] == file;
  }

  /** The path of a recording laid out as `<root>/<class>/<id>.wav`. */
  function WavPath(root: string, className: string, id: string): string {
    root + "/" + className + "/" + id + ".wav"
  }

  lemma WavPathParts(root: string, className: string, id: string)
    ensures WavPath(root, className, id) == root + "/" + (className + "/" + (id + ".wav"))
    ensures WavPath(root, className, id) == (root + "/" + className) + "/" + (id + ".wav")
  {
  }

  /** The layout the dataset uses: root/class/id.wav gives back the class and the id. */
  lemma ExtractClassIdOfLayout(root: string, className: string, id: string, classCap: nat, idCap: nat)
    requires Slashless(className) && Slashless(id)
    requires |className| < classCap && |id| < idCap
    ensures ExtractClassId(root, WavPath(root, className, id), classCap, idCap) == Ok(ClassId(className, id))
  {
    var path := WavPath(root, className, id);
    assert Relative(root, path) == className + "/" + (id + ".wav") by {
      WavPathParts(root, className, id);
      RelativeOfLayout(root, className + "/" + (id + ".wav"));
    }
    assert BaseName(path) == id + ".wav" by {
      WavPathParts(root, className, id);
      BaseNameOfLayout(root + "/" + className, id + ".wav");
    }
    SplitNamesOfLayout(className, id + ".wav", |id|, classCap, idCap);
  }

  lemma SplitNamesOfLayout(className: string, file: string, idLen: nat, classCap: nat, idCap: nat)
    requires Slashless(className) && |className| < classCap && idLen < idCap
    requires |file| == idLen + 4 && file[idLen..] == ".wav"
    ensures SplitNames(className + "/" + file, file, classCap, idCap) == Ok(ClassId(className, file[..idLen]))
  {
    var rest := className + "/" + file;
    FirstSlashOfLayout(className, file);
    assert rest[..|className|] == className;
    assert HasWavExtension(file) by {
      assert file[|file| - 4..] == ".wav";
      HasWavExtensionIff(file);
    }
  }

  // ---------------------------------------------------------------------------
  // Sample ordering and RMS

  /** `compare_floats`: the sign of a - b as -1, 0 or 1. */
  function CompareFloats(a: real, b: real): (r: int)
    ensures -1 <= r <= 1
    ensures r < 0 <==> a - b < 0.0
    ensures r > 0 <==> a - b > 0.0
  {
    (if a > b then 1 else 0) - (if a < b then 1 else 0)
  }

  /** `compute_rms` of preprocess.c: fails on an empty frame, else the root mean square. */
  function FrameRms(m: Math, x: seq<real>): (r: Option<real>)
    requires Valid(m)
    ensures r.None? <==> |x| == 0
    ensures r.Some? ==> r.value >= 0.0
  {
    if |x| == 0 then None else Some(m.sqrt(SumSq(x) / |x| as real))
  }

  /** On a frame it accepts, it agrees with the feature extractor's RMS. */
  lemma FrameRmsAgrees(m: Math, x: seq<real>)
    requires Valid(m) && |x| > 0
    ensures FrameRms(m, x) == Some(Features.Rms(m, x))
  {
  }

  /** Ascending order under `compare_floats`. */
  predicate Sorted(s: seq<real>) {
    forall i, j :: 0 <= i < j < |s| ==> s[i] <= s[j]
  }

  function Insert(x: real, s: seq<real>): (r: seq<real>)
    requires Sorted(s)
    ensures |r| == |s| + 1
    ensures r[0] == x || (|s| > 0 && r[0] == s[0])
    ensures Sorted(r) && multiset(r) == multiset(s) + multiset{x}
  {
    if s == [] then [x]
    else if x <= s[0] then
      SortedCons(x, s);
      [x] + s
    else
      SortedTail(s);
      var t := Insert(x, s[1..]);
      assert s[0] <= t[0] by {
        if t[0] != x { assert s[1..][0] == s[1]; }
      }
      SortedCons(s[0], t);
      assert s == [s[0]] + s[1..];
      [s[0]] + t
  }

  lemma SortedTail(s: seq<real>)
    requires Sorted(s) && |s| > 0
    ensures Sorted(s[1..])
  {
  }

  lemma SortedCons(h: real, t: seq<real>)
    requires Sorted(t) && (|t| > 0 ==> h <= t[0])
    ensures Sorted([h] + t)
  {
    var r := [h] + t;
    forall i, j | 0 <= i < j < |r|
      ensures r[i] <= r[j]
    {
      if i == 0 {
        assert r[j] == t[j - 1];
      } else {
        assert r[i] == t[i - 1] && r[j] == t[j - 1];
      }
    }
  }

  /** The arrangement `qsort` with `compare_floats` leaves: ascending, same values. */
  function Sort(s: seq<real>): (r: seq<real>)
    ensures |r| == |s|
    ensures Sorted(r) && multiset(r) == multiset(s)
  {
    if s == [] then []
    else
      assert s == s[..|s| - 1] + [s[|s| - 1]];
      Insert(s[|s| - 1], Sort(s[..|s| - 1]))
  }

  /** Every entry of the sorted arrangement is an entry of the input. */
  lemma SortedMember(s: seq<real>, k: nat) returns (i: nat)
    requires k < |s|
    ensures i < |s| && s[i] == Sort(s)[k]
  {
    var p := Sort(s)[k];
    assert p in multiset(Sort(s));
    assert p in s;
    i :| i < |s| && s[i] == p;
  }

  // ---------------------------------------------------------------------------
  // Resampling to the target rate by linear interpolation

  function RateRatio(originalRate: int, targetRate: int): (r: real)
    requires originalRate > 0 && targetRate > 0
    ensures r > 0.0
  {
    targetRate as real / originalRate as real
  }

  /** `(size_t)(len * ratio)`: the output length, truncated. */
  function ResampledLength(len: nat, ratio: real): nat
    requires ratio > 0.0
  {
    NonNegProduct(len as real, ratio);
    (len as real * ratio).Floor
  }

  lemma NonNegProduct(a: real, b: real)
    requires a >= 0.0 && b >= 0.0
    ensures a * b >= 0.0
  {
  }

  /** Where output sample `i` reads the input: a whole index and the fraction past it. */
  datatype Tap = Tap(index: nat, frac: real)

  function SourceTap(i: nat, ratio: real): (t: Tap)
    requires ratio > 0.0
    ensures 0.0 <= t.frac < 1.0
  {
    var src := i as real / ratio;
    Tap(src.Floor, src - src.Floor as real)
  }

  /** Every output sample reads inside the input. */
  lemma TapInRange(len: nat, ratio: real, i: nat)
    requires ratio > 0.0 && i < ResampledLength(len, ratio)
    ensures SourceTap(i, ratio).index < len
  {
    var src := i as real / ratio;
    assert i as real < len as real * ratio;
    assert src * ratio == i as real;
    if src >= len as real {
      MulRealMono(ratio, len as real, src);
    }
  }

  /** Linear interpolation between the tap and its successor, or the tap itself at the end. */
  function Interpolate(x: seq<real>, t: Tap): real
    requires t.index < |x|
  {
    if t.index + 1 < |x| then (1.0 - t.frac) * x[t.index] + t.frac * x[t.index + 1]
    else x[t.index]
  }

  function ResampleAt(x: seq<real>, ratio: real, i: nat): real
    requires ratio > 0.0 && i < ResampledLength(|x|, ratio)
  {
    TapInRange(|x|, ratio, i);
    Interpolate(x, SourceTap(i, ratio))
  }

  /** `resample`: the signal at `targetRate` by linear interpolation. */
  function Resample(x: seq<real>, originalRate: int, targetRate: int): (y: seq<real>)
    requires originalRate > 0 && targetRate > 0
    ensures |y| == ResampledLength(|x|, RateRatio(originalRate, targetRate))
  {
    var ratio := RateRatio(originalRate, targetRate);
    seq(ResampledLength(|x|, ratio), i requires 0 <= i < ResampledLength(|x|, ratio) => ResampleAt(x, ratio, i))
  }

  lemma Convex(a: real, b: real, g: real, f: real, lo: real, hi: real)
    requires lo <= a <= hi && lo <= b <= hi && 0.0 <= f && 0.0 <= g && g + f == 1.0
    ensures lo <= g * a + f * b <= hi
  {
    ConvexAbove(a, b, g, f, lo);
    ConvexAbove(-a, -b, g, f, -hi);
    assert g * -a + f * -b == -(g * a + f * b);
  }

  lemma ConvexAbove(a: real, b: real, g: real, f: real, lo: real)
    requires lo <= a && lo <= b && 0.0 <= f && 0.0 <= g && g + f == 1.0
    ensures lo <= g * a + f * b
  {
    MulRealMono(g, lo, a);
    MulRealMono(f, lo, b);
    var p, q, u, v := g * lo, f * lo, g * a, f * b;
    assert p <= u;
    assert q <= v;
    assert p + q == lo by { assert g == 1.0 - f; assert (1.0 - f) * lo == lo - f * lo; }
    assert p + q <= u + v;
  }

  /** Interpolation never leaves the range of the input. */
  lemma ResampleBounded(x: seq<real>, originalRate: int, targetRate: int, lo: real, hi: real)
    requires originalRate > 0 && targetRate > 0
    requires forall k :: 0 <= k < |x| ==> lo <= x[k] <= hi
    ensures forall i :: 0 <= i < |Resample(x, originalRate, targetRate)| ==>
      lo <= Resample(x, originalRate, targetRate)[i] <= hi
  {
    var ratio := RateRatio(originalRate, targetRate);
    var y := Resample(x, originalRate, targetRate);
    forall i | 0 <= i < |y|
      ensures lo <= y[i] <= hi
    {
      TapInRange(|x|, ratio, i);
      var t := SourceTap(i, ratio);
      assert y[i] == Interpolate(x, t);
      if t.index + 1 < |x| {
        Convex(x[t.index], x[t.index + 1], 1.0 - t.frac, t.frac, lo, hi);
      }
    }
  }

  /** At equal rates the signal comes back unchanged. */
  lemma ResampleIdentity(x: seq<real>, rate: int)
    requires rate > 0
    ensures Resample(x, rate, rate) == x
  {
    var ratio := RateRatio(rate, rate);
    assert ratio == 1.0 by {
      MulDivCancel(rate as real, 1.0);
    }
    var y := Resample(x, rate, rate);
    assert |y| == |x|;
    forall i | 0 <= i < |x|
      ensures y[i] == x[i]
    {
      assert SourceTap(i, ratio) == Tap(i, 0.0);
    }
  }

  // ---------------------------------------------------------------------------
  // Peak normalisation

  /** The largest magnitude, found left to right from 0 with a strict `>` update. */
  function MaxAbs(x: seq<real>): (r: real)
    ensures r >= 0.0
    ensures forall i :: 0 <= i < |x| ==> Abs(x[i]) <= r
    ensures r == 0.0 || exists i :: 0 <= i < |x| && Abs(x[i]) == r
  {
    if x == [] then 0.0
    else
      var init := x[..|x| - 1];
      var p := MaxAbs(init);
      var a := Abs(x[|x| - 1]);
      assert forall i :: 0 <= i < |init| ==> init[i] == x[i];
      if a > p then a else p
  }

  /** Divides every sample by the peak magnitude when that peak is positive. */
  function PeakNormalize(x: seq<real>): (y: seq<real>)
    ensures |y| == |x|
  {
    var p := MaxAbs(x);
    if p > 0.0 then seq(|x|, i requires 0 <= i < |x| => x[i] / p) else x
  }

  lemma ScaledAbs(v: real, p: real)
    requires p > 0.0 && Abs(v) <= p
    ensures Abs(v / p) <= 1.0
    ensures Abs(v) == p ==> Abs(v / p) == 1.0
  {
    if v >= 0.0 { DivBounds(v, p, 0.0, 1.0); } else { DivBounds(v, p, -1.0, 0.0); }
    MulDivCancel(p, 1.0);
    MulDivCancel(p, -1.0);
  }

  /**
   * After normalisation every magnitude is at most 1, and one sample reaches 1
   * unless the signal is silent, in which case it is left as it was.
   */
  lemma NormalizeSpec(x: seq<real>)
    ensures forall i :: 0 <= i < |x| ==> Abs(PeakNormalize(x)[i]) <= 1.0
    ensures MaxAbs(x) > 0.0 ==> exists i :: 0 <= i < |x| && Abs(PeakNormalize(x)[i]) == 1.0
    ensures (forall i :: 0 <= i < |x| ==> x[i] == 0.0) ==> PeakNormalize(x) == x
  {
    var p := MaxAbs(x);
    var y := PeakNormalize(x);
    if p > 0.0 {
      forall i | 0 <= i < |x|
        ensures Abs(y[i]) <= 1.0
      {
        ScaledAbs(x[i], p);
      }
      var k :| 0 <= k < |x| && Abs(x[k]) == p;
      ScaledAbs(x[k], p);
      assert Abs(y[k]) == 1.0;
    } else {
      forall i | 0 <= i < |x|
        ensures Abs(y[i]) <= 1.0
      {
        assert Abs(x[i]) <= p;
      }
    }
  }

  // ---------------------------------------------------------------------------
  // Framing

  /** C's `/` on `int`, which truncates toward zero. */
  function TruncDiv(a: int, d: int): (q: int)
    requires d > 0
    ensures a >= 0 ==> q == a / d
    ensures a < 0 ==> q == -((-a) / d)
  {
    if a >= 0 then a / d else -((-a) / d)
  }

  /** Milliseconds to samples: `(rate * ms) / 1000`. */
  function MsToSamples(rate: int, ms: int): int {
    TruncDiv(rate * ms, 1000)
  }

  /** At 16 kHz every millisecond is exactly 16 samples, whatever the sign. */
  lemma MsToSamplesAt16k(ms: int)
    ensures MsToSamples(16000, ms) == 16 * ms
  {
    if ms >= 0 {
      DivModUnique(16000 * ms, 1000, 16 * ms, 0);
    } else {
      DivModUnique(-(16000 * ms), 1000, -16 * ms, 0);
    }
  }

  /** The frame length, the hop and the number of frames of a recording. */
  datatype Framing = Framing(frameLen: nat, hopLen: nat, count: nat)

  /** The last frame ends inside the signal. */
  predicate Fits(fr: Framing, total: nat) {
    fr.frameLen > 0 && fr.hopLen > 0 && fr.count >= 1
    && (fr.count - 1) * fr.hopLen + fr.frameLen <= total
  }

  /**
   * Rejects a non-positive frame length or hop and a signal shorter than one
   * frame; otherwise `1 + (total - frameLen) / hop` frames.
   */
  function MakeFraming(total: nat, frameLen: int, hopLen: int): (r: Option<Framing>)
    ensures r.None? <==> frameLen <= 0 || hopLen <= 0 || total < frameLen
    ensures r.Some? ==> r.value.frameLen == frameLen && r.value.hopLen == hopLen
  {
    if frameLen <= 0 || hopLen <= 0 || total < frameLen then None
    else Some(Framing(frameLen, hopLen, 1 + (total - frameLen) / hopLen))
  }

  /** Every frame fits in the signal, and one frame more would not. */
  lemma FramingFits(total: nat, frameLen: int, hopLen: int)
    requires MakeFraming(total, frameLen, hopLen).Some?
    ensures Fits(MakeFraming(total, frameLen, hopLen).value, total)
    ensures var fr := MakeFraming(total, frameLen, hopLen).value;
      total < fr.count * fr.hopLen + fr.frameLen
  {
    var fr := MakeFraming(total, frameLen, hopLen).value;
    var q, r := (total - frameLen) / hopLen, (total - frameLen) % hopLen;
    assert total - frameLen == hopLen * q + r;
    assert fr.count - 1 == q;
    assert (fr.count - 1) * hopLen == hopLen * q;
    assert fr.count * hopLen == hopLen * q + hopLen;
  }

  lemma FrameStart(fr: Framing, total: nat, i: nat)
    requires Fits(fr, total) && i < fr.count
    ensures i * fr.hopLen + fr.frameLen <= total
  {
    MulMono(fr.hopLen, i, fr.count - 1);
    assert i * fr.hopLen == fr.hopLen * i && (fr.count - 1) * fr.hopLen == fr.hopLen * (fr.count - 1);
  }

  /** Frame `i`: `frameLen` samples from `i * hop`. */
  function FrameSlice(x: seq<real>, fr: Framing, i: nat): (f: seq<real>)
    requires Fits(fr, |x|) && i < fr.count
    ensures |f| == fr.frameLen
  {
    FrameStart(fr, |x|, i);
    x[i * fr.hopLen..i * fr.hopLen + fr.frameLen]
  }

  function Frames(x: seq<real>, fr: Framing): (fs: seq<seq<real>>)
    requires Fits(fr, |x|)
    ensures |fs| == fr.count
    ensures forall i :: 0 <= i < |fs| ==> |fs[i]| == fr.frameLen
  {
    seq(fr.count, i requires 0 <= i < fr.count => FrameSlice(x, fr, i))
  }

  // ---------------------------------------------------------------------------
  // Silence removal

  /** `(size_t)(0.9f * n)`: the position of the 90th percentile. */
  function PercentileIndex(n: nat): (k: int) {
    (0.9 * n as real).Floor
  }

  lemma PercentileIndexInRange(n: nat)
    requires n >= 1
    ensures 0 <= PercentileIndex(n) < n
  {
  }

  function RmsOf(m: Math, frames: seq<seq<real>>): (r: seq<real>)
    requires Valid(m)
    ensures |r| == |frames|
    ensures forall i :: 0 <= i < |r| ==> r[i] == Features.Rms(m, frames[i]) && r[i] >= 0.0
  {
    seq(|frames|, i requires 0 <= i < |frames| => Features.Rms(m, frames[i]))
  }

  /** The 90th-percentile frame RMS scaled by the relative threshold. */
  function SilenceThreshold(m: Math, frames: seq<seq<real>>, relative: real): (t: real)
    requires Valid(m) && |frames| >= 1
  {
    Percentile(RmsOf(m, frames)) * relative
  }

  /** The value at the 90th-percentile position of the ascending arrangement. */
  function Percentile(s: seq<real>): real
    requires |s| >= 1
  {
    PercentileIndexInRange(|s|);
    Sort(s)[PercentileIndex(|s|)]
  }

  lemma PercentileIsEntry(s: seq<real>) returns (i: nat)
    requires |s| >= 1
    ensures i < |s| && s[i] == Percentile(s)
  {
    PercentileIndexInRange(|s|);
    i := SortedMember(s, PercentileIndex(|s|));
  }

  /** The percentile the threshold scales is the RMS of one of the frames. */
  lemma PercentileOfFrames(m: Math, frames: seq<seq<real>>) returns (f: nat)
    requires Valid(m) && |frames| >= 1
    ensures f < |frames| && Percentile(RmsOf(m, frames)) == Features.Rms(m, frames[f])
  {
    f := PercentileIsEntry(RmsOf(m, frames));
  }

  /** The frames at or above the threshold, in order (a frame below it is skipped). */
  function Loud(m: Math, frames: seq<seq<real>>, threshold: real): (kept: seq<seq<real>>)
    requires Valid(m)
    ensures |kept| <= |frames|
    ensures forall k :: 0 <= k < |kept| ==> kept[k] in frames && Features.Rms(m, kept[k]) >= threshold
  {
    if frames == [] then []
    else
      var rest := Loud(m, frames[1..], threshold);
      if Features.Rms(m, frames[0]) < threshold then rest else [frames[0]] + rest
  }

  /** No frame at or above the threshold is dropped. */
  lemma {:induction false} LoudKeepsAll(m: Math, frames: seq<seq<real>>, threshold: real, i: nat)
    requires Valid(m) && i < |frames| && Features.Rms(m, frames[i]) >= threshold
    ensures frames[i] in Loud(m, frames, threshold)
  {
    if i > 0 {
      LoudKeepsAll(m, frames[1..], threshold, i - 1);
    }
  }

  /** The frames written: all of them, or the loud ones when silence removal is on. */
  function Kept(m: Math, frames: seq<seq<real>>, removeSilence: bool, relative: real): (kept: seq<seq<real>>)
    requires Valid(m)
    ensures |kept| <= |frames|
    ensures !removeSilence ==> kept == frames
    ensures removeSilence && |frames| >= 1 ==> kept == Loud(m, frames, SilenceThreshold(m, frames, relative))
  {
    if removeSilence && |frames| >= 1 then Loud(m, frames, SilenceThreshold(m, frames, relative))
    else frames
  }

  // ---------------------------------------------------------------------------
  // One recording

  /** The rate every `.frames` file is written at. */
  const TargetRate: int := 16000

  /** Size of the class and id buffers in `process_file`. */
  const NameCap: nat := 256

  datatype Options = Options(frameMs: int, hopMs: int, removeSilence: bool, silenceThreshold: real)

  /** The default command line: 30 ms frames, 10 ms hop, no silence removal, threshold 0.1. */
  const DefaultOptions: Options := Options(30, 10, false, 0.1)

  /** The outcome of one recording: its names, its framing, the frames kept and the file bytes. */
  datatype Processed = Processed(names: ClassId, framing: Framing, kept: seq<seq<real>>, file: seq<FrameIo.Byte>)

  /** The signal at 16 kHz. */
  function AtTargetRate(mono: seq<real>, rate: int): (x: seq<real>)
    requires rate > 0
    ensures rate == TargetRate ==> x == mono
  {
    if rate != TargetRate then Resample(mono, rate, TargetRate) else mono
  }

  function EncodeFrames(frames: seq<seq<real>>, bits: real -> FrameIo.Word): (r: seq<seq<FrameIo.Word>>)
    ensures |r| == |frames|
    ensures forall f :: 0 <= f < |r| ==> |r[f]| == |frames[f]|
  {
    seq(|frames|, f requires 0 <= f < |frames| => seq(|frames[f]|, k requires 0 <= k < |frames[f]| => bits(frames[f][k])))
  }

  /**
   * `process_file` from the mono samples on: fails on an empty recording, on a
   * framing it rejects and on a path it cannot name; otherwise the `.frames`
   * bytes, where `bits` gives the stored pattern of each sample.
   */
  function ProcessFile(m: Math, root: string, path: string, mono: seq<real>, rate: int, opt: Options,
                       bits: real -> FrameIo.Word): (r: Result<Processed>)
    requires Valid(m) && rate > 0
    requires -134217 <= opt.frameMs <= 134217 && -134217 <= opt.hopMs <= 134217
    ensures r.Ok? ==> (|mono| > 0 && r.value.framing.frameLen == 16 * opt.frameMs
      && r.value.framing.hopLen == 16 * opt.hopMs)
    ensures r.Ok? ==> |r.value.kept| <= r.value.framing.count
    ensures r.Ok? ==> forall f :: 0 <= f < |r.value.kept| ==> |r.value.kept[f]| == r.value.framing.frameLen
  {
    if |mono| == 0 then Err("no samples")
    else
      var x := PeakNormalize(AtTargetRate(mono, rate));
      MsToSamplesAt16k(opt.frameMs);
      MsToSamplesAt16k(opt.hopMs);
      var fl, hop := MsToSamples(TargetRate, opt.frameMs), MsToSamples(TargetRate, opt.hopMs);
      match MakeFraming(|x|, fl, hop)
      case None => Err("recording shorter than a frame, or bad frame or hop length")
      case Some(fr) =>
        FramingFits(|x|, fl, hop);
        var frames := Frames(x, fr);
        var kept := Kept(m, frames, opt.removeSilence, opt.silenceThreshold);
        assert forall f :: 0 <= f < |kept| ==> kept[f] in frames;
        match ExtractClassId(root, path, NameCap, NameCap)
        case Err(e) => Err(e)
        case Ok(names) =>
          var w := FrameIo.WriteFile(TargetRate, fl, hop, EncodeFrames(kept, bits));
          if w.Err? then Err(w.reason) else Ok(Processed(names, fr, kept, w.value))
  }

  /**
   * What the extractor will read back from a processed recording: 16 kHz, the
   * framing's frame length and hop, the number of frames kept, and the kept
   * frames' samples in order.
   */
  lemma ProcessFileReadsBack(m: Math, root: string, path: string, mono: seq<real>, rate: int, opt: Options,
                             bits: real -> FrameIo.Word)
    requires Valid(m) && rate > 0
    requires -134217 <= opt.frameMs <= 134217 && -134217 <= opt.hopMs <= 134217
    requires ProcessFile(m, root, path, mono, rate, opt, bits).Ok?
    requires |ProcessFile(m, root, path, mono, rate, opt, bits).value.kept| < FrameIo.WordLimit
    ensures var p := ProcessFile(m, root, path, mono, rate, opt, bits).value;
      FrameIo.ReadAll(Some(p.file)) == Ok(FrameIo.FramesFile(
        FrameIo.FillHeader(TargetRate, p.framing.frameLen, p.framing.hopLen, |p.kept|),
        FrameIo.Concat(EncodeFrames(p.kept, bits))))
  {
    var p := ProcessFile(m, root, path, mono, rate, opt, bits).value;
    var enc := EncodeFrames(p.kept, bits);
    FrameIo.RoundTrip(TargetRate, p.framing.frameLen, p.framing.hopLen, enc);
  }
}

=== FILE: split.dfy ===
/**
 * The speaker-aware train/test split of split_normalize.c: speakers are
 * visited in shuffled order and each goes to train when adding its class
 * counts brings the train totals no further from the per-class targets than
 * leaving it out; a fallback keeps both sides non-empty; samples follow their
 * speaker.
 *
 * Speakers are taken in visiting order: `visits[i]` is the class-count vector
 * of the i-th speaker visited, and `take[i]` its decision.
 */
module Split {
  import opened Wrappers
  import opened Numerics
  import Dataset

  predicate VisitsShaped(visits: seq<seq<nat>>, n: nat) {
    forall i :: 0 <= i < |visits| ==> |visits[i]| == n
  }

  function ZeroCounts(n: nat): (z: seq<real>)
    ensures |z| == n && forall c :: 0 <= c < n ==> z[c] == 0.0
  {
    seq(n, c requires 0 <= c < n => 0.0)
  }

  /** Running totals plus one speaker's counts, class by class. */
  function AddCounts(cur: seq<real>, add: seq<nat>): (r: seq<real>)
    requires |add| == |cur|
    ensures |r| == |cur| && forall c :: 0 <= c < |cur| ==> r[c] == cur[c] + add[c] as real
  {
    seq(|cur|, c requires 0 <= c < |cur| => cur[c] + add[c] as real)
  }

  /** The per-class totals of the visited speakers whose decision is true. */
  function ChosenSum(visits: seq<seq<nat>>, take: seq<bool>, n: nat): (s: seq<real>)
    requires |take| <= |visits| && VisitsShaped(visits, n)
    ensures |s| == n
    decreases |take|
  {
    if |take| == 0 then ZeroCounts(n)
    else
      var k := |take| - 1;
      var prev := ChosenSum(visits, take[..k], n);
      if take[k] then AddCounts(prev, visits[k]) else prev
  }

  /** The squared distance of the first `k` classes from their targets, summed as the C loop does. */
  function SqError(cur: seq<real>, target: seq<real>, k: nat): (e: real)
    requires k <= |cur| && |cur| == |target|
    ensures e >= 0.0
  {
    if k == 0 then 0.0
    else
      var d := cur[k - 1] - target[k - 1];
      SqError(cur, target, k - 1) + d * d
  }

  /** The split rule: train when taking the speaker is no worse, ties going to train. */
  predicate GoesToTrain(cur: seq<real>, add: seq<nat>, target: seq<real>)
    requires |cur| == |add| == |target|
  {
    SqError(AddCounts(cur, add), target, |target|) <= SqError(cur, target, |target|)
  }

  function CountTrue(s: seq<bool>): (n: nat)
    ensures n <= |s|
  {
    if |s| == 0 then 0 else CountTrue(s[..|s| - 1]) + (if s[|s| - 1] then 1 else 0)
  }

  /** The two error sums of one speaker, accumulated class by class. */
  method Errors(cur: seq<real>, add: seq<nat>, target: seq<real>) returns (errTrain: real, errTest: real)
    requires |cur| == |add| == |target|
    ensures errTrain == SqError(AddCounts(cur, add), target, |target|)
    ensures errTest == SqError(cur, target, |target|)
  {
    var with := AddCounts(cur, add);
    errTrain, errTest := 0.0, 0.0;
    for c := 0 to |target|
      invariant errTrain == SqError(with, target, c)
      invariant errTest == SqError(cur, target, c)
    {
      var diffTrain := (cur[c] + add[c] as real) - target[c];
      var diffTest := cur[c] - target[c];
      errTrain := errTrain + diffTrain * diffTrain;
      errTest := errTest + diffTest * diffTest;
    }
  }

  /**
   * The greedy loop. Every decision follows the rule against the totals of
   * the speakers taken before it, and the returned totals and count are those
   * of all speakers taken.
   */
  method GreedySplit(visits: seq<seq<nat>>, target: seq<real>) returns (take: seq<bool>, trainCounts: seq<real>, trainSpeakers: nat)
    requires VisitsShaped(visits, |target|)
    ensures |take| == |visits|
    ensures forall i :: 0 <= i < |visits| ==>
      (take[i] <==> GoesToTrain(ChosenSum(visits, take[..i], |target|), visits[i], target))
    ensures trainCounts == ChosenSum(visits, take, |target|)
    ensures trainSpeakers == CountTrue(take)
  {
    var n := |target|;
    take, trainCounts, trainSpeakers := [], ZeroCounts(n), 0;
    for i := 0 to |visits|
      invariant |take| == i
      invariant trainCounts == ChosenSum(visits, take, n)
      invariant trainSpeakers == CountTrue(take)
      invariant forall j :: 0 <= j < i ==> (take[j] <==> GoesToTrain(ChosenSum(visits, take[..j], n), visits[j], target))
    {
      var errTrain, errTest := Errors(trainCounts, visits[i], target);
      var t := errTrain <= errTest;
      if t {
        trainCounts := AddCounts(trainCounts, visits[i]);
        trainSpeakers := trainSpeakers + 1;
      }
      PrefixOfAppend(take, t);
      take := take + [t];
    }
    assert take[..|take|] == take;
  }

  lemma PrefixOfAppend(take: seq<bool>, t: bool)
    ensures (take + [t])[..|take|] == take
    ensures forall j :: 0 <= j <= |take| ==> (take + [t])[..j] == take[..j]
  {
    assert (take + [t])[..|take|] == take;
  }

  lemma {:induction false} CountTrueUpdate(s: seq<bool>, i: nat, b: bool)
    requires i < |s|
    ensures CountTrue(s[i := b]) == CountTrue(s) - (if s[i] then 1 else 0) + (if b then 1 else 0)
    decreases |s|
  {
    var k := |s| - 1;
    if i < k {
      assert s[i := b][..k] == s[..k][i := b];
      CountTrueUpdate(s[..k], i, b);
    } else {
      assert s[i := b][..k] == s[..k];
    }
  }

  lemma {:induction false} CountTrueExtremes(s: seq<bool>, i: nat)
    requires i < |s|
    ensures CountTrue(s) == 0 ==> !s[i]
    ensures CountTrue(s) == |s| ==> s[i]
    decreases |s|
  {
    var k := |s| - 1;
    if i < k {
      CountTrueExtremes(s[..k], i);
    }
  }

  /**
   * With more than one speaker and every speaker on one side, the first
   * speaker visited is moved to the other side.
   */
  function Fallback(take: seq<bool>, trainSpeakers: nat): (r: seq<bool>)
    requires trainSpeakers == CountTrue(take)
    ensures |r| == |take|
    ensures forall i :: 0 < i < |take| ==> r[i] == take[i]
    ensures !(|take| > 1 && (trainSpeakers == 0 || trainSpeakers == |take|)) ==> r == take
  {
    if |take| > 1 && (trainSpeakers == 0 || trainSpeakers == |take|) then take[0 := trainSpeakers == 0] else take
  }

  /** After the fallback, two or more speakers always leave at least one on each side. */
  lemma FallbackBothSides(take: seq<bool>, trainSpeakers: nat)
    requires trainSpeakers == CountTrue(take) && |take| >= 2
    ensures 0 < CountTrue(Fallback(take, trainSpeakers)) < |take|
  {
    var r := Fallback(take, trainSpeakers);
    if trainSpeakers == 0 || trainSpeakers == |take| {
      CountTrueExtremes(take, 0);
      CountTrueUpdate(take, 0, trainSpeakers == 0);
    }
  }

  // ---------------------------------------------------------------------------
  // From speakers to samples

  /**
   * The side of every speaker of the pool, from the decisions in visiting
   * order: speaker `order[k]` gets `take[k]`.
   */
  function Sides(order: seq<nat>, take: seq<bool>, n: nat): (side: seq<bool>)
    requires |take| == |order| && Dataset.IsOrder(order, n)
    ensures |side| == n
  {
    seq(n, s requires 0 <= s < n =>
      match Dataset.IndexOf(order, s)
      case Some(k) => take[k]
      case None => false)
  }

  lemma SidesFollowOrder(order: seq<nat>, take: seq<bool>, n: nat, k: nat)
    requires |take| == |order| && Dataset.IsOrder(order, n) && k < n
    ensures Sides(order, take, n)[order[k]] == take[k]
  {
    Dataset.IndexOfUnique(order, order[k], k);
  }

  /** A sample goes to train when its speaker is known and on the train side. */
  predicate InTrain(speakerOf: seq<Option<nat>>, side: seq<bool>, i: nat)
    requires i < |speakerOf|
  {
    speakerOf[i].Some? && speakerOf[i].value < |side| && side[speakerOf[i].value]
  }

  predicate Increasing(s: seq<nat>) {
    forall a, b :: 0 <= a < b < |s| ==> s[a] < s[b]
  }

  datatype Halves = Halves(train: seq<nat>, test: seq<nat>)

  /**
   * The sample loop over the first `k` samples: each index is appended to
   * train or to test, so both lists are in sample order.
   */
  function Partition(speakerOf: seq<Option<nat>>, side: seq<bool>, k: nat): (h: Halves)
    requires k <= |speakerOf|
    ensures |h.train| + |h.test| == k
    ensures forall a :: 0 <= a < |h.train| ==> h.train[a] < k
    ensures forall a :: 0 <= a < |h.test| ==> h.test[a] < k
    ensures forall x: nat :: x in h.train <==> x < k && InTrain(speakerOf, side, x)
    ensures forall x: nat :: x in h.test <==> x < k && !InTrain(speakerOf, side, x)
    ensures Increasing(h.train) && Increasing(h.test)
  {
    if k == 0 then Halves([], [])
    else
      var h := Partition(speakerOf, side, k - 1);
      if InTrain(speakerOf, side, k - 1) then
        Extend(h.train, k - 1);
        Halves(h.train + [k - 1], h.test)
      else
        Extend(h.test, k - 1);
        Halves(h.train, h.test + [k - 1])
  }

  /** Appending a larger index keeps a list increasing and adds just that index. */
  lemma Extend(s: seq<nat>, x: nat)
    requires Increasing(s) && forall a :: 0 <= a < |s| ==> s[a] < x
    ensures Increasing(s + [x])
    ensures forall a :: 0 <= a < |s| + 1 ==> (s + [x])[a] <= x
    ensures forall y: nat :: y in s + [x] <==> y in s || y == x
  {
  }

  /** Every sample lands on exactly one side, and samples of one speaker land together. */
  lemma PartitionSpec(speakerOf: seq<Option<nat>>, side: seq<bool>, i: nat, j: nat)
    requires i < |speakerOf| && j < |speakerOf|
    ensures var h := Partition(speakerOf, side, |speakerOf|);
      && ((i in h.train) != (i in h.test))
      && (speakerOf[i] == speakerOf[j] ==> (i in h.train <==> j in h.train))
      && (speakerOf[i].None? ==> i in h.test)
  {
  }
}

=== FILE: svm.dfy ===
/**
 * svm_baseline.c: reads train and test sets in the FANN text format, builds
 * libsvm's sparse vectors, picks the RBF gamma, and scores the test set with
 * a confusion matrix guarded against out-of-range labels.
 *
 * Training is a parameter: `predict` stands for the model libsvm trains on
 * the problem and applies to one sparse vector.
 */
module Svm {
  import opened Wrappers
  import Metrics
  import Fann
  import ClassFile

  /** One `svm_node`: a 1-based feature index, or -1 to end the vector. */
  datatype Node = Node(index: int, value: real)

  /** The sparse vector of a dense row: indices 1..n in order, then the terminator. */
  function SparseNodes(x: seq<real>): (nodes: seq<Node>)
    ensures |nodes| == |x| + 1
    ensures forall j :: 0 <= j < |x| ==> nodes[j] == Node(j + 1, x[j])
    ensures nodes[|x|] == Node(-1, 0.0)
  {
    seq(|x|, j requires 0 <= j < |x| => Node(j + 1, x[j])) + [Node(-1, 0.0)]
  }

  /** How libsvm walks a vector: the values up to the terminator. */
  function DenseOf(nodes: seq<Node>): (x: seq<real>)
    ensures |x| <= |nodes|
  {
    if |nodes| == 0 || nodes[0].index == -1 then [] else [nodes[0].value] + DenseOf(nodes[1..])
  }

  /** The sparse vector holds the row exactly: walking it gives the row back. */
  lemma {:induction false} SparseRoundTrip(x: seq<real>)
    ensures DenseOf(SparseNodes(x)) == x
    decreases |x|
  {
    if |x| > 0 {
      var nodes := SparseNodes(x);
      assert nodes[0] == Node(1, x[0]);
      SparseShift(x);
      SparseRoundTrip(x[1..]);
    }
  }

  /** Dropping the first node of a row's vector is the vector of the rest, with indices shifted by one. */
  lemma SparseShift(x: seq<real>)
    requires |x| > 0
    ensures DenseOf(SparseNodes(x)[1..]) == DenseOf(SparseNodes(x[1..]))
  {
    var a, b := SparseNodes(x)[1..], SparseNodes(x[1..]);
    assert forall j :: 0 <= j < |a| ==> a[j].value == b[j].value && (a[j].index == -1 <==> b[j].index == -1);
    SameWalk(a, b);
  }

  lemma {:induction false} SameWalk(a: seq<Node>, b: seq<Node>)
    requires |a| == |b|
    requires forall j :: 0 <= j < |a| ==> a[j].value == b[j].value && (a[j].index == -1 <==> b[j].index == -1)
    ensures DenseOf(a) == DenseOf(b)
    decreases |a|
  {
    if |a| > 0 {
      SameWalk(a[1..], b[1..]);
    }
  }

  /** The RBF gamma: the given value when positive, else one over the input width. */
  function Gamma(given: real, numInputs: nat): (g: real)
    requires given > 0.0 || numInputs > 0
    ensures g > 0.0
    ensures given > 0.0 ==> g == given
    ensures given <= 0.0 ==> g * numInputs as real == 1.0
  {
    if given > 0.0 then given else 1.0 / numInputs as real
  }

  /** `class_list_add` here appends every label, duplicates included. */
  function ClassListAppend(list: seq<string>, name: string): (r: seq<string>)
    ensures |r| == |list| + 1 && r[..|list|] == list && r[|list|] == name
  {
    list + [name]
  }

  /** Appending is not deduplicating: a repeated label gets a second slot. */
  lemma AppendKeepsDuplicates(list: seq<string>, name: string)
    requires name in list
    ensures |ClassListAppend(list, name)| == |list| + 1
    ensures multiset(ClassListAppend(list, name))[name] == multiset(list)[name] + 1
  {
  }

  /** The confusion inputs of the test run: stored labels and model predictions. */
  function SvmPredictions(test: Fann.FannData, predict: seq<Node> -> int): (pred: seq<int>)
    ensures |pred| == |test.inputs|
    ensures forall i :: 0 <= i < |pred| ==> pred[i] == predict(SparseNodes(test.inputs[i]))
  {
    seq(|test.inputs|, i requires 0 <= i < |test.inputs| => predict(SparseNodes(test.inputs[i])))
  }

  function Labels(test: Fann.FannData): (truth: seq<int>)
    ensures |truth| == |test.labels| && forall i :: 0 <= i < |truth| ==> truth[i] == test.labels[i]
  {
    seq(|test.labels|, i requires 0 <= i < |test.labels| => test.labels[i] as int)
  }

  /**
   * The run after the files are read: a train/test width mismatch, or a class
   * file whose count differs from the output width, is an error; otherwise
   * libsvm's parameter check then rejects a cost `c` (from `--c`) that is not
   * positive; otherwise the test set is scored. `correct` counts every equal
   * pair while the matrix keeps only pairs in range.
   */
  function SvmRun(classes: seq<string>, train: Fann.FannData, test: Fann.FannData, c: real, predict: seq<Node> -> int): (r: Result<Metrics.Report>)
    requires |test.labels| == |test.inputs|
    ensures r.Err? <==>
      train.numInputs != test.numInputs || train.numOutputs != test.numOutputs || |classes| != train.numOutputs || c <= 0.0
    ensures r.Err? && train.numInputs == test.numInputs && train.numOutputs == test.numOutputs && |classes| == train.numOutputs ==>
      r == Err("SVM parameter error")
    ensures r.Ok? ==> r.value.labels == classes && Metrics.WellShaped(r.value) && 0.0 <= r.value.accuracy <= 1.0
  {
    if train.numInputs != test.numInputs || train.numOutputs != test.numOutputs then Err("train/test dimension mismatch")
    else if |classes| != train.numOutputs then Err("class count mismatch")
    else if c <= 0.0 then Err("SVM parameter error")
    else
      var truth, pred := Labels(test), SvmPredictions(test, predict);
      Metrics.CountedBounds(truth, pred, |classes|);
      Ok(Metrics.ReportOf(classes, Metrics.Confusion(truth, pred, |classes|), Metrics.Correct(truth, pred), |truth|))
  }

  /**
   * The guarded matrix never holds more samples than the test set, nor more
   * on its diagonal than were correct. When every stored label is a class,
   * as the reader guarantees for a file with outputs, a correct prediction is
   * a class too, so the diagonal holds every correct one.
   */
  lemma SvmCounts(classes: seq<string>, train: Fann.FannData, test: Fann.FannData, c: real, predict: seq<Node> -> int)
    requires |test.labels| == |test.inputs|
    requires SvmRun(classes, train, test, c, predict).Ok?
    ensures var r := SvmRun(classes, train, test, c, predict).value;
      && Metrics.MatrixTotal(r.confusion) <= |test.inputs|
      && Metrics.Trace(r.confusion, |classes|) <= Metrics.Correct(Labels(test), SvmPredictions(test, predict))
      && r.accuracy == Metrics.Accuracy(Metrics.Correct(Labels(test), SvmPredictions(test, predict)), |test.inputs|)
    ensures (forall i :: 0 <= i < |test.labels| ==> test.labels[i] < test.numOutputs) ==>
      Metrics.Trace(SvmRun(classes, train, test, c, predict).value.confusion, |classes|) == Metrics.Correct(Labels(test), SvmPredictions(test, predict))
  {
    var truth, pred := Labels(test), SvmPredictions(test, predict);
    Metrics.ConfusionCounts(truth, pred, |classes|);
    Metrics.CountedBounds(truth, pred, |classes|);
    if forall i :: 0 <= i < |test.labels| ==> test.labels[i] < test.numOutputs {
      assert forall i :: 0 <= i < |truth| ==> Metrics.InRange(truth[i], |classes|);
      Metrics.TruthsInRange(truth, pred, |classes|);
    }
  }

  /**
   * For the program as run, on a test file with at least one output, every
   * correct prediction lands on the diagonal: only wrong predictions can fall
   * outside the matrix.
   */
  lemma SvmMainDiagonal(classFile: string, trainFile: seq<Fann.Token>, testFile: seq<Fann.Token>, c: real, predict: seq<Node> -> int)
    requires SvmMain(classFile, trainFile, testFile, c, predict).Ok?
    requires Fann.ReadFannData(testFile).Ok? && Fann.ReadFannData(testFile).value.numOutputs > 0
    ensures var test := Fann.ReadFannData(testFile).value;
      Metrics.Trace(SvmMain(classFile, trainFile, testFile, c, predict).value.confusion, |ClassFile.LoadClasses(classFile)|)
        == Metrics.Correct(Labels(test), SvmPredictions(test, predict))
  {
    var classes := ClassFile.LoadClasses(classFile);
    var train, test := Fann.ReadFannData(trainFile).value, Fann.ReadFannData(testFile).value;
    SvmCounts(classes, train, test, c, predict);
  }

  /** A wrong prediction outside the classes still counts toward the accuracy's total but is left out of the matrix; the correct pair is in both. */
  lemma OutOfRangeNotCounted()
    ensures Metrics.MatrixTotal(Metrics.Confusion([0, 1], [0, 5], 2)) == 1
    ensures Metrics.Correct([0, 1], [0, 5]) == 1
  {
    Metrics.ConfusionCounts([0, 1], [0, 5], 2);
    assert [0, 1][..1] == [0] && [0, 5][..1] == [0];
    assert [0][..0] == [] && [0][..0] == [];
  }

  /**
   * The program from its three inputs: the class file, then the train and
   * test files, whose read errors stop it before anything is scored, with the
   * cost `c` given by `--c` (1.0 by default).
   */
  function SvmMain(classFile: string, trainFile: seq<Fann.Token>, testFile: seq<Fann.Token>, c: real, predict: seq<Node> -> int): (r: Result<Metrics.Report>)
    ensures r.Ok? ==> Fann.ReadFannData(trainFile).Ok? && Fann.ReadFannData(testFile).Ok?
    ensures r.Ok? ==> r.value.labels == ClassFile.LoadClasses(classFile)
    ensures Fann.ReadFannData(trainFile).Err? ==> r == Err("Failed to read train.data")
  {
    var classes := ClassFile.LoadClasses(classFile);
    var train := Fann.ReadFannData(trainFile);
    if train.Err? then Err("Failed to read train.data")
    else
      var test := Fann.ReadFannData(testFile);
      if test.Err? then Err("Failed to read test.data")
      else SvmRun(classes, train.value, test.value, c, predict)
  }
}

=== FILE: text.dfy ===
/**
 * Character and string helpers of the C library as the sources use them:
 * `strcasecmp` equality, `strchr`/`strrchr`, and decimal rendering of counts.
 */
module Text {
  import opened Wrappers

  /** ASCII lower-casing, as `tolower` in the C locale. */
  function ToLower(c: char): char {
    if 'A' <= c <= 'Z' then (c as int + 32) as char else c
  }

  /** `strcasecmp(a, b) == 0`. */
  predicate EqualsIgnoreCase(a: string, b: string) {
    |a| == |b| && forall i :: 0 <= i < |a| ==> ToLower(a[i]) == ToLower(b[i])
  }

  predicate IsPrefix(p: string, s: string) {
    |p| <= |s| && s[..|p|] == p
  }

  /** `strchr`: the first position of `c`, if any. */
  function FirstIndexOf(s: string, c: char): (r: Option<nat>)
    ensures r.None? <==> c !in s
    ensures r.Some? ==> r.value < |s| && s[r.value] == c && c !in s[..r.value]
  {
    if |s| == 0 then None
    else if s[0] == c then Some(0)
    else match FirstIndexOf(s[1..], c)
      case None => None
      case Some(i) => assert s[1..][..i] == s[1..i + 1]; Some(i + 1)
  }

  /** `strrchr`: the last position of `c`, if any. */
  function LastIndexOf(s: string, c: char): (r: Option<nat>)
    ensures r.None? <==> c !in s
    ensures r.Some? ==> r.value < |s| && s[r.value] == c && c !in s[r.value + 1..]
  {
    if |s| == 0 then None
    else if s[|s| - 1] == c then Some(|s| - 1)
    else match LastIndexOf(s[..|s| - 1], c)
      case None => None
      case Some(i) => assert s[i + 1..] == s[..|s| - 1][i + 1..] + [s[|s| - 1]]; Some(i)
  }

  predicate IsDigit(c: char) {
    '0' <= c <= '9'
  }

  function DigitChar(d: nat): char
    requires d < 10
  {
    ('0' as int + d) as char
  }

  /** Decimal rendering of a natural, as `%u` / `%zu` / `str(int)`. */
  function NatToString(n: nat): (s: string)
    ensures |s| > 0 && forall i :: 0 <= i < |s| ==> IsDigit(s[i])
    decreases n
  {
    if n < 10 then [DigitChar(n)] else NatToString(n / 10) + [DigitChar(n % 10)]
  }

  /** The value of a string of decimal digits. */
  function DigitsValue(s: string): nat
    requires forall i :: 0 <= i < |s| ==> IsDigit(s[i])
  {
    if |s| == 0 then 0
    else
      assert IsDigit(s[|s| - 1]);
      10 * DigitsValue(s[..|s| - 1]) + (s[|s| - 1] as int - '0' as int)
  }

  lemma {:induction false} DigitsValueOfNatToString(n: nat)
    ensures DigitsValue(NatToString(n)) == n
    decreases n
  {
    if n >= 10 {
      var s := NatToString(n / 10) + [DigitChar(n % 10)];
      assert s[..|s| - 1] == NatToString(n / 10);
      DigitsValueOfNatToString(n / 10);
    }
  }

  /** The white space of C's `isspace` in the "C" locale. */
  predicate IsSpace(c: char) {
    c == ' ' || c == '\t' || c == '\n' || c == '\U{0B}' || c == '\U{0C}' || c == '\r'
  }

  /**
   * White space as Python's `str.isspace` has it, which `strip()`, `split()`
   * and `int()` use: C's six, the four ASCII separators 0x1C to 0x1F, and
   * the Unicode spaces and line separators.
   */
  predicate PyIsSpace(c: char) {
    ('\t' <= c <= '\r') || ('\U{1C}' <= c <= ' ') || c == '\U{85}' || c == '\U{A0}' || c == '\U{1680}'
    || ('\U{2000}' <= c <= '\U{200A}') || c == '\U{2028}' || c == '\U{2029}' || c == '\U{202F}'
    || c == '\U{205F}' || c == '\U{3000}'
  }

  /** The length of the longest digit prefix, where a C number parser stops. */
  function DigitRun(s: string): (k: nat)
    ensures k <= |s| && forall i :: 0 <= i < k ==> IsDigit(s[i])
    ensures k < |s| ==> !IsDigit(s[k])
  {
    if |s| == 0 || !IsDigit(s[0]) then 0 else 1 + DigitRun(s[1..])
  }

  /** The digit prefix of a rendered natural is all of it, and its value is the natural. */
  lemma DigitRunOfDecimal(n: nat)
    ensures DigitRun(NatToString(n)) == |NatToString(n)|
    ensures DigitsValue(NatToString(n)[..DigitRun(NatToString(n))]) == n
  {
    var d := NatToString(n);
    DigitRunAll(d);
    DigitsValueOfNatToString(n);
    assert d[..|d|] == d;
  }

  lemma {:induction false} DigitRunAll(s: string)
    requires forall i :: 0 <= i < |s| ==> IsDigit(s[i])
    ensures DigitRun(s) == |s|
    decreases |s|
  {
    if |s| > 0 {
      DigitRunAll(s[1..]);
    }
  }

  /** `snprintf("%02d", n)`: the decimal digits of n, zero padded to at least two. */
  function Pad2(n: nat): (s: string)
    ensures |s| >= 2 && (n < 100 ==> |s| == 2)
    ensures forall i :: 0 <= i < |s| ==> IsDigit(s[i])
    ensures DigitsValue(s) == n
  {
    if n < 10 then
      var s := ['0', DigitChar(n)];
      assert s[..1] == ['0'] && ['0'][..0] == [];
      assert DigitsValue(['0']) == 0;
      s
    else
      DigitsValueOfNatToString(n);
      assert n < 100 ==> NatToString(n) == NatToString(n / 10) + [DigitChar(n % 10)] && |NatToString(n / 10)| == 1;
      NatToString(n)
  }

  /** Joins fields with a separator, as a CSV writer does. */
  function Join(parts: seq<string>, sep: char): string {
    if |parts| == 0 then ""
    else if |parts| == 1 then parts[0]
    else parts[0] + [sep] + Join(parts[1..], sep)
  }
}

=== FILE: train.dfy ===
/**
 * train.c: the diagram path derived from the model path, the network shape,
 * and the epoch loop with its stop and report rule.
 *
 * FANN itself is not modelled: `mse(e)` stands for the error
 * `fann_train_epoch` reports on epoch `e`.
 */
module Train {
  import opened Wrappers
  import opened Text

  // ---------------------------------------------------------------------------
  // The diagram path

  /** Where the base name starts: just after the last `/`, or at 0. */
  function BaseOffset(path: string): (k: nat)
    ensures k <= |path| && '/' !in path[k..]
    ensures k > 0 ==> path[k - 1] == '/'
  {
    match LastIndexOf(path, '/')
    case None => 0
    case Some(i) => i + 1
  }

  /**
   * `make_svg_path`: no path gives no path; otherwise the base name's text
   * from its last dot is replaced by ".svg", or ".svg" is appended when the
   * base name has no dot. Allocation failure is not modelled.
   */
  function MakeSvgPath(path: Option<string>): (r: Option<string>)
    ensures r.None? <==> path.None?
  {
    match path
    case None => None
    case Some(p) =>
      var b := BaseOffset(p);
      match LastIndexOf(p[b..], '.')
      case None => Some(p + ".svg")
      case Some(d) => Some(p[..b + d] + ".svg")
  }

  /** The last occurrence is the one with no further occurrence after it. */
  lemma LastIndexOfAt(s: string, c: char, k: nat)
    requires k < |s| && s[k] == c && c !in s[k + 1..]
    ensures LastIndexOf(s, c) == Some(k)
  {
    var r := LastIndexOf(s, c);
    assert r.Some? by {
      assert s[k] in s;
    }
  }

  /** `d` is the position of the last dot of `base`. */
  predicate IsLastDot(base: string, d: nat) {
    d < |base| && base[d] == '.' && '.' !in base[d + 1..]
  }

  /**
   * The diagram path keeps the directory prefix, ends in ".svg", and its base
   * name is the model's base name up to its last dot, or the whole base name.
   */
  lemma SvgPathShape(p: string)
    ensures var r := MakeSvgPath(Some(p)).value; var b := BaseOffset(p);
      && r[..b] == p[..b]
      && |r| >= 4 && r[|r| - 4..] == ".svg"
      && ('.' !in p[b..] ==> r == p + ".svg")
      && ('.' in p[b..] ==> exists d :: IsLastDot(p[b..], d) && r == p[..b + d] + ".svg")
  {
    var b := BaseOffset(p);
    var r := MakeSvgPath(Some(p)).value;
    match LastIndexOf(p[b..], '.')
    case None =>
    case Some(d) =>
      assert IsLastDot(p[b..], d);
  }

  /** A ".svg" path maps to itself: applying the rule twice is applying it once. */
  lemma {:induction false} SvgPathIdempotent(p: string)
    ensures MakeSvgPath(MakeSvgPath(Some(p))) == MakeSvgPath(Some(p))
  {
    var b := BaseOffset(p);
    var r := MakeSvgPath(Some(p)).value;
    var stem := if LastIndexOf(p[b..], '.').None? then p else p[..b + LastIndexOf(p[b..], '.').value];
    assert r == stem + ".svg";
    assert |stem| >= b && stem[..b] == p[..b] && '/' !in stem[b..] by {
      if LastIndexOf(p[b..], '.').Some? {
        var d := LastIndexOf(p[b..], '.').value;
        assert stem[b..] == p[b..][..d];
      }
    }
    StemBase(p, stem, b);
    SvgOfStem(stem, b);
  }

  /** A stem plus ".svg" whose base name starts at `b` is left as it is. */
  lemma SvgOfStem(stem: string, b: nat)
    requires b <= |stem| && BaseOffset(stem + ".svg") == b
    ensures MakeSvgPath(Some(stem + ".svg")) == Some(stem + ".svg")
  {
    var r := stem + ".svg";
    var k := |stem| - b;
    assert r[b..] == stem[b..] + ".svg";
    assert r[b..][k] == '.' && r[b..][k + 1..] == "svg";
    LastIndexOfAt(r[b..], '.', k);
    assert r[..b + k] == stem;
  }

  /** The directory part of a stem plus ".svg" is unchanged. */
  lemma StemBase(p: string, stem: string, b: nat)
    requires b == BaseOffset(p) && |stem| >= b && stem[..b] == p[..b] && '/' !in stem[b..]
    ensures BaseOffset(stem + ".svg") == b
  {
    var r := stem + ".svg";
    assert '/' !in r[b..] by {
      assert r[b..] == stem[b..] + ".svg";
    }
    if b == 0 {
      assert r[0..] == r;
      assert LastIndexOf(r, '/').None?;
    } else {
      assert r[b - 1] == p[b - 1] == '/' by {
        assert r[b - 1] == stem[..b][b - 1];
        assert p[b - 1] == p[..b][b - 1];
      }
      LastIndexOfAt(r, '/', b - 1);
    }
  }

  // ---------------------------------------------------------------------------
  // The network

  /**
   * The layer sizes handed to `fann_create_standard`: a second hidden layer
   * only when its size is positive.
   */
  function Topology(numInput: nat, hidden: nat, hidden2: int, numOutput: nat): (sizes: seq<nat>)
    ensures |sizes| == 4 <==> hidden2 > 0
    ensures |sizes| == 3 <==> hidden2 <= 0
    ensures sizes[0] == numInput && sizes[1] == hidden && sizes[|sizes| - 1] == numOutput
    ensures |sizes| == 4 ==> sizes[2] == hidden2
  {
    if hidden2 > 0 then [numInput, hidden, hidden2, numOutput] else [numInput, hidden, numOutput]
  }

  // ---------------------------------------------------------------------------
  // The epoch loop

  /** Printed when it is the first epoch, a multiple of 50, the last, or the early stop. */
  predicate Reported(epoch: nat, maxEpochs: nat, mse: real, desired: real) {
    epoch == 1 || epoch % 50 == 0 || epoch == maxEpochs || mse <= desired
  }

  /**
   * The reference stopping point: the first epoch from `from` on whose error
   * reaches the target, or `maxEpochs` when none does.
   */
  function StopEpoch(mse: nat -> real, desired: real, maxEpochs: nat, from: nat): (e: nat)
    requires 1 <= from
    ensures from <= maxEpochs ==> from <= e <= maxEpochs
    ensures from > maxEpochs ==> e == from - 1
    decreases maxEpochs + 1 - from
  {
    if from > maxEpochs then from - 1
    else if mse(from) <= desired then from
    else StopEpoch(mse, desired, maxEpochs, from + 1)
  }

  /** The reference stopping point is the first epoch that reaches the target, if any. */
  lemma {:induction false} StopEpochFirst(mse: nat -> real, desired: real, maxEpochs: nat, from: nat)
    requires 1 <= from
    ensures var e := StopEpoch(mse, desired, maxEpochs, from);
      && (forall k :: from <= k < e ==> mse(k) > desired)
      && (e < maxEpochs ==> from <= e && mse(e) <= desired)
      && (e >= from ==> e == maxEpochs || mse(e) <= desired)
    decreases maxEpochs + 1 - from
  {
    if from <= maxEpochs && mse(from) > desired {
      StopEpochFirst(mse, desired, maxEpochs, from + 1);
    }
  }

  /** The epochs among 1..n that print a progress line. */
  function ReportedUpTo(mse: nat -> real, desired: real, maxEpochs: nat, n: nat): (s: seq<nat>)
    ensures forall i :: 0 <= i < |s| ==> 1 <= s[i] <= n
  {
    if n == 0 then []
    else ReportedUpTo(mse, desired, maxEpochs, n - 1) + (if Reported(n, maxEpochs, mse(n), desired) then [n] else [])
  }

  /**
   * The loop: epochs run from 1 while at most `maxEpochs`; each is logged,
   * those the rule selects are reported, and the first epoch whose error is at
   * most the target stops the loop.
   */
  method TrainEpochs(mse: nat -> real, desired: real, maxEpochs: nat) returns (epochs: nat, logged: seq<nat>, reported: seq<nat>, earlyStop: bool)
    ensures epochs == StopEpoch(mse, desired, maxEpochs, 1)
    ensures epochs <= maxEpochs
    ensures forall k :: 1 <= k < epochs ==> mse(k) > desired
    ensures earlyStop <==> epochs >= 1 && mse(epochs) <= desired
    ensures !earlyStop ==> epochs == maxEpochs
    ensures |logged| == epochs && forall i :: 0 <= i < epochs ==> logged[i] == i + 1
    ensures reported == ReportedUpTo(mse, desired, maxEpochs, epochs)
  {
    epochs, logged, reported, earlyStop := 0, [], [], false;
    var epoch := 1;
    while epoch <= maxEpochs
      invariant 1 <= epoch <= maxEpochs + 1 && epochs == epoch - 1
      invariant StopEpoch(mse, desired, maxEpochs, epoch) == StopEpoch(mse, desired, maxEpochs, 1)
      invariant forall k :: 1 <= k < epoch ==> mse(k) > desired
      invariant !earlyStop
      invariant |logged| == epochs && forall i :: 0 <= i < epochs ==> logged[i] == i + 1
      invariant reported == ReportedUpTo(mse, desired, maxEpochs, epochs)
      decreases maxEpochs + 1 - epoch
    {
      var e := mse(epoch);
      logged := logged + [epoch];
      if Reported(epoch, maxEpochs, e, desired) {
        reported := reported + [epoch];
      }
      epochs := epoch;
      if e <= desired {
        earlyStop := true;
        return;
      }
      epoch := epoch + 1;
    }
  }

  /** The progress lines: the first epoch, every 50th, the last run, and nothing else. */
  lemma {:induction false} ReportedSpec(mse: nat -> real, desired: real, maxEpochs: nat, n: nat, e: nat)
    requires n == StopEpoch(mse, desired, maxEpochs, 1) && 1 <= e <= n
    ensures e in ReportedUpTo(mse, desired, maxEpochs, n) <==> e == 1 || e % 50 == 0 || e == n
  {
    StopEpochFirst(mse, desired, maxEpochs, 1);
    ReportedMember(mse, desired, maxEpochs, n, e);
  }

  lemma {:induction false} ReportedMember(mse: nat -> real, desired: real, maxEpochs: nat, n: nat, e: nat)
    requires 1 <= e <= n
    ensures e in ReportedUpTo(mse, desired, maxEpochs, n) <==> Reported(e, maxEpochs, mse(e), desired)
    decreases n
  {
    if e < n {
      ReportedMember(mse, desired, maxEpochs, n - 1, e);
    }
  }
}

=== FILE: wrappers.dfy ===
/** Failure-carrying results shared by every module of the model. */
module Wrappers {

  /** A value that may be absent: a C NULL or a "not found" return. */
  datatype Option<+T> = None | Some(value: T)

  /** The result of an operation that can fail; `Err` carries a short reason. */
  datatype Result<+T> = Ok(value: T) | Err(reason: string)
}
